=== FILE: README.md ===
# ui-react dashboard host, modelled in Dafny

This project models the core of `ui-react`, a React dashboard host. The host shows configurable
dashboards of third-party widgets. A dashboard holds:

- widgets placed on a 24-column grid;
- named states, one of them the root;
- entity aliases and filters;
- a time window, which is either real-time or history.

A widget type is a bundle of template HTML, CSS, a controller script, resources and a settings
schema. At run time the host does the following for each widget type:

- loads the widget type's resources;
- compiles its controller from source text;
- injects libraries into its context;
- scopes its CSS under a per-instance namespace class;
- interpolates `{{ key }}` placeholders in its template against the controller;
- polls a data-subscription service for the widget's data.

The model has one Dafny module per source file. Most operations are pure functions on immutable
datatypes:

- State updates return the new state.
- JavaScript objects become ordered dictionaries (`Dict`), so their key order is kept.
- Everything the program hands to the browser or to the network is a parameter. This covers:
  - the script environment that decides whether a `<link>` or `<script>` loads;
  - the dynamic importer;
  - the function constructor that runs a controller script;
  - the widget API's response;
  - the subscription backend.
- Effects on the browser are returned as values. These are opening a window, routing, changing
  the location, logging and the style elements in the document head.
- Asynchronous steps are explicit. A fetch that completes later, and each tick of a poll, are
  separate events.

Every operation is paired with a lemma about all of its inputs, or carries a contract relating its result to its inputs. Examples:

- an inverse (export then import; reset then submit of the time-window form);
- an invariant kept over any sequence of events (the subscription registry; the subscription hook);
- a reference definition (the namespaced CSS against its regular-expression reading; the chunk
  classifier against a first-match rule list).

## Model

| member | source | states |
|---|---|---|
| DashboardStates.GetStates | src/services/dashboard/dashboard-states.service.ts:9-17 | no configuration or no states object gives []; otherwise one entry per stored key, in key order, with `id` overwritten by the key |
| DashboardStates.GetState | src/services/dashboard/dashboard-states.service.ts:22-30 | found exactly when the states object has the key; the result is the stored state with `id` set to the requested key |
| DashboardStates.GetStateListed | src/services/dashboard/dashboard-states.service.ts:9-30 | `getState` finds a state exactly when `getStates` lists one with that id, and then returns that listed state |
| DashboardStates.FirstRoot | src/services/dashboard/dashboard-states.service.ts:37 | the index of the first state with the root flag: no earlier state is a root; the index is the length when there is none |
| DashboardStates.GetRootState | src/services/dashboard/dashboard-states.service.ts:35-38 | null exactly when no listed state is a root; otherwise the first listed root state |
| DashboardStates.SetState | src/services/dashboard/dashboard-states.service.ts:43-56 | creates the states object when missing; the key maps to the given state with its id forced to the key; every other key and every other configuration field is unchanged |
| DashboardStates.RemoveState | src/services/dashboard/dashboard-states.service.ts:61-66 | no states object: unchanged; otherwise the key is gone and every other key is unchanged; removing an absent key changes nothing |
| DashboardStates.ClearRoots | src/services/dashboard/dashboard-states.service.ts:76-80 | same keys; every stored state has its root flag false and is otherwise unchanged |
| DashboardStates.SetRootState | src/services/dashboard/dashboard-states.service.ts:71-86 | no states object: unchanged; otherwise same keys, every state keeps its fields, and the root flag is true exactly for the target key |
| DashboardStates.SetRootStateUnique | src/services/dashboard/dashboard-states.service.ts:71-86 | after setting the root, a key is a root exactly when it is the target and the target existed, so there is at most one root and none for an unknown target |
| DashboardStates.HasState | src/services/dashboard/dashboard-states.service.ts:91-93 | true exactly when the states object exists and has the key |
| DashboardStates.HasStateIffGetState | src/services/dashboard/dashboard-states.service.ts:22-30 | `hasState` agrees with `getState` finding a state (with lines 91-93) |
| DashboardStates.GetStateName | src/services/dashboard/dashboard-states.service.ts:98-101 | the found state's name when it is non-empty, otherwise the id, also when nothing is found |
| EntityAliases.GetAliases | src/services/dashboard/entity-aliases.service.ts:9-17 | no configuration or no aliases object gives []; otherwise one entry per stored key, in key order, with `id` overwritten by the key |
| EntityAliases.GetAlias | src/services/dashboard/entity-aliases.service.ts:22-30 | found exactly when the aliases object has the key; the result is the stored alias with `id` set to the requested key |
| EntityAliases.GetAliasListed | src/services/dashboard/entity-aliases.service.ts:9-30 | `getAlias` finds an alias exactly when `getAliases` lists one with that id, and then returns that listed alias |
| EntityAliases.SetAlias | src/services/dashboard/entity-aliases.service.ts:35-48 | creates the aliases object when missing; the key maps to the alias with its id forced to the key; other keys and other configuration fields are unchanged |
| EntityAliases.RemoveAlias | src/services/dashboard/entity-aliases.service.ts:53-58 | no aliases object: unchanged; otherwise the key is gone and the other keys are unchanged; removing an absent key changes nothing |
| EntityAliases.HasAlias | src/services/dashboard/entity-aliases.service.ts:63-65 | true exactly when the aliases object exists and has the key |
| EntityAliases.HasAliasIffGetAlias | src/services/dashboard/entity-aliases.service.ts:22-65 | `hasAlias` agrees with `getAlias` finding an alias |
| EntityAliases.GetAliasName | src/services/dashboard/entity-aliases.service.ts:70-73 | the found alias's non-empty name, otherwise the id |
| EntityAliases.FirstNamed | src/services/dashboard/entity-aliases.service.ts:80 | the index of the first alias whose name is exactly the given one; no earlier alias has that name |
| EntityAliases.FindAliasByName | src/services/dashboard/entity-aliases.service.ts:78-81 | null exactly when no listed alias has the name (exact comparison); otherwise the first listed alias with it |
| EntityAliases.ValidateAlias | src/services/dashboard/entity-aliases.service.ts:86-105 | valid iff no errors; "Alias name is required" iff the trimmed name is empty; "Filter is required" iff there is no filter; "Filter type is required" iff there is a filter without a type; at most two errors, name first |
| EntityAliases.ValidateAliasValid | src/services/dashboard/entity-aliases.service.ts:86-105 | an alias is valid exactly when its trimmed name is non-empty and it has a filter with a type |
| StatesDialog.StateIdFor | src/components/dashboard/DashboardStatesDialog.tsx:88 | the edited state's id when truthy, otherwise "state_" followed by the clock value in decimal |
| StatesDialog.FormState | src/components/dashboard/DashboardStatesDialog.tsx:89-93 | the saved state carries the trimmed name, the root switch, and the edited state's layouts (none for a new state) |
| StatesDialog.OnSubmit | src/components/dashboard/DashboardStatesDialog.tsx:83-104 | nothing is dispatched without a configuration or with a blank name; otherwise the configuration differs only in its states, the id maps to the form's state, and without the root switch every other state is unchanged |
| StatesDialog.OnSubmitRootUnique | src/components/dashboard/DashboardStatesDialog.tsx:95-100 | with the root switch on, the saved state is the only root and every other state keeps everything but its root flag, which is cleared |
| StatesDialog.HandleDelete | src/components/dashboard/DashboardStatesDialog.tsx:106-116 | refused without a configuration or for the id of the root state it is given; otherwise the state is removed from the edited configuration |
| StatesDialog.HandleDeleteKeepsRoot | src/components/dashboard/DashboardStatesDialog.tsx:106-116 | whatever id is deleted, the state under the given root's id survives unchanged; as the dialog is wired, that root is the loaded dashboard's, not the edited configuration's (see DialogRootDeletable) |
| StatesDialog.DeleteFromStore | src/components/dashboard/DashboardStatesDialog.tsx:50-116 | the delete handler as wired: the configuration is the store's edited one, the protected root is `getRootState` of the loaded `currentDashboard` (useDashboardStates.ts:8-16); refused exactly without a configuration or for that root's id |
| StatesDialog.SubmitRootOnly | src/components/dashboard/DashboardStatesDialog.tsx:95-100 | with the root switch on, the saved state is the one and only root of the dispatched states |
| StatesDialog.DialogRootDeletable | src/components/dashboard/DashboardStatesDialog.tsx:83-116 | storing a configuration does not refresh the loaded dashboard (dashboard.slice.ts:47-49), so a root chosen in the dialog is not protected: it can be deleted right after saving, leaving the edited configuration with no root state |
| AliasesDialog.AliasIdFor | src/components/dashboard/EntityAliasesDialog.tsx:97 | the edited alias's id when truthy, otherwise "alias_" followed by the clock value in decimal |
| AliasesDialog.FormAlias | src/components/dashboard/EntityAliasesDialog.tsx:98-106 | the saved alias has the trimmed name and a filter holding only the type and the resolve-multiple flag |
| AliasesDialog.OnSubmit | src/components/dashboard/EntityAliasesDialog.tsx:92-121 | nothing is dispatched without a configuration, with a blank name or with an empty filter type (the validation step); otherwise only the aliases object changes, the id maps to the form's alias, and every other alias is unchanged |
| AliasesDialog.OnSubmitDropsFilterFields | src/components/dashboard/EntityAliasesDialog.tsx:98-101 | saving an edited alias keeps no filter field other than the type and the resolve-multiple flag |
| AliasesDialog.HandleDelete | src/components/dashboard/EntityAliasesDialog.tsx:123-130 | without a configuration nothing happens; otherwise the alias is removed, with no guard |
| FiltersDialog.FilterIdFor | src/components/dashboard/FiltersDialog.tsx:75 | the edited filter's id when truthy, otherwise "filter_" followed by the clock value in decimal |
| FiltersDialog.OnSubmit | src/components/dashboard/FiltersDialog.tsx:70-92 | nothing is dispatched without a configuration or with a blank type; otherwise only the filters change, the id maps to exactly `{type: trimmed type}`, and every other filter is unchanged |
| FiltersDialog.HandleDelete | src/components/dashboard/FiltersDialog.tsx:94-108 | without a configuration nothing happens; otherwise only the filters change, the id is gone and every other filter is unchanged (missing filters become an empty object) |
| FiltersDialog.SubmitThenDelete | src/components/dashboard/FiltersDialog.tsx:70-108 | deleting a filter just saved under a fresh id leaves every other filter as it was before the save |
| Timewindows.DefaultTimewindow | src/services/dashboard/timewindow.service.ts:26-32 | a real-time window of one minute, with no history and no aggregation |
| Timewindows.CreateRealtimeTimewindow | src/services/dashboard/timewindow.service.ts:37-43 | only the real-time part is set, holding the given length |
| Timewindows.CreateHistoryTimewindow | src/services/dashboard/timewindow.service.ts:48-62 | only the history part is set, holding the four arguments; aggregation defaults to "NONE" and the limit to 100 |
| Timewindows.GetDuration | src/services/dashboard/timewindow.service.ts:81-89 | the real-time length when there is one, else the history length, else 0 |
| Timewindows.IsRealtime | src/services/dashboard/timewindow.service.ts:67-69 | a window is real-time exactly when it has a real-time part; specified by ConstructorsReadBack and used by GetDuration and FormatTimewindow |
| Timewindows.IsHistory | src/services/dashboard/timewindow.service.ts:74-76 | a window is historical exactly when it has a history part; specified by ConstructorsReadBack and used by GetDuration and FormatTimewindow |
| Timewindows.GetInterval | src/services/dashboard/timewindow.service.ts:94-99 | the history interval when there is one, else 0 |
| Timewindows.ConstructorsReadBack | src/services/dashboard/timewindow.service.ts:37-99 | the classifiers and accessors read back what each constructor built; the history defaults are "NONE" and 100; an undefined window is neither kind and reads 0 |
| Timewindows.AmountText | src/services/dashboard/timewindow.service.ts:112-148 | the text of `ms / divisor` followed by its unit, produced exactly when the quotient is whole |
| Timewindows.FormatDuration | src/services/dashboard/timewindow.service.ts:135-149 | the unit by range: ms below 1 s, s below 1 min, m below 1 h, h below 1 day, d from one day up, each with its divisor |
| Timewindows.FormatRealtime | src/services/dashboard/timewindow.service.ts:109-121 | the same ranges without a day unit: hours from one hour up |
| Timewindows.RealtimeAgreesBelowADay | src/services/dashboard/timewindow.service.ts:109-149 | below one day the real-time rendering is `formatDuration`; from one day up it stays in hours where `formatDuration` uses days |
| Timewindows.FormatDurationScale | src/services/dashboard/timewindow.service.ts:135-149 | for a non-negative duration the chosen unit never exceeds it, and below days the amount is under 60 (under 1000 for ms) |
| Timewindows.FormatTimewindow | src/services/dashboard/timewindow.service.ts:104-130 | "No timewindow" when undefined; real-time before history; a history window shows its duration and interval; "Unknown" when neither is set |
| Timewindows.DisplayText | src/services/dashboard/timewindow.service.ts:104-130 | a message reads as itself; a history window reads "<duration> (<interval> interval)" |
| Timewindows.DefaultTimewindowText | src/services/dashboard/timewindow.service.ts:26-32 | the default window reads "1m" (with lines 104-121) |
| TimewindowDialog.ResetFrom | src/components/dashboard/TimewindowDialog.tsx:96-118 | no time window, or one with neither branch: the form is left as it was; a real-time window resets to real-time mode with its length or 60000; a history window resets to history mode |
| TimewindowDialog.FormTimewindow | src/components/dashboard/TimewindowDialog.tsx:125-136 | only the active mode's branch is built, each falsy field replaced by its default (60000; 86400000, 3600000, "NONE", 100) |
| TimewindowDialog.OnSubmit | src/components/dashboard/TimewindowDialog.tsx:120-145 | nothing is dispatched without a configuration; otherwise only the configuration's time window is replaced |
| TimewindowDialog.ResetSubmitRoundTrip | src/components/dashboard/TimewindowDialog.tsx:96-145 | a form filled from a time window with truthy fields and submitted unchanged stores that window's active branch again |
| TimewindowDialog.CheckField | src/components/dashboard/TimewindowDialog.tsx:39-59 | one numeric rule: no error exactly when the field's mode is inactive or the value is present and at least 1; at most one error |
| TimewindowDialog.Validate | src/components/dashboard/TimewindowDialog.tsx:37-60 | errors name only the active mode's fields (realtimeMs in real-time mode; historyMs, intervalMs and limit otherwise) and carry only the schema's messages; ValidateIff states exactly when there are none |
| TimewindowDialog.ValidateIff | src/components/dashboard/TimewindowDialog.tsx:37-60 | a form passes validation exactly when the active mode's numeric fields are all at least 1; the other mode's fields never matter |
| TimewindowDialog.ValidFormKeepsNumbers | src/components/dashboard/TimewindowDialog.tsx:37-60 | a valid form's numbers are stored as entered: no default is substituted for them (with lines 125-136) |
| TimewindowDialog.FormatDurationAgrees | src/components/dashboard/TimewindowDialog.tsx:147-153 | the dialog's own formatter uses the service formatter's thresholds and units |
| TimewindowDialog.FormatDuration | src/components/dashboard/TimewindowDialog.tsx:147-153 | the amount rendered is the duration itself; the unit and divisor are the service formatter's, by FormatDurationAgrees |
| ExportImport.ExportDashboard | src/services/dashboard/dashboard-export-import.service.ts:9-16 | the exported object holds exactly the dashboard's title as `name` and its configuration |
| ExportImport.Reparse | src/services/dashboard/dashboard-export-import.service.ts:15-39 | parsing the serialised export gives back the name, no title, and the configuration exactly when there was one, as JSON leaves it |
| ExportImport.JsonConfiguration | src/services/dashboard/dashboard-export-import.service.ts:109 | JSON keeps the time window and the states as they are, keeps the widgets, aliases and filters present exactly when they were, and adds no loosely typed member |
| ExportImport.JsonConfigurationKeeps | src/services/dashboard/dashboard-export-import.service.ts:109 | a configuration with no `undefined` or function inside its loosely typed values comes back from JSON exactly |
| ExportImport.JsonConfigurationSafe | src/services/dashboard/dashboard-export-import.service.ts:109 | what comes back from JSON has nothing more to lose, so a second trip changes nothing |
| ExportImport.JsonConfigurationOther | src/services/dashboard/dashboard-export-import.service.ts:109 | a loosely typed member of the configuration is absent after JSON when it was `undefined` or a function, and otherwise passed through JSON |
| ExportImport.ExportImportLossless | src/services/dashboard/dashboard-export-import.service.ts:9-47 | importing the export of a configuration with nothing JSON would lose gives that configuration back exactly |
| ExportImport.CloneExactIffJsonSafe | src/services/dashboard/dashboard-export-import.service.ts:92-110 | a clone's configuration equals the original exactly when the original has nothing JSON would lose, and a function stored among its members is gone from the clone |
| JsValues.JsonFields | src/services/dashboard/dashboard-export-import.service.ts:109 | the members JSON keeps have keys of the original object |
| JsValues.JsonFieldsGet | src/services/dashboard/dashboard-export-import.service.ts:109 | in an object with distinct keys, a member after JSON is absent when it was `undefined` or a function, and otherwise its value passed through JSON |
| JsValues.JsonResultIsJson | src/services/dashboard/dashboard-export-import.service.ts:109 | whatever JSON writes reads back with no `undefined` and no function inside |
| JsValues.JsonKeepsJson | src/services/dashboard/dashboard-export-import.service.ts:109 | a value with no `undefined` and no function inside comes back from JSON unchanged |
| JsValues.JsonLossless | src/services/dashboard/dashboard-export-import.service.ts:109 | a value JSON writes survives the trip exactly when it has no `undefined` and no function inside |
| ExportImport.ImportDashboard | src/services/dashboard/dashboard-export-import.service.ts:37-47 | a parse failure becomes "Invalid JSON format"; otherwise the title is the name when truthy, else the title field, and the configuration is the parsed one or `{}` |
| ExportImport.OrTitle | src/services/dashboard/dashboard-export-import.service.ts:41 | the name when it is a non-empty string, else the title field |
| ExportImport.ConfigurationOrEmpty | src/services/dashboard/dashboard-export-import.service.ts:42 | the parsed configuration when present, else the empty one |
| ExportImport.ExportImportRoundTrip | src/services/dashboard/dashboard-export-import.service.ts:9-47 | importing an export succeeds, keeps a non-empty title, gives an undefined title for an empty one, and gives the configuration as JSON leaves it (`{}` when it was undefined) |
| ExportImport.ImportDashboardFromFile | src/services/dashboard/dashboard-export-import.service.ts:52-67 | a failed read rejects with "Failed to read file"; otherwise the result is importing the text read |
| ExportImport.ExportFileName | src/services/dashboard/dashboard-export-import.service.ts:27 | the given filename when truthy, otherwise "<title or 'dashboard'>_<now>.json" |
| ExportImport.ValidateDashboard | src/services/dashboard/dashboard-export-import.service.ts:72-87 | valid iff no errors; the title error iff the title is missing or empty; the configuration error iff it is missing; title error first |
| ExportImport.ImportFailsOnlyOnTitle | src/services/dashboard/dashboard-export-import.service.ts:37-47 | an imported dashboard always has a configuration, so its validation can fail only on the title (with lines 72-87) |
| ExportImport.CloneDashboard | src/services/dashboard/dashboard-export-import.service.ts:92-110 | the new title when truthy, else "<title> (Copy)"; the configuration as JSON leaves it, `{}` when undefined |
| ExportImport.CloneIsValid | src/services/dashboard/dashboard-export-import.service.ts:72-110 | a clone always passes validation |
| AuthSlice.GetItem | src/store/slices/auth.slice.ts:9 | present exactly when storage has the key, and then its stored text |
| AuthSlice.Initial | src/store/slices/auth.slice.ts:7-22 | the token read from storage; authenticated iff a non-empty token is stored; not loading; a user exactly when a non-empty saved user parses, and then that user |
| AuthSlice.SetAuthUser | src/store/slices/auth.slice.ts:28-32 | the user is set and the state authenticated; storage gains the serialised user under "authUser"; nothing else changes |
| AuthSlice.SetAuthToken | src/store/slices/auth.slice.ts:33-37 | the token is set and the state authenticated; storage gains the token under "authToken"; nothing else changes |
| AuthSlice.ClearAuth | src/store/slices/auth.slice.ts:38-45 | user and token cleared and not authenticated; exactly the three keys "authToken", "refreshToken" and "authUser" are removed from storage |
| AuthSlice.SetLoading | src/store/slices/auth.slice.ts:46-48 | the loading flag takes the given value; user, token, authentication and storage are unchanged |
| AuthSlice.LoadingNotPersisted | src/store/slices/auth.slice.ts:7-48 | the loading flag is not stored: after setting it, the next start reads the same state as before, and is not loading |
| AuthSlice.SetUserRestored | src/store/slices/auth.slice.ts:7-32 | a user stored by `setAuthUser` is restored on the next start when reading back what was written gives the user again |
| AuthSlice.SetTokenRestored | src/store/slices/auth.slice.ts:7-37 | a token stored by `setAuthToken` is read back on the next start, authenticated iff it is not empty |
| AuthSlice.ClearAuthRestored | src/store/slices/auth.slice.ts:7-45 | after `clearAuth` the next start has no user, no token, and is neither authenticated nor loading |
| DashboardSlice.Merge | src/store/slices/dashboard.slice.ts:60 | `{...widget, ...updates}`: each field is the update's when present, else the widget's |
| DashboardSlice.KeyedById | src/store/slices/dashboard.slice.ts:41 | one map entry per widget, in collection order, keyed by `id` or the empty string |
| DashboardTypes.WidgetsOf | src/store/slices/dashboard.slice.ts:38-40 | the widgets of an array in order, or the values of a widget map in insertion order |
| DashboardSlice.SetDashboard | src/store/slices/dashboard.slice.ts:33-46 | the dashboard is current; its configuration or `{}` is stored; the widget map is rebuilt from the configuration's widgets when there are some and kept otherwise; layouts are emptied; the flags and selection are untouched |
| DashboardSlice.AddWidget | src/store/slices/dashboard.slice.ts:50-55 | a widget with a truthy id is stored under it; one without an id changes nothing; only the widget map changes |
| DashboardSlice.UpdateWidget | src/store/slices/dashboard.slice.ts:56-62 | an unknown id changes nothing; otherwise the stored widget is replaced by its merge with the updates |
| DashboardSlice.RemoveWidget | src/store/slices/dashboard.slice.ts:63-68 | the widget is deleted and the selection is cleared iff it was that widget; nothing else changes |
| DashboardSlice.Reduce | src/store/slices/dashboard.slice.ts:29-82 | each setter action changes only its own field |
| DashboardSlice.ReduceKeepsWidgetsKeyed | src/store/slices/dashboard.slice.ts:33-68 | every action except an update that rewrites a widget's id keeps the widget map keyed by each widget's own id, with distinct keys |
| DashboardSlice.WidgetMapNotSynced | src/store/slices/dashboard.slice.ts:47-68 | storing a configuration leaves the widget map alone, and widget actions leave the configuration alone |
| FormSchema.BuildFormSchema | src/utils/form-schema-builder.ts:9-132 | the schema of a property list is an object schema whose shape has distinct keys |
| FormSchema.SchemaEntries | src/utils/form-schema-builder.ts:12-129 | one shape entry per property, keyed by the property ids in list order |
| FormSchema.FieldSchema | src/utils/form-schema-builder.ts:42-128 | a regular field's schema is never an object schema |
| FormSchema.RequiredConstraint | src/utils/form-schema-builder.ts:13-128 | a property's schema is required exactly when the property is required, is not an HTML section, and is not a fieldset with children |
| FormSchema.BoundsCopied | src/utils/form-schema-builder.ts:31-36 | a number field carries exactly the property's min, max and required flag; an array or multiple select carries exactly its item-count bounds (with lines 61-73, 83-92) |
| FormSchema.GetDefaultValues | src/utils/form-schema-builder.ts:137-166 | the defaults object has distinct keys |
| FormSchema.DefaultEntries | src/utils/form-schema-builder.ts:140-163 | one entry per property, in list order, holding that property's default |
| FormSchema.DefaultValueCases | src/utils/form-schema-builder.ts:141-162 | a fieldset with children gets its children's defaults; an array gets []; otherwise the declared default; otherwise 0 for numbers, false for switches, [] for a multiple select, and "" for the rest |
| FormSchema.DefaultsKeys | src/utils/form-schema-builder.ts:137-166 | the defaults hold a key exactly for each property id |
| FormSchema.DefaultsByLastId | src/utils/form-schema-builder.ts:140-163 | under each id the defaults hold the default of the last property with that id |
| FormSchema.SchemaMatchesDefaults | src/utils/form-schema-builder.ts:9-166 | the schema shape and the defaults have the same keys in the same order |
| FormSchema.ColorTextPasses | src/utils/form-schema-builder.ts:108-113 | a colour field checks the pattern `#` plus six hex digits: every "#rrggbb" rendering passes it, and any longer string fails it |
| DynamicForm.FormDefaults | src/components/widget/DynamicForm.tsx:25 | the form's initial values have distinct keys |
| DynamicForm.FormDefaultsOverride | src/components/widget/DynamicForm.tsx:25 | each key holds the model's value when the model has it, otherwise the property default |
| DynamicForm.GroupOf | src/components/widget/DynamicForm.tsx:52 | a property's group when truthy, otherwise "default" |
| DynamicForm.GroupBy | src/components/widget/DynamicForm.tsx:51-58 | grouping gives a dictionary with distinct keys |
| DynamicForm.GroupProperties | src/components/widget/DynamicForm.tsx:51-58 | the properties grouped under `group` or "default", as a dictionary with distinct keys (what each group holds is stated by GroupPropertiesExact) |
| DynamicForm.GroupByExact | src/components/widget/DynamicForm.tsx:51-58 | a group exists exactly when some element has its key, and holds exactly those elements in input order |
| DynamicForm.GroupPropertiesExact | src/components/widget/DynamicForm.tsx:51-58 | every property lands in exactly the group named by its group or "default", with input order kept within the group |
| DynamicForm.GroupViews | src/components/widget/DynamicForm.tsx:117-129 | one view per group in key order, holding its properties; a heading exactly for the non-default groups, and it is the group's name |
| DynamicForm.RenderAll | src/components/widget/DynamicForm.tsx:127 | one rendering per property |
| DynamicForm.RenderChoice | src/components/widget/DynamicForm.tsx:60-111 | hidden exactly when a truthy condition evaluates falsy; a condition that throws never hides; a fieldset renders each child in place; an array renders only a placeholder |
| DynamicForm.RenderProperty | src/components/widget/DynamicForm.tsx:60-111 | hidden exactly when the condition hides it; a fieldset view exactly for a visible property with nested children, with one child view per child; a plain field view holds the property itself |
| DynamicForm.RenderAllAt | src/components/widget/DynamicForm.tsx:82-127 | the i-th rendering is the rendering of the i-th property |
| GridLayout.ItemsOf | src/hooks/useDashboardLayout.ts:17-27 | at most one item per widget, each built from a widget that has an id |
| GridLayout.TruthyIds | src/components/dashboard/DashboardGrid.tsx:94-100 | the ids of the widgets that have one, each non-empty |
| GridLayout.ItemKeysAreIds | src/components/dashboard/DashboardGrid.tsx:34-47 | with a builder that keys each item by its widget's id, the item keys are exactly the truthy widget ids, in order |
| GridLayout.ItemsOfCovers | src/components/dashboard/DashboardGrid.tsx:34-47 | every widget with an id has its item in the layout |
| DashboardLayout.Layout | src/hooks/useDashboardLayout.ts:16-28 | the item keys are exactly the truthy widget ids in map order; each item has a non-zero size, a 2x2 minimum and no edit flags |
| DashboardLayout.HookItem | src/hooks/useDashboardLayout.ts:19-27 | one widget's grid item with the `||` defaults; specified by Layout, LayoutCovers and LayoutRoundTrip |
| DashboardLayout.LayoutCovers | src/hooks/useDashboardLayout.ts:16-28 | every widget with an id shows up at its own position; a zero size shows as the default 8x6 |
| DashboardLayout.MergePosition | src/hooks/useDashboardLayout.ts:42-65 | merging a position update into a widget is placing it at the item, as the configuration rebuild does |
| DashboardLayout.LayoutUpdates | src/hooks/useDashboardLayout.ts:38-53 | at most one update per item; each is for a widget of the captured map and carries an item's position and size |
| DashboardLayout.FirstItem | src/hooks/useDashboardLayout.ts:57 | the index of the first item whose key is the widget's id, or the length when there is none |
| DashboardLayout.UpdatedWidgets | src/hooks/useDashboardLayout.ts:56-68 | every widget keeps all fields but col, row, sizeX and sizeY; those come from the first item with its id; a widget without such an item is unchanged |
| DashboardLayout.Relayout | src/hooks/useDashboardLayout.ts:57-67 | one widget placed at the first item with its id, else unchanged; specified by UpdatedWidgets and StoreAfterUpdates |
| DashboardLayout.IndexById | src/hooks/useDashboardLayout.ts:72-77 | building the object keyed by id keeps keys distinct |
| DashboardLayout.IndexByIdAbsent | src/hooks/useDashboardLayout.ts:72-77 | a key no widget carries keeps what the accumulator had |
| DashboardLayout.IndexByIdUnique | src/hooks/useDashboardLayout.ts:72-77 | a key exactly one widget carries maps to that widget |
| DashboardLayout.HandleLayoutChange | src/hooks/useDashboardLayout.ts:31-83 | nothing is dispatched without a current dashboard and a configuration; otherwise the widget updates come first, then one configuration whose widgets are the updated widgets keyed by id, all other fields kept |
| DashboardLayout.DispatchSnoc | src/hooks/useDashboardLayout.ts:41-80 | dispatching a list and then one more action is dispatching the extended list |
| DashboardLayout.StoreAfterUpdates | src/hooks/useDashboardLayout.ts:38-53 | after the layout updates, with distinct item keys, the store's widget under a key is placed at that key's item when both exist, and unchanged otherwise |
| DashboardLayout.FirstItemAbsent | src/hooks/useDashboardLayout.ts:57 | with distinct keys, the key of the first item occurs nowhere after it |
| DashboardLayout.UpdatesHead | src/hooks/useDashboardLayout.ts:38-53 | dispatching the first item's update, if any, leaves the remaining items' updates to dispatch, with the same widget keys |
| DashboardLayout.UpdateStep | src/hooks/useDashboardLayout.ts:39-52 | one position update moves only the widget under its own key |
| DashboardLayout.KeyedIdIs | src/hooks/useDashboardLayout.ts:72-77 | in a map keyed by id, an entry's widget carries a non-empty id exactly under its own key |
| DashboardLayout.ConfigAfterChange | src/hooks/useDashboardLayout.ts:56-78 | the rebuilt configuration's widget under a non-empty key is the store's widget relaid, or absent when the store has none |
| DashboardLayout.LayoutChangeAgrees | src/hooks/useDashboardLayout.ts:31-83 | after a layout change with distinct item keys, the store's widget map and the stored configuration's widgets agree on every non-empty id |
| DashboardLayout.OwnItemFirst | src/hooks/useDashboardLayout.ts:16-57 | in the hook's own layout, the first item carrying a widget's id is that widget's item |
| DashboardLayout.LayoutRoundTrip | src/hooks/useDashboardLayout.ts:16-68 | feeding the hook's own layout back changes no widget, provided no widget has a zero size |
| DashboardLayout.ResizeChangesOnlySize | src/hooks/useDashboardLayout.ts:86-99 | a resize changes only the size of that widget, and nothing for an unknown id |
| DashboardLayout.MoveChangesOnlyPosition | src/hooks/useDashboardLayout.ts:102-115 | a move changes only the position of that widget, and nothing for an unknown id |
| DashboardLayout.HandleWidgetResize | src/hooks/useDashboardLayout.ts:86-99 | the update the resize callback dispatches; specified by ResizeChangesOnlySize |
| DashboardLayout.HandleWidgetMove | src/hooks/useDashboardLayout.ts:102-115 | the update the move callback dispatches; specified by MoveChangesOnlyPosition |
| DashboardGrid.GridItemIsHookItem | src/components/dashboard/DashboardGrid.tsx:34-47 | the grid's item for a widget is the layout hook's item with both edit flags set to the edit mode |
| DashboardGrid.Render | src/components/dashboard/DashboardGrid.tsx:23-104 | children are the truthy ids and the layout has the same keys; the 24/50/(10,10) defaults; the width is the window's or 1200; drag and resize iff editing; fixed padding, compaction and collision flags |
| DashboardGrid.RenderCovers | src/components/dashboard/DashboardGrid.tsx:34-47 | every widget with an id gets its item, at its own position |
| DashboardGrid.OnResizeStop | src/components/dashboard/DashboardGrid.tsx:59-64 | forwarded exactly when a handler is given, with the new item's key and size |
| DashboardGrid.OnDragStop | src/components/dashboard/DashboardGrid.tsx:67-72 | forwarded exactly when a handler is given, with the new item's key and position |
| DashboardGrid.OnLayoutChange | src/components/dashboard/DashboardGrid.tsx:51-56 | forwarded exactly when a handler is given, with the layout unchanged |
| ResponsiveLayout.Footprint | src/hooks/useResponsiveLayout.ts:49-50 | a size is at least 1; a positive size is kept; zero takes the default; a negative size becomes 1 |
| ResponsiveLayout.BaseLayout | src/hooks/useResponsiveLayout.ts:42-55 | the item keys are exactly the truthy widget ids in order; every item is at least 1x1 with a 1x1 minimum, and both edit flags equal the edit mode |
| ResponsiveLayout.ResponsiveItemOf | src/hooks/useResponsiveLayout.ts:42-55 | every widget with an id keeps its position and any positive size; only a zero size takes the 8x6 default |
| ResponsiveLayout.UseResponsiveLayout | src/hooks/useResponsiveLayout.ts:18-76 | all five breakpoints share the one base layout; breakpoints and columns are the given ones or the defaults; editing defaults to false |
| ResponsiveLayout.DefaultsDecreaseTogether | src/hooks/useResponsiveLayout.ts:20-33 | the default widths and column counts name the same five breakpoints in the same order, and both strictly decrease from lg to xxs |
| Chunks.ManualChunk | vite.config.ts:10-91 | every dependency path gets one of the vendor chunks; any other module gets one of the application chunks or none |
| Chunks.FirstRule | vite.config.ts:12-90 | the index of the first matching rule: no earlier rule matches, and the rule at the index does |
| Chunks.VendorIsFirstMatch | vite.config.ts:12-69 | for a dependency path the chunk is the first matching vendor rule's, in the order the tests are tried, else "vendor" |
| Chunks.AppIsFirstMatch | vite.config.ts:71-90 | for an application module the chunk is the first matching application rule's, or none |
| Chunks.ManualChunkIsFirstMatch | vite.config.ts:10-91 | the chunk function agrees with the first-match reading of its two ordered rule lists on every module id |
| Chunks.ReactCoreExactly | vite.config.ts:12-34 | "react-core" is chosen exactly for a dependency path containing "react/" but not "react-dom" that matches none of the four earlier tests |
| Chunks.NoChunkExactly | vite.config.ts:71-91 | a module gets no chunk exactly when it is not a dependency and matches none of the application tests |
| CssNamespace.ToInt32 | src/services/widget/css-namespace.service.ts:18-19 | the 32-bit wrap of a number: a signed 32-bit value congruent to it modulo 2^32 |
| CssNamespace.ToInt32Congruent | src/services/widget/css-namespace.service.ts:18-19 | numbers congruent modulo 2^32 wrap to the same value, so wrapping after the shift and again after the addition equals one wrap |
| CssNamespace.Utf16 | src/services/widget/css-namespace.service.ts:16-17 | a character is one or two UTF-16 code units, each below 0x10000 |
| CssNamespace.CodeUnits | src/services/widget/css-namespace.service.ts:16-17 | the string's UTF-16 code units, each below 0x10000 |
| CssNamespace.HashUnits | src/services/widget/css-namespace.service.ts:15-20 | the fold of `31 * hash + unit` wrapped to 32 bits stays a signed 32-bit value |
| CssNamespace.HashLoop | src/services/widget/css-namespace.service.ts:14-20 | the loop performed operation by operation (wrapping shift, exact subtraction and addition, wrapping `hash & hash`) computes the 32-bit fold over the code units |
| CssNamespace.ToBase36 | src/services/widget/css-namespace.service.ts:21 | `toString(36)` gives at least one digit, each in 0-9 or a-z |
| CssNamespace.FromToBase36 | src/services/widget/css-namespace.service.ts:21 | reading the base-36 text back gives the number, so distinct magnitudes give distinct texts |
| CssNamespace.HashCode | src/services/widget/css-namespace.service.ts:14-22 | base-36 digits only, reading back to the absolute value of the 32-bit hash, which is at most 2^31 |
| CssNamespace.NamespaceAbsentId | src/services/widget/css-namespace.service.ts:6-9 | an absent widget id hashes exactly like the empty id |
| CssNamespace.NamespaceShape | src/services/widget/css-namespace.service.ts:6-9 | a namespace starts with "widget-", contains no '.', and ends with the hash of "<fqn>-<id>" |
| CssNamespace.CreateWidgetNamespace | src/services/widget/css-namespace.service.ts:6-9 | the widget's namespace; specified by NamespaceShape and NamespaceAbsentId |
| CssNamespace.RootKeyword | src/services/widget/css-namespace.service.ts:61 | a recognised root keyword is one of ":root", "html", "body", and the selector starts with it |
| CssNamespace.RewriteSelectorForms | src/services/widget/css-namespace.service.ts:54-66 | a rewritten selector carries the namespace class whenever it is not a root keyword or the namespace has no '$'; a root keyword under a '$'-free namespace is followed by the class, the rest kept |
| CssNamespace.Reference | src/services/widget/css-namespace.service.ts:62 | one `$` reference of a `replace` template uses at least one and at most all of the remaining template characters |
| CssNamespace.Substitute | src/services/widget/css-namespace.service.ts:62 | the expansion of a `replace` template; specified by SubstituteLiteral, SecondGroup, AmpersandExpands and RootTemplateLiteral |
| CssNamespace.RewriteSelector | src/services/widget/css-namespace.service.ts:54-66 | one selector rewritten into the namespace; specified by RewriteSelectorForms, RootLiteral, DollarNamespaceExpands, RewriteSelectorKeeps and RewriteSelectorIdempotent |
| CssNamespace.SubstituteLiteral | src/services/widget/css-namespace.service.ts:62 | template text without '$' is copied into the replacement as it is |
| CssNamespace.SecondGroup | src/services/widget/css-namespace.service.ts:62 | the template's trailing `$2` expands to the second group, the white space or nothing after the keyword |
| CssNamespace.RootTemplateLiteral | src/services/widget/css-namespace.service.ts:62 | for a namespace without '$' the template `$1 .<ns>$2` expands to the keyword, " .", the namespace and the white space after the keyword |
| CssNamespace.RootLiteral | src/services/widget/css-namespace.service.ts:57-63 | a root selector under a namespace without '$' becomes the keyword, a space, the class, and the rest of the selector |
| CssNamespace.DollarNamespaceExpands | src/services/widget/css-namespace.service.ts:8-62 | a namespace of the form p + "$&" + q (p and q free of '$'), which an fqn containing "$&" produces, turns "body" into "body ." + p + "body" + q, which does not contain the namespace class at all |
| CssNamespace.AmpersandExpands | src/services/widget/css-namespace.service.ts:62 | `$&` inside the template becomes the matched text, and the text around it is copied |
| CssNamespace.BodyRoot | src/services/widget/css-namespace.service.ts:57-63 | the selector "body" alone is a root selector, whatever the namespace, with nothing after the keyword |
| CssNamespace.RewriteSelectorKeeps | src/services/widget/css-namespace.service.ts:57-59 | a trimmed selector already starting with the namespace class is kept as it is |
| CssNamespace.RewriteSelectorIdempotent | src/services/widget/css-namespace.service.ts:54-66 | rewriting a non-blank, non-root selector twice is rewriting it once |
| CssNamespace.RewriteSelectorRootRepeats | src/services/widget/css-namespace.service.ts:57-63 | a root selector is not idempotent: for a namespace without '$' and not ending in white space, "body" becomes "body .ns", and rewriting that again inserts the class a second time, "body .ns .ns" |
| CssNamespace.RootRewrite | src/services/widget/css-namespace.service.ts:61-63 | "body" followed by nothing, or by a space and text not ending in white space, gets the class of a namespace without '$' inserted right after the keyword, the rest kept |
| CssNamespace.RewriteSelectors | src/services/widget/css-namespace.service.ts:52-66 | each comma-separated piece is rewritten in place |
| CssNamespace.RewriteRule | src/services/widget/css-namespace.service.ts:38-70 | the replacement for one matched rule; specified by RewriteRuleShape, AtRuleIsNamespaced and AtRuleRendered |
| CssNamespace.RewriteRuleShape | src/services/widget/css-namespace.service.ts:38-70 | a rule with a non-blank, non-@ prelude becomes its comma-separated selectors, each rewritten, and carrying the namespace class unless it is a root keyword under a namespace holding '$', joined by ", ", then " {" + the block verbatim + "}" |
| CssNamespace.RunEnd | src/services/widget/css-namespace.service.ts:37 | the selector group of the rule pattern is a maximal run without '{', '}' or '@' |
| CssNamespace.RunEndClean | src/services/widget/css-namespace.service.ts:37 | that run contains no brace and no '@' |
| CssNamespace.NextBrace | src/services/widget/css-namespace.service.ts:37 | the next brace at or after a position, or the end |
| CssNamespace.BlockEnd | src/services/widget/css-namespace.service.ts:37 | a block body ends at a '}' inside the text |
| CssNamespace.Step | src/services/widget/css-namespace.service.ts:37-38 | each scanning step of the global replace consumes at least one character |
| CssNamespace.NamespaceCss | src/services/widget/css-namespace.service.ts:27-73 | an empty stylesheet or empty namespace leaves the CSS unchanged |
| CssNamespace.StepSource | src/services/widget/css-namespace.service.ts:37-38 | the piece a step takes is exactly the text it consumed, and a matched rule has a non-empty prelude free of braces and '@' |
| CssNamespace.ScanPartitions | src/services/widget/css-namespace.service.ts:37-38 | the matched rules and the unmatched characters between them, concatenated, give back the whole stylesheet |
| CssNamespace.ScanPreludes | src/services/widget/css-namespace.service.ts:37-38 | every matched rule's selector text is non-empty and free of braces and '@' |
| CssNamespace.ScanNoRule | src/services/widget/css-namespace.service.ts:37-38 | text without '{' produces no match |
| CssNamespace.RenderCopies | src/services/widget/css-namespace.service.ts:38 | text outside matched rules is copied unchanged |
| CssNamespace.NamespaceCssNoRule | src/services/widget/css-namespace.service.ts:27-73 | CSS without any '{' is returned unchanged |
| CssNamespace.BlockEndOneLevel | src/services/widget/css-namespace.service.ts:37 | a block with one nested `{...}` group ends at the closing brace after it |
| CssNamespace.AtRuleIsNamespaced | src/services/widget/css-namespace.service.ts:37-49 | in `@p{x{y}z}` the '@' is never part of a match, so the rule pattern matches `p{x{y}z}` after it, and the `@` skip at lines 42-44 is never taken |
| CssNamespace.AtRuleRendered | src/services/widget/css-namespace.service.ts:27-73 | an at-rule with one nested block is namespaced as "@" followed by the rewritten rule `p{...}`, so "@media x" becomes "@" + ".ns media x" |
| CssNamespace.WithId | src/services/widget/css-namespace.service.ts:95 | the elements carrying an id, in order |
| CssNamespace.RemoveFirst | src/services/widget/css-namespace.service.ts:94-99 | the first element with the id is removed, when there is one; no other element changes |
| CssNamespace.RemoveNamespacedCss | src/services/widget/css-namespace.service.ts:94-99 | with unique ids, no style element of the namespace is left; elements with other ids are untouched; nothing changes when there is none |
| CssNamespace.InjectNamespacedCss | src/services/widget/css-namespace.service.ts:78-89 | with unique ids, exactly one style element of the namespace remains, holding the namespaced CSS, appended last; elements with other ids are untouched |
| CssNamespace.UniqueWithId | src/services/widget/css-namespace.service.ts:95 | with unique ids, at most one element carries a given id |
| CssNamespace.WithIdAppend | src/services/widget/css-namespace.service.ts:87 | appending an element adds it to the elements with its id and to no others |
| CssNamespace.InjectRemoveKeepUnique | src/services/widget/css-namespace.service.ts:78-99 | injecting and removing keep element ids unique |
| Template.PlaceholderEnd | src/components/widget/Widget.tsx:60 | a placeholder at the start of the text is "{{", a non-empty brace-free inner text, and "}}" |
| Template.NextBraceClean | src/components/widget/Widget.tsx:60 | the text before the next brace is brace-free |
| Template.Lookup | src/components/widget/Widget.tsx:61-63 | a missing, `undefined` or `null` property gives ""; a string property gives itself |
| Template.InterpolateTemplate | src/components/widget/Widget.tsx:58-65 | an empty template, or no controller, gives the template unchanged |
| Template.Interp | src/components/widget/Widget.tsx:60-64 | the replace loop over placeholders; specified by InterpNoOpen, PlaceholderFirst, InterpCopy, TextThenPlaceholder and KeyIsLiteral |
| Template.InterpNoOpen | src/components/widget/Widget.tsx:60-64 | text in which "{{" does not occur is copied unchanged |
| Template.NoPlaceholderUnchanged | src/components/widget/Widget.tsx:58-65 | a template without "{{" comes back unchanged, with or without a controller |
| Template.PlaceholderFirst | src/components/widget/Widget.tsx:60-64 | a placeholder at the start is replaced by the value of its trimmed inner text, and the rest of the template is interpolated on its own |
| Template.InterpCopy | src/components/widget/Widget.tsx:60 | a first character other than '{' is copied |
| Template.TextThenPlaceholder | src/components/widget/Widget.tsx:60-64 | '{'-free text is copied and the placeholder after it replaced; with the previous lemma this fixes the output of any template built from such text and placeholders |
| Template.KeyIsLiteral | src/components/widget/Widget.tsx:61-62 | keys are literal property names: a template that is one placeholder reads the property named by its whole brace-free inner text, so "{{a.b}}" reads the property "a.b", not a path |
| WidgetView.WidgetNamespace | src/components/widget/Widget.tsx:107-108 | the widget's namespace class is never empty and is built from its type and its id |
| WidgetView.SubscriptionEnabled | src/components/widget/Widget.tsx:32-35 | the subscription runs exactly when the widget is not in edit mode |
| WidgetView.EditModeNeverSubscribes | src/components/widget/Widget.tsx:32-35 | in edit mode no subscription is created, whatever the widget's datasources |
| WidgetView.CssMount | src/components/widget/Widget.tsx:48-51 | the stylesheet is injected only when there is CSS and a namespace, and then the namespace is kept for the cleanup |
| WidgetView.CssUnmount | src/components/widget/Widget.tsx:52-54 | the cleanup removes the stylesheet of the registered namespace, and does nothing when none was injected |
| WidgetView.CssMountUnmount | src/components/widget/Widget.tsx:48-56 | while mounted the instance has exactly one style element, holding its namespaced CSS; after unmounting it has none; no other element is touched |
| WidgetView.NoCssNoChange | src/components/widget/Widget.tsx:48-56 | without CSS, mounting and unmounting leave the document head as it was |
| WidgetView.ParsedTemplate | src/components/widget/Widget.tsx:68-74 | there is output exactly when there is a template and a controller, and it is the interpolated template |
| WidgetView.RenderContent | src/components/widget/Widget.tsx:76-104 | the spinner exactly while loading; otherwise "Failed to load widget: " and the message exactly when there is an error; otherwise the parsed template in the namespaced box |
| WidgetView.NoOutputWithoutController | src/components/widget/Widget.tsx:68-104 | template output appears only with a controller, and only when nothing is loading or wrong |
| WidgetView.TypeFailureShowsSpinner | src/components/widget/Widget.tsx:76-82 | a widget whose type cannot be fetched shows the spinner, and never its error |
| ResourceLoader.LoadCss | src/services/widget/resource-loader.service.ts:10-27 | a cached URL answers from the cache and attaches nothing; otherwise one `<link>` is attached and the outcome is cached, loaded exactly when the browser loads it, else "Failed to load CSS: " and the URL |
| ResourceLoader.LoadJs | src/services/widget/resource-loader.service.ts:32-49 | the same for scripts: one `<script>` per uncached URL, failing with "Failed to load JS: " and the URL |
| ResourceLoader.LoadModule | src/services/widget/resource-loader.service.ts:54-66 | a cached module is returned from the cache; otherwise the import's module, which is then cached; a failed import caches nothing and fails with "Failed to load module: <url> - <error>" |
| ResourceLoader.FailureNotRetried | src/services/widget/resource-loader.service.ts:10-35 | a stylesheet that failed stays failed: asking again, as CSS or as a script, attaches nothing and gives the same failure |
| ResourceLoader.ModuleFailureRetried | src/services/widget/resource-loader.service.ts:59-65 | a failed module import is not cached, so the next request imports again |
| ResourceLoader.ModuleSuccessCached | src/services/widget/resource-loader.service.ts:55-61 | a module that loaded once is answered from the cache, whatever `import()` would now do |
| ResourceLoader.KindOf | src/services/widget/resource-loader.service.ts:73-82 | a resource is a module exactly when its flag is set; otherwise a URL ending in ".css" is a stylesheet and anything else a script |
| ResourceLoader.LoadResource | src/services/widget/resource-loader.service.ts:72-83 | each resource goes to the loader its kind names; a module succeeds exactly when its import does |
| ResourceLoader.ClearCache | src/services/widget/resource-loader.service.ts:91-94 | both caches are emptied; the attached elements stay in the document |
| ResourceLoader.ClearCacheRetries | src/services/widget/resource-loader.service.ts:10-27 | after clearing, a URL is attached afresh and its outcome asked again (with lines 91-94) |
| ResourceLoader.EmptyConsistent | src/services/widget/resource-loader.service.ts:4-5 | the empty caches agree with any browser and importer |
| ResourceLoader.LoadResourceConsistent | src/services/widget/resource-loader.service.ts:71-86 | one load keeps the caches in agreement with the browser and `import()`, and reports whether the resource loads |
| ResourceLoader.LoadResourcesAllOrNothing | src/services/widget/resource-loader.service.ts:71-86 | from consistent caches, loading a list succeeds exactly when every resource in it loads, and the caches stay consistent |
| ResourceLoader.LoadResources | src/services/widget/resource-loader.service.ts:71-86 | every resource is loaded, and the first failure is the outcome; specified by LoadResourcesAllOrNothing, LoadResourcesGrows, CachedLoadIsStable and LoadResourcesTwice |
| ResourceLoader.LoadResourcesGrows | src/services/widget/resource-loader.service.ts:71-86 | loading only adds to the caches, and afterwards every resource of the list has its answer cached |
| ResourceLoader.CachedLoadIsStable | src/services/widget/resource-loader.service.ts:11-13 | with every answer cached, loading the list changes nothing (with lines 33-35, 55-57) |
| ResourceLoader.LoadResourcesTwice | src/services/widget/resource-loader.service.ts:71-86 | loading the same list twice attaches each element once: the second pass leaves caches and document as they were, with the same verdict |
| WidgetCompiler.FunctionName | src/services/widget/widget-compiler.service.ts:37 | the wrapper's name is "_" followed by the fqn, one character each, with every '.' and '-' turned into '_' |
| WidgetCompiler.FunctionNameShape | src/services/widget/widget-compiler.service.ts:37 | the name holds no '.' or '-', and every other character of the fqn is kept in place |
| WidgetCompiler.FunctionNameCollides | src/services/widget/widget-compiler.service.ts:37 | two fqns of one length that differ only among '.', '-' and '_' get the same function name |
| WidgetCompiler.WrappedScript | src/services/widget/widget-compiler.service.ts:38-46 | the source text handed to `new Function`; what running it yields is specified by CompileController and CompileSeparatorBlind |
| WidgetCompiler.Fallback | src/services/widget/widget-compiler.service.ts:57-69 | the fallback controller has exactly the seven hooks, each a no-op |
| WidgetCompiler.FallbackHasNoAccessors | src/services/widget/widget-compiler.service.ts:60-68 | the fallback defines none of the metadata accessors |
| WidgetCompiler.CompileController | src/services/widget/widget-compiler.service.ts:23-70 | the wrapped script runs on a `self` whose `ctx` already holds the placeholder context (empty settings, data, latest data, actions API, utilities and datasources); when it returns, that `self` is the controller, and when it throws, the controller is the no-op fallback, so compilation never fails |
| WidgetCompiler.CompileSeparatorBlind | src/services/widget/widget-compiler.service.ts:37-47 | compilation cannot tell apart fqns that differ only among '.', '-' and '_' |
| WidgetCompiler.CreateControllerInstance | src/services/widget/widget-compiler.service.ts:75-86 | the instance is what the constructor builds; a throwing constructor fails with "Failed to create widget controller instance: " and its error |
| WidgetCompiler.DefaultOr | src/services/widget/widget-compiler.service.ts:96-119 | a module's truthy `default` export is used, and anything that is not an object is used as it is |
| WidgetCompiler.InjectLibrary | src/services/widget/widget-compiler.service.ts:94-99 | one library: its key is set when the import succeeds, and every other key is unchanged |
| WidgetCompiler.InjectDependencies | src/services/widget/widget-compiler.service.ts:91-123 | each of tinycolor, moment, `$`, `jQuery` and cssjs is set from its library exactly when that import succeeds; all other keys are as they were |
| WidgetCompiler.JqueryIndependent | src/services/widget/widget-compiler.service.ts:108-114 | `$` and `jQuery` depend only on the jquery import, whatever the other libraries do |
| WidgetCompiler.NoLibrariesNoChange | src/services/widget/widget-compiler.service.ts:94-122 | with no library available the context is left exactly as it was |
| WidgetLoader.StrOr | src/services/widget/widget-loader.service.ts:58-64 | a missing or empty string falls back to the default; any other string is kept |
| WidgetLoader.SizeOr | src/services/widget/widget-loader.service.ts:65-66 | a missing or zero size falls back to the default; any other size is kept |
| WidgetLoader.ScriptSource | src/services/widget/widget-loader.service.ts:60-62 | a script given as a string is used as it is, one given as an object supplies its body, else the script is empty |
| WidgetLoader.CreateWidgetInfo | src/services/widget/widget-loader.service.ts:47-68 | fails exactly when the type has no descriptor, with "Widget type <fqn> has no descriptor"; otherwise copies the type's fqn and name and the descriptor's fields, each with its default (empty text, no resources, "{}", 8 by 6) |
| WidgetLoader.NormaliseIdempotent | src/services/widget/widget-loader.service.ts:47-68 | an info written back as a descriptor normalises to the same info |
| WidgetLoader.LoadWidgetResources | src/services/widget/widget-loader.service.ts:31-35 | no resources means nothing is loaded; otherwise the list is loaded as a batch |
| WidgetLoader.ResourceGuardInvisible | src/services/widget/widget-loader.service.ts:31-35 | the empty-list guard changes nothing: an empty batch would load nothing and succeed too |
| WidgetLoader.LoadWidget | src/services/widget/widget-loader.service.ts:73-96 | the steps run in order (fetch, info, resources, compile) and stop at the first failure with its error; the result is the info and its compiled controller exactly when every step completed, and the loader is untouched until resources are loaded |
| WidgetLoader.LoadWidgetCompletes | src/services/widget/widget-loader.service.ts:73-96 | from consistent caches, a fetched type with a descriptor whose resources all load yields a widget |
| WidgetApi.LoadMockWidgets | src/services/api/widget.api.ts:7-16 | an array payload is the list itself, a single value becomes a one-element list, and an unreadable file gives no widgets |
| WidgetApi.FindByFqn | src/services/api/widget.api.ts:32 | the index of the first mock with the requested fqn, every earlier one having another fqn, or the length when none has it |
| WidgetApi.GetWidgetType | src/services/api/widget.api.ts:19-38 | a server answer with a descriptor is returned; otherwise the first mock with that fqn, exists exactly when some mock has it, else "Widget type <fqn> not found" |
| WidgetApi.ResolvedHasDescriptorOrName | src/services/api/widget.api.ts:23-34 | a resolved type either carries a descriptor or has the requested fqn |
| WidgetApi.FallbackIgnoresFailure | src/services/api/widget.api.ts:20-37 | a thrown error and an empty answer lead to the same fallback, whatever the error said |
| WidgetTypeCache.FetchWidgetType | src/hooks/useWidgetTypes.ts:13-21 | a cached name is answered from the cache without a call; otherwise one resolution, whose success is stored under the requested name and whose failure stores nothing |
| WidgetTypeCache.UseWidgetType | src/hooks/useWidgetTypes.ts:10-25 | the query runs exactly when the name is not empty |
| WidgetTypeCache.FetchThenHit | src/hooks/useWidgetTypes.ts:15-19 | after a successful fetch the next query for the name makes no call and answers the same type |
| WidgetTypeCache.FailureNotCached | src/hooks/useWidgetTypes.ts:18-19 | after a failed fetch the next query asks the server again |
| WidgetTypeCache.StoredUnderRequestedName | src/hooks/useWidgetTypes.ts:19 | a type resolved under another name is stored under the requested name only |
| WidgetTypeCache.OnMutationSuccess | src/hooks/useWidgetTypes.ts:40-77 | a saved or imported type is stored under its own fqn, every other entry is kept, and a failed mutation changes nothing |
| WidgetTypeCache.SaveThenQuery | src/hooks/useWidgetTypes.ts:13-45 | the next query for a saved type's name answers it without asking the server |
| WidgetTypeCache.ClearWidgetTypeCache | src/hooks/useWidgetTypes.ts:82-84 | no name is left in the cache |
| WidgetTypeCache.GetCachedWidgetType | src/hooks/useWidgetTypes.ts:87-89 | a name is found exactly when it is cached, with its cached type |
| WidgetTypeCache.ClearThenMiss | src/hooks/useWidgetTypes.ts:82-84 | after clearing, every name is fetched again and none is reported as cached (with lines 15-18) |
| WidgetTypeCache.FetchAgreesWithLookup | src/hooks/useWidgetTypes.ts:13-21 | after a successful query the cache lookup reports the type the query answered (with lines 87-89) |
| WidgetSubscription.SubIdInjective | src/services/widget/widget-subscription.service.ts:23-30 | distinct counter values give distinct ids |
| WidgetSubscription.FetchKind | src/services/widget/widget-subscription.service.ts:114 | the fetch kind is the subscription's type when it is set and not empty, else "timeseries" |
| WidgetSubscription.FetchAll | src/services/widget/widget-subscription.service.ts:111-146 | for a known kind, one entry per datasource, in order, each the one its own read gives; an unknown kind contributes nothing |
| WidgetSubscription.FetchOne | src/services/widget/widget-subscription.service.ts:112-144 | an entry exactly for a known kind, always for its own datasource; a successful latest read's values become its latest values and it carries no rows; a successful timeseries or alarm read's rows become its data, and a failed read leaves the datasource with empty data and no latest values |
| WidgetSubscription.FetchWidgetData | src/services/widget/widget-subscription.service.ts:104-149 | no datasources or an unknown kind gives []; for a known kind, exactly one entry per datasource, in order, each the entry its own reads give (FetchOne) |
| WidgetSubscription.FetchIsPerDatasource | src/services/widget/widget-subscription.service.ts:111-146 | a failing datasource does not disturb the others: a datasource's entry depends only on its own reads |
| WidgetSubscription.StubsGiveEmptyData | src/services/widget/widget-subscription.service.ts:154-182 | with the reads as implemented, every entry has empty data |
| WidgetSubscription.Start | src/services/widget/widget-subscription.service.ts:62-83 | a started subscription has its error cleared and is loading exactly when it has datasources to fetch; nothing else changes |
| WidgetSubscription.CreateSubscription | src/services/widget/widget-subscription.service.ts:29-44 | the id is "subscription-" and the next counter value; the new record holds the options, no data, and is loading while a fetch is pending; every other record is unchanged (with lines 225-227) |
| WidgetSubscription.RemoveSubscription | src/services/widget/widget-subscription.service.ts:49-57 | a known id loses its record and socket entry, leaving every other record; an unknown id changes nothing (with lines 94-99, 228-230) |
| WidgetSubscription.CompleteFetch | src/services/widget/widget-subscription.service.ts:74-83 | a finished fetch writes its data and ends loading, in the record it started from; a record removed meanwhile stays absent |
| WidgetSubscription.UpdateTimewindow | src/services/widget/widget-subscription.service.ts:197-204 | a known subscription takes the new time window and restarts under the same id, keeping its data; an unknown id changes nothing |
| WidgetSubscription.GetSubscriptionData | src/services/widget/widget-subscription.service.ts:209-211 | the record's data, or nothing for an unknown id |
| WidgetSubscription.GetSubscriptionLatestData | src/services/widget/widget-subscription.service.ts:216-218 | the record's latest data, or nothing for an unknown id |
| WidgetSubscription.CreateSubscriptionFromInfo | src/services/widget/widget-subscription.service.ts:231-237 | the subscription's options take the info's datasources, time window and type, and leave the dashboard-time-window flag unset |
| WidgetSubscription.FromInfoIsCreate | src/services/widget/widget-subscription.service.ts:231-237 | creating from an info is creating from the options it carries |
| WidgetSubscription.RemovedStaysRemoved | src/services/widget/widget-subscription.service.ts:54 | a fetch that finishes after its subscription was removed leaves the id unknown (with lines 63-76, 209-211) |
| WidgetSubscription.FreshId | src/services/widget/widget-subscription.service.ts:23-30 | the next id is not in use |
| WidgetSubscription.ApplyInv | src/services/widget/widget-subscription.service.ts:29-218 | every operation keeps each record under its own issued id, with no latest data, no error and no socket, and never lowers the counter |
| WidgetSubscription.RunInv | src/services/widget/widget-subscription.service.ts:29-218 | the same for any sequence of operations |
| WidgetSubscription.LatestDataNeverWritten | src/services/widget/widget-subscription.service.ts:14 | from a fresh service, whatever happens, the latest data of every id is undefined (with lines 216-218) |
| WidgetSubscription.IdsNeverReused | src/services/widget/widget-subscription.service.ts:23-57 | an id handed out once is never handed out again, even after it was removed |
| SubscriptionHook.OptionsFor | src/hooks/useWidgetSubscription.ts:27-32 | the options carry the widget's type, datasources, time window and dashboard-time-window flag |
| SubscriptionHook.Mount | src/hooks/useWidgetSubscription.ts:22-36 | a disabled hook or a widget without datasources creates nothing; otherwise one subscription is created, its id stored and polled, and the data kept until the first tick |
| SubscriptionHook.Tick | src/hooks/useWidgetSubscription.ts:38-47 | each snapshot the service has replaces the hook's copy, and a missing one leaves the previous value |
| SubscriptionHook.Cleanup | src/hooks/useWidgetSubscription.ts:49-52 | the poll stops and that same subscription is removed; the stored id is kept |
| SubscriptionHook.SetTimewindow | src/hooks/useWidgetSubscription.ts:56-63 | forwarded to the service only once an id is stored |
| SubscriptionHook.MountCleanupRestores | src/hooks/useWidgetSubscription.ts:22-52 | mounting then cleaning up leaves the service with exactly the subscriptions it had |
| SubscriptionHook.CleanupOnce | src/hooks/useWidgetSubscription.ts:49-52 | a second cleanup does nothing, so a subscription is removed at most once |
| SubscriptionHook.StaleIdAfterCleanup | src/hooks/useWidgetSubscription.ts:35-63 | after cleanup the stored id no longer names a subscription, and a time-window change through it changes nothing |
| SubscriptionHook.StepKeeps | src/hooks/useWidgetSubscription.ts:17-63 | every event, including the service's own operations, keeps the service invariant and the hook's latest data at [] |
| SubscriptionHook.Step | src/hooks/useWidgetSubscription.ts:22-61 | one event the hook sees: mount, poll tick, cleanup, time window change or an outside service operation; specified by StepKeeps and LatestDataStaysEmpty |
| SubscriptionHook.LatestDataStaysEmpty | src/hooks/useWidgetSubscription.ts:18-46 | whatever events happen, the hook's latest data stays [] |
| SubscriptionHook.FromStart | src/hooks/useWidgetSubscription.ts:17-46 | from a fresh hook and service, the latest data is [] after any events |
| WidgetActions.AddHandlers | src/services/widget/widget-actions.service.ts:18-22 | every listed source id gets its own handler and every other property is kept |
| WidgetActions.CreateActionsApi | src/services/widget/widget-actions.service.ts:9-25 | every source id has its handler, the descriptor map sits unchanged under its own name unless a source id is spelled the same, and nothing else is defined |
| WidgetActions.OpenLink | src/services/widget/widget-actions.service.ts:70-79 | nothing without a URL; otherwise the URL unchanged, in a new tab exactly when asked, else replacing the location (with lines 116-120) |
| WidgetActions.NavigateTo | src/services/widget/widget-actions.service.ts:84-91 | a state id wins and goes in the query string after the dashboard id (printed "undefined" when missing); else a dashboard id alone; else nothing |
| WidgetActions.HandleAction | src/services/widget/widget-actions.service.ts:30-57 | no descriptors only warns "No action descriptors found for <id>"; otherwise the first descriptor is dispatched by type, rpc and state updates only log, and any other type does nothing (with lines 96-111) |
| WidgetActions.OnlyFirstDispatched | src/services/widget/widget-actions.service.ts:45 | only the first descriptor matters |
| WidgetActions.EffectsNeedTargets | src/services/widget/widget-actions.service.ts:48-91 | routing happens exactly for a navigate action with a dashboard or state id, and the location changes exactly for an open-link action with a URL |
| WidgetActions.GetActionDescriptors | src/services/widget/widget-actions.service.ts:62-65 | no source has descriptors |
| WidgetActions.Invoke | src/services/widget/widget-actions.service.ts:19-21 | an action can be invoked exactly through a property holding that source's handler |
| WidgetActions.EveryInvocationOnlyWarns | src/services/widget/widget-actions.service.ts:19-21 | every source of a created API can be invoked, and every invocation only warns (with lines 37-41, 62-65) |
| WidgetInstance.Load | src/hooks/useWidgetInstance.ts:23-71 | nothing runs without the widget type; otherwise the steps run in order as a prefix of the pipeline, loading ends in every case, and a load stopped before the context hand-over keeps the previous controller and context |
| WidgetInstance.LoadFromInfo | src/hooks/useWidgetInstance.ts:36-68 | after the widget info, a resource failure stops the load with an error and the previous controller; otherwise the load is the initialisation of the compiled controller with the injected context |
| WidgetInstance.Initialise | src/hooks/useWidgetInstance.ts:45-68 | the controller is the compiled one with the context stored under "ctx"; `onInit` is in the steps exactly when the controller has it; the error is clear exactly when it was not called or returned, and the render version grows by one exactly when it returned |
| WidgetInstance.LoadErrorIff | src/hooks/useWidgetInstance.ts:29-68 | a load that ran has no error exactly when it got past the context hand-over and any `onInit` call returned |
| WidgetInstance.LoadInjects | src/hooks/useWidgetInstance.ts:45-60 | past the hand-over the context is the injected one, the controller holds it under "ctx", and `onInit` ran exactly when the controller defines it |
| WidgetInstance.LoadRenderVersion | src/hooks/useWidgetInstance.ts:58-62 | the render version grows by one exactly when `onInit` was called and returned, and is unchanged otherwise |
| WidgetInstance.InitAfterContext | src/hooks/useWidgetInstance.ts:53-62 | `onInit` runs at most once per load, after the whole pipeline, on a controller that already holds the real context |
| WidgetInstance.NoDescriptorFails | src/hooks/useWidgetInstance.ts:34-68 | a type without a descriptor stops the load at its first step with "Widget type <fqn> has no descriptor", keeping the previous controller and the loader |
| WidgetInstance.OnContextChange | src/hooks/useWidgetInstance.ts:85-130 | with a controller and its guard met, each context change calls the matching hook when the controller has it, passing the edit or mobile flag where the source does; only data and latest-data calls bump the render version; nothing else changes |
| WidgetInstance.NoHooksBeforeController | src/hooks/useWidgetInstance.ts:87-125 | no hook fires before a controller exists, whatever the context says |
| WidgetInstance.Cleanup | src/hooks/useWidgetInstance.ts:74-82 | `onDestroy` is called exactly when the controller has it, and the state is left as it was |
| WidgetInstance.UnmountDuringLoad | src/hooks/useWidgetInstance.ts:28-82 | a cleanup that runs while the first load is still pending calls no `onDestroy`, and the load then still stores a controller and calls its `onInit` when defined, leaving a controller no cleanup destroys |
| WidgetInstance.TemplateOf | src/hooks/useWidgetInstance.ts:136-137 | without a type or a descriptor the template is "" |
| WidgetInstance.Report | src/hooks/useWidgetInstance.ts:132-139 | loading while either the load or the type query is; the load's own error before the query's, which is prefixed "Failed to load widget type: "; the controller and render version as kept |
| WidgetInstance.FailedTypeStaysLoading | src/hooks/useWidgetInstance.ts:16 | when the widget type cannot be fetched the load never runs, so the hook reports loading and the type error together, for good (with lines 24-26, 132-135) |
| WidgetInstance.LoadedReportsReady | src/hooks/useWidgetInstance.ts:63-68 | a load without error, once the query has settled, reports neither loading nor an error, and a controller (with lines 132-135) |

## Left out

- The browser is not modelled. Whether a `<link>` or `<script>` element loads is a parameter, and the document head is a list of style elements. `window.open`, `location`, routing and console output become returned effect values or are dropped.
- Dynamic code evaluation is a parameter. This covers `new Function` in the compiler, `import()` of modules and utility libraries, and the `eval` of conditions in the settings form. A controller is whatever object the evaluation returns; a script that returns a non-object is not modelled.
- The network is a parameter: the widget-type fetch of `loadWidgetType` (src/services/widget/widget-loader.service.ts:12-26), the widget API's response, and the mock file read. The error texts of a failed fetch come from that parameter. The other functions of the widget API (list, save, delete, export, import) are plain HTTP calls and are not modelled.
- JSON text is not modelled. Parsing the import is a parameter, and file reading, `Blob` and the download link are left out. What a trip through JSON does to values is modelled: `undefined` members and functions are dropped from objects and become `null` in arrays. Numbers that JSON cannot write (`NaN`, infinities) do not arise, since every number is an integer.
- WidgetInstance.Load: the asynchronous load is one step, its completion. A cleanup that runs while it is pending is expressed only by applying `Cleanup` to the state the load started from, as `UnmountDuringLoad` does; other interleavings with context changes are not modelled.
- CssNamespace.RootRewrite: states the rewrite only for namespaces without '$'. With a '$' the `replace` template expands references inside the namespace, which `DollarNamespaceExpands` exhibits.
- CssNamespace.RewriteSelectorRootRepeats: the same restriction to namespaces without '$', for the same reason.
- CssNamespace.RewriteSelectorForms: promises the namespace class for a root selector only under a namespace without '$'; `DollarNamespaceExpands` shows a namespace for which the class is lost.
- CssNamespace.RewriteRuleShape: the same exception as RewriteSelectorForms, selector by selector.
- `localStorage` is a map held in the auth state.
- Floating point is left out: every number is an integer, and `NaN` and `Math.round` do not appear.
- Timewindows.AmountText: renders `ms / divisor` only when the quotient is whole. A fractional amount such as 1500 ms is reported as not renderable instead of "1.5s", because decimal rendering of fractions is not modelled.
- Timewindows.DisplayText: the same restriction applies, since it renders through AmountText.
- Timers are discrete events. The one-second poll of the subscription hook is a tick event, and a fetch that finishes later is a separate `CompleteFetch` step, so the interleavings covered are exactly those of a sequence of such events. A promise that never settles is not modelled.
- The telemetry reads of the subscription service are stubs in the source; they are a `Backend` parameter, with `StubBackend` as the source's own behaviour.
- The WebSocket placeholder (src/services/widget/widget-subscription.service.ts:187-192) only logs. The socket set of the registry is therefore never filled, and the `subscribeWebSocket` call is left out.
- Object identity and mutation are not modelled. Objects passed in are copied, so the aliasing of a subscription's options object with the caller's is not represented.
- JavaScript orders integer-like object keys before the others. The model keeps plain insertion order for every key.
- Templates read only the controller's own properties; the prototype chain is not modelled.
- Plain JavaScript objects used as dictionaries are modelled as their own keys only. A key that names a member of `Object.prototype` ("constructor", "toString", "valueOf", "hasOwnProperty", "__proto__", …) is treated as an ordinary own key, absent until it is stored. The source's `obj[key]` finds the inherited member instead, and an assignment to "__proto__" replaces the prototype rather than storing an entry.
- DashboardStates.GetState: for a key naming an `Object.prototype` member that is not stored while the states object exists, the source's truthy lookup passes and it returns a state holding only that id; the model returns none.
- DashboardStates.HasState: for a key naming an `Object.prototype` member that is not stored while the states object exists, the source answers true; the model answers false.
- EntityAliases.GetAlias: for a key naming an `Object.prototype` member that is not stored while the aliases object exists, the source returns an alias holding only that id; the model returns none.
- EntityAliases.HasAlias: for a key naming an `Object.prototype` member that is not stored while the aliases object exists, the source answers true; the model answers false.
- DynamicForm.GroupProperties: a group named after an `Object.prototype` member ("toString", "constructor", …) finds an inherited function in the accumulator, so the source skips creating the group and its `push` throws a TypeError; the model groups such a property like any other.
- DynamicForm.GroupPropertiesExact: does not hold of the source for groups named after `Object.prototype` members, where grouping throws instead of producing groups.
- The context data-sync effect of the widget component (src/components/widget/Widget.tsx:38-45) and the HTML parser are left out. The rendered content is the interpolated template text.
- Hooks fired by context changes are assumed not to throw; only `onInit` and `onDestroy` failures are modelled.
- Validation messages of the settings-form schema are left out; only the constraints are modelled.
- ResourceLoader.LoadResources: the resources are loaded one after another, and the first failure in list order is reported. The source starts all loads together and reports whichever `Promise.all` rejects with, which is the first in list order for loads that fail at once. A module URL listed twice in one batch is imported twice by the source; the model answers the second from the cache, with the same outcome for an importer that always answers the same.
- The media-query flags of the responsive layout (mobile, tablet) are not modelled.

=== FILE: aliases_dialog.dfy ===
/** The submit and delete handlers of the entity-aliases dialog. A handler yields the
    configuration it dispatches, or `None` when it returns without dispatching. */
module AliasesDialog {
  import opened Wrappers
  import opened Text
  import opened Dict
  import opened DashboardTypes
  import opened EntityAliases

  datatype AliasForm = AliasForm(alias: string, filterType: string, resolveMultiple: Option<bool>)

  function AliasIdFor(editing: Option<EntityAlias>, now: nat): (id: string)
    ensures editing.Some? && editing.value.id != "" ==> id == editing.value.id
    ensures !(editing.Some? && editing.value.id != "") ==> id == "alias_" + NatToString(now)
  {
    if editing.Some? && editing.value.id != "" then editing.value.id else "alias_" + NatToString(now)
  }

  /** The alias the form saves: the trimmed name and a filter holding only the type and the
      resolve-multiple flag. It has no id of its own until it is stored. */
  function FormAlias(data: AliasForm): (a: EntityAlias)
    ensures a.alias == Trim(data.alias)
    ensures a.filter == Some(AliasFilter(Some(data.filterType), data.resolveMultiple, []))
  {
    EntityAlias("", Trim(data.alias), Some(AliasFilter(Some(data.filterType), data.resolveMultiple, [])))
  }

  function OnSubmit(config: Option<Configuration>, editing: Option<EntityAlias>, data: AliasForm, now: nat)
    : (r: Option<Configuration>)
    ensures config.None? || Trim(data.alias) == "" || data.filterType == "" ==> r.None?
    ensures config.Some? && Trim(data.alias) != "" && data.filterType != "" ==> r.Some?
    ensures r.Some? ==> r.value == config.value.(entityAliases := r.value.entityAliases)
    ensures r.Some? ==>
      var id := AliasIdFor(editing, now);
      r.value.entityAliases.Some? && Get(r.value.entityAliases.value, id) == Some(FormAlias(data).(id := id)) &&
      forall k :: k != id ==> Get(r.value.entityAliases.value, k) == Get(AliasesOrEmpty(config.value), k)
  {
    if config.None? || Trim(data.alias) == "" then None
    else
      var alias := FormAlias(data);
      if !ValidateAlias(alias).valid then None
      else Some(SetAlias(config.value, AliasIdFor(editing, now), alias))
  }

  /** Saving an edited alias keeps only the type and resolve-multiple flag of its filter. */
  lemma OnSubmitDropsFilterFields(config: Option<Configuration>, editing: Option<EntityAlias>, data: AliasForm,
                                  now: nat)
    requires OnSubmit(config, editing, data, now).Some?
    ensures var stored := Get(OnSubmit(config, editing, data, now).value.entityAliases.value, AliasIdFor(editing, now));
            stored.Some? && stored.value.filter.Some? && stored.value.filter.value.other == []
  {
  }

  /** Delete removes the alias with no guard. */
  function HandleDelete(config: Option<Configuration>, aliasId: string): (r: Option<Configuration>)
    ensures config.None? ==> r.None?
    ensures config.Some? ==> r.Some? && r.value == RemoveAlias(config.value, aliasId)
  {
    if config.None? then None else Some(RemoveAlias(config.value, aliasId))
  }
}

=== FILE: auth_slice.dfy ===
/** The authentication store slice together with the browser storage it writes. Storage is a
    map from key to text; serialising a user and reading it back are parameters. */
module AuthSlice {
  import opened Wrappers

  datatype AuthUser = AuthUser(id: string, tenantId: string, customerId: Option<string>, email: string,
                               firstName: string, lastName: string, authority: string)

  datatype AuthState = AuthState(user: Option<AuthUser>, token: Option<string>, isAuthenticated: bool,
                                 isLoading: bool)

  type Storage = map<string, string>

  /** `localStorage.getItem(key)`. */
  function GetItem(storage: Storage, key: string): (r: Option<string>)
    ensures r.Some? <==> key in storage
    ensures r.Some? ==> r.value == storage[key]
  {
    if key in storage then Some(storage[key]) else None
  }

  /** A stored value is truthy: present and not empty. */
  predicate Stored(storage: Storage, key: string) {
    key in storage && storage[key] != ""
  }

  /** The state the slice starts in: the token read from storage, authenticated iff a
      non-empty token is stored, and the stored user when there is one and it parses. */
  function Initial(storage: Storage, parseUser: string -> Option<AuthUser>): (s: AuthState)
    ensures s.token == GetItem(storage, "authToken")
    ensures s.isAuthenticated <==> Stored(storage, "authToken")
    ensures !s.isLoading
    ensures s.user.Some? <==> Stored(storage, "authUser") && parseUser(storage["authUser"]).Some?
    ensures s.user.Some? ==> s.user == parseUser(storage["authUser"])
  {
    var user := if Stored(storage, "authUser") then parseUser(storage["authUser"]) else None;
    AuthState(user, GetItem(storage, "authToken"), Stored(storage, "authToken"), false)
  }

  /** The slice state and the storage, which change together. */
  datatype Auth = Auth(state: AuthState, storage: Storage)

  function SetAuthUser(a: Auth, u: AuthUser, stringify: AuthUser -> string): (r: Auth)
    ensures r.state == a.state.(user := Some(u), isAuthenticated := true)
    ensures r.storage == a.storage["authUser" := stringify(u)]
  {
    Auth(a.state.(user := Some(u), isAuthenticated := true), a.storage["authUser" := stringify(u)])
  }

  function SetAuthToken(a: Auth, token: string): (r: Auth)
    ensures r.state == a.state.(token := Some(token), isAuthenticated := true)
    ensures r.storage == a.storage["authToken" := token]
  {
    Auth(a.state.(token := Some(token), isAuthenticated := true), a.storage["authToken" := token])
  }

  const ClearedKeys: set<string> := {"authToken", "refreshToken", "authUser"}

  function ClearAuth(a: Auth): (r: Auth)
    ensures r.state == a.state.(user := None, token := None, isAuthenticated := false)
    ensures r.storage == a.storage - ClearedKeys
  {
    Auth(a.state.(user := None, token := None, isAuthenticated := false), a.storage - ClearedKeys)
  }

  /** `setLoading`: the flag is set, and neither the rest of the state nor the storage moves. */
  function SetLoading(a: Auth, loading: bool): (r: Auth)
    ensures r.state.isLoading == loading
    ensures r.state.user == a.state.user && r.state.token == a.state.token
    ensures r.state.isAuthenticated == a.state.isAuthenticated
    ensures r.storage == a.storage
  {
    a.(state := a.state.(isLoading := loading))
  }

  /** A user stored by `setAuthUser` is restored on the next start, when reading back what was
      written gives the user again. */
  lemma SetUserRestored(a: Auth, u: AuthUser, stringify: AuthUser -> string, parseUser: string -> Option<AuthUser>)
    requires stringify(u) != "" && parseUser(stringify(u)) == Some(u)
    ensures Initial(SetAuthUser(a, u, stringify).storage, parseUser).user == Some(u)
  {
  }

  /** A token stored by `setAuthToken` is read back on the next start, authenticated iff it is
      not empty. */
  lemma SetTokenRestored(a: Auth, token: string, parseUser: string -> Option<AuthUser>)
    ensures var s := Initial(SetAuthToken(a, token).storage, parseUser);
            s.token == Some(token) && (s.isAuthenticated <==> token != "")
  {
  }

  /** After `clearAuth` the next start has no user, no token and is not authenticated. */
  lemma ClearAuthRestored(a: Auth, parseUser: string -> Option<AuthUser>)
    ensures Initial(ClearAuth(a).storage, parseUser) == AuthState(None, None, false, false)
  {
  }

  /** The loading flag is not persisted: whatever it was set to, the next start reads the same
      state from storage as before, and that state is not loading. */
  lemma LoadingNotPersisted(a: Auth, loading: bool, parseUser: string -> Option<AuthUser>)
    ensures Initial(SetLoading(a, loading).storage, parseUser) == Initial(a.storage, parseUser)
    ensures !Initial(SetLoading(a, loading).storage, parseUser).isLoading
  {
  }
}

=== FILE: chunks.dfy ===
/** The build's manual chunk classifier: a module id is assigned a chunk name by an ordered
    list of substring tests, the first that matches deciding. */
module Chunks {
  import opened Wrappers
  import opened Text

  /** `manualChunks(id)` as written: vendor tests inside `node_modules`, application tests
      outside it, `None` when no application test matches. */
  function ManualChunk(id: string): (r: Option<string>)
    ensures Contains(id, "node_modules") ==> r.Some? && r.value in VendorChunks
    ensures !Contains(id, "node_modules") ==> r.None? || r.value in AppChunks
  {
    if Contains(id, "node_modules") then
      if Contains(id, "@mui/material") then Some("mui-core")
      else if Contains(id, "@mui/icons-material") then Some("mui-icons")
      else if Contains(id, "@mui/system") || Contains(id, "@emotion") then Some("mui-system")
      else if Contains(id, "react-grid-layout") then Some("grid-layout-vendor")
      else if Contains(id, "react/") && !Contains(id, "react-dom") then Some("react-core")
      else if Contains(id, "react-dom") then Some("react-dom")
      else if Contains(id, "@reduxjs") || Contains(id, "react-redux") then Some("redux-vendor")
      else if Contains(id, "@tanstack/react-query") then Some("react-query-vendor")
      else if Contains(id, "react-router") then Some("router-vendor")
      else if Contains(id, "axios") then Some("axios-vendor")
      else if Contains(id, "vm2") || Contains(id, "jquery") || Contains(id, "moment")
              || Contains(id, "tinycolor2") || Contains(id, "cssjs") then Some("widget-deps")
      else Some("vendor")
    else if Contains(id, "/components/dashboard") then Some("dashboard-components")
    else if Contains(id, "/services/widget") || Contains(id, "/components/widget")
            || Contains(id, "/contexts/WidgetContext") || Contains(id, "/hooks/useWidgetInstance") then Some("widget-core")
    else if Contains(id, "/services/api") then Some("api-services")
    else if Contains(id, "/store") then Some("store")
    else None
  }

  const VendorChunks: set<string> := {"mui-core", "mui-icons", "mui-system", "grid-layout-vendor", "react-core",
    "react-dom", "redux-vendor", "react-query-vendor", "router-vendor", "axios-vendor", "widget-deps", "vendor"}

  const AppChunks: set<string> := {"dashboard-components", "widget-core", "api-services", "store"}

  /** One test of the table: some `anyOf` pattern occurs and no `noneOf` pattern does. */
  datatype Rule = Rule(anyOf: seq<string>, noneOf: seq<string>, chunk: string)

  predicate ContainsAny(id: string, pats: seq<string>) {
    exists p :: p in pats && Contains(id, p)
  }

  predicate Matches(r: Rule, id: string) {
    ContainsAny(id, r.anyOf) && !ContainsAny(id, r.noneOf)
  }

  /** Index of the first matching rule, `|rules|` when none matches. */
  function FirstRule(rules: seq<Rule>, id: string): (k: nat)
    ensures k <= |rules|
    ensures forall j :: 0 <= j < k ==> !Matches(rules[j], id)
    ensures k < |rules| ==> Matches(rules[k], id)
  {
    if |rules| == 0 then 0
    else if Matches(rules[0], id) then 0
    else 1 + FirstRule(rules[1..], id)
  }

  /** The chunk of the first matching rule. */
  function FirstMatch(rules: seq<Rule>, id: string): Option<string> {
    var k := FirstRule(rules, id);
    if k < |rules| then Some(rules[k].chunk) else None
  }

  /** The vendor tests, in the order they are tried. */
  const VendorRules: seq<Rule> := [
    Rule(["@mui/material"], [], "mui-core"),
    Rule(["@mui/icons-material"], [], "mui-icons"),
    Rule(["@mui/system", "@emotion"], [], "mui-system"),
    Rule(["react-grid-layout"], [], "grid-layout-vendor"),
    Rule(["react/"], ["react-dom"], "react-core"),
    Rule(["react-dom"], [], "react-dom"),
    Rule(["@reduxjs", "react-redux"], [], "redux-vendor"),
    Rule(["@tanstack/react-query"], [], "react-query-vendor"),
    Rule(["react-router"], [], "router-vendor"),
    Rule(["axios"], [], "axios-vendor"),
    Rule(["vm2", "jquery", "moment", "tinycolor2", "cssjs"], [], "widget-deps")]

  /** The application tests, in the order they are tried. */
  const AppRules: seq<Rule> := [
    Rule(["/components/dashboard"], [], "dashboard-components"),
    Rule(["/services/widget", "/components/widget", "/contexts/WidgetContext", "/hooks/useWidgetInstance"], [],
         "widget-core"),
    Rule(["/services/api"], [], "api-services"),
    Rule(["/store"], [], "store")]

  /** The classifier read as a table: first matching vendor rule, else "vendor", inside
      `node_modules`; first matching application rule outside it. */
  function Classify(id: string): Option<string> {
    if Contains(id, "node_modules") then Some(FirstMatch(VendorRules, id).GetOr("vendor"))
    else FirstMatch(AppRules, id)
  }

  /** `FirstRule` is pinned down by its contract. */
  lemma FirstRuleIs(rules: seq<Rule>, id: string, k: nat)
    requires k <= |rules|
    requires forall j :: 0 <= j < k ==> !Matches(rules[j], id)
    requires k < |rules| ==> Matches(rules[k], id)
    ensures FirstRule(rules, id) == k
  {
  }

  /** No vendor rule before index `k` matches. */
  predicate NoneBefore(rules: seq<Rule>, id: string, k: nat) {
    forall j :: 0 <= j < k && j < |rules| ==> !Matches(rules[j], id)
  }

  /** What each pattern list tests, for the list lengths the tables use. */
  lemma AnyOfOne(id: string, a: string)
    ensures ContainsAny(id, [a]) <==> Contains(id, a)
  {
    if Contains(id, a) {
      assert a in [a];
    }
  }

  lemma AnyOfTwo(id: string, a: string, b: string)
    ensures ContainsAny(id, [a, b]) <==> Contains(id, a) || Contains(id, b)
  {
    if Contains(id, a) {
      assert a in [a, b];
    } else if Contains(id, b) {
      assert b in [a, b];
    }
  }

  lemma AnyOfFour(id: string, a: string, b: string, c: string, d: string)
    ensures ContainsAny(id, [a, b, c, d]) <==> Contains(id, a) || Contains(id, b) || Contains(id, c) || Contains(id, d)
  {
    var ps := [a, b, c, d];
    if Contains(id, a) || Contains(id, b) || Contains(id, c) || Contains(id, d) {
      var p := if Contains(id, a) then a else if Contains(id, b) then b else if Contains(id, c) then c else d;
      assert p in ps && Contains(id, p);
    }
  }

  lemma AnyOfFive(id: string, a: string, b: string, c: string, d: string, e: string)
    ensures ContainsAny(id, [a, b, c, d, e]) <==>
              Contains(id, a) || Contains(id, b) || Contains(id, c) || Contains(id, d) || Contains(id, e)
  {
    var ps := [a, b, c, d, e];
    if Contains(id, a) || Contains(id, b) || Contains(id, c) || Contains(id, d) || Contains(id, e) {
      var p := if Contains(id, a) then a else if Contains(id, b) then b else if Contains(id, c) then c
               else if Contains(id, d) then d else e;
      assert p in ps && Contains(id, p);
    }
  }

  /** Each vendor rule spelled out as the test it performs. */
  lemma VendorRuleTests(id: string)
    ensures Matches(VendorRules[0], id) <==> Contains(id, "@mui/material")
    ensures Matches(VendorRules[1], id) <==> Contains(id, "@mui/icons-material")
    ensures Matches(VendorRules[2], id) <==> Contains(id, "@mui/system") || Contains(id, "@emotion")
    ensures Matches(VendorRules[3], id) <==> Contains(id, "react-grid-layout")
    ensures Matches(VendorRules[4], id) <==> Contains(id, "react/") && !Contains(id, "react-dom")
    ensures Matches(VendorRules[5], id) <==> Contains(id, "react-dom")
    ensures Matches(VendorRules[6], id) <==> Contains(id, "@reduxjs") || Contains(id, "react-redux")
    ensures Matches(VendorRules[7], id) <==> Contains(id, "@tanstack/react-query")
    ensures Matches(VendorRules[8], id) <==> Contains(id, "react-router")
    ensures Matches(VendorRules[9], id) <==> Contains(id, "axios")
    ensures Matches(VendorRules[10], id) <==>
              Contains(id, "vm2") || Contains(id, "jquery") || Contains(id, "moment") || Contains(id, "tinycolor2") || Contains(id, "cssjs")
  {
    AnyOfOne(id, "@mui/material");
    AnyOfOne(id, "@mui/icons-material");
    AnyOfTwo(id, "@mui/system", "@emotion");
    AnyOfOne(id, "react-grid-layout");
    AnyOfOne(id, "react/");
    AnyOfOne(id, "react-dom");
    AnyOfTwo(id, "@reduxjs", "react-redux");
    AnyOfOne(id, "@tanstack/react-query");
    AnyOfOne(id, "react-router");
    AnyOfOne(id, "axios");
    AnyOfFive(id, "vm2", "jquery", "moment", "tinycolor2", "cssjs");
  }

  /** Each application rule spelled out as the test it performs. */
  lemma AppRuleTests(id: string)
    ensures Matches(AppRules[0], id) <==> Contains(id, "/components/dashboard")
    ensures Matches(AppRules[1], id) <==>
              Contains(id, "/services/widget") || Contains(id, "/components/widget")
              || Contains(id, "/contexts/WidgetContext") || Contains(id, "/hooks/useWidgetInstance")
    ensures Matches(AppRules[2], id) <==> Contains(id, "/services/api")
    ensures Matches(AppRules[3], id) <==> Contains(id, "/store")
  {
    AnyOfOne(id, "/components/dashboard");
    AnyOfFour(id, "/services/widget", "/components/widget", "/contexts/WidgetContext", "/hooks/useWidgetInstance");
    AnyOfOne(id, "/services/api");
    AnyOfOne(id, "/store");
  }

  /** A rule that does not match extends the run of non-matching rules by one. */
  lemma NoneBeforeStep(rules: seq<Rule>, id: string, k: nat)
    requires NoneBefore(rules, id, k) && k < |rules| && !Matches(rules[k], id)
    ensures NoneBefore(rules, id, k + 1)
  {
  }

  /** The first three vendor tests. */
  lemma VendorHead(id: string) returns (k: nat)
    requires Contains(id, "node_modules")
    ensures k <= 3 && NoneBefore(VendorRules, id, k)
    ensures k < 3 ==> Matches(VendorRules[k], id) && ManualChunk(id) == Some(VendorRules[k].chunk)
    ensures k == 3 <==>
              !Contains(id, "@mui/material") && !Contains(id, "@mui/icons-material") &&
              !(Contains(id, "@mui/system") || Contains(id, "@emotion"))
  {
    VendorRuleTests(id);
    k := 0;
    while k < 3 && !Matches(VendorRules[k], id)
      invariant k <= 3 && NoneBefore(VendorRules, id, k)
    {
      NoneBeforeStep(VendorRules, id, k);
      k := k + 1;
    }
  }

  /** The vendor tests at indices 3 to 5, reached when none of the first three matched. */
  lemma VendorReact(id: string) returns (k: nat)
    requires Contains(id, "node_modules") && NoneBefore(VendorRules, id, 3)
    requires !Contains(id, "@mui/material") && !Contains(id, "@mui/icons-material") &&
             !(Contains(id, "@mui/system") || Contains(id, "@emotion"))
    ensures 3 <= k <= 6 && NoneBefore(VendorRules, id, k)
    ensures k < 6 ==> Matches(VendorRules[k], id) && ManualChunk(id) == Some(VendorRules[k].chunk)
    ensures k == 6 <==>
              !Contains(id, "react-grid-layout") && !(Contains(id, "react/") && !Contains(id, "react-dom")) &&
              !Contains(id, "react-dom")
  {
    VendorRuleTests(id);
    k := 3;
    while k < 6 && !Matches(VendorRules[k], id)
      invariant 3 <= k <= 6 && NoneBefore(VendorRules, id, k)
    {
      NoneBeforeStep(VendorRules, id, k);
      k := k + 1;
    }
  }

  /** The vendor tests at indices 6 to 8, reached when none of the first six matched. */
  lemma VendorMiddle(id: string) returns (k: nat)
    requires Contains(id, "node_modules") && NoneBefore(VendorRules, id, 6)
    requires !Contains(id, "@mui/material") && !Contains(id, "@mui/icons-material") &&
             !(Contains(id, "@mui/system") || Contains(id, "@emotion")) && !Contains(id, "react-grid-layout") &&
             !(Contains(id, "react/") && !Contains(id, "react-dom")) && !Contains(id, "react-dom")
    ensures 6 <= k <= 9 && NoneBefore(VendorRules, id, k)
    ensures k < 9 ==> Matches(VendorRules[k], id) && ManualChunk(id) == Some(VendorRules[k].chunk)
    ensures k == 9 <==>
              !(Contains(id, "@reduxjs") || Contains(id, "react-redux")) &&
              !Contains(id, "@tanstack/react-query") && !Contains(id, "react-router")
  {
    VendorRuleTests(id);
    k := 6;
    while k < 9 && !Matches(VendorRules[k], id)
      invariant 6 <= k <= 9 && NoneBefore(VendorRules, id, k)
    {
      NoneBeforeStep(VendorRules, id, k);
      k := k + 1;
    }
  }

  /** The last vendor tests and the `vendor` default, reached when no earlier test matched. */
  lemma VendorLast(id: string) returns (k: nat)
    requires Contains(id, "node_modules") && NoneBefore(VendorRules, id, 9)
    requires !Contains(id, "@mui/material") && !Contains(id, "@mui/icons-material") &&
             !(Contains(id, "@mui/system") || Contains(id, "@emotion")) && !Contains(id, "react-grid-layout") &&
             !(Contains(id, "react/") && !Contains(id, "react-dom")) && !Contains(id, "react-dom")
    requires !(Contains(id, "@reduxjs") || Contains(id, "react-redux")) &&
             !Contains(id, "@tanstack/react-query") && !Contains(id, "react-router")
    ensures 9 <= k <= 11 && NoneBefore(VendorRules, id, k)
    ensures k < 11 ==> Matches(VendorRules[k], id) && ManualChunk(id) == Some(VendorRules[k].chunk)
    ensures k == 11 ==> ManualChunk(id) == Some("vendor")
  {
    VendorRuleTests(id);
    k := 9;
    while k < 11 && !Matches(VendorRules[k], id)
      invariant 9 <= k <= 11 && NoneBefore(VendorRules, id, k)
    {
      NoneBeforeStep(VendorRules, id, k);
      k := k + 1;
    }
  }

  /** Inside `node_modules`, the written tests are the vendor table read first-match. */
  lemma VendorIsFirstMatch(id: string)
    requires Contains(id, "node_modules")
    ensures ManualChunk(id) == Some(FirstMatch(VendorRules, id).GetOr("vendor"))
  {
    var k := VendorHead(id);
    if k == 3 {
      k := VendorReact(id);
      if k == 6 {
        k := VendorMiddle(id);
        if k == 9 {
          k := VendorLast(id);
        }
      }
    }
    FirstRuleIs(VendorRules, id, k);
  }

  /** Outside `node_modules`, the written tests are the application table read first-match. */
  lemma AppIsFirstMatch(id: string)
    requires !Contains(id, "node_modules")
    ensures ManualChunk(id) == FirstMatch(AppRules, id)
  {
    AppRuleTests(id);
    var k: nat :=
      if Contains(id, "/components/dashboard") then 0
      else if Contains(id, "/services/widget") || Contains(id, "/components/widget")
              || Contains(id, "/contexts/WidgetContext") || Contains(id, "/hooks/useWidgetInstance") then 1
      else if Contains(id, "/services/api") then 2
      else if Contains(id, "/store") then 3
      else 4;
    FirstRuleIs(AppRules, id, k);
  }

  /** The written chain of tests is the first-match reading of the two tables. */
  lemma ManualChunkIsFirstMatch(id: string)
    ensures ManualChunk(id) == Classify(id)
  {
    if Contains(id, "node_modules") {
      VendorIsFirstMatch(id);
    } else {
      AppIsFirstMatch(id);
    }
  }

  /** `react-core` is chosen exactly for a dependency path with "react/", without
      "react-dom", and matching none of the four earlier tests. */
  lemma ReactCoreExactly(id: string)
    ensures ManualChunk(id) == Some("react-core") <==>
              Contains(id, "node_modules") && Contains(id, "react/") && !Contains(id, "react-dom") &&
              !Contains(id, "@mui/material") && !Contains(id, "@mui/icons-material") &&
              !Contains(id, "@mui/system") && !Contains(id, "@emotion") && !Contains(id, "react-grid-layout")
  {
  }

  /** An application id gets no chunk exactly when it matches none of the application tests. */
  lemma NoChunkExactly(id: string)
    ensures ManualChunk(id).None? <==>
              !Contains(id, "node_modules") && forall k :: 0 <= k < |AppRules| ==> !Matches(AppRules[k], id)
  {
    ManualChunkIsFirstMatch(id);
  }
}

=== FILE: css_namespace.dfy ===
/** Per-instance CSS isolation: the namespace token, the selector rewriter, and the registry of
    injected `<style>` elements (css-namespace.service.ts). */
module CssNamespace {
  import opened Wrappers
  import opened Text

  // ---------------------------------------------------------------------------------------
  // 32-bit string hash, rendered in base 36
  // ---------------------------------------------------------------------------------------

  const TWO31: int := 0x8000_0000
  const TWO32: int := 0x1_0000_0000

  /** ECMAScript ToInt32: wrap an integer into the signed 32-bit range. */
  function ToInt32(x: int): (r: int)
    ensures -TWO31 <= r < TWO31
    ensures (x - r) % TWO32 == 0
  {
    (x + TWO31) % TWO32 - TWO31
  }

  /** Wrapping is insensitive to adding multiples of 2^32 (this is why `(h << 5) - h` may wrap
      its first operand early without changing the result). */
  lemma ToInt32Congruent(x: int, y: int)
    requires (x - y) % TWO32 == 0
    ensures ToInt32(x) == ToInt32(y)
  {
    var q := (x - y) / TWO32;
    assert x + TWO31 == (y + TWO31) + q * TWO32;
  }

  /** The UTF-16 code units of one character, as `charCodeAt` reports them. */
  function Utf16(c: char): (us: seq<int>)
    ensures 1 <= |us| <= 2
    ensures forall i :: 0 <= i < |us| ==> 0 <= us[i] < 0x10000
  {
    if c as int < 0x10000 then [c as int]
    else [0xD800 + (c as int - 0x10000) / 0x400, 0xDC00 + (c as int - 0x10000) % 0x400]
  }

  function CodeUnits(s: string): (us: seq<int>)
    ensures forall i :: 0 <= i < |us| ==> 0 <= us[i] < 0x10000
  {
    if |s| == 0 then [] else CodeUnits(s[..|s| - 1]) + Utf16(s[|s| - 1])
  }

  /** One step of the hash: `h := ((h << 5) - h) + unit`, truncated to 32 bits. */
  function HashStep(h: int, unit: int): int {
    ToInt32(31 * h + unit)
  }

  /** The hash of a sequence of code units: the left fold of `HashStep` from 0. */
  function HashUnits(us: seq<int>): (h: int)
    ensures -TWO31 <= h < TWO31
  {
    if |us| == 0 then 0 else HashStep(HashUnits(us[..|us| - 1]), us[|us| - 1])
  }

  function Hash32(s: string): int {
    HashUnits(CodeUnits(s))
  }

  /** The loop of `hashCode`, operation by operation: the shift wraps to 32 bits, the subtraction
      and addition are exact, and `hash & hash` wraps again. It computes the fold `Hash32`. */
  method HashLoop(s: string) returns (h: int)
    ensures h == Hash32(s)
    ensures -TWO31 <= h < TWO31
  {
    var units := CodeUnits(s);
    h := 0;
    var i := 0;
    while i < |units|
      invariant 0 <= i <= |units|
      invariant h == HashUnits(units[..i])
    {
      var shifted := ToInt32(h * 32);
      var sum := shifted - h + units[i];
      ToInt32Congruent(sum, 31 * h + units[i]);
      h := ToInt32(sum);
      assert units[..i + 1][..i] == units[..i];
      i := i + 1;
    }
    assert units[..i] == units;
  }

  /** The base-36 digit for `d`: 0-9 then a-z. */
  function Base36Digit(d: nat): (c: char)
    requires d < 36
    ensures IsBase36Digit(c)
  {
    if d < 10 then ('0' as int + d) as char else ('a' as int + d - 10) as char
  }

  predicate IsBase36Digit(c: char) {
    ('0' <= c <= '9') || ('a' <= c <= 'z')
  }

  /** `n.toString(36)` for a natural number. */
  function ToBase36(n: nat): (r: string)
    ensures |r| >= 1
    ensures forall i :: 0 <= i < |r| ==> IsBase36Digit(r[i])
  {
    if n < 36 then [Base36Digit(n)] else ToBase36(n / 36) + [Base36Digit(n % 36)]
  }

  function Base36Value(c: char): nat
    requires IsBase36Digit(c)
  {
    if c <= '9' then c as int - '0' as int else c as int - 'a' as int + 10
  }

  function FromBase36(s: string): nat
    requires forall i :: 0 <= i < |s| ==> IsBase36Digit(s[i])
  {
    if |s| == 0 then 0 else 36 * FromBase36(s[..|s| - 1]) + Base36Value(s[|s| - 1])
  }

  /** Base-36 rendering loses nothing: reading it back gives the number. */
  lemma {:induction false} FromToBase36(n: nat)
    ensures FromBase36(ToBase36(n)) == n
  {
    var r := ToBase36(n);
    if n >= 36 {
      assert r[..|r| - 1] == ToBase36(n / 36);
      FromToBase36(n / 36);
    }
    assert Base36Value(r[|r| - 1]) == n % 36;
  }

  function Abs(x: int): nat {
    if x < 0 then -x else x
  }

  /** `hashCode(str)`: `Math.abs` of the 32-bit hash, in base 36. */
  function HashCode(s: string): (r: string)
    ensures forall i :: 0 <= i < |r| ==> IsBase36Digit(r[i])
    ensures FromBase36(r) == Abs(Hash32(s)) <= TWO31
  {
    FromToBase36(Abs(Hash32(s)));
    ToBase36(Abs(Hash32(s)))
  }

  function DotToDash(c: char): char {
    if c == '.' then '-' else c
  }

  /** `createWidgetNamespace(fullFqn, widgetId)`. */
  function CreateWidgetNamespace(fqn: string, widgetId: Option<string>): string {
    var id := if widgetId.Some? then widgetId.value else "";
    "widget-" + MapChars(fqn, DotToDash) + "-" + HashCode(fqn + "-" + id)
  }

  /** An absent instance id hashes exactly like the empty id. */
  lemma NamespaceAbsentId(fqn: string)
    ensures CreateWidgetNamespace(fqn, None) == CreateWidgetNamespace(fqn, Some(""))
  {
  }

  /** The namespace is a usable class token as far as dots go: the fqn's dots become dashes and
      the hash is alphanumeric, so no '.' remains. It starts with "widget-" and ends with the hash. */
  lemma NamespaceShape(fqn: string, widgetId: Option<string>)
    ensures var ns := CreateWidgetNamespace(fqn, widgetId);
      && StartsWith(ns, "widget-")
      && Avoids(ns, '.')
      && EndsWith(ns, HashCode(fqn + "-" + widgetId.GetOr("")))
  {
    var id := widgetId.GetOr("");
    var m := MapChars(fqn, DotToDash);
    var h := HashCode(fqn + "-" + id);
    assert Avoids(h, '.');
    assert Avoids(m, '.');
    assert Avoids("widget-", '.') && Avoids("-", '.');
    AvoidsConcat("widget-", m, '.');
    AvoidsConcat("widget-" + m, "-", '.');
    AvoidsConcat("widget-" + m + "-", h, '.');
    PrefixSuffix("widget-", m + "-" + h);
    assert "widget-" + m + "-" + h == "widget-" + (m + "-" + h);
    PrefixSuffix("widget-" + m + "-", h);
  }

  /** The string does not contain the character `c`. */
  predicate Avoids(s: string, c: char) {
    forall i :: 0 <= i < |s| ==> s[i] != c
  }

  lemma AvoidsConcat(a: string, b: string, c: char)
    requires Avoids(a, c) && Avoids(b, c)
    ensures Avoids(a + b, c)
  {
    forall i | 0 <= i < |a + b| ensures (a + b)[i] != c {
      if i >= |a| {
        assert (a + b)[i] == b[i - |a|];
      }
    }
  }

  /** A concatenation starts with its first part and ends with its second. */
  lemma PrefixSuffix(a: string, b: string)
    ensures StartsWith(a + b, a) && EndsWith(a + b, b)
  {
    assert (a + b)[..|a|] == a;
    assert (a + b)[|a|..] == b;
  }

  // ---------------------------------------------------------------------------------------
  // Selector rewriting
  // ---------------------------------------------------------------------------------------

  /** The first of `:root`, `html`, `body` that the selector starts with, followed by whitespace
      or the end (the pattern `^(:root|html|body)(\s|$)`). */
  function RootKeyword(t: string): (r: Option<string>)
    ensures r.Some? ==> r.value in [":root", "html", "body"] && StartsWith(t, r.value)
  {
    if IsRootWith(t, ":root") then Some(":root")
    else if IsRootWith(t, "html") then Some("html")
    else if IsRootWith(t, "body") then Some("body")
    else None
  }

  predicate IsRootWith(t: string, kw: string) {
    StartsWith(t, kw) && (|t| == |kw| || IsSpace(t[|kw|]))
  }

  /** One comma-separated piece of a selector list, rewritten into the namespace. The root form
      goes through `replace` with the template `$1 .<ns>$2`, so `$` references inside the
      namespace are expanded; the other two forms are template literals and copy it as it is. */
  function RewriteSelector(sel: string, ns: string): string {
    var t := Trim(sel);
    var cls := "." + ns;
    if StartsWith(t, cls) then t
    else match RootKeyword(t)
      case Some(kw) =>
        var m := if |t| > |kw| then |kw| + 1 else |kw|;
        Substitute(RootTemplate(ns), t[..m], t[m..], kw, t[|kw|..m]) + t[m..]
      case None => cls + " " + t
  }

  function RootTemplate(ns: string): string {
    "$1 ." + ns + "$2"
  }

  /** What `String.prototype.replace` makes of the `$` reference at the head of a replacement
      template (the GetSubstitution operation of ECMAScript), for a match at the very start of
      the string with two capture groups and no named groups: the expansion, and how many
      template characters it used. `$$` is a dollar, `$&` the match, `` $` `` the (empty) text
      before it, `$'` the text after it, `$1`, `$2`, `$01`, `$02` the groups; `$00`, `$0`, `$3`
      to `$9` and a `$` before any other character stay as written. */
  function Reference(tpl: string, matched: string, after: string, g1: string, g2: string): (r: (string, nat))
    requires |tpl| >= 2 && tpl[0] == '$'
    ensures 1 <= r.1 <= |tpl|
  {
    var c := tpl[1];
    if c == '$' then ("$", 2)
    else if c == '&' then (matched, 2)
    else if c == '`' then ("", 2)
    else if c == '\'' then (after, 2)
    else if c == '0' && |tpl| >= 3 && '0' <= tpl[2] <= '2' then
      (if tpl[2] == '1' then g1 else if tpl[2] == '2' then g2 else tpl[..3], 3)
    else if c == '1' then (g1, 2)
    else if c == '2' then (g2, 2)
    else if '0' <= c <= '9' then (tpl[..2], 2)
    else ("$", 1)
  }

  /** The replacement template expanded, reference by reference, left to right. */
  function Substitute(tpl: string, matched: string, after: string, g1: string, g2: string): string
    decreases |tpl|
  {
    if |tpl| == 0 then ""
    else if tpl[0] != '$' || |tpl| == 1 then [tpl[0]] + Substitute(tpl[1..], matched, after, g1, g2)
    else
      var (out, used) := Reference(tpl, matched, after, g1, g2);
      out + Substitute(tpl[used..], matched, after, g1, g2)
  }

  /** Template text without '$' is copied as it is. */
  lemma {:induction false} SubstituteLiteral(s: string, rest: string, matched: string, after: string, g1: string, g2: string)
    requires Avoids(s, '$')
    ensures Substitute(s + rest, matched, after, g1, g2) == s + Substitute(rest, matched, after, g1, g2)
    decreases |s|
  {
    if |s| > 0 {
      assert (s + rest)[0] == s[0];
      assert (s + rest)[1..] == s[1..] + rest;
      SubstituteLiteral(s[1..], rest, matched, after, g1, g2);
      assert [s[0]] + s[1..] == s;
    } else {
      assert s + rest == rest;
    }
  }

  /** The trailing `$2` of the template is the second group. */
  lemma SecondGroup(matched: string, after: string, g1: string, g2: string)
    ensures Substitute("$2", matched, after, g1, g2) == g2
  {
    assert Reference("$2", matched, after, g1, g2) == (g2, 2);
    assert "$2"[2..] == "";
  }

  /** A namespace without '$' lands literally between the keyword and what followed it. */
  lemma RootTemplateLiteral(ns: string, matched: string, after: string, g1: string, g2: string)
    requires Avoids(ns, '$')
    ensures Substitute(RootTemplate(ns), matched, after, g1, g2) == g1 + " ." + ns + g2
  {
    var tpl := RootTemplate(ns);
    assert tpl[0] == '$' && tpl[1] == '1' && tpl[2] == ' ';
    assert Reference(tpl, matched, after, g1, g2) == (g1, 2);
    assert tpl[2..] == (" ." + ns) + "$2";
    assert Avoids(" .", '$');
    AvoidsConcat(" .", ns, '$');
    SubstituteLiteral(" ." + ns, "$2", matched, after, g1, g2);
    SecondGroup(matched, after, g1, g2);
  }

  /** In the root form, a namespace without '$' follows the keyword as a descendant class. */
  lemma RootLiteral(sel: string, ns: string)
    requires Avoids(ns, '$')
    requires !StartsWith(Trim(sel), "." + ns) && RootKeyword(Trim(sel)).Some?
    ensures var t := Trim(sel);
            var kw := RootKeyword(t).value;
            RewriteSelector(sel, ns) == kw + " " + ("." + ns) + t[|kw|..]
  {
    var t := Trim(sel);
    var kw := RootKeyword(t).value;
    var m := if |t| > |kw| then |kw| + 1 else |kw|;
    var w, a := t[|kw|..m], t[m..];
    calc {
      RewriteSelector(sel, ns);
      Substitute(RootTemplate(ns), t[..m], a, kw, w) + a;
      { RootTemplateLiteral(ns, t[..m], a, kw, w); }
      kw + " ." + ns + w + a;
      { ClassAfterKeyword(kw, ns, w, a); }
      kw + " " + ("." + ns) + (w + a);
      { assert w + a == t[|kw|..]; }
      kw + " " + ("." + ns) + t[|kw|..];
    }
  }

  lemma ClassAfterKeyword(kw: string, ns: string, w: string, a: string)
    ensures kw + " ." + ns + w + a == kw + " " + ("." + ns) + (w + a)
  {
    assert " ." + ns == " " + ("." + ns);
  }

  /** A rewritten selector carries the namespace class, except in the root form with a '$' in
      the namespace, where `replace` expands it; there the keyword is followed by the class when
      the namespace has no '$'. */
  lemma RewriteSelectorForms(sel: string, ns: string)
    ensures RootKeyword(Trim(sel)).None? || Avoids(ns, '$') ==> Contains(RewriteSelector(sel, ns), "." + ns)
    ensures var t := Trim(sel);
            !StartsWith(t, "." + ns) && RootKeyword(t).Some? && Avoids(ns, '$') ==>
              RewriteSelector(sel, ns) == RootKeyword(t).value + " " + ("." + ns) + t[|RootKeyword(t).value|..]
  {
    var t := Trim(sel);
    var cls := "." + ns;
    if StartsWith(t, cls) {
    } else if RootKeyword(t).Some? {
      if Avoids(ns, '$') {
        var kw := RootKeyword(t).value;
        RootLiteral(sel, ns);
        ContainsInfix(kw + " ", cls, t[|kw|..]);
      }
    } else {
      assert (cls + " " + t)[..|cls|] == cls;
    }
  }

  /** With `$&` in the namespace the root form differs from the other two: `replace` turns it
      into the matched keyword, so "body" under "widget-a$&b-h" becomes "body .widget-abodyb-h",
      which does not carry the class ".widget-a$&b-h" at all. */
  lemma DollarNamespaceExpands(p: string, q: string)
    requires Avoids(p, '$') && Avoids(q, '$')
    ensures RewriteSelector("body", p + "$&" + q) == "body" + " ." + p + "body" + q
    ensures !Contains(RewriteSelector("body", p + "$&" + q), "." + (p + "$&" + q))
  {
    var ns := p + "$&" + q;
    BodyAmpersand(p, q);
    var r := "body" + " ." + p + "body" + q;
    ExpandedAvoidsDollar(p, q);
    var cls := "." + ns;
    assert cls[|p| + 1] == '$';
    AvoidedNotContained(r, cls, |p| + 1);
  }

  lemma BodyAmpersand(p: string, q: string)
    requires Avoids(p, '$') && Avoids(q, '$')
    ensures RewriteSelector("body", p + "$&" + q) == "body" + " ." + p + "body" + q
  {
    BodyRoot("body", p + "$&" + q);
    AmpersandExpands(p, q, "body", "", "body", "");
    assert "body" + " ." + p + "body" + q + "" == "body" + " ." + p + "body" + q;
  }

  lemma ExpandedAvoidsDollar(p: string, q: string)
    requires Avoids(p, '$') && Avoids(q, '$')
    ensures Avoids("body" + " ." + p + "body" + q, '$')
  {
    assert Avoids("body" + " .", '$') && Avoids("body", '$');
    AvoidsConcat("body" + " .", p, '$');
    AvoidsConcat("body" + " ." + p, "body", '$');
    AvoidsConcat("body" + " ." + p + "body", q, '$');
  }

  /** `$&` in the template is replaced by the matched text; the text around it is copied. */
  lemma AmpersandExpands(p: string, q: string, matched: string, after: string, g1: string, g2: string)
    requires Avoids(p, '$') && Avoids(q, '$')
    ensures Substitute(RootTemplate(p + "$&" + q), matched, after, g1, g2) == g1 + " ." + p + matched + q + g2
  {
    var tpl := RootTemplate(p + "$&" + q);
    var t2 := "$&" + (q + "$2");
    assert tpl == "$1" + ((" ." + p) + t2);
    assert Avoids(" .", '$');
    AvoidsConcat(" .", p, '$');
    calc {
      Substitute(tpl, matched, after, g1, g2);
      { assert Reference(tpl, matched, after, g1, g2) == (g1, 2); assert tpl[2..] == (" ." + p) + t2; }
      g1 + Substitute((" ." + p) + t2, matched, after, g1, g2);
      { SubstituteLiteral(" ." + p, t2, matched, after, g1, g2); }
      g1 + ((" ." + p) + Substitute(t2, matched, after, g1, g2));
      { assert Reference(t2, matched, after, g1, g2) == (matched, 2); assert t2[2..] == q + "$2"; }
      g1 + ((" ." + p) + (matched + Substitute(q + "$2", matched, after, g1, g2)));
      { SubstituteLiteral(q, "$2", matched, after, g1, g2); SecondGroup(matched, after, g1, g2); }
      g1 + ((" ." + p) + (matched + (q + g2)));
    }
  }

  /** The selector "body" alone takes the root form, whatever the namespace: the keyword is the
      whole match and nothing follows it. */
  lemma BodyRoot(sel: string, ns: string)
    requires sel == "body"
    ensures RewriteSelector(sel, ns) == Substitute(RootTemplate(ns), sel, "", "body", "")
  {
    assert sel[0] == 'b' && sel[|sel| - 1] == 'y';
    TrimOfTrimmed(sel);
    assert !StartsWith(sel, "." + ns);
    assert !StartsWith(sel, ":root");
    assert !StartsWith(sel, "html");
    assert IsRootWith(sel, "body");
    assert sel[..4] == sel && sel[4..] == "" && sel[4..4] == "";
  }

  /** Text without some character contains no string that has it. */
  lemma {:induction false} AvoidedNotContained(s: string, sub: string, k: nat)
    requires k < |sub| && Avoids(s, sub[k])
    ensures !Contains(s, sub)
    decreases |s|
  {
    if |s| > 0 {
      AvoidedNotContained(s[1..], sub, k);
    }
  }

  /** A selector that is already its own trim and already starts with the namespace class is
      left as it is. */
  lemma RewriteSelectorKeeps(sel: string, ns: string)
    requires Trim(sel) == sel && StartsWith(sel, "." + ns)
    ensures RewriteSelector(sel, ns) == sel
  {
  }

  /** A selector whose trim is non-empty and not a root keyword is rewritten once and for all:
      a second pass leaves it alone. */
  lemma RewriteSelectorIdempotent(sel: string, ns: string)
    requires Trim(sel) != ""
    requires RootKeyword(Trim(sel)).None?
    ensures RewriteSelector(RewriteSelector(sel, ns), ns) == RewriteSelector(sel, ns)
  {
    var t := Trim(sel);
    TrimShape(sel);
    var cls := "." + ns;
    if StartsWith(t, cls) {
      TrimIdempotent(sel);
      assert RewriteSelector(sel, ns) == t;
      RewriteSelectorKeeps(t, ns);
    } else {
      var r := cls + " " + t;
      assert RewriteSelector(sel, ns) == r;
      assert r[0] == '.';
      assert r[|r| - 1] == t[|t| - 1];
      TrimOfTrimmed(r);
      assert r[..|cls|] == cls;
      RewriteSelectorKeeps(r, ns);
    }
  }

  /** Root-keyword selectors are not idempotent: every pass inserts the namespace again (for a
      namespace without '$', which is inserted literally). */
  lemma RewriteSelectorRootRepeats(ns: string)
    requires Avoids(ns, '$')
    requires ns == "" || !IsSpace(ns[|ns| - 1])
    ensures RewriteSelector("body", ns) == "body" + " " + ("." + ns)
    ensures RewriteSelector(RewriteSelector("body", ns), ns) == "body" + " " + ("." + ns) + (" " + ("." + ns))
  {
    BodyOnce(ns);
    BodyTwice(ns);
  }

  lemma BodyOnce(ns: string)
    requires Avoids(ns, '$')
    ensures RewriteSelector("body", ns) == "body" + " " + ("." + ns)
  {
    assert "body" == "body" + "";
    RootRewrite("body", "", ns);
    var once := "body" + " " + ("." + ns);
    assert once + "" == once;
  }

  lemma BodyTwice(ns: string)
    requires Avoids(ns, '$')
    requires ns == "" || !IsSpace(ns[|ns| - 1])
    ensures var once := "body" + " " + ("." + ns);
            RewriteSelector(once, ns) == once + (" " + ("." + ns))
  {
    var cls := "." + ns;
    var rest := " " + cls;
    assert rest[|rest| - 1] == if ns == "" then '.' else ns[|ns| - 1];
    assert "body" + " " + cls == "body" + rest;
    RootRewrite("body" + " " + cls, rest, ns);
  }

  /** A selector "body" followed by nothing or by a space gets the class (of a namespace without
      '$') right after the keyword. */
  lemma RootRewrite(sel: string, rest: string, ns: string)
    requires Avoids(ns, '$')
    requires sel == "body" + rest
    requires rest == "" || (rest[0] == ' ' && !IsSpace(rest[|rest| - 1]))
    ensures RewriteSelector(sel, ns) == "body" + " " + ("." + ns) + rest
  {
    assert sel[0] == 'b';
    assert sel[|sel| - 1] == if rest == "" then 'y' else rest[|rest| - 1];
    TrimOfTrimmed(sel);
    assert sel[..4] == "body" && sel[4..] == rest;
    assert !StartsWith(sel, "." + ns);
    assert !StartsWith(sel, ":root");
    assert !StartsWith(sel, "html");
    assert IsRootWith(sel, "body");
    RootLiteral(sel, ns);
  }

  function RewriteSelectors(pieces: seq<string>, ns: string): (r: seq<string>)
    ensures |r| == |pieces|
    ensures forall i :: 0 <= i < |r| ==> r[i] == RewriteSelector(pieces[i], ns)
  {
    if |pieces| == 0 then [] else [RewriteSelector(pieces[0], ns)] + RewriteSelectors(pieces[1..], ns)
  }

  /** The replacement for one matched rule `prelude{block}`. */
  function RewriteRule(prelude: string, block: string, ns: string): string {
    var t := Trim(prelude);
    if StartsWith(t, "@") || t == "" then prelude + "{" + block + "}"
    else Join(RewriteSelectors(Split(t, ','), ns), ", ") + " {" + block + "}"
  }

  /** A rule with a non-blank prelude becomes its comma-separated selectors, each rewritten and
      each carrying the namespace class unless it is a root keyword under a namespace holding
      '$' (see `RewriteSelectorForms`), joined by ", ", followed by the block verbatim. */
  lemma RewriteRuleShape(prelude: string, block: string, ns: string)
    requires Trim(prelude) != "" && !StartsWith(Trim(prelude), "@")
    ensures var sels := RewriteSelectors(Split(Trim(prelude), ','), ns);
      && RewriteRule(prelude, block, ns) == Join(sels, ", ") + " {" + block + "}"
      && |sels| == |Split(Trim(prelude), ',')|
      && forall i :: 0 <= i < |sels| && (RootKeyword(Trim(Split(Trim(prelude), ',')[i])).None? || Avoids(ns, '$')) ==>
           Contains(sels[i], "." + ns)
  {
    var pieces := Split(Trim(prelude), ',');
    forall i | 0 <= i < |pieces| && (RootKeyword(Trim(pieces[i])).None? || Avoids(ns, '$'))
      ensures Contains(RewriteSelector(pieces[i], ns), "." + ns)
    {
      RewriteSelectorForms(pieces[i], ns);
    }
  }

  // ---------------------------------------------------------------------------------------
  // The rule scanner (the global replace with /([^{}@]+)\{([^{}]*(?:\{[^{}]*\}[^{}]*)*)\}/g)
  // ---------------------------------------------------------------------------------------

  predicate IsBrace(c: char) {
    c == '{' || c == '}'
  }

  /** End of the run of characters other than '{', '}', '@' that starts at `i`. */
  function RunEnd(s: string, i: nat): (j: nat)
    requires i <= |s|
    ensures i <= j <= |s|
    ensures j < |s| ==> IsBrace(s[j]) || s[j] == '@'
    decreases |s| - i
  {
    if i == |s| || IsBrace(s[i]) || s[i] == '@' then i else RunEnd(s, i + 1)
  }

  /** The run holds no brace and no '@'. */
  lemma {:induction false} RunEndClean(s: string, i: nat)
    requires i <= |s|
    ensures NoBraceOrAt(s[i..RunEnd(s, i)])
    decreases |s| - i
  {
    if !(i == |s| || IsBrace(s[i]) || s[i] == '@') {
      RunEndClean(s, i + 1);
      assert s[i..RunEnd(s, i)] == [s[i]] + s[i + 1..RunEnd(s, i)];
    }
  }

  /** Position of the next brace at or after `i`, or `|s|`. */
  function NextBrace(s: string, i: nat): (j: nat)
    requires i <= |s|
    ensures i <= j <= |s|
    ensures j < |s| ==> IsBrace(s[j])
    decreases |s| - i
  {
    if i == |s| || IsBrace(s[i]) then i else NextBrace(s, i + 1)
  }

  /** Where the declaration block opened just before `i` closes: non-brace text and groups
      `{...}` of one level only, then '}'. A second nesting level or a missing brace is no match. */
  function BlockEnd(s: string, i: nat): (r: Option<nat>)
    requires i <= |s|
    ensures r.Some? ==> i <= r.value < |s| && s[r.value] == '}'
    decreases |s| - i
  {
    var j := NextBrace(s, i);
    if j == |s| then None
    else if s[j] == '}' then Some(j)
    else
      var k := NextBrace(s, j + 1);
      if k < |s| && s[k] == '}' then BlockEnd(s, k + 1) else None
  }

  /** What the replace loop sees in the text: a character it copies, or a matched rule with its
      captured prelude (group 1) and block (group 2). */
  datatype Piece = Copy(c: char) | Rule(prelude: string, block: string)

  /** One step of the replace loop at `i`: a rule match if one starts there, otherwise the
      character, with the position where the next attempt starts. */
  function Step(s: string, i: nat): (r: (Piece, nat))
    requires i < |s|
    ensures i < r.1 <= |s|
  {
    var r := RunEnd(s, i);
    if i < r < |s| && s[r] == '{' && BlockEnd(s, r + 1).Some? then
      var e := BlockEnd(s, r + 1).value;
      (Rule(s[i..r], s[r + 1..e]), e + 1)
    else
      (Copy(s[i]), i + 1)
  }

  /** The replace loop: take a step at `i`, then continue where the step left off. */
  function Scan(s: string, i: nat): seq<Piece>
    requires i <= |s|
    decreases |s| - i
  {
    if i == |s| then [] else [Step(s, i).0] + Scan(s, Step(s, i).1)
  }

  /** The source text a piece was read from. */
  function Source(p: Piece): string {
    match p
    case Copy(c) => [c]
    case Rule(prelude, block) => prelude + "{" + block + "}"
  }

  function Sources(ps: seq<Piece>): string {
    if |ps| == 0 then "" else Source(ps[0]) + Sources(ps[1..])
  }

  /** The replacement text of one piece: a copied character stays, a rule is rewritten. */
  function RenderPiece(p: Piece, ns: string): string {
    match p
    case Copy(c) => [c]
    case Rule(prelude, block) => RewriteRule(prelude, block, ns)
  }

  function Render(ps: seq<Piece>, ns: string): string {
    if |ps| == 0 then "" else RenderPiece(ps[0], ns) + Render(ps[1..], ns)
  }

  /** `namespaceCSS(css, namespace)`. */
  function NamespaceCss(css: string, ns: string): (r: string)
    ensures css == "" || ns == "" ==> r == css
  {
    if css == "" || ns == "" then css else Render(Scan(css, 0), ns)
  }

  /** A step consumes exactly the text of the piece it returns; a matched prelude is a
      non-empty run free of braces and '@'. */
  lemma StepSource(s: string, i: nat)
    requires i < |s|
    ensures Source(Step(s, i).0) == s[i..Step(s, i).1]
    ensures Step(s, i).0.Rule? ==> Step(s, i).0.prelude != "" && NoBraceOrAt(Step(s, i).0.prelude)
  {
    var r := RunEnd(s, i);
    if i < r < |s| && s[r] == '{' && BlockEnd(s, r + 1).Some? {
      RuleSlice(s, i, r, BlockEnd(s, r + 1).value);
      RunEndClean(s, i);
    }
  }

  /** A prelude, its brace, its block and the closing brace make up the matched text. */
  lemma RuleSlice(s: string, i: nat, r: nat, e: nat)
    requires i <= r < e < |s| && s[r] == '{' && s[e] == '}'
    ensures s[i..r] + "{" + s[r + 1..e] + "}" == s[i..e + 1]
  {
    assert s[i..e + 1] == s[i..r] + [s[r]] + s[r + 1..e] + [s[e]];
  }

  lemma SliceSplit(s: string, i: nat, j: nat)
    requires i <= j <= |s|
    ensures s[i..j] + s[j..] == s[i..]
  {
  }

  lemma SourcesCons(p: Piece, rest: seq<Piece>)
    ensures Sources([p] + rest) == Source(p) + Sources(rest)
  {
    assert ([p] + rest)[1..] == rest;
  }

  /** The scan partitions the text: matched rules and copied characters, in order, are exactly
      the input from `i` on. */
  lemma {:induction false} ScanPartitions(s: string, i: nat)
    requires i <= |s|
    ensures Sources(Scan(s, i)) == s[i..]
    decreases |s| - i
  {
    if i < |s| {
      var (p, next) := Step(s, i);
      ScanPartitions(s, next);
      SourcesCons(p, Scan(s, next));
      StepSource(s, i);
      SliceSplit(s, i, next);
    }
  }

  /** Every matched prelude is a non-empty run free of braces and '@'. */
  lemma {:induction false} ScanPreludes(s: string, i: nat)
    requires i <= |s|
    ensures forall k :: 0 <= k < |Scan(s, i)| && Scan(s, i)[k].Rule? ==>
      Scan(s, i)[k].prelude != "" && NoBraceOrAt(Scan(s, i)[k].prelude)
    decreases |s| - i
  {
    if i < |s| {
      var (p, next) := Step(s, i);
      var rest := Scan(s, next);
      var ps := Scan(s, i);
      assert ps == [p] + rest;
      ScanPreludes(s, next);
      StepSource(s, i);
      forall k | 0 <= k < |ps| && ps[k].Rule?
        ensures ps[k].prelude != "" && NoBraceOrAt(ps[k].prelude)
      {
        if k > 0 {
          assert ps[k] == rest[k - 1];
        }
      }
    }
  }

  /** Text without an opening brace contains no rule: the scan only copies. */
  lemma {:induction false} ScanNoRule(s: string, i: nat)
    requires i <= |s|
    requires forall k :: i <= k < |s| ==> s[k] != '{'
    ensures forall k :: 0 <= k < |Scan(s, i)| ==> Scan(s, i)[k].Copy?
    decreases |s| - i
  {
    if i < |s| {
      assert Step(s, i) == (Copy(s[i]), i + 1);
      ScanNoRule(s, i + 1);
    }
  }

  /** Copied characters render as themselves. */
  lemma {:induction false} RenderCopies(ps: seq<Piece>, ns: string)
    requires forall k :: 0 <= k < |ps| ==> ps[k].Copy?
    ensures Render(ps, ns) == Sources(ps)
  {
    if |ps| > 0 {
      RenderCopies(ps[1..], ns);
    }
  }

  /** CSS without a '{' comes back unchanged. */
  lemma NamespaceCssNoRule(css: string, ns: string)
    requires forall k :: 0 <= k < |css| ==> css[k] != '{'
    ensures NamespaceCss(css, ns) == css
  {
    if css != "" && ns != "" {
      ScanNoRule(css, 0);
      RenderCopies(Scan(css, 0), ns);
      ScanPartitions(css, 0);
    }
  }

  predicate NoBraceOrAt(s: string) {
    forall k :: 0 <= k < |s| ==> !IsBrace(s[k]) && s[k] != '@'
  }

  predicate NoBrace(s: string) {
    forall k :: 0 <= k < |s| ==> !IsBrace(s[k])
  }

  /** `NextBrace` skips exactly a brace-free stretch `w` that ends at a brace. */
  lemma {:induction false} NextBraceOver(a: string, w: string, b: string)
    requires NoBrace(w) && |b| > 0 && IsBrace(b[0])
    ensures NextBrace(a + w + b, |a|) == |a| + |w|
    decreases |w|
  {
    if |w| > 0 {
      assert a + w + b == (a + [w[0]]) + w[1..] + b;
      NextBraceOver(a + [w[0]], w[1..], b);
    }
  }

  /** `RunEnd` skips exactly a stretch `w` free of braces and '@' that ends at a brace. */
  lemma {:induction false} RunEndOver(a: string, w: string, b: string)
    requires NoBraceOrAt(w) && |b| > 0 && IsBrace(b[0])
    ensures RunEnd(a + w + b, |a|) == |a| + |w|
    decreases |w|
  {
    if |w| > 0 {
      assert a + w + b == (a + [w[0]]) + w[1..] + b;
      RunEndOver(a + [w[0]], w[1..], b);
    }
  }

  /** A block whose text up to `j` is brace-free, with one group `{...}` from `j` to `k`, then
      brace-free text up to the closing '}' at `e`, closes at `e`. */
  lemma BlockEndOneLevel(s: string, i: nat, j: nat, k: nat, e: nat)
    requires i <= j < k < e < |s|
    requires NextBrace(s, i) == j && s[j] == '{'
    requires NextBrace(s, j + 1) == k && s[k] == '}'
    requires NextBrace(s, k + 1) == e && s[e] == '}'
    ensures BlockEnd(s, i) == Some(e)
  {
    assert BlockEnd(s, k + 1) == Some(e);
  }

  /** The text of an at-rule with one nested rule. */
  function AtRuleText(p: string, x: string, y: string, z: string): string {
    "@" + p + "{" + x + "{" + y + "}" + z + "}"
  }

  /** Where the braces of `@p{x{y}z}` sit, and what lies between them. */
  lemma AtRuleLayout(p: string, x: string, y: string, z: string)
    requires NoBraceOrAt(p) && NoBrace(x) && NoBrace(y) && NoBrace(z)
    ensures var s := AtRuleText(p, x, y, z);
      var r := 1 + |p|; var j := r + 1 + |x|; var k := j + 1 + |y|; var e := |s| - 1;
      && RunEnd(s, 1) == r && s[r] == '{'
      && NextBrace(s, r + 1) == j && s[j] == '{'
      && NextBrace(s, j + 1) == k && s[k] == '}'
      && NextBrace(s, k + 1) == e && s[e] == '}'
      && s[1..r] == p && s[r + 1..e] == x + "{" + y + "}" + z
  {
    LayoutPrelude(p, x, y, z);
    LayoutOpen(p, x, y, z);
    LayoutInner(p, x, y, z);
    LayoutClose(p, x, y, z);
  }

  lemma LayoutPrelude(p: string, x: string, y: string, z: string)
    requires NoBraceOrAt(p)
    ensures var s := AtRuleText(p, x, y, z);
      RunEnd(s, 1) == 1 + |p| && s[1 + |p|] == '{' && s[1..1 + |p|] == p
  {
    var s := AtRuleText(p, x, y, z);
    var rest := "{" + x + "{" + y + "}" + z + "}";
    assert s == "@" + p + rest;
    RunEndOver("@", p, rest);
  }

  lemma LayoutOpen(p: string, x: string, y: string, z: string)
    requires NoBrace(x)
    ensures var s := AtRuleText(p, x, y, z);
      NextBrace(s, 2 + |p|) == 2 + |p| + |x| && s[2 + |p| + |x|] == '{'
  {
    var s := AtRuleText(p, x, y, z);
    var rest := "{" + y + "}" + z + "}";
    Regroup("@" + p + "{", x, "{", y, "}", z, "}");
    NextBraceOver("@" + p + "{", x, rest);
  }

  lemma Regroup(a: string, b: string, c: string, d: string, e: string, f: string, g: string)
    ensures a + b + c + d + e + f + g == a + b + (c + d + e + f + g)
  {
  }

  lemma LayoutInner(p: string, x: string, y: string, z: string)
    requires NoBrace(y)
    ensures var s := AtRuleText(p, x, y, z); var j := 2 + |p| + |x|;
      NextBrace(s, j + 1) == j + 1 + |y| && s[j + 1 + |y|] == '}'
  {
    var s := AtRuleText(p, x, y, z);
    var rest := "}" + z + "}";
    assert s == ("@" + p + "{" + x + "{") + y + rest;
    NextBraceOver("@" + p + "{" + x + "{", y, rest);
  }

  lemma LayoutClose(p: string, x: string, y: string, z: string)
    requires NoBrace(z)
    ensures var s := AtRuleText(p, x, y, z); var k := 3 + |p| + |x| + |y|;
      NextBrace(s, k + 1) == |s| - 1 && s[|s| - 1] == '}' && s[2 + |p|..|s| - 1] == x + "{" + y + "}" + z
  {
    var s := AtRuleText(p, x, y, z);
    assert s == ("@" + p + "{" + x + "{" + y + "}") + z + "}";
    NextBraceOver("@" + p + "{" + x + "{" + y + "}", z, "}");
    assert s == ("@" + p + "{") + (x + "{" + y + "}" + z) + "}";
  }

  /** The '@' test of the rewriter never fires: the captured prelude cannot contain '@', so an
      at-rule `@p{x{y}z}` (one nested block) is matched from the character after '@'. The '@' is
      copied, the rest of the prelude is namespaced like a plain selector, and the nested rule
      `x{y}` is kept verbatim inside the block without being rewritten. */
  lemma AtRuleIsNamespaced(p: string, x: string, y: string, z: string)
    requires p != "" && NoBraceOrAt(p) && NoBrace(x) && NoBrace(y) && NoBrace(z)
    ensures Scan(AtRuleText(p, x, y, z), 0) == [Copy('@'), Rule(p, x + "{" + y + "}" + z)]
  {
    var s := AtRuleText(p, x, y, z);
    var r := 1 + |p|;
    var j := r + 1 + |x|;
    var k := j + 1 + |y|;
    var e := |s| - 1;
    AtRuleLayout(p, x, y, z);
    BlockEndOneLevel(s, r + 1, j, k, e);
    StepRule(s, 1, r, e);
    assert s[0] == '@';
    ScanPair(s, Copy('@'), Rule(p, x + "{" + y + "}" + z));
  }

  /** A step at a run ending in a matched block reads one rule. */
  lemma StepRule(s: string, i: nat, r: nat, e: nat)
    requires i < r < |s| && RunEnd(s, i) == r && s[r] == '{' && BlockEnd(s, r + 1) == Some(e)
    ensures Step(s, i) == (Rule(s[i..r], s[r + 1..e]), e + 1)
  {
  }

  /** A text read in two steps, '@' first, scans to those two pieces. */
  lemma ScanPair(s: string, a: Piece, b: Piece)
    requires |s| > 1 && s[0] == '@' && Step(s, 1) == (b, |s|) && a == Copy('@')
    ensures Scan(s, 0) == [a, b]
  {
    assert RunEnd(s, 0) == 0;
    assert Step(s, 0) == (a, 1);
    assert Scan(s, 1) == [b] + Scan(s, |s|);
  }

  /** So `namespaceCSS` turns `@p{x{y}z}` into '@' followed by the rewrite of the rule `p{...}`:
      the at-rule keyword itself is treated as a selector, and the nested rule keeps no class. */
  lemma AtRuleRendered(p: string, x: string, y: string, z: string, ns: string)
    requires p != "" && NoBraceOrAt(p) && NoBrace(x) && NoBrace(y) && NoBrace(z) && ns != ""
    ensures NamespaceCss(AtRuleText(p, x, y, z), ns) == "@" + RewriteRule(p, x + "{" + y + "}" + z, ns)
  {
    AtRuleIsNamespaced(p, x, y, z);
    var rule := Rule(p, x + "{" + y + "}" + z);
    RenderPair(Copy('@'), rule, ns);
    assert Render([rule], ns) == RenderPiece(rule, ns) + Render([], ns);
  }

  lemma RenderPair(a: Piece, b: Piece, ns: string)
    ensures Render([a, b], ns) == Render([a], ns) + Render([b], ns)
  {
    assert [a, b][1..] == [b];
  }

  // ---------------------------------------------------------------------------------------
  // The registry of injected <style> elements (document.head, abstracted)
  // ---------------------------------------------------------------------------------------

  datatype StyleElement = StyleElement(id: string, namespace: string, text: string)

  /** The style elements of the document head, in document order. */
  type Head = seq<StyleElement>

  function StyleId(ns: string): string {
    "widget-style-" + ns
  }

  /** The elements carrying a given id, in order. */
  function WithId(head: Head, id: string): (r: Head)
    ensures |r| <= |head|
    ensures forall e :: e in r <==> e in head && e.id == id
  {
    if |head| == 0 then []
    else (if head[0].id == id then [head[0]] else []) + WithId(head[1..], id)
  }

  /** At most one element per id. */
  predicate UniqueIds(head: Head) {
    forall i, j :: 0 <= i < j < |head| ==> head[i].id != head[j].id
  }

  /** `element.remove()` of the first element `getElementById` finds, if there is one. */
  function RemoveFirst(head: Head, id: string): (r: Head)
    ensures forall id' :: id' != id ==> WithId(r, id') == WithId(head, id')
    ensures WithId(r, id) == if |WithId(head, id)| == 0 then [] else WithId(head, id)[1..]
    ensures forall e :: e in r ==> e in head
    ensures |WithId(head, id)| == 0 ==> r == head
  {
    if |head| == 0 then []
    else if head[0].id == id then head[1..]
    else [head[0]] + RemoveFirst(head[1..], id)
  }

  /** `removeNamespacedCSS(namespace)`. */
  function RemoveNamespacedCss(head: Head, ns: string): (r: Head)
    ensures UniqueIds(head) ==> |WithId(r, StyleId(ns))| == 0
    ensures forall id :: id != StyleId(ns) ==> WithId(r, id) == WithId(head, id)
    ensures |WithId(head, StyleId(ns))| == 0 ==> r == head
  {
    UniqueWithId(head, StyleId(ns));
    RemoveFirst(head, StyleId(ns))
  }

  /** `injectNamespacedCSS(css, namespace)`: drop the old element, append a fresh one holding
      the rewritten CSS. */
  function InjectNamespacedCss(head: Head, css: string, ns: string): (r: Head)
    ensures UniqueIds(head) ==> WithId(r, StyleId(ns)) == [StyleElement(StyleId(ns), ns, NamespaceCss(css, ns))]
    ensures forall id :: id != StyleId(ns) ==> WithId(r, id) == WithId(head, id)
    ensures |r| > 0 && r[|r| - 1] == StyleElement(StyleId(ns), ns, NamespaceCss(css, ns))
  {
    var e := StyleElement(StyleId(ns), ns, NamespaceCss(css, ns));
    var cleared := RemoveNamespacedCss(head, ns);
    WithIdAppend(cleared, e, StyleId(ns));
    forall id | id != StyleId(ns) ensures WithId(cleared + [e], id) == WithId(head, id) {
      WithIdAppend(cleared, e, id);
    }
    cleared + [e]
  }

  lemma {:induction false} WithIdAppend(head: Head, e: StyleElement, id: string)
    ensures WithId(head + [e], id) == WithId(head, id) + (if e.id == id then [e] else [])
  {
    if |head| > 0 {
      assert (head + [e])[1..] == head[1..] + [e];
      WithIdAppend(head[1..], e, id);
    }
  }

  /** With unique ids, an id names at most one element. */
  lemma {:induction false} UniqueWithId(head: Head, id: string)
    ensures UniqueIds(head) ==> |WithId(head, id)| <= 1
  {
    if |head| > 0 && UniqueIds(head) {
      UniqueWithId(head[1..], id);
      if head[0].id == id {
        forall k | 0 <= k < |head[1..]| ensures head[1..][k].id != id {
          assert head[1..][k] == head[k + 1];
        }
        WithIdNone(head[1..], id);
      }
    }
  }

  /** An id no element carries selects nothing. */
  lemma {:induction false} WithIdNone(head: Head, id: string)
    requires forall k :: 0 <= k < |head| ==> head[k].id != id
    ensures WithId(head, id) == []
  {
    if |head| > 0 {
      WithIdNone(head[1..], id);
    }
  }

  /** Injection and removal keep at most one style element per id. */
  lemma InjectRemoveKeepUnique(head: Head, css: string, ns: string)
    requires UniqueIds(head)
    ensures UniqueIds(RemoveNamespacedCss(head, ns))
    ensures UniqueIds(InjectNamespacedCss(head, css, ns))
  {
    var cleared := RemoveNamespacedCss(head, ns);
    forall i, j | 0 <= i < j < |cleared| ensures cleared[i].id != cleared[j].id {
      RemoveFirstSubseq(head, StyleId(ns), i, j);
    }
    var e := StyleElement(StyleId(ns), ns, NamespaceCss(css, ns));
    forall c | c in cleared ensures c.id != StyleId(ns) {
      assert c !in WithId(cleared, StyleId(ns));
    }
    var r := cleared + [e];
    forall i, j | 0 <= i < j < |r| ensures r[i].id != r[j].id {
      if j == |r| - 1 {
        assert r[i] in cleared;
      }
    }
  }

  /** Position of the first element with an id, `|head|` when there is none. */
  function FirstWithId(head: Head, id: string): (p: nat)
    ensures p <= |head|
    ensures forall k :: 0 <= k < p ==> head[k].id != id
    ensures p < |head| ==> head[p].id == id
  {
    if |head| == 0 then 0 else if head[0].id == id then 0 else 1 + FirstWithId(head[1..], id)
  }

  /** Removing the first element with an id shifts everything after it down by one. */
  lemma {:induction false} RemoveFirstIndex(head: Head, id: string, i: nat)
    requires i < |RemoveFirst(head, id)|
    ensures var t := if i < FirstWithId(head, id) then i else i + 1;
            t < |head| && RemoveFirst(head, id)[i] == head[t]
  {
    if head[0].id == id {
      assert RemoveFirst(head, id)[i] == head[1..][i];
    } else if i > 0 {
      RemoveFirstIndex(head[1..], id, i - 1);
      var t := if i - 1 < FirstWithId(head[1..], id) then i - 1 else i;
      assert head[1..][t] == head[t + 1];
    }
  }

  /** Removing the first element with an id keeps the rest in order, so distinct ids stay distinct. */
  lemma RemoveFirstSubseq(head: Head, id: string, i: nat, j: nat)
    requires UniqueIds(head)
    requires i < j < |RemoveFirst(head, id)|
    ensures RemoveFirst(head, id)[i].id != RemoveFirst(head, id)[j].id
  {
    RemoveFirstIndex(head, id, i);
    RemoveFirstIndex(head, id, j);
  }
}

=== FILE: dashboard_grid.dfy ===
/** The dashboard grid component: the props it passes to the grid library, the children it
    renders, and the callbacks it forwards. */
module DashboardGrid {
  import opened Wrappers
  import opened DashboardTypes
  import opened GridLayout
  import DashboardLayout

  datatype GridProps = GridProps(
    widgets: seq<Widget>,
    columns: Option<int>,
    rowHeight: Option<int>,
    margin: Option<(int, int)>,
    isEdit: Option<bool>)

  /** The grid library's props and the keys of the rendered children. */
  datatype GridView = GridView(
    layout: seq<LayoutItem>,
    cols: int,
    rowHeight: int,
    width: int,
    margin: (int, int),
    containerPadding: (int, int),
    isDraggable: bool,
    isResizable: bool,
    isBounded: bool,
    verticalCompaction: bool,
    preventCollision: bool,
    children: seq<string>)

  const DefaultColumns := 24
  const DefaultRowHeight := 50
  const DefaultMargin := (10, 10)
  /** The width used when there is no window. */
  const FallbackWidth := 1200

  /** The grid's item for one widget: defaults 0/0/8/6, minimum 2x2, edit flags `isEdit`. */
  function GridItem(isEdit: bool): Widget -> LayoutItem {
    w => LayoutItem(IdOrEmpty(w), NumOr(w.col, 0), NumOr(w.row, 0), NumOr(w.sizeX, 8), NumOr(w.sizeY, 6),
                    2, 2, Some(isEdit), Some(isEdit))
  }

  /** The grid's item is the layout hook's item with the edit flags set. */
  lemma GridItemIsHookItem(isEdit: bool, w: Widget)
    ensures GridItem(isEdit)(w) == DashboardLayout.HookItem(w).(isResizable := Some(isEdit), isDraggable := Some(isEdit))
  {
  }

  /** One render. `windowWidth` is `window.innerWidth` when a window exists. */
  function Render(p: GridProps, windowWidth: Option<int>): (v: GridView)
    ensures v.children == TruthyIds(p.widgets)
    ensures ItemKeys(v.layout) == v.children
    ensures forall it :: it in v.layout ==>
              it.i != "" && it.minW == 2 && it.minH == 2 && it.w != 0 && it.h != 0 &&
              it.isResizable == Some(v.isResizable) && it.isDraggable == Some(v.isDraggable)
    ensures v.isDraggable == v.isResizable == (p.isEdit == Some(true))
    ensures v.cols == (if p.columns.Some? then p.columns.value else DefaultColumns)
    ensures v.rowHeight == (if p.rowHeight.Some? then p.rowHeight.value else DefaultRowHeight)
    ensures v.margin == (if p.margin.Some? then p.margin.value else DefaultMargin)
    ensures v.width == (if windowWidth.Some? then windowWidth.value else FallbackWidth)
    ensures v.containerPadding == (0, 0) && !v.isBounded && v.verticalCompaction && !v.preventCollision
  {
    var isEdit := p.isEdit.GetOr(false);
    ItemKeysAreIds(p.widgets, GridItem(isEdit));
    GridView(ItemsOf(p.widgets, GridItem(isEdit)), p.columns.GetOr(DefaultColumns), p.rowHeight.GetOr(DefaultRowHeight),
             windowWidth.GetOr(FallbackWidth), p.margin.GetOr(DefaultMargin), (0, 0), isEdit, isEdit,
             false, true, false, TruthyIds(p.widgets))
  }

  /** Every widget with an id gets its item, at its own position. */
  lemma RenderCovers(p: GridProps, windowWidth: Option<int>, w: Widget)
    requires w in p.widgets && HasId(w)
    ensures var it := GridItem(p.isEdit == Some(true))(w);
            it in Render(p, windowWidth).layout && it.i == w.id.value && it.x == w.col && it.y == w.row
  {
    ItemsOfCovers(p.widgets, GridItem(p.isEdit == Some(true)), w);
  }

  datatype ResizeEvent = ResizeEvent(widgetId: string, w: int, h: int)

  datatype MoveEvent = MoveEvent(widgetId: string, x: int, y: int)

  /** `onResizeStop`: forwards the new item's key and size when a handler is given. */
  function OnResizeStop(hasHandler: bool, newItem: LayoutItem): (e: Option<ResizeEvent>)
    ensures e.Some? <==> hasHandler
    ensures e.Some? ==> e.value.widgetId == newItem.i && e.value.w == newItem.w && e.value.h == newItem.h
  {
    if hasHandler then Some(ResizeEvent(newItem.i, newItem.w, newItem.h)) else None
  }

  /** `onDragStop`: forwards the new item's key and position when a handler is given. */
  function OnDragStop(hasHandler: bool, newItem: LayoutItem): (e: Option<MoveEvent>)
    ensures e.Some? <==> hasHandler
    ensures e.Some? ==> e.value.widgetId == newItem.i && e.value.x == newItem.x && e.value.y == newItem.y
  {
    if hasHandler then Some(MoveEvent(newItem.i, newItem.x, newItem.y)) else None
  }

  /** `onLayoutChange`: forwards the new layout unchanged when a handler is given. */
  function OnLayoutChange(hasHandler: bool, newLayout: seq<LayoutItem>): (e: Option<seq<LayoutItem>>)
    ensures e.Some? <==> hasHandler
    ensures e.Some? ==> e.value == newLayout
  {
    if hasHandler then Some(newLayout) else None
  }
}

=== FILE: dashboard_layout.dfy ===
/** The dashboard-layout hook: the widget map seen as grid items, and the three callbacks
    the grid fires. A callback is modelled by the actions it dispatches to the dashboard
    store, in dispatch order. */
module DashboardLayout {
  import opened Wrappers
  import opened Dict
  import opened DashboardTypes
  import opened DashboardSlice
  import opened GridLayout

  /** The hook's item for one widget: position and size with `||` defaults, minimum 2x2. */
  function HookItem(w: Widget): LayoutItem {
    LayoutItem(IdOrEmpty(w), NumOr(w.col, 0), NumOr(w.row, 0), NumOr(w.sizeX, 8), NumOr(w.sizeY, 6),
               2, 2, None, None)
  }

  /** The `layout` memo: one item per widget with a truthy id, in map order. */
  function Layout(widgets: Dict<Widget>): (items: seq<LayoutItem>)
    ensures ItemKeys(items) == TruthyIds(Values(widgets))
    ensures forall it :: it in items ==>
              it.i != "" && it.w != 0 && it.h != 0 && it.minW == 2 && it.minH == 2
    ensures forall it :: it in items ==> it.isResizable.None? && it.isDraggable.None?
  {
    ItemKeysAreIds(Values(widgets), HookItem);
    ItemsOf(Values(widgets), HookItem)
  }

  /** Every widget that has an id shows up with its own position; a zero size shows as the
      default 8x6. */
  lemma LayoutCovers(widgets: Dict<Widget>, w: Widget)
    requires w in Values(widgets) && HasId(w)
    ensures HookItem(w) in Layout(widgets)
    ensures HookItem(w).i == w.id.value && HookItem(w).x == w.col && HookItem(w).y == w.row
    ensures HookItem(w).w == (if w.sizeX == 0 then 8 else w.sizeX)
    ensures HookItem(w).h == (if w.sizeY == 0 then 6 else w.sizeY)
  {
    ItemsOfCovers(Values(widgets), HookItem, w);
  }

  /** `{col: x, row: y, sizeX: w, sizeY: h}` as a partial widget. */
  function PositionUpdate(it: LayoutItem): WidgetUpdate {
    WidgetUpdate(None, None, None, Some(it.w), Some(it.h), Some(it.y), Some(it.x), None)
  }

  /** `{...widget, col: x, row: y, sizeX: w, sizeY: h}`. */
  function Place(w: Widget, it: LayoutItem): Widget {
    w.(col := it.x, row := it.y, sizeX := it.w, sizeY := it.h)
  }

  /** Merging a position update is placing the widget at the item. */
  lemma MergePosition(w: Widget, it: LayoutItem)
    ensures Merge(w, PositionUpdate(it)) == Place(w, it)
  {
  }

  /** The `updateWidget` actions of a layout change: one per item whose key is a widget of the
      map the callback captured, in item order. */
  function LayoutUpdates(widgets: Dict<Widget>, items: seq<LayoutItem>): (acts: seq<Action>)
    ensures |acts| <= |items|
    ensures forall a :: a in acts ==> a.UpdateWidgetAction? && Has(widgets, a.id)
    ensures forall a :: a in acts ==> exists it :: it in items && a == UpdateWidgetAction(it.i, PositionUpdate(it))
  {
    if |items| == 0 then []
    else
      var rest := LayoutUpdates(widgets, items[1..]);
      if Has(widgets, items[0].i) then [UpdateWidgetAction(items[0].i, PositionUpdate(items[0]))] + rest
      else rest
  }

  /** `newLayout.find(item => item.i === widget.id)`, as an index: `|items|` when none. */
  function FirstItem(items: seq<LayoutItem>, id: Option<string>): (k: nat)
    ensures k <= |items|
    ensures forall j :: 0 <= j < k ==> Some(items[j].i) != id
    ensures k < |items| ==> Some(items[k].i) == id
  {
    if |items| == 0 then 0
    else if Some(items[0].i) == id then 0
    else 1 + FirstItem(items[1..], id)
  }

  /** One widget after the change: placed at the first item with its id, else unchanged. */
  function Relayout(w: Widget, items: seq<LayoutItem>): Widget {
    var k := FirstItem(items, w.id);
    if k < |items| then Place(w, items[k]) else w
  }

  /** `updatedWidgets`: every widget keeps all fields but col/row/sizeX/sizeY, which come
      from the first item carrying its id; a widget without such an item is unchanged. */
  function UpdatedWidgets(ws: seq<Widget>, items: seq<LayoutItem>): (r: seq<Widget>)
    ensures |r| == |ws|
    ensures forall k :: 0 <= k < |ws| ==>
              r[k] == ws[k].(col := r[k].col, row := r[k].row, sizeX := r[k].sizeX, sizeY := r[k].sizeY)
    ensures forall k :: 0 <= k < |ws| ==>
              (forall it :: it in items ==> Some(it.i) != ws[k].id) ==> r[k] == ws[k]
    ensures forall k :: 0 <= k < |ws| ==>
              var j := FirstItem(items, ws[k].id);
              j < |items| ==> r[k].col == items[j].x && r[k].row == items[j].y &&
                              r[k].sizeX == items[j].w && r[k].sizeY == items[j].h
  {
    if |ws| == 0 then [] else [Relayout(ws[0], items)] + UpdatedWidgets(ws[1..], items)
  }

  /** `w.id` is truthy and equal to `k`. */
  predicate IdIs(w: Widget, k: string) {
    HasId(w) && w.id.value == k
  }

  /** One step of that `reduce`: `acc[w.id] = w` when the id is truthy. */
  function AddById(acc: Dict<Widget>, w: Widget): (r: Dict<Widget>)
    ensures Wf(acc) ==> Wf(r)
    ensures forall k :: Get(r, k) == if IdIs(w, k) then Some(w) else Get(acc, k)
  {
    if HasId(w) then Set(acc, w.id.value, w) else acc
  }

  /** The `reduce` that builds an object keyed by id, skipping widgets without one. */
  function IndexById(acc: Dict<Widget>, ws: seq<Widget>): (r: Dict<Widget>)
    ensures Wf(acc) ==> Wf(r)
    decreases |ws|
  {
    if |ws| == 0 then acc
    else IndexById(AddById(acc, ws[0]), ws[1..])
  }

  /** A key no widget carries keeps whatever the accumulator had. */
  lemma {:induction false} IndexByIdAbsent(acc: Dict<Widget>, ws: seq<Widget>, k: string)
    requires forall i :: 0 <= i < |ws| ==> !IdIs(ws[i], k)
    ensures Get(IndexById(acc, ws), k) == Get(acc, k)
    decreases |ws|
  {
    if |ws| > 0 {
      assert !IdIs(ws[0], k);
      IndexByIdAbsent(AddById(acc, ws[0]), ws[1..], k);
    }
  }

  /** A key exactly one widget carries maps to that widget. */
  lemma {:induction false} IndexByIdUnique(acc: Dict<Widget>, ws: seq<Widget>, k: string, j: nat)
    requires j < |ws| && IdIs(ws[j], k)
    requires forall i :: 0 <= i < |ws| && i != j ==> !IdIs(ws[i], k)
    ensures Get(IndexById(acc, ws), k) == Some(ws[j])
    decreases |ws|
  {
    var acc' := AddById(acc, ws[0]);
    var tail := ws[1..];
    if j == 0 {
      IndexByIdAbsent(acc', tail, k);
    } else {
      IndexByIdUnique(acc', tail, k, j - 1);
    }
  }

  /** `handleLayoutChange(newLayout)`: nothing without a current dashboard and a
      configuration; otherwise the widget updates, then the configuration whose widgets are
      the updated widgets keyed by id, all other configuration fields kept. */
  function HandleLayoutChange(current: Option<Dashboard>, config: Option<Configuration>,
                              widgets: Dict<Widget>, newLayout: seq<LayoutItem>): (acts: seq<Action>)
    ensures current.None? || config.None? ==> acts == []
    ensures current.Some? && config.Some? ==>
              |acts| >= 1 && acts[..|acts| - 1] == LayoutUpdates(widgets, newLayout)
    ensures current.Some? && config.Some? ==>
              var last := acts[|acts| - 1];
              last.SetDashboardConfiguration? &&
              last.configuration == config.value.(widgets := last.configuration.widgets) &&
              last.configuration.widgets == Some(WidgetMap(IndexById([], UpdatedWidgets(Values(widgets), newLayout))))
  {
    if current.None? || config.None? then []
    else
      var updated := UpdatedWidgets(Values(widgets), newLayout);
      var acts := LayoutUpdates(widgets, newLayout);
      var final := SetDashboardConfiguration(config.value.(widgets := Some(WidgetMap(IndexById([], updated)))));
      assert (acts + [final])[..|acts|] == acts;
      acts + [final]
  }

  /** The store applying dispatched actions in order. */
  function Dispatch(s: SliceState, acts: seq<Action>): SliceState
    decreases |acts|
  {
    if |acts| == 0 then s else Dispatch(Reduce(s, acts[0]), acts[1..])
  }

  lemma {:induction false} DispatchSnoc(s: SliceState, acts: seq<Action>, a: Action)
    ensures Dispatch(s, acts + [a]) == Reduce(Dispatch(s, acts), a)
    decreases |acts|
  {
    if |acts| > 0 {
      assert (acts + [a])[1..] == acts[1..] + [a];
      DispatchSnoc(Reduce(s, acts[0]), acts[1..], a);
    }
  }

  /** No two items share a key, as the grid guarantees. */
  predicate DistinctItems(items: seq<LayoutItem>) {
    forall i, j :: 0 <= i < j < |items| ==> items[i].i != items[j].i
  }

  /** The store's widget `k` after the layout updates: placed at the item with key `k` when
      both exist, otherwise unchanged. */
  lemma {:induction false} StoreAfterUpdates(s: SliceState, widgets: Dict<Widget>, items: seq<LayoutItem>, k: string)
    requires forall k' :: Has(s.widgets, k') <==> Has(widgets, k')
    requires DistinctItems(items)
    ensures var j := FirstItem(items, Some(k));
            Get(Dispatch(s, LayoutUpdates(widgets, items)).widgets, k) ==
              if j < |items| && Has(s.widgets, k) then Some(Place(Get(s.widgets, k).value, items[j]))
              else Get(s.widgets, k)
    decreases |items|
  {
    if |items| > 0 {
      var it := items[0];
      var rest := items[1..];
      DistinctTail(items);
      var s1 := UpdatesHead(s, widgets, items);
      assert Get(s1.widgets, k) == if it.i == k && Has(s.widgets, k) then Some(Place(Get(s.widgets, k).value, it))
                                   else Get(s.widgets, k) by {
        UpdateStep(s, it, k);
      }
      StoreAfterUpdates(s1, widgets, rest, k);
      var j' := FirstItem(rest, Some(k));
      if it.i == k {
        FirstItemAbsent(items);
        assert j' == |rest|;
      } else {
        assert FirstItem(items, Some(k)) == 1 + j';
        assert j' < |rest| ==> items[1 + j'] == rest[j'];
      }
    }
  }

  lemma DistinctTail(items: seq<LayoutItem>)
    requires |items| > 0 && DistinctItems(items)
    ensures DistinctItems(items[1..])
  {
    var rest := items[1..];
    forall i, j | 0 <= i < j < |rest| ensures rest[i].i != rest[j].i {
      assert rest[i] == items[i + 1] && rest[j] == items[j + 1];
    }
  }

  /** With distinct keys, the key of the first item occurs nowhere after it. */
  lemma FirstItemAbsent(items: seq<LayoutItem>)
    requires |items| > 0 && DistinctItems(items)
    ensures FirstItem(items[1..], Some(items[0].i)) == |items| - 1
  {
  }

  /** Dispatching the first item's update, if any, and what it leaves to dispatch. */
  lemma UpdatesHead(s: SliceState, widgets: Dict<Widget>, items: seq<LayoutItem>) returns (s1: SliceState)
    requires |items| > 0
    requires forall k' :: Has(s.widgets, k') <==> Has(widgets, k')
    ensures s1 == if Has(widgets, items[0].i) then Reduce(s, UpdateWidgetAction(items[0].i, PositionUpdate(items[0]))) else s
    ensures Dispatch(s, LayoutUpdates(widgets, items)) == Dispatch(s1, LayoutUpdates(widgets, items[1..]))
    ensures forall k' :: Has(s1.widgets, k') <==> Has(widgets, k')
  {
    var it := items[0];
    var acts := LayoutUpdates(widgets, items);
    s1 := if Has(widgets, it.i) then Reduce(s, UpdateWidgetAction(it.i, PositionUpdate(it))) else s;
    if Has(widgets, it.i) {
      assert acts[0] == UpdateWidgetAction(it.i, PositionUpdate(it));
      assert acts[1..] == LayoutUpdates(widgets, items[1..]);
    }
  }

  /** One position update moves only the widget under its own key. */
  lemma UpdateStep(s: SliceState, it: LayoutItem, k: string)
    ensures Get(Reduce(s, UpdateWidgetAction(it.i, PositionUpdate(it))).widgets, k) ==
              if it.i == k && Has(s.widgets, k) then Some(Place(Get(s.widgets, k).value, it))
              else Get(s.widgets, k)
  {
    if Has(s.widgets, it.i) {
      MergePosition(Get(s.widgets, it.i).value, it);
    }
  }

  /** In a map keyed by id, an entry's widget carries a non-empty id exactly under its key. */
  lemma KeyedIdIs(widgets: Dict<Widget>, i: nat, k: string)
    requires WidgetsKeyed(widgets) && i < |widgets| && k != ""
    ensures IdIs(widgets[i].value, k) <==> widgets[i].key == k
  {
    assert widgets[i] in widgets;
  }

  /** The configuration's widget `k` after the change, for a non-empty key: the store's
      widget `k` relaid, or absent. */
  lemma ConfigAfterChange(widgets: Dict<Widget>, items: seq<LayoutItem>, k: string)
    requires WidgetsKeyed(widgets) && k != ""
    ensures Get(IndexById([], UpdatedWidgets(Values(widgets), items)), k) ==
              if Has(widgets, k) then Some(Relayout(Get(widgets, k).value, items)) else None
  {
    var u := UpdatedWidgets(Values(widgets), items);
    forall i | 0 <= i < |u| ensures IdIs(u[i], k) <==> widgets[i].key == k {
      KeyedIdIs(widgets, i, k);
      assert u[i].id == widgets[i].value.id;
    }
    if Has(widgets, k) {
      var j := FindKey(widgets, k);
      IndexByIdUnique([], u, k, j);
    } else {
      IndexByIdAbsent([], u, k);
    }
  }

  /** After a layout change with distinct item keys, the store's widget map and the stored
      configuration's widget map agree on every non-empty id. */
  lemma LayoutChangeAgrees(s: SliceState, items: seq<LayoutItem>, k: string)
    requires WidgetsKeyed(s.widgets) && DistinctItems(items) && k != ""
    requires s.currentDashboard.Some? && s.dashboardConfiguration.Some?
    ensures var after := Dispatch(s, HandleLayoutChange(s.currentDashboard, s.dashboardConfiguration, s.widgets, items));
            after.dashboardConfiguration.Some? &&
            after.dashboardConfiguration.value.widgets.Some? &&
            after.dashboardConfiguration.value.widgets.value.WidgetMap? &&
            Get(after.widgets, k) == Get(after.dashboardConfiguration.value.widgets.value.byId, k)
  {
    var acts := HandleLayoutChange(s.currentDashboard, s.dashboardConfiguration, s.widgets, items);
    var ups := LayoutUpdates(s.widgets, items);
    assert acts == ups + [acts[|acts| - 1]];
    DispatchSnoc(s, ups, acts[|acts| - 1]);
    StoreAfterUpdates(s, s.widgets, items, k);
    ConfigAfterChange(s.widgets, items, k);
    if Has(s.widgets, k) {
      var i := FindKey(s.widgets, k);
      assert s.widgets[i] in s.widgets;
    }
  }

  /** In the hook's own layout, the first item carrying a widget's id is that widget's item. */
  lemma OwnItemFirst(widgets: Dict<Widget>, j: nat)
    requires WidgetsKeyed(widgets) && j < |widgets|
    ensures var items := Layout(widgets);
            var f := FirstItem(items, widgets[j].value.id);
            f < |items| ==> items[f] == HookItem(widgets[j].value)
  {
    var items := Layout(widgets);
    var w := widgets[j].value;
    var f := FirstItem(items, w.id);
    if f < |items| {
      var it := items[f];
      assert it in items;
      LayoutItemSource(widgets, it);
      var a :| 0 <= a < |widgets| && HasId(widgets[a].value) && it == HookItem(widgets[a].value);
      assert IdOrEmpty(widgets[a].value) == it.i;
      SameIdSameEntry(widgets, a, j);
    }
  }

  /** Every item of the hook's layout is the item of some widget that has an id. */
  lemma LayoutItemSource(widgets: Dict<Widget>, it: LayoutItem)
    requires it in Layout(widgets)
    ensures exists a :: 0 <= a < |widgets| && HasId(widgets[a].value) && it == HookItem(widgets[a].value)
  {
    var ws := Values(widgets);
    assert Layout(widgets) == ItemsOf(ws, HookItem);
    var v :| v in ws && HasId(v) && it == HookItem(v);
    var a :| 0 <= a < |ws| && ws[a] == v;
    assert widgets[a].value == v;
  }

  /** In a keyed widget map, two entries whose widgets carry the same truthy id are one. */
  lemma SameIdSameEntry(widgets: Dict<Widget>, a: nat, j: nat)
    requires WidgetsKeyed(widgets) && a < |widgets| && j < |widgets|
    requires HasId(widgets[a].value) && widgets[a].value.id == widgets[j].value.id
    ensures a == j
  {
    assert widgets[a] in widgets && widgets[j] in widgets;
    assert widgets[a].key == widgets[j].key;
  }

  /** Feeding the hook's own layout back changes nothing, as long as no widget has a zero
      size (which the layout shows as the default). */
  lemma LayoutRoundTrip(widgets: Dict<Widget>)
    requires WidgetsKeyed(widgets)
    requires forall e :: e in widgets ==> e.value.sizeX != 0 && e.value.sizeY != 0
    ensures UpdatedWidgets(Values(widgets), Layout(widgets)) == Values(widgets)
  {
    var ws := Values(widgets);
    var u := UpdatedWidgets(ws, Layout(widgets));
    forall j | 0 <= j < |ws| ensures u[j] == ws[j] {
      assert widgets[j] in widgets;
      RoundTripAt(widgets, j);
    }
  }

  lemma RoundTripAt(widgets: Dict<Widget>, j: nat)
    requires WidgetsKeyed(widgets) && j < |widgets|
    requires widgets[j].value.sizeX != 0 && widgets[j].value.sizeY != 0
    ensures UpdatedWidgets(Values(widgets), Layout(widgets))[j] == widgets[j].value
  {
    var ws := Values(widgets);
    var items := Layout(widgets);
    var w := ws[j];
    OwnItemFirst(widgets, j);
    var f := FirstItem(items, w.id);
    if f < |items| {
      assert items[f] == HookItem(w);
      assert Place(w, HookItem(w)) == w;
    } else {
      assert forall it :: it in items ==> Some(it.i) != w.id;
    }
  }

  /** `{sizeX: w, sizeY: h}` for one widget. */
  function HandleWidgetResize(widgetId: string, w: int, h: int): Action {
    UpdateWidgetAction(widgetId, WidgetUpdate(None, None, None, Some(w), Some(h), None, None, None))
  }

  /** `{col: x, row: y}` for one widget. */
  function HandleWidgetMove(widgetId: string, x: int, y: int): Action {
    UpdateWidgetAction(widgetId, WidgetUpdate(None, None, None, None, None, Some(y), Some(x), None))
  }

  /** A resize changes only the size of that widget, and nothing for an unknown id. */
  lemma ResizeChangesOnlySize(s: SliceState, widgetId: string, w: int, h: int)
    ensures Reduce(s, HandleWidgetResize(widgetId, w, h)) ==
              if Has(s.widgets, widgetId) then
                s.(widgets := Set(s.widgets, widgetId, Get(s.widgets, widgetId).value.(sizeX := w, sizeY := h)))
              else s
  {
  }

  /** A move changes only the position of that widget, and nothing for an unknown id. */
  lemma MoveChangesOnlyPosition(s: SliceState, widgetId: string, x: int, y: int)
    ensures Reduce(s, HandleWidgetMove(widgetId, x, y)) ==
              if Has(s.widgets, widgetId) then
                s.(widgets := Set(s.widgets, widgetId, Get(s.widgets, widgetId).value.(col := x, row := y)))
              else s
  {
  }
}

=== FILE: dashboard_slice.dfy ===
/** The dashboard store slice as a state machine: a record of the current dashboard, its
    configuration, a widget map keyed by id, and the editing flags. */
module DashboardSlice {
  import opened Wrappers
  import opened Dict
  import opened DashboardTypes

  datatype SliceState = SliceState(
    currentDashboard: Option<Dashboard>,
    dashboardConfiguration: Option<Configuration>,
    widgets: Dict<Widget>,
    widgetLayouts: Dict<Dict<WidgetLayout>>,
    isEdit: bool,
    isEditingWidget: bool,
    isMobile: bool,
    selectedWidgetId: Option<string>)

  const InitialState := SliceState(None, None, [], [], false, false, false, None)

  /** A `Partial<Widget>`: each present field overrides the widget's. */
  datatype WidgetUpdate = WidgetUpdate(
    id: Option<Option<string>>,
    typeFullFqn: Option<string>,
    widgetType: Option<string>,
    sizeX: Option<int>,
    sizeY: Option<int>,
    row: Option<int>,
    col: Option<int>,
    config: Option<WidgetConfig>)

  /** `{...w, ...u}`. */
  function Merge(w: Widget, u: WidgetUpdate): (r: Widget)
    ensures r.id == (if u.id.Some? then u.id.value else w.id)
    ensures r.typeFullFqn == (if u.typeFullFqn.Some? then u.typeFullFqn.value else w.typeFullFqn)
    ensures r.widgetType == (if u.widgetType.Some? then u.widgetType.value else w.widgetType)
    ensures r.sizeX == (if u.sizeX.Some? then u.sizeX.value else w.sizeX)
    ensures r.sizeY == (if u.sizeY.Some? then u.sizeY.value else w.sizeY)
    ensures r.row == (if u.row.Some? then u.row.value else w.row)
    ensures r.col == (if u.col.Some? then u.col.value else w.col)
    ensures r.config == (if u.config.Some? then u.config.value else w.config)
  {
    Widget(
      if u.id.Some? then u.id.value else w.id,
      u.typeFullFqn.GetOr(w.typeFullFqn),
      u.widgetType.GetOr(w.widgetType),
      u.sizeX.GetOr(w.sizeX),
      u.sizeY.GetOr(w.sizeY),
      u.row.GetOr(w.row),
      u.col.GetOr(w.col),
      u.config.GetOr(w.config))
  }

  /** The widget-map entries `[w.id || '', w]` in collection order. */
  function KeyedById(ws: seq<Widget>): (es: seq<Entry<Widget>>)
    ensures |es| == |ws|
    ensures forall i :: 0 <= i < |ws| ==> es[i] == Entry(IdOrEmpty(ws[i]), ws[i])
  {
    if |ws| == 0 then [] else [Entry(IdOrEmpty(ws[0]), ws[0])] + KeyedById(ws[1..])
  }

  function SetDashboard(s: SliceState, d: Dashboard): (r: SliceState)
    ensures r.currentDashboard == Some(d)
    ensures r.dashboardConfiguration == Some(if d.configuration.Some? then d.configuration.value else EmptyConfiguration)
    ensures r.widgetLayouts == []
    ensures d.configuration.Some? && d.configuration.value.widgets.Some? ==>
      r.widgets == FromEntries(KeyedById(WidgetsOf(d.configuration.value.widgets.value)))
    ensures !(d.configuration.Some? && d.configuration.value.widgets.Some?) ==> r.widgets == s.widgets
    ensures r.isEdit == s.isEdit && r.isEditingWidget == s.isEditingWidget && r.isMobile == s.isMobile
    ensures r.selectedWidgetId == s.selectedWidgetId
  {
    var config := if d.configuration.Some? then d.configuration.value else EmptyConfiguration;
    var widgets :=
      if d.configuration.Some? && d.configuration.value.widgets.Some? then
        FromEntries(KeyedById(WidgetsOf(d.configuration.value.widgets.value)))
      else s.widgets;
    s.(currentDashboard := Some(d), dashboardConfiguration := Some(config), widgets := widgets, widgetLayouts := [])
  }

  /** Stores the widget under its id, only when the id is truthy. */
  function AddWidget(s: SliceState, w: Widget): (r: SliceState)
    ensures HasId(w) ==> r.widgets == Set(s.widgets, w.id.value, w)
    ensures !HasId(w) ==> r == s
    ensures r == s.(widgets := r.widgets)
  {
    if HasId(w) then s.(widgets := Set(s.widgets, w.id.value, w)) else s
  }

  function UpdateWidget(s: SliceState, id: string, updates: WidgetUpdate): (r: SliceState)
    ensures Get(s.widgets, id).None? ==> r == s
    ensures Get(s.widgets, id).Some? ==> r.widgets == Set(s.widgets, id, Merge(Get(s.widgets, id).value, updates))
    ensures r == s.(widgets := r.widgets)
  {
    match Get(s.widgets, id)
    case None => s
    case Some(w) => s.(widgets := Set(s.widgets, id, Merge(w, updates)))
  }

  /** Deletes the widget and clears the selection iff it was that widget. */
  function RemoveWidget(s: SliceState, id: string): (r: SliceState)
    ensures r.widgets == Remove(s.widgets, id)
    ensures r.selectedWidgetId == if s.selectedWidgetId == Some(id) then None else s.selectedWidgetId
    ensures r == s.(widgets := r.widgets, selectedWidgetId := r.selectedWidgetId)
  {
    s.(widgets := Remove(s.widgets, id),
       selectedWidgetId := if s.selectedWidgetId == Some(id) then None else s.selectedWidgetId)
  }

  datatype Action =
    | SetDashboardAction(dashboard: Dashboard)
    | SetDashboardConfiguration(configuration: Configuration)
    | AddWidgetAction(widget: Widget)
    | UpdateWidgetAction(id: string, updates: WidgetUpdate)
    | RemoveWidgetAction(widgetId: string)
    | SetEditMode(isEdit: bool)
    | SetEditingWidget(isEditingWidget: bool)
    | SetSelectedWidget(selected: Option<string>)
    | SetMobileMode(isMobile: bool)

  function Reduce(s: SliceState, a: Action): (r: SliceState)
    ensures a.SetDashboardConfiguration? ==> r == s.(dashboardConfiguration := Some(a.configuration))
    ensures a.SetEditMode? ==> r == s.(isEdit := a.isEdit)
    ensures a.SetEditingWidget? ==> r == s.(isEditingWidget := a.isEditingWidget)
    ensures a.SetSelectedWidget? ==> r == s.(selectedWidgetId := a.selected)
    ensures a.SetMobileMode? ==> r == s.(isMobile := a.isMobile)
  {
    match a
    case SetDashboardAction(d) => SetDashboard(s, d)
    case SetDashboardConfiguration(c) => s.(dashboardConfiguration := Some(c))
    case AddWidgetAction(w) => AddWidget(s, w)
    case UpdateWidgetAction(id, u) => UpdateWidget(s, id, u)
    case RemoveWidgetAction(id) => RemoveWidget(s, id)
    case SetEditMode(b) => s.(isEdit := b)
    case SetEditingWidget(b) => s.(isEditingWidget := b)
    case SetSelectedWidget(sel) => s.(selectedWidgetId := sel)
    case SetMobileMode(b) => s.(isMobile := b)
  }

  /** The widget map's shape: keys are distinct and each key is its widget's `id || ''`. */
  predicate WidgetsKeyed(widgets: Dict<Widget>) {
    Wf(widgets) && forall e :: e in widgets ==> e.key == IdOrEmpty(e.value)
  }

  /** An update that leaves the widget's id alone. */
  predicate KeepsId(a: Action) {
    a.UpdateWidgetAction? ==> a.updates.id.None?
  }

  /** Every action except an update that rewrites a widget's id keeps the widget map keyed
      by id. */
  lemma ReduceKeepsWidgetsKeyed(s: SliceState, a: Action)
    requires WidgetsKeyed(s.widgets) && KeepsId(a)
    ensures WidgetsKeyed(Reduce(s, a).widgets)
  {
    match a
    case SetDashboardAction(d) => SetDashboardKeyed(s, d);
    case AddWidgetAction(w) => AddWidgetKeyed(s, w);
    case UpdateWidgetAction(id, u) => UpdateWidgetKeyed(s, id, u);
    case RemoveWidgetAction(id) => RemoveWf(s.widgets, id);
    case _ =>
  }

  lemma SetDashboardKeyed(s: SliceState, d: Dashboard)
    requires WidgetsKeyed(s.widgets)
    ensures WidgetsKeyed(SetDashboard(s, d).widgets)
  {
    if d.configuration.Some? && d.configuration.value.widgets.Some? {
      var es := KeyedById(WidgetsOf(d.configuration.value.widgets.value));
      SetAllEntries([], es);
    }
  }

  lemma AddWidgetKeyed(s: SliceState, w: Widget)
    requires WidgetsKeyed(s.widgets)
    ensures WidgetsKeyed(AddWidget(s, w).widgets)
  {
    if HasId(w) {
      SetEntries(s.widgets, w.id.value, w);
    }
  }

  lemma UpdateWidgetKeyed(s: SliceState, id: string, u: WidgetUpdate)
    requires WidgetsKeyed(s.widgets) && u.id.None?
    ensures WidgetsKeyed(UpdateWidget(s, id, u).widgets)
  {
    var prev := Get(s.widgets, id);
    if prev.Some? {
      SetEntries(s.widgets, id, Merge(prev.value, u));
      var i :| 0 <= i < |s.widgets| && s.widgets[i] == Entry(id, prev.value);
      assert s.widgets[i] in s.widgets;
    }
  }

  /** The widget map is never synchronised with the configuration: storing a configuration
      leaves the map alone, and widget actions leave the configuration alone. */
  lemma WidgetMapNotSynced(s: SliceState, a: Action)
    ensures a.SetDashboardConfiguration? ==> Reduce(s, a).widgets == s.widgets
    ensures a.AddWidgetAction? || a.UpdateWidgetAction? || a.RemoveWidgetAction? ==>
      Reduce(s, a).dashboardConfiguration == s.dashboardConfiguration
  {
  }
}

=== FILE: dashboard_states.dfy ===
/** The dashboard-states service: the states of a dashboard live in an object keyed by state
    id, and at most one of them should be the root state. */
module DashboardStates {
  import opened Wrappers
  import opened Dict
  import opened DashboardTypes

  /** `dashboard?.configuration?.states`. */
  function StatesOf(d: Option<Dashboard>): Option<Dict<DashboardState>> {
    if d.Some? && d.value.configuration.Some? then d.value.configuration.value.states else None
  }

  /** The stored states as a list, each with its `id` overwritten by its key. */
  function WithKeyIds(states: Dict<DashboardState>): (r: seq<DashboardState>)
    ensures |r| == |states|
    ensures forall i :: 0 <= i < |r| ==> r[i] == states[i].value.(id := states[i].key)
  {
    if |states| == 0 then [] else [states[0].value.(id := states[0].key)] + WithKeyIds(states[1..])
  }

  function GetStates(d: Option<Dashboard>): (r: seq<DashboardState>)
    ensures StatesOf(d).None? ==> r == []
    ensures StatesOf(d).Some? ==> |r| == |StatesOf(d).value|
    ensures StatesOf(d).Some? ==> forall i :: 0 <= i < |r| ==> r[i].id == StatesOf(d).value[i].key
  {
    if StatesOf(d).None? then [] else WithKeyIds(StatesOf(d).value)
  }

  /** The state stored under `stateId`, with `id` set to the key, or null when absent. */
  function GetState(d: Option<Dashboard>, stateId: string): (r: Option<DashboardState>)
    ensures r.Some? <==> StatesOf(d).Some? && Has(StatesOf(d).value, stateId)
    ensures r.Some? ==> r.value == Get(StatesOf(d).value, stateId).value.(id := stateId)
  {
    if StatesOf(d).None? then None
    else
      match Get(StatesOf(d).value, stateId)
      case None => None
      case Some(s) => Some(s.(id := stateId))
  }

  /** `getState` finds a state exactly when `getStates` lists one with that id; the one it
      finds is the first such entry, which is the only one in a well-formed object. */
  lemma GetStateListed(d: Option<Dashboard>, stateId: string)
    requires StatesOf(d).Some? ==> Wf(StatesOf(d).value)
    ensures GetState(d, stateId).Some? <==> exists i :: 0 <= i < |GetStates(d)| && GetStates(d)[i].id == stateId
    ensures forall i :: 0 <= i < |GetStates(d)| && GetStates(d)[i].id == stateId ==>
              GetState(d, stateId) == Some(GetStates(d)[i])
  {
    if StatesOf(d).Some? {
      var st := StatesOf(d).value;
      var r := GetStates(d);
      if GetState(d, stateId).Some? {
        var i := FindKey(st, stateId);
        assert r[i].id == stateId;
      }
      forall i | 0 <= i < |r| && r[i].id == stateId
        ensures GetState(d, stateId) == Some(r[i])
      {
        assert st[i].key == stateId;
        GetAt(st, i);
      }
    }
  }

  /** The index of the first state of `states` with the root flag, or `|states|`. */
  function FirstRoot(states: seq<DashboardState>): (k: nat)
    ensures k <= |states|
    ensures forall i :: 0 <= i < k ==> !states[i].root
    ensures k < |states| ==> states[k].root
  {
    if |states| == 0 then 0 else if states[0].root then 0 else 1 + FirstRoot(states[1..])
  }

  /** `states.find(s => s.root) || null` over `getStates`. */
  function GetRootState(d: Option<Dashboard>): (r: Option<DashboardState>)
    ensures r.None? <==> forall i :: 0 <= i < |GetStates(d)| ==> !GetStates(d)[i].root
    ensures r.Some? ==>
      exists k :: 0 <= k < |GetStates(d)| && GetStates(d)[k] == r.value && r.value.root &&
        forall i :: 0 <= i < k ==> !GetStates(d)[i].root
  {
    var all := GetStates(d);
    var k := FirstRoot(all);
    if k < |all| then Some(all[k]) else None
  }

  /** `configuration.states ?? {}`. */
  function StatesOrEmpty(c: Configuration): Dict<DashboardState> {
    if c.states.Some? then c.states.value else []
  }

  /** Stores `state` under `stateId` with its `id` overwritten, creating the map if needed. */
  function SetState(c: Configuration, stateId: string, state: DashboardState): (r: Configuration)
    ensures r.states.Some?
    ensures Get(r.states.value, stateId) == Some(state.(id := stateId))
    ensures forall k :: k != stateId ==> Get(r.states.value, k) == Get(StatesOrEmpty(c), k)
    ensures r == c.(states := r.states)
  {
    c.(states := Some(Set(StatesOrEmpty(c), stateId, state.(id := stateId))))
  }

  /** `delete configuration.states[stateId]` when there are states. */
  function RemoveState(c: Configuration, stateId: string): (r: Configuration)
    ensures c.states.None? ==> r == c
    ensures c.states.Some? ==> r.states.Some? && Get(r.states.value, stateId).None?
    ensures c.states.Some? ==> forall k :: k != stateId ==> Get(r.states.value, k) == Get(c.states.value, k)
    ensures c.states.Some? && !Has(c.states.value, stateId) ==> r == c
    ensures r == c.(states := r.states)
  {
    if c.states.None? then c else c.(states := Some(Remove(c.states.value, stateId)))
  }

  /** Clears the root flag of every state. */
  function ClearRoots(states: Dict<DashboardState>): (r: Dict<DashboardState>)
    ensures Keys(r) == Keys(states)
    ensures forall k :: Get(r, k) == if Get(states, k).Some? then Some(Get(states, k).value.(root := false)) else None
  {
    MapValues(states, (k: string, s: DashboardState) => s.(root := false))
  }

  /** A stored state with its root flag replaced. */
  function RootFlagged(s: Option<DashboardState>, root: bool): Option<DashboardState> {
    if s.Some? then Some(s.value.(root := root)) else None
  }

  /** Clears every root flag, then sets the target's flag if the target exists. */
  function SetRootState(c: Configuration, stateId: string): (r: Configuration)
    ensures c.states.None? ==> r == c
    ensures r == c.(states := r.states)
    ensures c.states.Some? ==> r.states.Some? && Keys(r.states.value) == Keys(c.states.value)
    ensures c.states.Some? ==>
      forall k :: Get(r.states.value, k) == RootFlagged(Get(c.states.value, k), k == stateId)
  {
    if c.states.None? then c
    else
      var cleared := ClearRoots(c.states.value);
      match Get(cleared, stateId)
      case None => c.(states := Some(cleared))
      case Some(s) => c.(states := Some(Set(cleared, stateId, s.(root := true))))
  }

  /** After `setRootState`, the target is the only root, and there is none when the target
      is absent. */
  lemma SetRootStateUnique(c: Configuration, stateId: string, k: string)
    requires c.states.Some?
    ensures var st := SetRootState(c, stateId).states.value;
            Get(st, k).Some? && Get(st, k).value.root <==> k == stateId && Has(c.states.value, stateId)
  {
  }

  function HasState(d: Option<Dashboard>, stateId: string): (b: bool)
    ensures b <==> StatesOf(d).Some? && stateId in Keys(StatesOf(d).value)
  {
    StatesOf(d).Some? && Get(StatesOf(d).value, stateId).Some?
  }

  /** `hasState` agrees with `getState`. */
  lemma HasStateIffGetState(d: Option<Dashboard>, stateId: string)
    ensures HasState(d, stateId) <==> GetState(d, stateId).Some?
  {
  }

  /** The state's name when it is non-empty, else the id. */
  function GetStateName(d: Option<Dashboard>, stateId: string): (r: string)
    ensures GetState(d, stateId).None? ==> r == stateId
    ensures GetState(d, stateId).Some? && GetState(d, stateId).value.name != "" ==> r == GetState(d, stateId).value.name
    ensures GetState(d, stateId).Some? && GetState(d, stateId).value.name == "" ==> r == stateId
  {
    var s := GetState(d, stateId);
    if s.Some? && s.value.name != "" then s.value.name else stateId
  }
}

=== FILE: dashboard_types.dfy ===
/** The shape of a dashboard and its configuration. Optional members are `Option`s; the
    open-ended "any other key" parts of a record are kept as a dictionary of values so that
    an operation that leaves them alone can be seen to do so. */
module DashboardTypes {
  import opened Wrappers
  import opened Dict
  import opened JsValues

  datatype Realtime = Realtime(timewindowMs: int)

  datatype History = History(timewindowMs: int, intervalMs: int, aggregationType: string, limit: int)

  datatype Aggregation = Aggregation(aggType: string, limit: int, interval: int)

  datatype Timewindow = Timewindow(realtime: Option<Realtime>, history: Option<History>,
                                   aggregation: Option<Aggregation>)

  datatype DataKey = DataKey(name: string, keyType: string, labelText: Option<string>, color: Option<string>)

  datatype Datasource = Datasource(dsType: string, name: string, entityAliasId: string, dataKeys: seq<DataKey>)

  /** One entry of `config.actions[sourceId]`: what a widget action does when it fires. */
  datatype ActionDescriptor = ActionDescriptor(
    name: string,
    actionType: Option<string>,
    url: Option<string>,
    openInNewTab: Option<bool>,
    dashboardId: Option<string>,
    dashboardStateId: Option<string>)

  datatype WidgetConfig = WidgetConfig(
    title: Option<string>,
    datasources: Option<seq<Datasource>>,
    timewindow: Option<Timewindow>,
    useDashboardTimewindow: Option<bool>,
    settings: JsValue,
    actions: Option<Dict<seq<ActionDescriptor>>>)

  datatype Widget = Widget(
    id: Option<string>,
    typeFullFqn: string,
    widgetType: string,
    sizeX: int,
    sizeY: int,
    row: int,
    col: int,
    config: WidgetConfig)

  /** `widget.id` is truthy: present and not the empty string. */
  predicate HasId(w: Widget) {
    w.id.Some? && w.id.value != ""
  }

  /** `widget.id || ''`. */
  function IdOrEmpty(w: Widget): (r: string)
    ensures HasId(w) ==> r == w.id.value
    ensures !HasId(w) ==> r == ""
  {
    if w.id.Some? then w.id.value else ""
  }

  datatype WidgetLayout = WidgetLayout(sizeX: int, sizeY: int, row: int, col: int)

  datatype StateLayout = StateLayout(widgets: Dict<WidgetLayout>)

  datatype DashboardState = DashboardState(id: string, name: string, root: bool, layouts: Dict<StateLayout>)

  /** An entity-alias filter: its type, whether it resolves to several entities, and the
      remaining type-specific fields. */
  datatype AliasFilter = AliasFilter(filterType: Option<string>, resolveMultiple: Option<bool>,
                                     other: Dict<JsValue>)

  datatype EntityAlias = EntityAlias(id: string, alias: string, filter: Option<AliasFilter>)

  datatype EntityFilter = EntityFilter(filterType: string, multiple: Option<bool>, other: Dict<JsValue>)

  /** `configuration.widgets` is either an array or an object keyed by widget id. */
  datatype WidgetCollection = WidgetList(list: seq<Widget>) | WidgetMap(byId: Dict<Widget>)

  /** The widgets of a collection in order: the array itself, or `Object.values`. */
  function WidgetsOf(c: WidgetCollection): (ws: seq<Widget>)
    ensures c.WidgetList? ==> ws == c.list
    ensures c.WidgetMap? ==> ws == Values(c.byId)
  {
    match c
    case WidgetList(list) => list
    case WidgetMap(byId) => Values(byId)
  }

  datatype Configuration = Configuration(
    timewindow: Option<Timewindow>,
    settings: Option<JsValue>,
    widgets: Option<WidgetCollection>,
    states: Option<Dict<DashboardState>>,
    entityAliases: Option<Dict<EntityAlias>>,
    filters: Option<Dict<EntityFilter>>,
    other: Dict<JsValue>)

  /** The configuration `{}`. */
  const EmptyConfiguration := Configuration(None, None, None, None, None, None, [])

  datatype Dashboard = Dashboard(id: string, title: string, configuration: Option<Configuration>)
}

=== FILE: dict.dfy ===
/** String-keyed dictionaries that remember insertion order, the way a JavaScript object with
    string keys and a JavaScript `Map<string, V>` do: overwriting a key keeps its position,
    a new key goes to the end, `delete` removes the key. */
module Dict {
  import opened Wrappers

  datatype Entry<V> = Entry(key: string, value: V)

  type Dict<V> = seq<Entry<V>>

  function Keys<V>(d: Dict<V>): (ks: seq<string>)
    ensures |ks| == |d| && forall i :: 0 <= i < |d| ==> ks[i] == d[i].key
  {
    if |d| == 0 then [] else [d[0].key] + Keys(d[1..])
  }

  function Values<V>(d: Dict<V>): (vs: seq<V>)
    ensures |vs| == |d| && forall i :: 0 <= i < |d| ==> vs[i] == d[i].value
  {
    if |d| == 0 then [] else [d[0].value] + Values(d[1..])
  }

  /** No key occurs twice: the shape every JavaScript object has. */
  predicate Wf<V>(d: Dict<V>) {
    forall i, j :: 0 <= i < j < |d| ==> d[i].key != d[j].key
  }

  /** The value stored under `k` (the first entry with that key). */
  function Get<V>(d: Dict<V>, k: string): (r: Option<V>)
    ensures r.Some? <==> k in Keys(d)
    ensures r.Some? ==> exists i :: 0 <= i < |d| && d[i] == Entry(k, r.value)
  {
    if |d| == 0 then None
    else if d[0].key == k then Some(d[0].value)
    else Get(d[1..], k)
  }

  predicate Has<V>(d: Dict<V>, k: string) {
    k in Keys(d)
  }

  /** `obj[k] = v`: overwrite in place, or append a new entry. */
  function Set<V>(d: Dict<V>, k: string, v: V): (r: Dict<V>)
    ensures forall k' :: Get(r, k') == if k' == k then Some(v) else Get(d, k')
    ensures Keys(r) == if k in Keys(d) then Keys(d) else Keys(d) + [k]
    ensures Wf(d) ==> Wf(r)
  {
    if |d| == 0 then [Entry(k, v)]
    else if d[0].key == k then [Entry(k, v)] + d[1..]
    else
      var rest := Set(d[1..], k, v);
      assert Wf(d) ==> Wf([d[0]] + rest) by {
        if Wf(d) {
          TailWf(d);
          assert d[0].key !in Keys(rest);
          ConsWf(d[0], rest);
        }
      }
      [d[0]] + rest
  }

  /** The tail of a dictionary with distinct keys has distinct keys, none of them the head's. */
  lemma TailWf<V>(d: Dict<V>)
    requires Wf(d) && |d| > 0
    ensures Wf(d[1..]) && d[0].key !in Keys(d[1..])
  {
    forall i | 0 <= i < |d[1..]| ensures Keys(d[1..])[i] != d[0].key {
      assert d[1..][i] == d[i + 1];
    }
  }

  /** A new first key keeps the keys distinct. */
  lemma ConsWf<V>(e: Entry<V>, r: Dict<V>)
    requires Wf(r) && e.key !in Keys(r)
    ensures Wf([e] + r)
  {
    var c := [e] + r;
    assert c[0] == e;
    assert forall t :: 1 <= t < |c| ==> c[t] == r[t - 1];
    forall i, j | 0 <= i < j < |c| ensures c[i].key != c[j].key {
      if i == 0 {
        assert Keys(r)[j - 1] == c[j].key;
      }
    }
  }

  /** `delete obj[k]`: every entry under `k` goes, the rest keep their order. */
  function Remove<V>(d: Dict<V>, k: string): (r: Dict<V>)
    ensures forall k' :: Get(r, k') == if k' == k then None else Get(d, k')
    ensures |r| <= |d|
    ensures k !in Keys(d) ==> r == d
    ensures forall i :: 0 <= i < |r| ==> r[i] in d
  {
    if |d| == 0 then []
    else if d[0].key == k then Remove(d[1..], k)
    else [d[0]] + Remove(d[1..], k)
  }

  /** Removing a key keeps the remaining keys distinct. */
  lemma {:induction false} RemoveWf<V>(d: Dict<V>, k: string)
    requires Wf(d)
    ensures Wf(Remove(d, k))
  {
    if |d| > 0 {
      TailWf(d);
      RemoveWf(d[1..], k);
      var r := Remove(d[1..], k);
      if d[0].key != k {
        forall i | 0 <= i < |r| ensures Keys(r)[i] != d[0].key {
          var j :| 0 <= j < |d[1..]| && d[1..][j] == r[i];
          assert Keys(d[1..])[j] == r[i].key;
        }
        ConsWf(d[0], r);
      }
    }
  }

  /** Applies `f` to every value, keeping keys and order. */
  function MapValues<V, W>(d: Dict<V>, f: (string, V) -> W): (r: Dict<W>)
    ensures Keys(r) == Keys(d)
    ensures forall k :: Get(r, k) == (if Get(d, k).Some? then Some(f(k, Get(d, k).value)) else None)
  {
    if |d| == 0 then [] else [Entry(d[0].key, f(d[0].key, d[0].value))] + MapValues(d[1..], f)
  }

  /** `MapValues` works entry by entry: the i-th entry keeps its key and maps its value. */
  lemma {:induction false} MapValuesAt<V, W>(d: Dict<V>, f: (string, V) -> W, i: nat)
    requires i < |d|
    ensures i < |MapValues(d, f)| && MapValues(d, f)[i] == Entry(d[i].key, f(d[i].key, d[i].value))
  {
    if i > 0 {
      MapValuesAt(d[1..], f, i - 1);
    }
  }

  /** A map that leaves every value as it is leaves the dictionary as it is. */
  lemma {:induction false} MapValuesId<V>(d: Dict<V>, f: (string, V) -> V)
    requires forall i :: 0 <= i < |d| ==> f(d[i].key, d[i].value) == d[i].value
    ensures MapValues(d, f) == d
  {
    if |d| > 0 {
      MapValuesId(d[1..], f);
      assert [d[0]] + d[1..] == d;
    }
  }

  /** Builds a dictionary by setting the entries in order (`new Map(pairs)`, `Object.fromEntries`,
      or a `reduce` that assigns `acc[k] = v`): later duplicates overwrite earlier ones. */
  function FromEntries<V>(es: seq<Entry<V>>): (r: Dict<V>)
    ensures Wf(r)
  {
    SetAll([], es)
  }

  /** Sets each entry of `es` into `d`, left to right (`{...d, ...es}` when `es` is an object). */
  function SetAll<V>(d: Dict<V>, es: seq<Entry<V>>): (r: Dict<V>)
    ensures Wf(d) ==> Wf(r)
    decreases |es|
  {
    if |es| == 0 then d else SetAll(Set(d, es[0].key, es[0].value), es[1..])
  }

  /** The last entry of `es` with key `k`, if any. */
  function LastWith<V>(es: seq<Entry<V>>, k: string): Option<V> {
    if |es| == 0 then None
    else if es[|es| - 1].key == k then Some(es[|es| - 1].value)
    else LastWith(es[..|es| - 1], k)
  }

  /** After setting `es` into `d`, each key holds its last value in `es`, or its old value. */
  lemma {:induction false} GetSetAll<V>(d: Dict<V>, es: seq<Entry<V>>, k: string)
    ensures Get(SetAll(d, es), k) == if LastWith(es, k).Some? then LastWith(es, k) else Get(d, k)
    decreases |es|
  {
    if |es| > 0 {
      GetSetAll(Set(d, es[0].key, es[0].value), es[1..], k);
      LastWithCons(es, k);
    }
  }

  lemma {:induction false} LastWithCons<V>(es: seq<Entry<V>>, k: string)
    requires |es| > 0
    ensures LastWith(es, k) == if LastWith(es[1..], k).Some? then LastWith(es[1..], k)
                               else if es[0].key == k then Some(es[0].value) else None
    decreases |es|
  {
    if |es| > 1 && es[|es| - 1].key != k {
      assert es[1..][..|es[1..]| - 1] == es[..|es| - 1][1..];
      LastWithCons(es[..|es| - 1], k);
    }
  }

  /** The keys of `SetAll(d, es)` are those of `d` followed by the new keys of `es`. */
  lemma {:induction false} KeysSetAll<V>(d: Dict<V>, es: seq<Entry<V>>, k: string)
    ensures k in Keys(SetAll(d, es)) <==> k in Keys(d) || exists i :: 0 <= i < |es| && es[i].key == k
    decreases |es|
  {
    if |es| > 0 {
      KeysSetAll(Set(d, es[0].key, es[0].value), es[1..], k);
      if exists i :: 0 <= i < |es[1..]| && es[1..][i].key == k {
        var i :| 0 <= i < |es[1..]| && es[1..][i].key == k;
        assert es[i + 1].key == k;
      }
      if exists i :: 0 <= i < |es| && es[i].key == k {
        var i :| 0 <= i < |es| && es[i].key == k;
        if i > 0 { assert es[1..][i - 1].key == k; }
      }
    }
  }

  /** The set of keys. */
  function KeySet<V>(d: Dict<V>): set<string> {
    set i | 0 <= i < |d| :: d[i].key
  }

  /** The index of key `k` in `d`. */
  lemma FindKey<V>(d: Dict<V>, k: string) returns (i: nat)
    requires Has(d, k)
    ensures i < |d| && d[i].key == k && Get(d, k) == Some(d[i].value)
  {
    if d[0].key == k {
      i := 0;
    } else {
      var j := FindKey(d[1..], k);
      i := j + 1;
    }
  }

  /** In a well-formed dictionary, the entry at index `i` is what `Get` returns for its key. */
  lemma GetAt<V>(d: Dict<V>, i: nat)
    requires Wf(d) && i < |d|
    ensures Get(d, d[i].key) == Some(d[i].value)
  {
    if i > 0 {
      assert d[0].key != d[i].key;
      assert Wf(d[1..]);
      GetAt(d[1..], i - 1);
    }
  }

  /** Every entry after a `Set` is an old entry or the new one. */
  lemma {:induction false} SetEntries<V>(d: Dict<V>, k: string, v: V)
    ensures forall e :: e in Set(d, k, v) ==> e in d || e == Entry(k, v)
  {
    if |d| > 0 && d[0].key != k {
      SetEntries(d[1..], k, v);
      assert forall e :: e in d[1..] ==> e in d;
    }
  }

  /** Every entry after a `SetAll` comes from the old dictionary or from the new entries. */
  lemma {:induction false} SetAllEntries<V>(d: Dict<V>, es: seq<Entry<V>>)
    ensures forall e :: e in SetAll(d, es) ==> e in d || e in es
    decreases |es|
  {
    if |es| > 0 {
      var d' := Set(d, es[0].key, es[0].value);
      SetEntries(d, es[0].key, es[0].value);
      SetAllEntries(d', es[1..]);
      assert forall e :: e in es[1..] ==> e in es;
    }
  }

  /** `LastWith` finds the entry at the last index carrying the key. */
  lemma {:induction false} LastWithIndex<V>(es: seq<Entry<V>>, k: string, j: nat)
    requires j < |es| && es[j].key == k
    requires forall i :: j < i < |es| ==> es[i].key != k
    ensures LastWith(es, k) == Some(es[j].value)
    decreases |es|
  {
    if j < |es| - 1 {
      LastWithIndex(es[..|es| - 1], k, j);
    }
  }

  /** `LastWith` finds nothing when no entry carries the key. */
  lemma {:induction false} LastWithNone<V>(es: seq<Entry<V>>, k: string)
    requires forall i :: 0 <= i < |es| ==> es[i].key != k
    ensures LastWith(es, k).None?
    decreases |es|
  {
    if |es| > 0 {
      LastWithNone(es[..|es| - 1], k);
    }
  }

  /** The keys of `SetAll(d, es)` depend only on the keys of `d` and of `es`. */
  lemma {:induction false} SetAllKeysOnly<V, W>(d: Dict<V>, es: seq<Entry<V>>, d': Dict<W>, es': seq<Entry<W>>)
    requires Keys(d) == Keys(d') && Keys(es) == Keys(es')
    ensures Keys(SetAll(d, es)) == Keys(SetAll(d', es'))
    decreases |es|
  {
    if |es| > 0 {
      assert es[0].key == es'[0].key;
      assert Keys(es[1..]) == Keys(es'[1..]);
      SetAllKeysOnly(Set(d, es[0].key, es[0].value), es[1..], Set(d', es'[0].key, es'[0].value), es'[1..]);
    }
  }
}

=== FILE: dynamic_form.dfy ===
/** The settings form of a widget: its initial values, the grouping of its properties, and
    what each property renders as. Evaluating a property's condition is a parameter that
    yields the value or `None` when evaluation throws. */
module DynamicForm {
  import opened Wrappers
  import opened Dict
  import opened JsValues
  import opened WidgetTypes
  import opened FormSchema

  /** `{...getDefaultValues(properties), ...model}`. */
  function FormDefaults(props: seq<FormProperty>, model: Dict<JsValue>): (r: Dict<JsValue>)
    ensures Wf(r)
  {
    SetAll(GetDefaultValues(props), model)
  }

  /** Each key holds the model's value when the model has it, else the property default. */
  lemma FormDefaultsOverride(props: seq<FormProperty>, model: Dict<JsValue>, k: string)
    requires Wf(model)
    ensures Get(FormDefaults(props, model), k) == if Has(model, k) then Get(model, k) else Get(GetDefaultValues(props), k)
  {
    GetSetAll(GetDefaultValues(props), model, k);
    LastWithOfWf(model, k);
  }

  /** In a dictionary without duplicate keys the last entry with a key is the only one. */
  lemma LastWithOfWf<V>(d: Dict<V>, k: string)
    requires Wf(d)
    ensures LastWith(d, k) == Get(d, k)
  {
    if Has(d, k) {
      var i := FindKey(d, k);
      LastWithIndex(d, k, i);
    } else {
      LastWithNone(d, k);
    }
  }

  /** `prop.group || 'default'`. */
  function GroupOf(p: FormProperty): (g: string)
    ensures p.group.Some? && p.group.value != "" ==> g == p.group.value
    ensures !(p.group.Some? && p.group.value != "") ==> g == "default"
  {
    if p.group.Some? && p.group.value != "" then p.group.value else "default"
  }

  /** The elements of `xs` whose key is `g`, in input order. */
  function Having<T>(xs: seq<T>, key: T -> string, g: string): seq<T> {
    if |xs| == 0 then []
    else Having(xs[..|xs| - 1], key, g) + (if key(xs[|xs| - 1]) == g then [xs[|xs| - 1]] else [])
  }

  /** The key of every element. */
  function KeysOf<T>(xs: seq<T>, key: T -> string): (ks: seq<string>)
    ensures |ks| == |xs| && forall i :: 0 <= i < |xs| ==> ks[i] == key(xs[i])
  {
    if |xs| == 0 then [] else KeysOf(xs[..|xs| - 1], key) + [key(xs[|xs| - 1])]
  }

  /** Appends each element to the list under its key, creating the list on first use. */
  function GroupBy<T>(xs: seq<T>, key: T -> string): (groups: Dict<seq<T>>)
    ensures Wf(groups)
  {
    if |xs| == 0 then []
    else
      var acc := GroupBy(xs[..|xs| - 1], key);
      var x := xs[|xs| - 1];
      Set(acc, key(x), (if Has(acc, key(x)) then Get(acc, key(x)).value else []) + [x])
  }

  /** Each group holds exactly its elements in input order, and a group exists exactly when
      some element has its key. */
  lemma {:induction false} GroupByExact<T>(xs: seq<T>, key: T -> string, g: string)
    ensures Has(GroupBy(xs, key), g) <==> g in KeysOf(xs, key)
    ensures Has(GroupBy(xs, key), g) ==> Get(GroupBy(xs, key), g) == Some(Having(xs, key, g))
    ensures !Has(GroupBy(xs, key), g) ==> Having(xs, key, g) == []
  {
    if |xs| > 0 {
      var init := xs[..|xs| - 1];
      var x := xs[|xs| - 1];
      var acc := GroupBy(init, key);
      GroupByExact(init, key, g);
      assert KeysOf(xs, key) == KeysOf(init, key) + [key(x)];
      var prev := if Has(acc, key(x)) then Get(acc, key(x)).value else [];
      assert GroupBy(xs, key) == Set(acc, key(x), prev + [x]);
      if key(x) == g {
        assert prev == Having(init, key, g);
        assert Having(xs, key, g) == prev + [x];
        assert Get(GroupBy(xs, key), g) == Some(prev + [x]);
      } else {
        assert Having(xs, key, g) == Having(init, key, g);
        assert Get(GroupBy(xs, key), g) == Get(acc, g);
      }
    }
  }

  /** The `reduce` that groups the properties by `prop.group || 'default'`. */
  function GroupProperties(props: seq<FormProperty>): (groups: Dict<seq<FormProperty>>)
    ensures Wf(groups)
  {
    GroupBy(props, GroupOf)
  }

  /** Every property lands in exactly one group, the one named by its group or 'default',
      with input order kept within the group. */
  lemma GroupPropertiesExact(props: seq<FormProperty>, g: string)
    ensures Has(GroupProperties(props), g) <==> exists i :: 0 <= i < |props| && GroupOf(props[i]) == g
    ensures Has(GroupProperties(props), g) ==> Get(GroupProperties(props), g) == Some(Having(props, GroupOf, g))
    ensures !Has(GroupProperties(props), g) ==> Having(props, GroupOf, g) == []
  {
    GroupByExact(props, GroupOf, g);
    var ks := KeysOf(props, GroupOf);
    if g in ks {
      var i :| 0 <= i < |ks| && ks[i] == g;
      assert GroupOf(props[i]) == g;
    }
  }

  /** The groups in order, each shown with a heading unless it is the default group. */
  datatype GroupView = GroupView(heading: Option<string>, items: seq<FormProperty>)

  function GroupViews(groups: Dict<seq<FormProperty>>): (vs: seq<GroupView>)
    ensures |vs| == |groups|
    ensures forall i :: 0 <= i < |vs| ==> vs[i].items == groups[i].value
    ensures forall i :: 0 <= i < |vs| ==> (vs[i].heading.None? <==> groups[i].key == "default")
    ensures forall i :: 0 <= i < |vs| && vs[i].heading.Some? ==> vs[i].heading.value == groups[i].key
  {
    if |groups| == 0 then []
    else
      var rest := GroupViews(groups[1..]);
      var vs := [GroupView(if groups[0].key == "default" then None else Some(groups[0].key), groups[0].value)] + rest;
      assert forall i :: 1 <= i < |vs| ==> vs[i] == rest[i - 1] && groups[i] == groups[1..][i - 1];
      vs
  }

  /** What a property renders as. */
  datatype View =
    | Hidden
    | FieldsetView(name: string, divider: bool, children: seq<View>)
    | ArrayPlaceholder(name: string)
    | FieldView(property: FormProperty)

  /** A property is hidden only when its condition evaluates without throwing to a falsy
      value. */
  predicate HiddenByCondition(p: FormProperty, eval: string -> Option<JsValue>) {
    p.condition.Some? && p.condition.value != "" && eval(p.condition.value).Some? && !Truthy(eval(p.condition.value).value)
  }

  function RenderProperty(p: FormProperty, eval: string -> Option<JsValue>): (v: View)
    ensures v.Hidden? <==> HiddenByCondition(p, eval)
    ensures v.FieldsetView? <==> !HiddenByCondition(p, eval) && HasChildren(p)
    ensures v.FieldsetView? ==> p.properties.Nested? && |v.children| == |p.properties.list|
    ensures v.FieldView? ==> v.property == p
    decreases p, 1
  {
    if HiddenByCondition(p, eval) then Hidden
    else if HasChildren(p) then FieldsetView(p.name, p.divider, RenderAll(p.properties.list, eval))
    else if p.propType == "array" then ArrayPlaceholder(p.name)
    else FieldView(p)
  }

  function RenderAll(props: seq<FormProperty>, eval: string -> Option<JsValue>): (vs: seq<View>)
    ensures |vs| == |props|
    decreases props, 0
  {
    if |props| == 0 then [] else [RenderProperty(props[0], eval)] + RenderAll(props[1..], eval)
  }

  /** A fieldset renders each child in place, an array only a placeholder, and a condition
      that throws never hides. */
  lemma RenderChoice(p: FormProperty, eval: string -> Option<JsValue>)
    ensures RenderProperty(p, eval).Hidden? <==> HiddenByCondition(p, eval)
    ensures !HiddenByCondition(p, eval) && HasChildren(p) ==>
      var v := RenderProperty(p, eval);
      v.FieldsetView? && |v.children| == |p.properties.list| &&
      forall i :: 0 <= i < |v.children| ==> v.children[i] == RenderProperty(p.properties.list[i], eval)
    ensures !HiddenByCondition(p, eval) && !HasChildren(p) && p.propType == "array" ==>
      RenderProperty(p, eval) == ArrayPlaceholder(p.name)
    ensures p.condition.Some? && eval(p.condition.value).None? ==> !RenderProperty(p, eval).Hidden?
  {
    if !HiddenByCondition(p, eval) && HasChildren(p) {
      RenderAllAt(p.properties.list, eval);
    }
  }

  lemma {:induction false} RenderAllAt(props: seq<FormProperty>, eval: string -> Option<JsValue>)
    ensures forall i :: 0 <= i < |props| ==> RenderAll(props, eval)[i] == RenderProperty(props[i], eval)
  {
    if |props| > 0 {
      RenderAllAt(props[1..], eval);
    }
  }
}

=== FILE: entity_aliases.dfy ===
/** The entity-aliases service: aliases live in an object keyed by alias id. */
module EntityAliases {
  import opened Wrappers
  import opened Text
  import opened Dict
  import opened DashboardTypes

  /** `dashboard?.configuration?.entityAliases`. */
  function AliasesOf(d: Option<Dashboard>): Option<Dict<EntityAlias>> {
    if d.Some? && d.value.configuration.Some? then d.value.configuration.value.entityAliases else None
  }

  /** The stored aliases as a list, each with its `id` overwritten by its key. */
  function WithKeyIds(aliases: Dict<EntityAlias>): (r: seq<EntityAlias>)
    ensures |r| == |aliases|
    ensures forall i :: 0 <= i < |r| ==> r[i] == aliases[i].value.(id := aliases[i].key)
  {
    if |aliases| == 0 then [] else [aliases[0].value.(id := aliases[0].key)] + WithKeyIds(aliases[1..])
  }

  function GetAliases(d: Option<Dashboard>): (r: seq<EntityAlias>)
    ensures AliasesOf(d).None? ==> r == []
    ensures AliasesOf(d).Some? ==> |r| == |AliasesOf(d).value|
    ensures AliasesOf(d).Some? ==> forall i :: 0 <= i < |r| ==> r[i].id == AliasesOf(d).value[i].key
  {
    if AliasesOf(d).None? then [] else WithKeyIds(AliasesOf(d).value)
  }

  function GetAlias(d: Option<Dashboard>, aliasId: string): (r: Option<EntityAlias>)
    ensures r.Some? <==> AliasesOf(d).Some? && Has(AliasesOf(d).value, aliasId)
    ensures r.Some? ==> r.value == Get(AliasesOf(d).value, aliasId).value.(id := aliasId)
  {
    if AliasesOf(d).None? then None
    else
      match Get(AliasesOf(d).value, aliasId)
      case None => None
      case Some(a) => Some(a.(id := aliasId))
  }

  /** `getAlias` finds an alias exactly when `getAliases` lists one with that id, and then
      returns that listed alias. */
  lemma GetAliasListed(d: Option<Dashboard>, aliasId: string)
    requires AliasesOf(d).Some? ==> Wf(AliasesOf(d).value)
    ensures GetAlias(d, aliasId).Some? <==> exists i :: 0 <= i < |GetAliases(d)| && GetAliases(d)[i].id == aliasId
    ensures forall i :: 0 <= i < |GetAliases(d)| && GetAliases(d)[i].id == aliasId ==>
              GetAlias(d, aliasId) == Some(GetAliases(d)[i])
  {
    if AliasesOf(d).Some? {
      var al := AliasesOf(d).value;
      var r := GetAliases(d);
      if GetAlias(d, aliasId).Some? {
        var i := FindKey(al, aliasId);
        assert r[i].id == aliasId;
      }
      forall i | 0 <= i < |r| && r[i].id == aliasId
        ensures GetAlias(d, aliasId) == Some(r[i])
      {
        assert al[i].key == aliasId;
        GetAt(al, i);
      }
    }
  }

  function AliasesOrEmpty(c: Configuration): Dict<EntityAlias> {
    if c.entityAliases.Some? then c.entityAliases.value else []
  }

  /** Stores `alias` under `aliasId` with its `id` overwritten, creating the map if needed. */
  function SetAlias(c: Configuration, aliasId: string, alias: EntityAlias): (r: Configuration)
    ensures r.entityAliases.Some?
    ensures Get(r.entityAliases.value, aliasId) == Some(alias.(id := aliasId))
    ensures forall k :: k != aliasId ==> Get(r.entityAliases.value, k) == Get(AliasesOrEmpty(c), k)
    ensures r == c.(entityAliases := r.entityAliases)
  {
    c.(entityAliases := Some(Set(AliasesOrEmpty(c), aliasId, alias.(id := aliasId))))
  }

  function RemoveAlias(c: Configuration, aliasId: string): (r: Configuration)
    ensures c.entityAliases.None? ==> r == c
    ensures c.entityAliases.Some? ==> r.entityAliases.Some? && Get(r.entityAliases.value, aliasId).None?
    ensures c.entityAliases.Some? ==>
      forall k :: k != aliasId ==> Get(r.entityAliases.value, k) == Get(c.entityAliases.value, k)
    ensures c.entityAliases.Some? && !Has(c.entityAliases.value, aliasId) ==> r == c
    ensures r == c.(entityAliases := r.entityAliases)
  {
    if c.entityAliases.None? then c else c.(entityAliases := Some(Remove(c.entityAliases.value, aliasId)))
  }

  function HasAlias(d: Option<Dashboard>, aliasId: string): (b: bool)
    ensures b <==> AliasesOf(d).Some? && aliasId in Keys(AliasesOf(d).value)
  {
    AliasesOf(d).Some? && Get(AliasesOf(d).value, aliasId).Some?
  }

  lemma HasAliasIffGetAlias(d: Option<Dashboard>, aliasId: string)
    ensures HasAlias(d, aliasId) <==> GetAlias(d, aliasId).Some?
  {
  }

  function GetAliasName(d: Option<Dashboard>, aliasId: string): (r: string)
    ensures GetAlias(d, aliasId).None? ==> r == aliasId
    ensures GetAlias(d, aliasId).Some? && GetAlias(d, aliasId).value.alias != "" ==> r == GetAlias(d, aliasId).value.alias
    ensures GetAlias(d, aliasId).Some? && GetAlias(d, aliasId).value.alias == "" ==> r == aliasId
  {
    var a := GetAlias(d, aliasId);
    if a.Some? && a.value.alias != "" then a.value.alias else aliasId
  }

  /** The index of the first alias of `aliases` whose name is exactly `name`, or `|aliases|`. */
  function FirstNamed(aliases: seq<EntityAlias>, name: string): (k: nat)
    ensures k <= |aliases|
    ensures forall i :: 0 <= i < k ==> aliases[i].alias != name
    ensures k < |aliases| ==> aliases[k].alias == name
  {
    if |aliases| == 0 then 0
    else if aliases[0].alias == name then 0
    else 1 + FirstNamed(aliases[1..], name)
  }

  /** `aliases.find(a => a.alias === name) || null` over `getAliases`. */
  function FindAliasByName(d: Option<Dashboard>, name: string): (r: Option<EntityAlias>)
    ensures r.None? <==> forall i :: 0 <= i < |GetAliases(d)| ==> GetAliases(d)[i].alias != name
    ensures r.Some? ==>
      exists k :: 0 <= k < |GetAliases(d)| && GetAliases(d)[k] == r.value && r.value.alias == name &&
        forall i :: 0 <= i < k ==> GetAliases(d)[i].alias != name
  {
    var all := GetAliases(d);
    var k := FirstNamed(all, name);
    if k < |all| then Some(all[k]) else None
  }

  const NameRequired := "Alias name is required"
  const FilterRequired := "Filter is required"
  const FilterTypeRequired := "Filter type is required"

  datatype Validation = Validation(valid: bool, errors: seq<string>)

  /** A filter's `type` is truthy. */
  predicate HasFilterType(f: AliasFilter) {
    f.filterType.Some? && f.filterType.value != ""
  }

  /** Checks the name, then the filter, then (only when there is a filter) its type. */
  function ValidateAlias(a: EntityAlias): (r: Validation)
    ensures r.valid <==> r.errors == []
    ensures NameRequired in r.errors <==> Trim(a.alias) == ""
    ensures FilterRequired in r.errors <==> a.filter.None?
    ensures FilterTypeRequired in r.errors <==> a.filter.Some? && !HasFilterType(a.filter.value)
    ensures |r.errors| <= 2
    ensures |r.errors| > 0 && Trim(a.alias) == "" ==> r.errors[0] == NameRequired
  {
    var nameErrors := if a.alias == "" || Trim(a.alias) == "" then [NameRequired] else [];
    var filterErrors :=
      if a.filter.None? then [FilterRequired]
      else if !HasFilterType(a.filter.value) then [FilterTypeRequired]
      else [];
    var errors := nameErrors + filterErrors;
    Validation(|errors| == 0, errors)
  }

  /** An alias is valid exactly when its trimmed name is non-empty and it has a filter with a
      type. */
  lemma ValidateAliasValid(a: EntityAlias)
    ensures ValidateAlias(a).valid <==> Trim(a.alias) != "" && a.filter.Some? && HasFilterType(a.filter.value)
  {
  }
}

=== FILE: export_import.dfy ===
/** Dashboard export and import. The JSON text itself is abstract: exporting yields the record
    that is serialised, and importing takes the parser as a parameter that either yields the
    fields read from the text or fails. What a trip through JSON does to the values inside a
    configuration is modelled: `undefined` members and functions are lost. */
module ExportImport {
  import opened Wrappers
  import opened Text
  import opened Dict
  import opened JsValues
  import opened DashboardTypes

  /** The exported object: exactly a name and a configuration. */
  datatype ExportData = ExportData(name: string, configuration: Option<Configuration>)

  /** The fields an import reads from the parsed object. */
  datatype ParsedDashboard = ParsedDashboard(name: Option<string>, title: Option<string>,
                                             configuration: Option<Configuration>)

  /** A dashboard with only some fields set. */
  datatype PartialDashboard = PartialDashboard(title: Option<string>, configuration: Option<Configuration>)

  function ExportDashboard(d: Dashboard): (e: ExportData)
    ensures e.name == d.title && e.configuration == d.configuration
  {
    ExportData(d.title, d.configuration)
  }

  /** What parsing the serialised export gives back: the name, no title, and the configuration
      as JSON leaves it (an undefined configuration is not written at all). */
  function Reparse(e: ExportData): (p: ParsedDashboard)
    ensures p.name == Some(e.name) && p.title.None?
    ensures p.configuration.Some? <==> e.configuration.Some?
    ensures e.configuration.Some? ==> p.configuration == Some(JsonConfiguration(e.configuration.value))
  {
    ParsedDashboard(Some(e.name), None, if e.configuration.Some? then Some(JsonConfiguration(e.configuration.value)) else None)
  }

  // ---------------------------------------------------------------------------------------
  // A configuration through `JSON.parse(JSON.stringify(...))`
  // ---------------------------------------------------------------------------------------

  /** A member JSON may skip, as it reads back: `undefined` when it was skipped. */
  function JsonMember(v: JsValue): JsValue {
    if Serialisable(v) then JsonRoundTrip(v) else Undefined
  }

  /** An optional member, absent when JSON skipped it. */
  function JsonOptional(o: Option<JsValue>): Option<JsValue> {
    if o.Some? && Serialisable(o.value) then Some(JsonRoundTrip(o.value)) else None
  }

  function JsonWidget(w: Widget): Widget {
    w.(config := w.config.(settings := JsonMember(w.config.settings)))
  }

  function JsonWidgets(c: Option<WidgetCollection>): Option<WidgetCollection> {
    match c
    case None => None
    case Some(WidgetList(list)) => Some(WidgetList(seq(|list|, i requires 0 <= i < |list| => JsonWidget(list[i]))))
    case Some(WidgetMap(byId)) => Some(WidgetMap(MapValues(byId, (k, w) => JsonWidget(w))))
  }

  function JsonAlias(a: EntityAlias): EntityAlias {
    if a.filter.Some? then a.(filter := Some(a.filter.value.(other := JsonObject(a.filter.value.other)))) else a
  }

  function JsonFilter(f: EntityFilter): EntityFilter {
    f.(other := JsonObject(f.other))
  }

  /** The configuration as JSON leaves it. Its typed members (time window, states, widget
      geometry, datasources, actions) are strings, numbers, booleans and records of them, which
      JSON carries as they are; the loosely typed values lose their `undefined` members and
      functions. */
  function JsonConfiguration(c: Configuration): (r: Configuration)
    ensures r.timewindow == c.timewindow && r.states == c.states
    ensures r.widgets.Some? <==> c.widgets.Some?
    ensures r.entityAliases.Some? <==> c.entityAliases.Some?
    ensures r.filters.Some? <==> c.filters.Some?
    ensures forall k :: k in Keys(r.other) ==> k in Keys(c.other)
  {
    c.(settings := JsonOptional(c.settings),
       widgets := JsonWidgets(c.widgets),
       entityAliases := if c.entityAliases.Some? then Some(MapValues(c.entityAliases.value, (k, a) => JsonAlias(a))) else None,
       filters := if c.filters.Some? then Some(MapValues(c.filters.value, (k, f) => JsonFilter(f))) else None,
       other := JsonObject(c.other))
  }

  predicate JsonMembers(fs: Dict<JsValue>) {
    forall i :: 0 <= i < |fs| ==> IsJson(fs[i].value)
  }

  /** Nothing in the configuration that JSON would lose: every loosely typed value is a JSON
      value (a widget's settings may also be missing). */
  predicate JsonSafe(c: Configuration) {
    && (c.settings.Some? ==> IsJson(c.settings.value))
    && (c.widgets.Some? ==>
          var ws := WidgetsOf(c.widgets.value);
          forall i :: 0 <= i < |ws| ==> IsJson(ws[i].config.settings) || ws[i].config.settings.Undefined?)
    && (c.entityAliases.Some? ==>
          var d := c.entityAliases.value;
          forall i :: 0 <= i < |d| && d[i].value.filter.Some? ==> JsonMembers(d[i].value.filter.value.other))
    && (c.filters.Some? ==>
          var d := c.filters.value;
          forall i :: 0 <= i < |d| ==> JsonMembers(d[i].value.other))
    && JsonMembers(c.other)
  }

  /** A configuration with nothing JSON would lose comes back exactly. */
  lemma JsonConfigurationKeeps(c: Configuration)
    requires JsonSafe(c)
    ensures JsonConfiguration(c) == c
  {
    if c.settings.Some? {
      JsonKeepsJson(c.settings.value);
    }
    JsonWidgetsKeep(c.widgets);
    if c.entityAliases.Some? {
      var d := c.entityAliases.value;
      forall i | 0 <= i < |d| ensures JsonAlias(d[i].value) == d[i].value {
        if d[i].value.filter.Some? {
          JsonFieldsKeep(d[i].value.filter.value.other, Obj(d[i].value.filter.value.other));
        }
      }
      MapValuesId(d, (k, a) => JsonAlias(a));
    }
    if c.filters.Some? {
      var d := c.filters.value;
      forall i | 0 <= i < |d| ensures JsonFilter(d[i].value) == d[i].value {
        JsonFieldsKeep(d[i].value.other, Obj(d[i].value.other));
      }
      MapValuesId(d, (k, f) => JsonFilter(f));
    }
    JsonFieldsKeep(c.other, Obj(c.other));
  }

  lemma JsonWidgetKeeps(w: Widget)
    requires IsJson(w.config.settings) || w.config.settings.Undefined?
    ensures JsonWidget(w) == w
  {
    if IsJson(w.config.settings) {
      JsonKeepsJson(w.config.settings);
    }
  }

  lemma JsonWidgetsKeep(c: Option<WidgetCollection>)
    requires c.Some? ==>
      var ws := WidgetsOf(c.value);
      forall i :: 0 <= i < |ws| ==> IsJson(ws[i].config.settings) || ws[i].config.settings.Undefined?
    ensures JsonWidgets(c) == c
  {
    match c
    case None =>
    case Some(WidgetList(list)) =>
      assert WidgetsOf(c.value) == list;
      forall i | 0 <= i < |list| ensures JsonWidget(list[i]) == list[i] {
        JsonWidgetKeeps(list[i]);
      }
      assert seq(|list|, i requires 0 <= i < |list| => JsonWidget(list[i])) == list;
    case Some(WidgetMap(byId)) =>
      assert WidgetsOf(c.value) == Values(byId);
      forall i | 0 <= i < |byId| ensures JsonWidget(byId[i].value) == byId[i].value {
        assert Values(byId)[i] == byId[i].value;
        JsonWidgetKeeps(byId[i].value);
      }
      MapValuesId(byId, (k, w) => JsonWidget(w));
  }

  /** Whatever goes through JSON comes out with nothing more to lose, so a second trip changes
      nothing. */
  lemma JsonConfigurationSafe(c: Configuration)
    ensures JsonSafe(JsonConfiguration(c))
    ensures JsonConfiguration(JsonConfiguration(c)) == JsonConfiguration(c)
  {
    var r := JsonConfiguration(c);
    if c.settings.Some? && Serialisable(c.settings.value) {
      JsonResultIsJson(c.settings.value);
    }
    JsonWidgetsSafe(c.widgets);
    if c.entityAliases.Some? {
      var d := c.entityAliases.value;
      var f := (k: string, a: EntityAlias) => JsonAlias(a);
      forall i | 0 <= i < |MapValues(d, f)| && MapValues(d, f)[i].value.filter.Some?
        ensures JsonMembers(MapValues(d, f)[i].value.filter.value.other)
      {
        MapValuesAt(d, f, i);
        JsonFieldsAreJson(d[i].value.filter.value.other, Obj(d[i].value.filter.value.other));
      }
    }
    if c.filters.Some? {
      var d := c.filters.value;
      var f := (k: string, x: EntityFilter) => JsonFilter(x);
      forall i | 0 <= i < |MapValues(d, f)| ensures JsonMembers(MapValues(d, f)[i].value.other) {
        MapValuesAt(d, f, i);
        JsonFieldsAreJson(d[i].value.other, Obj(d[i].value.other));
      }
    }
    JsonFieldsAreJson(c.other, Obj(c.other));
    JsonConfigurationKeeps(r);
  }

  lemma JsonWidgetSafe(w: Widget)
    ensures IsJson(JsonWidget(w).config.settings) || JsonWidget(w).config.settings.Undefined?
  {
    if Serialisable(w.config.settings) {
      JsonResultIsJson(w.config.settings);
    }
  }

  lemma JsonWidgetsSafe(c: Option<WidgetCollection>)
    ensures JsonWidgets(c).Some? ==>
      var ws := WidgetsOf(JsonWidgets(c).value);
      forall i :: 0 <= i < |ws| ==> IsJson(ws[i].config.settings) || ws[i].config.settings.Undefined?
  {
    match c
    case None =>
    case Some(WidgetList(list)) =>
      forall i | 0 <= i < |list| ensures IsJson(JsonWidget(list[i]).config.settings) || JsonWidget(list[i]).config.settings.Undefined? {
        JsonWidgetSafe(list[i]);
      }
    case Some(WidgetMap(byId)) =>
      var f := (k: string, w: Widget) => JsonWidget(w);
      var ws := Values(MapValues(byId, f));
      forall i | 0 <= i < |ws| ensures IsJson(ws[i].config.settings) || ws[i].config.settings.Undefined? {
        MapValuesAt(byId, f, i);
        JsonWidgetSafe(byId[i].value);
      }
  }

  /** A loosely typed member of the configuration that is a function or `undefined` does not
      survive: it is absent after the trip, and every other member is passed through JSON. */
  lemma JsonConfigurationOther(c: Configuration, k: string)
    requires Wf(c.other)
    ensures var v := Get(c.other, k);
            Get(JsonConfiguration(c).other, k) == if v.Some? && Serialisable(v.value) then Some(JsonRoundTrip(v.value)) else None
  {
    JsonFieldsGet(c.other, Obj(c.other), k);
  }

  /** `s || d` for an optional string. */
  function OrTitle(a: Option<string>, b: Option<string>): (r: Option<string>)
    ensures a.Some? && a.value != "" ==> r == a
    ensures !(a.Some? && a.value != "") ==> r == b
  {
    if a.Some? && a.value != "" then a else b
  }

  /** `configuration || {}`. */
  function ConfigurationOrEmpty(c: Option<Configuration>): (r: Configuration)
    ensures c.Some? ==> r == c.value
    ensures c.None? ==> r == EmptyConfiguration
  {
    if c.Some? then c.value else EmptyConfiguration
  }

  const InvalidJson := "Invalid JSON format"

  /** Title from the name, else the title; configuration or `{}`; any parse failure becomes
      "Invalid JSON format". */
  function ImportDashboard(text: string, parse: string -> Result<ParsedDashboard>): (r: Result<PartialDashboard>)
    ensures parse(text).Err? ==> r == Err(InvalidJson)
    ensures parse(text).Ok? ==>
      r.Ok? &&
      r.value.title == OrTitle(parse(text).value.name, parse(text).value.title) &&
      r.value.configuration == Some(ConfigurationOrEmpty(parse(text).value.configuration))
  {
    match parse(text)
    case Err(_) => Err(InvalidJson)
    case Ok(data) => Ok(PartialDashboard(OrTitle(data.name, data.title), Some(ConfigurationOrEmpty(data.configuration))))
  }

  /** Importing an export keeps a non-empty title and the configuration as JSON leaves it
      (`{}` when it was undefined); an empty title comes back undefined. */
  lemma ExportImportRoundTrip(d: Dashboard, text: string, parse: string -> Result<ParsedDashboard>)
    requires parse(text) == Ok(Reparse(ExportDashboard(d)))
    ensures ImportDashboard(text, parse).Ok?
    ensures d.title != "" ==> ImportDashboard(text, parse).value.title == Some(d.title)
    ensures d.title == "" ==> ImportDashboard(text, parse).value.title.None?
    ensures ImportDashboard(text, parse).value.configuration ==
              Some(if d.configuration.Some? then JsonConfiguration(d.configuration.value) else EmptyConfiguration)
  {
  }

  /** A configuration with nothing JSON would lose comes back from an export exactly. */
  lemma ExportImportLossless(d: Dashboard, text: string, parse: string -> Result<ParsedDashboard>)
    requires parse(text) == Ok(Reparse(ExportDashboard(d)))
    requires d.configuration.Some? && JsonSafe(d.configuration.value)
    ensures ImportDashboard(text, parse).Ok?
    ensures ImportDashboard(text, parse).value.configuration == d.configuration
  {
    JsonConfigurationKeeps(d.configuration.value);
  }

  /** Reading the file first: a read failure is "Failed to read file". */
  function ImportDashboardFromFile(read: Option<string>, parse: string -> Result<ParsedDashboard>)
    : (r: Result<PartialDashboard>)
    ensures read.None? ==> r == Err("Failed to read file")
    ensures read.Some? ==> r == ImportDashboard(read.value, parse)
  {
    if read.None? then Err("Failed to read file") else ImportDashboard(read.value, parse)
  }

  /** The download name: the given filename, else "<title or dashboard>_<now>.json". */
  function ExportFileName(d: Dashboard, filename: Option<string>, now: nat): (r: string)
    ensures filename.Some? && filename.value != "" ==> r == filename.value
    ensures !(filename.Some? && filename.value != "") ==>
      r == (if d.title != "" then d.title else "dashboard") + "_" + NatToString(now) + ".json"
  {
    if filename.Some? && filename.value != "" then filename.value
    else (if d.title != "" then d.title else "dashboard") + "_" + NatToString(now) + ".json"
  }

  const TitleRequired := "Dashboard title is required"
  const ConfigurationRequired := "Dashboard configuration is required"

  datatype Validation = Validation(valid: bool, errors: seq<string>)

  function ValidateDashboard(p: PartialDashboard): (r: Validation)
    ensures r.valid <==> r.errors == []
    ensures TitleRequired in r.errors <==> p.title.None? || p.title.value == ""
    ensures ConfigurationRequired in r.errors <==> p.configuration.None?
    ensures |r.errors| == 2 ==> r.errors == [TitleRequired, ConfigurationRequired]
  {
    var errors := (if p.title.None? || p.title.value == "" then [TitleRequired] else [])
                + (if p.configuration.None? then [ConfigurationRequired] else []);
    Validation(|errors| == 0, errors)
  }

  /** An imported dashboard always has a configuration, so it can fail only on its title. */
  lemma ImportFailsOnlyOnTitle(text: string, parse: string -> Result<ParsedDashboard>)
    requires ImportDashboard(text, parse).Ok?
    ensures var v := ValidateDashboard(ImportDashboard(text, parse).value);
            v.errors == [] || v.errors == [TitleRequired]
  {
  }

  /** The new title, else "<title> (Copy)"; the configuration deep-copied through JSON, `{}`
      when undefined. */
  function CloneDashboard(d: Dashboard, newTitle: Option<string>): (r: PartialDashboard)
    ensures newTitle.Some? && newTitle.value != "" ==> r.title == newTitle
    ensures !(newTitle.Some? && newTitle.value != "") ==> r.title == Some(d.title + " (Copy)")
    ensures d.configuration.None? ==> r.configuration == Some(EmptyConfiguration)
    ensures d.configuration.Some? ==> r.configuration == Some(JsonConfiguration(d.configuration.value))
  {
    var cloned := if d.configuration.None? then EmptyConfiguration else JsonConfiguration(d.configuration.value);
    PartialDashboard(OrTitle(newTitle, Some(d.title + " (Copy)")), Some(cloned))
  }

  /** The clone equals the original configuration exactly when that has nothing JSON would
      lose, and a function stored among its loosely typed members is gone from the clone. */
  lemma CloneExactIffJsonSafe(d: Dashboard, newTitle: Option<string>, c: Configuration, k: string, src: string)
    requires d.configuration == Some(c) && Wf(c.other)
    ensures CloneDashboard(d, newTitle).configuration == Some(c) <==> JsonSafe(c)
    ensures Get(c.other, k) == Some(Fn(src)) ==> Get(CloneDashboard(d, newTitle).configuration.value.other, k).None?
  {
    JsonConfigurationSafe(c);
    if JsonSafe(c) {
      JsonConfigurationKeeps(c);
    }
    JsonConfigurationOther(c, k);
  }

  /** A clone always passes validation. */
  lemma CloneIsValid(d: Dashboard, newTitle: Option<string>)
    ensures ValidateDashboard(CloneDashboard(d, newTitle)).valid
  {
    var r := CloneDashboard(d, newTitle);
    assert |r.title.value| > 0;
  }
}

=== FILE: filters_dialog.dfy ===
/** The submit and delete handlers of the filters dialog. A handler yields the configuration
    it dispatches, or `None` when it returns without dispatching. */
module FiltersDialog {
  import opened Wrappers
  import opened Text
  import opened Dict
  import opened DashboardTypes

  /** `configuration?.filters || {}`. */
  function FiltersOf(config: Option<Configuration>): Dict<EntityFilter> {
    if config.Some? && config.value.filters.Some? then config.value.filters.value else []
  }

  function FilterIdFor(editingId: Option<string>, now: nat): (id: string)
    ensures editingId.Some? && editingId.value != "" ==> id == editingId.value
    ensures !(editingId.Some? && editingId.value != "") ==> id == "filter_" + NatToString(now)
  {
    if editingId.Some? && editingId.value != "" then editingId.value else "filter_" + NatToString(now)
  }

  /** Stores exactly `{type: trimmed type}` under the filter id. */
  function OnSubmit(config: Option<Configuration>, editingId: Option<string>, filterType: string, now: nat)
    : (r: Option<Configuration>)
    ensures config.None? || Trim(filterType) == "" ==> r.None?
    ensures config.Some? && Trim(filterType) != "" ==> r.Some?
    ensures r.Some? ==> r.value == config.value.(filters := r.value.filters) && r.value.filters.Some?
    ensures r.Some? ==>
      var id := FilterIdFor(editingId, now);
      Get(r.value.filters.value, id) == Some(EntityFilter(Trim(filterType), None, [])) &&
      forall k :: k != id ==> Get(r.value.filters.value, k) == Get(FiltersOf(config), k)
  {
    if config.None? || Trim(filterType) == "" then None
    else
      var id := FilterIdFor(editingId, now);
      Some(config.value.(filters := Some(Set(FiltersOf(config), id, EntityFilter(Trim(filterType), None, [])))))
  }

  /** Removes only that id; a configuration without filters gets an empty filter object. */
  function HandleDelete(config: Option<Configuration>, filterId: string): (r: Option<Configuration>)
    ensures config.None? ==> r.None?
    ensures config.Some? ==> r.Some? && r.value == config.value.(filters := r.value.filters) && r.value.filters.Some?
    ensures r.Some? ==> Get(r.value.filters.value, filterId).None?
    ensures r.Some? ==> forall k :: k != filterId ==> Get(r.value.filters.value, k) == Get(FiltersOf(config), k)
  {
    if config.None? then None
    else Some(config.value.(filters := Some(Remove(FiltersOf(config), filterId))))
  }

  /** Deleting a filter just saved under a fresh id restores every other filter. */
  lemma SubmitThenDelete(config: Option<Configuration>, filterType: string, now: nat, k: string)
    requires OnSubmit(config, None, filterType, now).Some?
    ensures var id := FilterIdFor(None, now);
            var r := HandleDelete(OnSubmit(config, None, filterType, now), id).value;
            Get(r.filters.value, k) == if k == id then None else Get(FiltersOf(config), k)
  {
  }
}

=== FILE: form_schema.dfy ===
/** Settings-form support: the default value of every form property, and the validation
    schema built from the properties, as an abstract tree of constraints. */
module FormSchema {
  import opened Wrappers
  import opened Dict
  import opened JsValues
  import opened WidgetTypes

  /** The validation constraint of one value. Messages are not modelled. */
  datatype Schema =
    | ObjectSchema(shape: Dict<Schema>)
    | ArraySchema(item: Schema, minItems: Option<int>, maxItems: Option<int>, required: bool)
    | StringSchema(colorPattern: bool, required: bool)
    | NumberSchema(min: Option<int>, max: Option<int>, required: bool)
    | BooleanSchema(required: bool)
    | MixedSchema(required: bool)

  /** A nested object schema carries no required constraint; every other schema may. */
  predicate IsRequired(s: Schema) {
    !s.ObjectSchema? && s.required
  }

  /** A fieldset that has a nested property list. */
  predicate HasChildren(p: FormProperty) {
    p.propType == "fieldset" && p.properties.Nested?
  }

  predicate IsTextKind(t: string) {
    t == "text" || t == "password" || t == "textarea" || t == "html" || t == "css"
    || t == "javascript" || t == "json" || t == "markdown"
  }

  /** The object schema of a property list: one entry per property id, later duplicates
      overwriting earlier ones. */
  function BuildFormSchema(props: seq<FormProperty>): (s: Schema)
    ensures s.ObjectSchema? && Wf(s.shape)
    decreases props, 1
  {
    ObjectSchema(FromEntries(SchemaEntries(props)))
  }

  function SchemaEntries(props: seq<FormProperty>): (es: seq<Entry<Schema>>)
    ensures Keys(es) == PropertyIds(props)
    decreases props, 0
  {
    if |props| == 0 then [] else [Entry(props[0].id, PropertySchema(props[0]))] + SchemaEntries(props[1..])
  }

  function PropertyIds(props: seq<FormProperty>): (ids: seq<string>)
    ensures |ids| == |props| && forall i :: 0 <= i < |props| ==> ids[i] == props[i].id
  {
    if |props| == 0 then [] else [props[0].id] + PropertyIds(props[1..])
  }

  /** The schema of one property: the nested object of a fieldset, an array of items, or a
      field schema chosen by the type. */
  function PropertySchema(p: FormProperty): (s: Schema)
    decreases p, 2
  {
    if HasChildren(p) then BuildFormSchema(p.properties.list)
    else if p.propType == "array" then ArraySchema(ArrayItemSchema(p), p.minItems, p.maxItems, p.required)
    else FieldSchema(p)
  }

  /** Items of an array property: numbers, strings, nested objects, or anything. */
  function ArrayItemSchema(p: FormProperty): (s: Schema)
    decreases p, 1
  {
    if p.arrayItemType == Some("number") then NumberSchema(None, None, false)
    else if p.arrayItemType == Some("text") then StringSchema(false, false)
    else if p.arrayItemType == Some("fieldset") && p.properties.Nested? then BuildFormSchema(p.properties.list)
    else MixedSchema(false)
  }

  function FieldSchema(p: FormProperty): (s: Schema)
    ensures !s.ObjectSchema?
  {
    if IsTextKind(p.propType) then StringSchema(false, p.required)
    else if p.propType == "number" then NumberSchema(p.min, p.max, p.required)
    else if p.propType == "switch" then BooleanSchema(p.required)
    else if p.propType == "select" then
      (if p.multiple then ArraySchema(MixedSchema(false), p.minItems, p.maxItems, p.required) else MixedSchema(p.required))
    else if p.propType == "color" then StringSchema(true, p.required)
    else if p.propType == "htmlSection" then MixedSchema(false)
    else MixedSchema(p.required)
  }

  /** The required flag becomes a required constraint for every kind of property except an
      HTML section and a fieldset with nested properties (a nested object schema). */
  lemma RequiredConstraint(p: FormProperty)
    ensures IsRequired(PropertySchema(p)) <==> p.required && p.propType != "htmlSection" && !HasChildren(p)
  {
  }

  /** Number bounds and item counts are present exactly when the property defines them. */
  lemma BoundsCopied(p: FormProperty)
    ensures !HasChildren(p) && p.propType == "number" ==> PropertySchema(p) == NumberSchema(p.min, p.max, p.required)
    ensures !HasChildren(p) && (p.propType == "array" || (p.propType == "select" && p.multiple)) ==>
      PropertySchema(p).ArraySchema? && PropertySchema(p).minItems == p.minItems && PropertySchema(p).maxItems == p.maxItems
  {
  }

  /** The default values of a property list: one key per property id, later duplicates
      overwriting earlier ones. */
  function GetDefaultValues(props: seq<FormProperty>): (r: Dict<JsValue>)
    ensures Wf(r)
    decreases props, 1
  {
    FromEntries(DefaultEntries(props))
  }

  function DefaultEntries(props: seq<FormProperty>): (es: seq<Entry<JsValue>>)
    ensures Keys(es) == PropertyIds(props)
    ensures forall i :: 0 <= i < |props| ==> es[i] == Entry(props[i].id, DefaultValue(props[i]))
    decreases props, 0
  {
    if |props| == 0 then [] else [Entry(props[0].id, DefaultValue(props[0]))] + DefaultEntries(props[1..])
  }

  /** A fieldset with children defaults to its children's defaults; an array to []; else the
      declared default, else a value chosen by the type. */
  function DefaultValue(p: FormProperty): (v: JsValue)
    decreases p, 2
  {
    if HasChildren(p) then Obj(GetDefaultValues(p.properties.list))
    else if p.propType == "array" then Arr([])
    else if !p.default.Undefined? then p.default
    else if p.propType == "number" then Num(0)
    else if p.propType == "switch" then Bool(false)
    else if p.propType == "select" then (if p.multiple then Arr([]) else Str(""))
    else Str("")
  }

  /** How each kind of property defaults. */
  lemma DefaultValueCases(p: FormProperty)
    ensures HasChildren(p) ==> DefaultValue(p) == Obj(GetDefaultValues(p.properties.list))
    ensures !HasChildren(p) && p.propType == "array" ==> DefaultValue(p) == Arr([])
    ensures !HasChildren(p) && p.propType != "array" && !p.default.Undefined? ==> DefaultValue(p) == p.default
    ensures !HasChildren(p) && p.propType != "array" && p.default.Undefined? ==>
      DefaultValue(p) == (if p.propType == "number" then Num(0)
                          else if p.propType == "switch" then Bool(false)
                          else if p.propType == "select" && p.multiple then Arr([])
                          else Str(""))
  {
  }

  /** The defaults hold a key exactly for each property id. */
  lemma DefaultsKeys(props: seq<FormProperty>, k: string)
    ensures Has(GetDefaultValues(props), k) <==> k in PropertyIds(props)
  {
    var es := DefaultEntries(props);
    KeysSetAll([], es, k);
    if k in PropertyIds(props) {
      var i :| 0 <= i < |props| && PropertyIds(props)[i] == k;
      assert es[i].key == k;
    }
  }

  /** Under each id the defaults hold the default of the last property with that id. */
  lemma DefaultsByLastId(props: seq<FormProperty>, k: string, j: nat)
    requires j < |props| && props[j].id == k
    requires forall i :: j < i < |props| ==> props[i].id != k
    ensures Get(GetDefaultValues(props), k) == Some(DefaultValue(props[j]))
  {
    var es := DefaultEntries(props);
    GetSetAll([], es, k);
    LastWithIndex(es, k, j);
  }

  /** The schema shape and the defaults have the same keys, in the same order. */
  lemma SchemaMatchesDefaults(props: seq<FormProperty>)
    ensures Keys(BuildFormSchema(props).shape) == Keys(GetDefaultValues(props))
  {
    SetAllKeysOnly([], SchemaEntries(props), [], DefaultEntries(props));
  }

  predicate IsHexDigit(c: char) {
    ('0' <= c <= '9') || ('a' <= c <= 'f') || ('A' <= c <= 'F')
  }

  /** The colour pattern: '#' then exactly six hexadecimal digits, in either case. */
  predicate MatchesColor(s: string) {
    |s| == 7 && s[0] == '#' && forall i :: 1 <= i < 7 ==> IsHexDigit(s[i])
  }

  /** Whether a string value (or an absent one) satisfies a string schema: an absent value
      passes unless required, the empty string fails a required schema, and a colour schema
      checks the pattern on any present value. */
  predicate StringPasses(s: Schema, v: Option<string>)
    requires s.StringSchema?
  {
    if v.None? then !s.required
    else (!s.colorPattern || MatchesColor(v.value)) && (!s.required || v.value != "")
  }

  function HexChar(n: nat): (c: char)
    requires n < 16
    ensures IsHexDigit(c)
  {
    if n < 10 then ('0' as int + n) as char else ('a' as int + n - 10) as char
  }

  /** "#rrggbb" for three channel values. */
  function ColorText(r: nat, g: nat, b: nat): (s: string)
    requires r < 256 && g < 256 && b < 256
  {
    ['#', HexChar(r / 16), HexChar(r % 16), HexChar(g / 16), HexChar(g % 16), HexChar(b / 16), HexChar(b % 16)]
  }

  /** Every rendered colour passes a colour field's check, and a longer string never does. */
  lemma ColorTextPasses(p: FormProperty, r: nat, g: nat, b: nat, extra: string)
    requires r < 256 && g < 256 && b < 256
    requires p.propType == "color" && !HasChildren(p)
    ensures PropertySchema(p) == StringSchema(true, p.required)
    ensures StringPasses(PropertySchema(p), Some(ColorText(r, g, b)))
    ensures |extra| > 0 ==> !StringPasses(PropertySchema(p), Some(ColorText(r, g, b) + extra))
  {
    var s := ColorText(r, g, b);
    assert forall i :: 1 <= i < 7 ==> IsHexDigit(s[i]);
  }
}

=== FILE: grid_layout.dfy ===
/** The grid-layout item that the dashboard hands to its grid, and the conversion from a
    widget list that every layout builder shares: keep the widgets whose id is truthy, in
    order, and turn each into one item. */
module GridLayout {
  import opened Wrappers
  import opened DashboardTypes

  /** One `Layout` entry: item key `i`, position, size, minimum size and the optional
      per-item edit flags. */
  datatype LayoutItem = LayoutItem(
    i: string,
    x: int,
    y: int,
    w: int,
    h: int,
    minW: int,
    minH: int,
    isResizable: Option<bool>,
    isDraggable: Option<bool>)

  /** JavaScript `n || d` on a number: the default replaces only zero. */
  function NumOr(n: int, d: int): int {
    if n != 0 then n else d
  }

  /** `widgets.filter(w => w.id).map(f)`. */
  function ItemsOf(ws: seq<Widget>, f: Widget -> LayoutItem): (items: seq<LayoutItem>)
    ensures |items| <= |ws|
    ensures forall it :: it in items ==> exists w :: w in ws && HasId(w) && it == f(w)
  {
    if |ws| == 0 then []
    else if HasId(ws[0]) then [f(ws[0])] + ItemsOf(ws[1..], f)
    else ItemsOf(ws[1..], f)
  }

  /** The ids of the widgets that have one, in order. */
  function TruthyIds(ws: seq<Widget>): (ids: seq<string>)
    ensures forall k :: 0 <= k < |ids| ==> ids[k] != ""
  {
    if |ws| == 0 then []
    else if HasId(ws[0]) then [ws[0].id.value] + TruthyIds(ws[1..])
    else TruthyIds(ws[1..])
  }

  function ItemKeys(items: seq<LayoutItem>): (ks: seq<string>)
    ensures |ks| == |items| && forall k :: 0 <= k < |items| ==> ks[k] == items[k].i
  {
    if |items| == 0 then [] else [items[0].i] + ItemKeys(items[1..])
  }

  /** An item builder that keys each item by its widget's id. */
  ghost predicate KeysById(f: Widget -> LayoutItem) {
    forall w :: HasId(w) ==> f(w).i == w.id.value
  }

  /** With such a builder the item keys are exactly the truthy widget ids, in order. */
  lemma {:induction false} ItemKeysAreIds(ws: seq<Widget>, f: Widget -> LayoutItem)
    requires KeysById(f)
    ensures ItemKeys(ItemsOf(ws, f)) == TruthyIds(ws)
  {
    if |ws| > 0 {
      ItemKeysAreIds(ws[1..], f);
      if HasId(ws[0]) {
        assert ItemKeys(ItemsOf(ws, f)) == [f(ws[0]).i] + ItemKeys(ItemsOf(ws[1..], f));
      }
    }
  }

  /** Every widget with an id has its item in the layout. */
  lemma {:induction false} ItemsOfCovers(ws: seq<Widget>, f: Widget -> LayoutItem, w: Widget)
    requires w in ws && HasId(w)
    ensures f(w) in ItemsOf(ws, f)
  {
    if ws[0] != w {
      ItemsOfCovers(ws[1..], f, w);
    }
  }
}

=== FILE: js_values.dfy ===
/** The dynamically typed values that flow through the widget host: controller properties,
    widget settings, form defaults, and the loosely typed parts of a dashboard configuration.
    Numbers are integers here; fractional numbers and NaN are not part of this model. */
module JsValues {
  import opened Wrappers
  import opened Text
  import opened Dict

  datatype JsValue =
    | Undefined
    | Null
    | Bool(b: bool)
    | Num(n: int)
    | Str(s: string)
    | Arr(items: seq<JsValue>)
    | Obj(fields: Dict<JsValue>)
    /** A function value, kept as the source text `String(f)` would print. */
    | Fn(source: string)

  /** JavaScript truthiness: `undefined`, `null`, `false`, `0` and `""` are falsy. */
  predicate Truthy(v: JsValue) {
    match v
    case Undefined => false
    case Null => false
    case Bool(b) => b
    case Num(n) => n != 0
    case Str(s) => s != ""
    case _ => true
  }

  /** `undefined` or `null`, the two values `??` and `?.` treat as missing. */
  predicate IsNullish(v: JsValue) {
    v.Undefined? || v.Null?
  }

  /** `String(v)`. An array prints its elements joined by ",", with `undefined` and `null`
      elements printed as the empty string; a plain object prints "[object Object]". */
  function ToJsString(v: JsValue): (r: string)
    ensures v.Str? ==> r == v.s
    ensures v.Undefined? ==> r == "undefined"
    ensures v.Null? ==> r == "null"
    decreases v
  {
    match v
    case Undefined => "undefined"
    case Null => "null"
    case Bool(b) => if b then "true" else "false"
    case Num(n) => IntToString(n)
    case Str(s) => s
    case Arr(items) =>
      Join(seq(|items|, i requires 0 <= i < |items| =>
        if IsNullish(items[i]) then "" else ToJsString(items[i])), ",")
    case Obj(_) => "[object Object]"
    case Fn(source) => source
  }

  /** `a || b` on values. */
  function Or(a: JsValue, b: JsValue): (r: JsValue)
    ensures Truthy(a) ==> r == a
    ensures !Truthy(a) ==> r == b
  {
    if Truthy(a) then a else b
  }

  // ---------------------------------------------------------------------------------------
  // What JSON keeps: `JSON.parse(JSON.stringify(v))`
  // ---------------------------------------------------------------------------------------

  /** Whether `JSON.stringify` writes a value: `undefined` and functions are skipped as object
      members and written as `null` inside arrays. */
  predicate Serialisable(v: JsValue) {
    !v.Undefined? && !v.Fn?
  }

  /** A value JSON can carry as it is: no `undefined` and no function anywhere inside. */
  predicate IsJson(v: JsValue)
    decreases v
  {
    match v
    case Undefined => false
    case Fn(_) => false
    case Arr(items) => forall i :: 0 <= i < |items| ==> IsJson(items[i])
    case Obj(fields) => forall i :: 0 <= i < |fields| ==> IsJson(fields[i].value)
    case _ => true
  }

  /** `JSON.parse(JSON.stringify(v))` for a value that is written: object members that are
      `undefined` or functions disappear, array elements that are become `null`, everything
      else is copied. */
  function JsonRoundTrip(v: JsValue): JsValue
    decreases v, 1
  {
    match v
    case Arr(items) =>
      Arr(seq(|items|, i requires 0 <= i < |items| =>
        if Serialisable(items[i]) then JsonRoundTrip(items[i]) else Null))
    case Obj(fields) => Obj(JsonFields(fields, v))
    case _ => v
  }

  /** The members of an object that JSON keeps, in order, each passed through JSON; `parent`
      only bounds the recursion. */
  function JsonFields(fs: Dict<JsValue>, ghost parent: JsValue): (r: Dict<JsValue>)
    requires forall i :: 0 <= i < |fs| ==> fs[i].value < parent
    ensures forall k :: k in Keys(r) ==> k in Keys(fs)
    decreases parent, 0, |fs|
  {
    if |fs| == 0 then []
    else
      var rest := JsonFields(fs[1..], parent);
      if Serialisable(fs[0].value) then [Entry(fs[0].key, JsonRoundTrip(fs[0].value))] + rest else rest
  }

  /** The members of an object as JSON leaves them. */
  function JsonObject(fs: Dict<JsValue>): Dict<JsValue> {
    JsonFields(fs, Obj(fs))
  }

  /** A member as JSON leaves it: dropped when JSON skips it, otherwise passed through JSON. */
  lemma {:induction false} JsonFieldsGet(fs: Dict<JsValue>, parent: JsValue, k: string)
    requires forall i :: 0 <= i < |fs| ==> fs[i].value < parent
    requires Wf(fs)
    ensures Get(JsonFields(fs, parent), k) ==
              if Get(fs, k).Some? && Serialisable(Get(fs, k).value) then Some(JsonRoundTrip(Get(fs, k).value))
              else None
    decreases |fs|
  {
    if |fs| > 0 {
      TailWf(fs);
      JsonFieldsGet(fs[1..], parent, k);
      if fs[0].key == k {
        assert k !in Keys(fs[1..]);
      }
    }
  }

  /** Whatever JSON writes reads back as a JSON value. */
  lemma {:induction false} JsonResultIsJson(v: JsValue)
    requires Serialisable(v)
    ensures IsJson(JsonRoundTrip(v))
    decreases v, 1
  {
    match v
    case Arr(items) =>
      forall i | 0 <= i < |items| && Serialisable(items[i]) ensures IsJson(JsonRoundTrip(items[i])) {
        JsonResultIsJson(items[i]);
      }
    case Obj(fields) => JsonFieldsAreJson(fields, v);
    case _ =>
  }

  lemma {:induction false} JsonFieldsAreJson(fs: Dict<JsValue>, parent: JsValue)
    requires forall i :: 0 <= i < |fs| ==> fs[i].value < parent
    ensures forall i :: 0 <= i < |JsonFields(fs, parent)| ==> IsJson(JsonFields(fs, parent)[i].value)
    decreases parent, 0, |fs|
  {
    if |fs| > 0 {
      JsonFieldsAreJson(fs[1..], parent);
      if Serialisable(fs[0].value) {
        JsonResultIsJson(fs[0].value);
      }
    }
  }

  /** A JSON value comes back unchanged. */
  lemma {:induction false} JsonKeepsJson(v: JsValue)
    requires IsJson(v)
    ensures JsonRoundTrip(v) == v
    decreases v, 1
  {
    match v
    case Arr(items) =>
      forall i | 0 <= i < |items| ensures JsonRoundTrip(items[i]) == items[i] {
        JsonKeepsJson(items[i]);
      }
    case Obj(fields) => JsonFieldsKeep(fields, v);
    case _ =>
  }

  lemma {:induction false} JsonFieldsKeep(fs: Dict<JsValue>, parent: JsValue)
    requires forall i :: 0 <= i < |fs| ==> fs[i].value < parent
    requires forall i :: 0 <= i < |fs| ==> IsJson(fs[i].value)
    ensures JsonFields(fs, parent) == fs
    decreases parent, 0, |fs|
  {
    if |fs| > 0 {
      JsonFieldsKeep(fs[1..], parent);
      JsonKeepsJson(fs[0].value);
      assert [fs[0]] + fs[1..] == fs;
    }
  }

  /** A value that JSON writes survives the trip exactly when it is a JSON value. */
  lemma JsonLossless(v: JsValue)
    requires Serialisable(v)
    ensures JsonRoundTrip(v) == v <==> IsJson(v)
  {
    JsonResultIsJson(v);
    if IsJson(v) {
      JsonKeepsJson(v);
    }
  }
}

=== FILE: resource_loader.dfy ===
/** The resource loader of the widget runtime: stylesheets and scripts attached to the document
    head, and ES modules imported by URL, each memoised by URL until the cache is cleared.

    The browser is a parameter: `Env` says whether the element created for a URL fires `onload`
    (rather than `onerror`), and `Importer` is dynamic `import()`, giving the module or the text
    of what it threw. */
module ResourceLoader {
  import opened Wrappers
  import opened Text
  import opened JsValues
  import opened WidgetTypes

  /** How a load promise settled. */
  datatype Outcome = Loaded | Failed(message: string)

  /** An element appended to the document head. */
  datatype Element = Link(href: string) | Script(src: string)

  /** The two caches of the service and the elements it has attached. CSS and JS share one
      cache, so a URL is attached once whichever loader asks first. */
  datatype LoaderState = LoaderState(
    resources: map<string, Outcome>,
    modules: map<string, JsValue>,
    head: seq<Element>)

  const EmptyLoader := LoaderState(map[], map[], [])

  type Env = string -> bool

  type Importer = string -> Result<JsValue>

  /** A new element for `url`: its promise is cached before it settles, whatever the outcome. */
  function Attach(st: LoaderState, url: string, ok: bool, e: Element, failure: string): (LoaderState, Outcome) {
    var o := if ok then Loaded else Failed(failure);
    (st.(resources := st.resources[url := o], head := st.head + [e]), o)
  }

  /** `loadCSS(url)`. */
  function LoadCss(st: LoaderState, url: string, env: Env): (r: (LoaderState, Outcome))
    ensures r.0.resources == st.resources[url := r.1]
    ensures r.0.modules == st.modules
    ensures url in st.resources ==> r == (st, st.resources[url])
    ensures url !in st.resources ==> r.0.head == st.head + [Link(url)]
    ensures url !in st.resources ==> (r.1 == Loaded <==> env(url))
    ensures url !in st.resources && !env(url) ==> r.1 == Failed("Failed to load CSS: " + url)
  {
    if url in st.resources then (st, st.resources[url])
    else Attach(st, url, env(url), Link(url), "Failed to load CSS: " + url)
  }

  /** `loadJS(url)`. */
  function LoadJs(st: LoaderState, url: string, env: Env): (r: (LoaderState, Outcome))
    ensures r.0.resources == st.resources[url := r.1]
    ensures r.0.modules == st.modules
    ensures url in st.resources ==> r == (st, st.resources[url])
    ensures url !in st.resources ==> r.0.head == st.head + [Script(url)]
    ensures url !in st.resources ==> (r.1 == Loaded <==> env(url))
    ensures url !in st.resources && !env(url) ==> r.1 == Failed("Failed to load JS: " + url)
  {
    if url in st.resources then (st, st.resources[url])
    else Attach(st, url, env(url), Script(url), "Failed to load JS: " + url)
  }

  /** `loadModule(url)`: only a successful import is cached; a failure is rethrown with the
      URL and the import's own error text. */
  function LoadModule(st: LoaderState, url: string, importer: Importer): (r: (LoaderState, Result<JsValue>))
    ensures r.0.resources == st.resources && r.0.head == st.head
    ensures url in st.modules ==> r == (st, Ok(st.modules[url]))
    ensures url !in st.modules ==> (r.1.Ok? <==> importer(url).Ok?)
    ensures r.1.Ok? ==> url in r.0.modules && r.0.modules[url] == r.1.value
    ensures r.1.Err? ==> r.0 == st
    ensures r.1.Err? ==> r.1.message == "Failed to load module: " + url + " - " + importer(url).message
  {
    if url in st.modules then (st, Ok(st.modules[url]))
    else match importer(url)
      case Ok(m) => (st.(modules := st.modules[url := m]), Ok(m))
      case Err(e) => (st, Err("Failed to load module: " + url + " - " + e))
  }

  /** A stylesheet or script that failed stays failed: asking again attaches nothing and gives
      the same failure, whatever the browser would now say. */
  lemma FailureNotRetried(st: LoaderState, url: string, env: Env, env': Env)
    requires LoadCss(st, url, env).1.Failed?
    ensures LoadCss(LoadCss(st, url, env).0, url, env') == (LoadCss(st, url, env).0, LoadCss(st, url, env).1)
    ensures LoadJs(LoadCss(st, url, env).0, url, env') == (LoadCss(st, url, env).0, LoadCss(st, url, env).1)
  {
  }

  /** A failed module import is not cached, so the next request imports again. */
  lemma ModuleFailureRetried(st: LoaderState, url: string, importer: Importer, importer': Importer)
    requires LoadModule(st, url, importer).1.Err?
    ensures LoadModule(LoadModule(st, url, importer).0, url, importer') == LoadModule(st, url, importer')
  {
  }

  /** A module that loaded once is answered from the cache, whatever `import()` would now do. */
  lemma ModuleSuccessCached(st: LoaderState, url: string, importer: Importer, importer': Importer)
    requires LoadModule(st, url, importer).1.Ok?
    ensures var s1 := LoadModule(st, url, importer).0;
            LoadModule(s1, url, importer') == (s1, LoadModule(st, url, importer).1)
  {
  }

  /** Which loader a resource goes to. */
  datatype Kind = ModuleKind | CssKind | JsKind

  /** Modules by their flag; otherwise a URL ending in ".css" is a stylesheet and anything else
      a script. */
  function KindOf(res: Resource): (k: Kind)
    ensures k == ModuleKind <==> res.isModule == Some(true)
    ensures k == CssKind ==> EndsWith(res.url, ".css")
    ensures k == JsKind ==> !EndsWith(res.url, ".css")
  {
    if res.isModule == Some(true) then ModuleKind
    else if EndsWith(res.url, ".css") then CssKind
    else JsKind
  }

  /** One element of `loadResources`' map: the promise for one resource. */
  function LoadResource(st: LoaderState, res: Resource, env: Env, importer: Importer): (r: (LoaderState, Outcome))
    ensures KindOf(res) == CssKind ==> r == LoadCss(st, res.url, env)
    ensures KindOf(res) == JsKind ==> r == LoadJs(st, res.url, env)
    ensures KindOf(res) == ModuleKind ==> r.0 == LoadModule(st, res.url, importer).0
    ensures KindOf(res) == ModuleKind ==> (r.1 == Loaded <==> LoadModule(st, res.url, importer).1.Ok?)
  {
    match KindOf(res)
    case ModuleKind =>
      var (s1, m) := LoadModule(st, res.url, importer);
      (s1, if m.Ok? then Loaded else Failed(m.message))
    case CssKind => LoadCss(st, res.url, env)
    case JsKind => LoadJs(st, res.url, env)
  }

  /** `loadResources(resources)`: every load is started, and the combined promise fails with a
      failure among them (here the first in list order) or succeeds when all succeed. */
  function LoadResources(st: LoaderState, rs: seq<Resource>, env: Env, importer: Importer): (r: (LoaderState, Outcome))
    decreases |rs|
  {
    if |rs| == 0 then (st, Loaded)
    else
      var (s1, o) := LoadResource(st, rs[0], env, importer);
      var (s2, o') := LoadResources(s1, rs[1..], env, importer);
      (s2, if o.Failed? then o else o')
  }

  /** `clearCache()`: both caches are emptied; the attached elements stay in the document. */
  function ClearCache(st: LoaderState): (r: LoaderState)
    ensures r.resources == map[] && r.modules == map[]
    ensures r.head == st.head
  {
    st.(resources := map[], modules := map[])
  }

  /** After clearing, a URL that had failed is attached afresh and its outcome asked again. */
  lemma ClearCacheRetries(st: LoaderState, url: string, env: Env)
    ensures LoadCss(ClearCache(st), url, env).0.head == st.head + [Link(url)]
    ensures LoadCss(ClearCache(st), url, env).1 == Loaded <==> env(url)
  {
  }

  /** Whether a resource loads, judged from the browser and `import()` alone. */
  predicate Loads(res: Resource, env: Env, importer: Importer) {
    if KindOf(res) == ModuleKind then importer(res.url).Ok? else env(res.url)
  }

  /** The caches agree with the browser and `import()`: what every state reached from the
      empty one through these loaders satisfies. */
  predicate Consistent(st: LoaderState, env: Env, importer: Importer) {
    && (forall u :: u in st.resources ==> (st.resources[u] == Loaded <==> env(u)))
    && (forall u :: u in st.modules ==> importer(u) == Ok(st.modules[u]))
  }

  lemma EmptyConsistent(env: Env, importer: Importer)
    ensures Consistent(EmptyLoader, env, importer)
  {
  }

  /** One load keeps the caches consistent and reports whether the resource loads. */
  lemma LoadResourceConsistent(st: LoaderState, res: Resource, env: Env, importer: Importer)
    requires Consistent(st, env, importer)
    ensures Consistent(LoadResource(st, res, env, importer).0, env, importer)
    ensures LoadResource(st, res, env, importer).1 == Loaded <==> Loads(res, env, importer)
  {
  }

  /** From consistent caches, `loadResources` succeeds exactly when every resource loads, and
      the caches stay consistent. */
  lemma {:induction false} LoadResourcesAllOrNothing(st: LoaderState, rs: seq<Resource>, env: Env, importer: Importer)
    requires Consistent(st, env, importer)
    ensures Consistent(LoadResources(st, rs, env, importer).0, env, importer)
    ensures LoadResources(st, rs, env, importer).1 == Loaded <==>
              forall i :: 0 <= i < |rs| ==> Loads(rs[i], env, importer)
    decreases |rs|
  {
    if |rs| > 0 {
      LoadResourceConsistent(st, rs[0], env, importer);
      var s1 := LoadResource(st, rs[0], env, importer).0;
      LoadResourcesAllOrNothing(s1, rs[1..], env, importer);
      if forall i :: 0 <= i < |rs| ==> Loads(rs[i], env, importer) {
        assert forall i :: 0 <= i < |rs[1..]| ==> Loads(rs[1..][i], env, importer) by {
          forall i | 0 <= i < |rs[1..]| ensures Loads(rs[1..][i], env, importer) {
            assert rs[1..][i] == rs[i + 1];
          }
        }
      } else {
        var i :| 0 <= i < |rs| && !Loads(rs[i], env, importer);
        if i > 0 {
          assert rs[1..][i - 1] == rs[i];
        }
      }
    }
  }

  /** Every resource of the list already has its answer in the caches. */
  predicate Cached(st: LoaderState, rs: seq<Resource>, importer: Importer) {
    forall i :: 0 <= i < |rs| ==>
      if KindOf(rs[i]) == ModuleKind then importer(rs[i].url).Ok? ==> rs[i].url in st.modules
      else rs[i].url in st.resources
  }

  /** Loading only adds to the caches, never removes. */
  predicate Grows(st: LoaderState, st': LoaderState) {
    && st.resources.Keys <= st'.resources.Keys
    && st.modules.Keys <= st'.modules.Keys
  }

  lemma {:induction false} LoadResourcesGrows(st: LoaderState, rs: seq<Resource>, env: Env, importer: Importer)
    ensures Grows(st, LoadResources(st, rs, env, importer).0)
    ensures Cached(LoadResources(st, rs, env, importer).0, rs, importer)
    decreases |rs|
  {
    if |rs| > 0 {
      var s1 := LoadResource(st, rs[0], env, importer).0;
      LoadResourcesGrows(s1, rs[1..], env, importer);
      var s2 := LoadResources(s1, rs[1..], env, importer).0;
      forall i | 0 <= i < |rs|
        ensures if KindOf(rs[i]) == ModuleKind then importer(rs[i].url).Ok? ==> rs[i].url in s2.modules
                else rs[i].url in s2.resources
      {
        if i > 0 {
          assert rs[1..][i - 1] == rs[i];
        }
      }
    }
  }

  /** With every answer cached, loading the list changes nothing. */
  lemma {:induction false} CachedLoadIsStable(st: LoaderState, rs: seq<Resource>, env: Env, importer: Importer)
    requires Cached(st, rs, importer)
    ensures LoadResources(st, rs, env, importer).0 == st
    decreases |rs|
  {
    if |rs| > 0 {
      assert Cached(st, rs[1..], importer) by {
        forall i | 0 <= i < |rs[1..]|
          ensures if KindOf(rs[1..][i]) == ModuleKind then importer(rs[1..][i].url).Ok? ==> rs[1..][i].url in st.modules
                  else rs[1..][i].url in st.resources
        {
          assert rs[1..][i] == rs[i + 1];
        }
      }
      assert LoadResource(st, rs[0], env, importer).0 == st;
      CachedLoadIsStable(st, rs[1..], env, importer);
    }
  }

  /** Loading the same list twice attaches each element once: the second pass leaves the
      caches and the document as the first pass left them, with the same verdict. */
  lemma LoadResourcesTwice(st: LoaderState, rs: seq<Resource>, env: Env, importer: Importer)
    requires Consistent(st, env, importer)
    ensures var s1 := LoadResources(st, rs, env, importer).0;
            && LoadResources(s1, rs, env, importer).0 == s1
            && (LoadResources(s1, rs, env, importer).1 == Loaded <==> LoadResources(st, rs, env, importer).1 == Loaded)
  {
    var s1 := LoadResources(st, rs, env, importer).0;
    LoadResourcesGrows(st, rs, env, importer);
    CachedLoadIsStable(s1, rs, env, importer);
    LoadResourcesAllOrNothing(st, rs, env, importer);
    LoadResourcesAllOrNothing(s1, rs, env, importer);
  }
}

=== FILE: responsive_layout.dfy ===
/** The responsive-layout hook: one base layout, shared by all five breakpoints, and the
    default breakpoint widths and column counts. The media-query flags are not modelled. */
module ResponsiveLayout {
  import opened Wrappers
  import opened Dict
  import opened DashboardTypes
  import opened GridLayout

  function Max(a: int, b: int): int {
    if a >= b then a else b
  }

  /** `Math.max(1, Math.round(n || d))` on an integer size. */
  function Footprint(n: int, d: int): (r: int)
    ensures r >= 1
    ensures n >= 1 ==> r == n
    ensures n == 0 ==> r == Max(1, d)
    ensures n < 0 ==> r == 1
  {
    Max(1, NumOr(n, d))
  }

  /** The item of one widget: defaults as in the grid, sizes at least 1, minimum 1x1, and
      both edit flags equal to `isEdit`. */
  function ResponsiveItem(isEdit: bool): Widget -> LayoutItem {
    w => LayoutItem(IdOrEmpty(w), NumOr(w.col, 0), NumOr(w.row, 0), Footprint(w.sizeX, 8), Footprint(w.sizeY, 6),
                    1, 1, Some(isEdit), Some(isEdit))
  }

  /** `baseLayout`: one item per widget with a truthy id, in order. */
  function BaseLayout(widgets: seq<Widget>, isEdit: bool): (items: seq<LayoutItem>)
    ensures ItemKeys(items) == TruthyIds(widgets)
    ensures forall it :: it in items ==> it.w >= 1 && it.h >= 1 && it.minW == 1 && it.minH == 1
    ensures forall it :: it in items ==> it.isResizable == Some(isEdit) && it.isDraggable == Some(isEdit)
  {
    ItemKeysAreIds(widgets, ResponsiveItem(isEdit));
    ItemsOf(widgets, ResponsiveItem(isEdit))
  }

  /** A widget's item keeps its position and any positive size; only a zero size takes the
      8x6 default and a negative one becomes 1. */
  lemma ResponsiveItemOf(widgets: seq<Widget>, isEdit: bool, w: Widget)
    requires w in widgets && HasId(w)
    ensures var it := ResponsiveItem(isEdit)(w);
            it in BaseLayout(widgets, isEdit) && it.i == w.id.value && it.x == w.col && it.y == w.row &&
            (w.sizeX >= 1 ==> it.w == w.sizeX) && (w.sizeX == 0 ==> it.w == 8) &&
            (w.sizeY >= 1 ==> it.h == w.sizeY) && (w.sizeY == 0 ==> it.h == 6)
  {
    ItemsOfCovers(widgets, ResponsiveItem(isEdit), w);
  }

  datatype Layouts = Layouts(lg: seq<LayoutItem>, md: seq<LayoutItem>, sm: seq<LayoutItem>,
                             xs: seq<LayoutItem>, xxs: seq<LayoutItem>)

  const BreakpointNames: seq<string> := ["lg", "md", "sm", "xs", "xxs"]

  const DefaultBreakpoints: Dict<int> :=
    [Entry("lg", 1200), Entry("md", 996), Entry("sm", 768), Entry("xs", 480), Entry("xxs", 0)]

  const DefaultCols: Dict<int> :=
    [Entry("lg", 24), Entry("md", 20), Entry("sm", 16), Entry("xs", 12), Entry("xxs", 8)]

  /** What the hook returns, without the media-query flags and the grid component. */
  datatype Responsive = Responsive(layouts: Layouts, breakpoints: Dict<int>, cols: Dict<int>)

  /** `useResponsiveLayout({widgets, breakpoints, cols, isEdit})`; an omitted option takes its
      default, `isEdit` defaulting to false. */
  function UseResponsiveLayout(widgets: seq<Widget>, breakpoints: Option<Dict<int>>, cols: Option<Dict<int>>,
                               isEdit: Option<bool>): (r: Responsive)
    ensures var base := BaseLayout(widgets, isEdit == Some(true));
            r.layouts == Layouts(base, base, base, base, base)
    ensures breakpoints.None? ==> r.breakpoints == DefaultBreakpoints
    ensures breakpoints.Some? ==> r.breakpoints == breakpoints.value
    ensures cols.None? ==> r.cols == DefaultCols
    ensures cols.Some? ==> r.cols == cols.value
  {
    var base := BaseLayout(widgets, isEdit.GetOr(false));
    Responsive(Layouts(base, base, base, base, base), breakpoints.GetOr(DefaultBreakpoints), cols.GetOr(DefaultCols))
  }

  /** The default widths and column counts name the same breakpoints in the same order, and
      both strictly decrease from `lg` to `xxs`. */
  lemma DefaultsDecreaseTogether()
    ensures Keys(DefaultBreakpoints) == Keys(DefaultCols) == BreakpointNames
    ensures forall i, j :: 0 <= i < j < 5 ==>
              DefaultBreakpoints[i].value > DefaultBreakpoints[j].value && DefaultCols[i].value > DefaultCols[j].value
  {
    DefaultKeys(DefaultBreakpoints, 1200, 996, 768, 480, 0);
    DefaultKeys(DefaultCols, 24, 20, 16, 12, 8);
  }

  /** A five-entry table over the breakpoint names, in order. */
  lemma DefaultKeys(d: Dict<int>, a: int, b: int, c: int, e: int, f: int)
    requires d == [Entry("lg", a), Entry("md", b), Entry("sm", c), Entry("xs", e), Entry("xxs", f)]
    ensures Keys(d) == BreakpointNames
  {
    var ks := Keys(d);
    assert |ks| == 5 && ks[0] == "lg" && ks[1] == "md" && ks[2] == "sm" && ks[3] == "xs" && ks[4] == "xxs";
  }
}

=== FILE: states_dialog.dfy ===
/** The submit and delete handlers of the dashboard-states dialog. A handler yields the
    configuration it dispatches, or `None` when it returns without dispatching. */
module StatesDialog {
  import opened Wrappers
  import opened Text
  import opened Dict
  import opened DashboardTypes
  import opened DashboardStates
  import opened DashboardSlice

  datatype StateForm = StateForm(name: string, root: bool)

  /** The id of the edited state when it is truthy, else "state_" followed by the clock. */
  function StateIdFor(editing: Option<DashboardState>, now: nat): (id: string)
    ensures editing.Some? && editing.value.id != "" ==> id == editing.value.id
    ensures !(editing.Some? && editing.value.id != "") ==> id == "state_" + NatToString(now)
  {
    if editing.Some? && editing.value.id != "" then editing.value.id else "state_" + NatToString(now)
  }

  /** The state the form saves: the trimmed name, the root switch, and the edited state's
      layouts or none. */
  function FormState(editing: Option<DashboardState>, data: StateForm, id: string): (s: DashboardState)
    ensures s.id == id && s.name == Trim(data.name) && s.root == data.root
    ensures s.layouts == if editing.Some? then editing.value.layouts else []
  {
    DashboardState(id, Trim(data.name), data.root, if editing.Some? then editing.value.layouts else [])
  }

  function OnSubmit(config: Option<Configuration>, editing: Option<DashboardState>, data: StateForm, now: nat)
    : (r: Option<Configuration>)
    ensures config.None? || Trim(data.name) == "" ==> r.None?
    ensures config.Some? && Trim(data.name) != "" ==> r.Some? && r.value.states.Some?
    ensures r.Some? ==> r.value == config.value.(states := r.value.states)
    ensures r.Some? ==>
      var id := StateIdFor(editing, now);
      Get(r.value.states.value, id) == Some(FormState(editing, data, id))
    ensures r.Some? && !data.root ==>
      forall k :: k != StateIdFor(editing, now) ==> Get(r.value.states.value, k) == Get(StatesOrEmpty(config.value), k)
  {
    if config.None? || Trim(data.name) == "" then None
    else
      var id := StateIdFor(editing, now);
      var saved := SetState(config.value, id, FormState(editing, data, id));
      Some(if data.root then SetRootState(saved, id) else saved)
  }

  /** With the root switch on, the saved state becomes the only root; the other states keep
      everything but their flag. */
  lemma OnSubmitRootUnique(config: Option<Configuration>, editing: Option<DashboardState>, data: StateForm,
                           now: nat, k: string)
    requires OnSubmit(config, editing, data, now).Some? && data.root
    ensures var st := OnSubmit(config, editing, data, now).value.states.value;
            var id := StateIdFor(editing, now);
            (Get(st, k).Some? && Get(st, k).value.root <==> k == id) &&
            (k != id ==> Get(st, k) == RootFlagged(Get(StatesOrEmpty(config.value), k), false))
  {
  }

  /** The root switch is disabled while some other state is the root. */
  predicate RootSwitchDisabled(rootState: Option<DashboardState>, editing: Option<DashboardState>) {
    rootState.Some? && (editing.None? || rootState.value.id != editing.value.id)
  }

  /** Deleting the state `rootState` names is refused; any other id is removed. */
  function HandleDelete(config: Option<Configuration>, rootState: Option<DashboardState>, stateId: string)
    : (r: Option<Configuration>)
    ensures config.None? ==> r.None?
    ensures rootState.Some? && stateId == rootState.value.id ==> r.None?
    ensures config.Some? && !(rootState.Some? && stateId == rootState.value.id) ==>
      r == Some(RemoveState(config.value, stateId))
  {
    if config.None? || (rootState.Some? && stateId == rootState.value.id) then None
    else Some(RemoveState(config.value, stateId))
  }

  /** Whatever id is deleted, the root state the dialog shows survives. */
  lemma HandleDeleteKeepsRoot(config: Option<Configuration>, rootState: Option<DashboardState>, stateId: string)
    requires rootState.Some? && HandleDelete(config, rootState, stateId).Some?
    ensures var r := HandleDelete(config, rootState, stateId).value;
            r.states.Some? ==> Get(r.states.value, rootState.value.id) == Get(config.value.states.value, rootState.value.id)
  {
  }

  /** The store after a handler: the configuration it dispatches, or the store unchanged. */
  function Dispatched(s: SliceState, r: Option<Configuration>): SliceState {
    if r.Some? then Reduce(s, SetDashboardConfiguration(r.value)) else s
  }

  /** `handleDelete` as the dialog wires it: the configuration is the store's edited one, but
      `rootState` comes from `useDashboardStates`, which reads the loaded `currentDashboard`. */
  function DeleteFromStore(s: SliceState, stateId: string): (r: Option<Configuration>)
    ensures var root := GetRootState(s.currentDashboard);
            r.None? <==> s.dashboardConfiguration.None? || (root.Some? && stateId == root.value.id)
    ensures r.Some? ==> r.value == RemoveState(s.dashboardConfiguration.value, stateId)
  {
    HandleDelete(s.dashboardConfiguration, GetRootState(s.currentDashboard), stateId)
  }

  /** With the root switch on, the saved state is the one root of the dispatched states. */
  lemma SubmitRootOnly(config: Option<Configuration>, editing: Option<DashboardState>, data: StateForm, now: nat)
    requires OnSubmit(config, editing, data, now).Some? && data.root
    ensures var st := OnSubmit(config, editing, data, now).value.states.value;
            forall k :: Get(st, k).Some? && Get(st, k).value.root <==> k == StateIdFor(editing, now)
  {
    forall k {
      OnSubmitRootUnique(config, editing, data, now, k);
    }
  }

  /** Removing the only root leaves no root. */
  lemma RemoveOnlyRoot(c: Configuration, id: string)
    requires c.states.Some?
    requires forall k :: Get(c.states.value, k).Some? && Get(c.states.value, k).value.root ==> k == id
    ensures forall k :: Get(RemoveState(c, id).states.value, k).Some? ==> !Get(RemoveState(c, id).states.value, k).value.root
  {
    var st := RemoveState(c, id).states.value;
    forall k | Get(st, k).Some?
      ensures !Get(st, k).value.root
    {
      assert Get(st, k) == Get(c.states.value, k);
    }
  }

  /** The guard is stale. Saving a state with the root switch on dispatches only a new
      configuration, so the loaded dashboard, and with it the protected root, stays as it was.
      The root just chosen can then be deleted at once, and the edited configuration is left
      with no root state at all. (The switch is enabled when the loaded dashboard has no root,
      or when its root is the state being edited.) */
  lemma DialogRootDeletable(s: SliceState, editing: Option<DashboardState>, data: StateForm, now: nat)
    requires s.dashboardConfiguration.Some? && Trim(data.name) != "" && data.root
    requires var root := GetRootState(s.currentDashboard);
             root.None? || root.value.id != StateIdFor(editing, now)
    ensures var s1 := Dispatched(s, OnSubmit(s.dashboardConfiguration, editing, data, now));
            var id := StateIdFor(editing, now);
            && s1.currentDashboard == s.currentDashboard
            && Get(s1.dashboardConfiguration.value.states.value, id).Some?
            && Get(s1.dashboardConfiguration.value.states.value, id).value.root
            && DeleteFromStore(s1, id).Some?
            && var st := DeleteFromStore(s1, id).value.states.value;
               forall k :: Get(st, k).Some? ==> !Get(st, k).value.root
  {
    var id := StateIdFor(editing, now);
    var c1 := OnSubmit(s.dashboardConfiguration, editing, data, now).value;
    var s1 := Dispatched(s, Some(c1));
    assert s1 == s.(dashboardConfiguration := Some(c1));
    SubmitRootOnly(s.dashboardConfiguration, editing, data, now);
    RemoveOnlyRoot(c1, id);
    assert DeleteFromStore(s1, id) == Some(RemoveState(c1, id));
  }
}

=== FILE: subscription_hook.dfy ===
/** The data-subscription hook of a widget as a state machine driven by discrete events: the
    effect mounting, a tick of the one-second poll, the effect's cleanup, and a time-window
    change. The subscription service it talks to is the registry of `WidgetSubscription`. */
module SubscriptionHook {
  import opened Wrappers
  import opened DashboardTypes
  import opened WidgetTypes
  import opened WidgetSubscription

  /** The hook's React state, and the subscription whose poll is running (the effect's own
      `id`, live between mount and cleanup). */
  datatype HookState = HookState(
    data: seq<DatasourceData>,
    latestData: seq<DatasourceData>,
    subscriptionId: Option<string>,
    polling: Option<string>)

  const InitialHook := HookState([], [], None, None)

  /** The options the effect builds from the widget. */
  function OptionsFor(w: Widget): (o: SubscriptionOptions)
    ensures o.subType == Some(w.widgetType) && o.datasources == w.config.datasources
    ensures o.timewindow == w.config.timewindow && o.useDashboardTimewindow == w.config.useDashboardTimewindow
  {
    SubscriptionOptions(Some(w.widgetType), w.config.datasources, w.config.useDashboardTimewindow, w.config.timewindow)
  }

  /** Whether the effect subscribes: enabled, with at least one datasource. */
  predicate Subscribes(w: Widget, enabled: bool) {
    enabled && w.config.datasources.Some? && |w.config.datasources.value| > 0
  }

  /** The effect body: subscribe and start polling, or return without doing anything. */
  function Mount(h: HookState, reg: Registry, w: Widget, enabled: bool): (r: (HookState, Registry))
    ensures !Subscribes(w, enabled) ==> r == (h, reg)
    ensures Subscribes(w, enabled) ==>
              && r.1 == CreateSubscription(reg, OptionsFor(w)).0
              && r.0.subscriptionId == Some(CreateSubscription(reg, OptionsFor(w)).1)
              && r.0.polling == r.0.subscriptionId
              && r.0.data == h.data && r.0.latestData == h.latestData
  {
    if !Subscribes(w, enabled) then (h, reg)
    else
      var (reg', id) := CreateSubscription(reg, OptionsFor(w));
      (h.(subscriptionId := Some(id), polling := Some(id)), reg')
  }

  /** One tick of the poll: each snapshot the service has replaces the hook's copy; a missing
      one leaves the previous value. */
  function Tick(h: HookState, reg: Registry): (r: HookState)
    ensures h.polling.None? ==> r == h
    ensures h.polling.Some? ==>
              r.data == GetSubscriptionData(reg, h.polling.value).GetOr(h.data)
              && r.latestData == GetSubscriptionLatestData(reg, h.polling.value).GetOr(h.latestData)
    ensures r.subscriptionId == h.subscriptionId && r.polling == h.polling
  {
    match h.polling
    case None => h
    case Some(id) =>
      var d := GetSubscriptionData(reg, id);
      var l := GetSubscriptionLatestData(reg, id);
      h.(data := if d.Some? then d.value else h.data, latestData := if l.Some? then l.value else h.latestData)
  }

  /** The effect's cleanup: stop the poll and remove that same subscription. The stored
      `subscriptionId` is not reset. */
  function Cleanup(h: HookState, reg: Registry): (r: (HookState, Registry))
    ensures h.polling.None? ==> r == (h, reg)
    ensures h.polling.Some? ==> r.1 == RemoveSubscription(reg, h.polling.value)
    ensures r.0.polling.None? && r.0.subscriptionId == h.subscriptionId
  {
    match h.polling
    case None => (h, reg)
    case Some(id) => (h.(polling := None), RemoveSubscription(reg, id))
  }

  /** The returned `updateTimewindow`: forwarded to the service only once an id is stored. */
  function SetTimewindow(h: HookState, reg: Registry, tw: Timewindow): (r: Registry)
    ensures h.subscriptionId.None? ==> r == reg
    ensures h.subscriptionId.Some? ==> r == UpdateTimewindow(reg, h.subscriptionId.value, tw)
  {
    match h.subscriptionId
    case None => reg
    case Some(id) => UpdateTimewindow(reg, id, tw)
  }

  /** Mounting then cleaning up leaves the service with exactly the subscriptions it had: the
      one created is the one removed. */
  lemma MountCleanupRestores(h: HookState, reg: Registry, w: Widget, enabled: bool)
    requires Inv(reg) && h.polling.None?
    ensures var (h1, reg1) := Mount(h, reg, w, enabled);
            Cleanup(h1, reg1).1.subs == reg.subs
  {
    if Subscribes(w, enabled) {
      FreshId(reg);
      var (h1, reg1) := Mount(h, reg, w, enabled);
      var reg2 := Cleanup(h1, reg1).1;
      assert reg2.subs.Keys == reg.subs.Keys;
    }
  }

  /** A second cleanup does nothing, so a subscription is removed at most once. */
  lemma CleanupOnce(h: HookState, reg: Registry)
    ensures var (h1, reg1) := Cleanup(h, reg);
            Cleanup(h1, reg1) == (h1, reg1)
  {
  }

  /** After cleanup the stored id is stale: a time-window change reaches an id the service no
      longer knows, and changes nothing. */
  lemma StaleIdAfterCleanup(h: HookState, reg: Registry, w: Widget, tw: Timewindow)
    requires Inv(reg) && h.polling.None? && Subscribes(w, true)
    ensures var (h1, reg1) := Mount(h, reg, w, true);
            var (h2, reg2) := Cleanup(h1, reg1);
            h2.subscriptionId.Some? && SetTimewindow(h2, reg2, tw) == reg2
  {
  }

  /** The events the hook sees, including whatever else happens to the shared service. */
  datatype HookEvent =
    | MountEv(w: Widget, enabled: bool)
    | TickEv
    | CleanupEv
    | TimewindowEv(tw: Timewindow)
    | ServiceEv(op: SubOp)

  function Step(s: (HookState, Registry), e: HookEvent): (HookState, Registry) {
    match e
    case MountEv(w, enabled) => if s.0.polling.Some? then s else Mount(s.0, s.1, w, enabled)
    case TickEv => (Tick(s.0, s.1), s.1)
    case CleanupEv => Cleanup(s.0, s.1)
    case TimewindowEv(tw) => (s.0, SetTimewindow(s.0, s.1, tw))
    case ServiceEv(op) => (s.0, Apply(s.1, op))
  }

  function Steps(s: (HookState, Registry), es: seq<HookEvent>): (HookState, Registry)
    decreases |es|
  {
    if |es| == 0 then s else Steps(Step(s, es[0]), es[1..])
  }

  /** Each step keeps the service invariant and the hook's latest data at its initial []. */
  lemma StepKeeps(s: (HookState, Registry), e: HookEvent)
    requires Inv(s.1) && s.0.latestData == []
    ensures Inv(Step(s, e).1) && Step(s, e).0.latestData == []
  {
    match e
    case MountEv(w, enabled) =>
      if s.0.polling.None? && Subscribes(w, enabled) {
        ApplyInv(s.1, Create(OptionsFor(w)));
      }
    case TickEv =>
    case CleanupEv =>
      if s.0.polling.Some? {
        ApplyInv(s.1, Remove(s.0.polling.value));
      }
    case TimewindowEv(tw) =>
      if s.0.subscriptionId.Some? {
        ApplyInv(s.1, Update(s.0.subscriptionId.value, tw));
      }
    case ServiceEv(op) =>
      ApplyInv(s.1, op);
  }

  /** The service never has latest data, so the hook's `latestData` stays [] forever. */
  lemma {:induction false} LatestDataStaysEmpty(s: (HookState, Registry), es: seq<HookEvent>)
    requires Inv(s.1) && s.0.latestData == []
    ensures Steps(s, es).0.latestData == []
    decreases |es|
  {
    if |es| > 0 {
      StepKeeps(s, es[0]);
      LatestDataStaysEmpty(Step(s, es[0]), es[1..]);
    }
  }

  lemma FromStart(es: seq<HookEvent>)
    ensures Steps((InitialHook, EmptyRegistry), es).0.latestData == []
  {
    LatestDataStaysEmpty((InitialHook, EmptyRegistry), es);
  }
}

=== FILE: template.dfy ===
/** Template interpolation: the global replace of `{{ key }}` placeholders by the string value
    of the controller's property `key`. */
module Template {
  import opened Wrappers
  import opened Text
  import opened Dict
  import opened JsValues
  import opened CssNamespace

  /** A placeholder at the start of `s`: "{{", a non-empty brace-free inner text, "}}".
      The result is the index just past the closing "}}". */
  function PlaceholderEnd(s: string): (r: Option<nat>)
    ensures r.Some? ==>
              5 <= r.value <= |s| && s[..2] == "{{" && s[r.value - 2..r.value] == "}}" &&
              NoBrace(s[2..r.value - 2])
  {
    if |s| >= 2 && s[0] == '{' && s[1] == '{' then
      var j := NextBrace(s, 2);
      if j > 2 && j + 2 <= |s| && s[j] == '}' && s[j + 1] == '}' then
        NextBraceClean(s, 2);
        Some(j + 2)
      else None
    else None
  }

  /** The text before the next brace is brace-free. */
  lemma {:induction false} NextBraceClean(s: string, i: nat)
    requires i <= |s|
    ensures NoBrace(s[i..NextBrace(s, i)])
    decreases |s| - i
  {
    if i < |s| && !IsBrace(s[i]) {
      NextBraceClean(s, i + 1);
      assert s[i..NextBrace(s, i)] == [s[i]] + s[i + 1..NextBrace(s, i)];
    }
  }

  /** The replacement for a key: `String(ctrl[key])`, or "" when the property is missing,
      `undefined` or `null`. */
  function Lookup(ctrl: Dict<JsValue>, key: string): (r: string)
    ensures Get(ctrl, key).None? ==> r == ""
    ensures Get(ctrl, key).Some? && IsNullish(Get(ctrl, key).value) ==> r == ""
    ensures Get(ctrl, key).Some? && Get(ctrl, key).value.Str? ==> r == Get(ctrl, key).value.s
  {
    match Get(ctrl, key)
    case None => ""
    case Some(v) => if IsNullish(v) then "" else ToJsString(v)
  }

  /** The replace loop: a placeholder is replaced and scanning resumes after it; any other
      character is copied and scanning resumes at the next one. */
  function Interp(s: string, ctrl: Dict<JsValue>): string
    decreases |s|
  {
    if |s| == 0 then ""
    else match PlaceholderEnd(s)
      case Some(e) => Lookup(ctrl, Trim(s[2..e - 2])) + Interp(s[e..], ctrl)
      case None => [s[0]] + Interp(s[1..], ctrl)
  }

  /** `interpolateTemplate(html, ctrl)`: the html unchanged when it is empty or there is no
      controller. Controller properties are its own properties, as a dictionary. */
  function InterpolateTemplate(html: string, ctrl: Option<Dict<JsValue>>): (r: string)
    ensures html == "" || ctrl.None? ==> r == html
  {
    if html == "" || ctrl.None? then html else Interp(html, ctrl.value)
  }

  /** "{{" does not occur. */
  predicate NoOpen(s: string) {
    forall k :: 0 <= k < |s| - 1 ==> !(s[k] == '{' && s[k + 1] == '{')
  }

  lemma {:induction false} InterpNoOpen(s: string, ctrl: Dict<JsValue>)
    requires NoOpen(s)
    ensures Interp(s, ctrl) == s
    decreases |s|
  {
    if |s| > 0 {
      assert NoOpen(s[1..]) by {
        forall k | 0 <= k < |s[1..]| - 1 ensures !(s[1..][k] == '{' && s[1..][k + 1] == '{') {
          assert s[1..][k] == s[k + 1] && s[1..][k + 1] == s[k + 2];
        }
      }
      InterpNoOpen(s[1..], ctrl);
    }
  }

  /** A template without "{{" comes back unchanged. */
  lemma NoPlaceholderUnchanged(html: string, ctrl: Option<Dict<JsValue>>)
    requires !Contains(html, "{{")
    ensures InterpolateTemplate(html, ctrl) == html
  {
    forall k | 0 <= k < |html| - 1 ensures !(html[k] == '{' && html[k + 1] == '{') {
      if html[k] == '{' && html[k + 1] == '{' {
        assert html[k..k + 2] == "{{";
        ContainsAt(html, "{{", k);
      }
    }
    if html != "" && ctrl.Some? {
      InterpNoOpen(html, ctrl.value);
    }
  }

  /** A placeholder at the start is replaced by the value of its trimmed inner text, and the
      rest of the template is interpolated on its own. */
  lemma PlaceholderFirst(inner: string, rest: string, ctrl: Dict<JsValue>)
    requires inner != "" && NoBrace(inner)
    ensures Interp("{{" + inner + "}}" + rest, ctrl) == Lookup(ctrl, Trim(inner)) + Interp(rest, ctrl)
  {
    var s := "{{" + inner + "}}" + rest;
    assert s == "{{" + inner + ("}}" + rest);
    NextBraceOver("{{", inner, "}}" + rest);
    assert PlaceholderEnd(s) == Some(|inner| + 4);
    assert s[2..|inner| + 2] == inner;
    assert s[|inner| + 4..] == rest;
  }

  lemma ConsConcat(a: string, b: string, c: string)
    requires |a| > 0
    ensures [a[0]] + (a[1..] + b + c) == a + b + c
  {
    assert a == [a[0]] + a[1..];
  }

  /** A first character other than '{' is copied. */
  lemma InterpCopy(s: string, ctrl: Dict<JsValue>)
    requires |s| > 0 && s[0] != '{'
    ensures Interp(s, ctrl) == [s[0]] + Interp(s[1..], ctrl)
  {
    assert PlaceholderEnd(s).None?;
  }

  /** Text free of '{' is copied, then the placeholder after it is replaced: with
      `PlaceholderFirst` this determines the output of any template built from '{'-free text
      and placeholders. */
  lemma {:induction false} TextThenPlaceholder(t: string, inner: string, rest: string, ctrl: Dict<JsValue>)
    requires forall k :: 0 <= k < |t| ==> t[k] != '{'
    requires inner != "" && NoBrace(inner)
    ensures Interp(t + "{{" + inner + "}}" + rest, ctrl) == t + Lookup(ctrl, Trim(inner)) + Interp(rest, ctrl)
    decreases |t|
  {
    if |t| == 0 {
      assert t + "{{" + inner + "}}" + rest == "{{" + inner + "}}" + rest;
      PlaceholderFirst(inner, rest, ctrl);
      var L := Lookup(ctrl, Trim(inner));
      assert t + L == L;
    } else {
      var s := t + "{{" + inner + "}}" + rest;
      var tail := t[1..] + "{{" + inner + "}}" + rest;
      assert s == [t[0]] + tail;
      InterpCopy(s, ctrl);
      assert s[1..] == tail;
      TextThenPlaceholder(t[1..], inner, rest, ctrl);
      var L, R := Lookup(ctrl, Trim(inner)), Interp(rest, ctrl);
      assert Interp(tail, ctrl) == t[1..] + L + R;
      ConsConcat(t, L, R);
    }
  }

  /** Keys are literal property names: a template that is one placeholder reads the property
      named by its whole trimmed inner text, so "{{a.b}}" reads the property "a.b", with no
      path evaluation. */
  lemma KeyIsLiteral(key: string, ctrl: Dict<JsValue>)
    requires key != "" && NoBrace(key) && !IsSpace(key[0]) && !IsSpace(key[|key| - 1])
    ensures InterpolateTemplate("{{" + key + "}}", Some(ctrl)) == Lookup(ctrl, key)
  {
    PlaceholderFirst(key, "", ctrl);
    assert "{{" + key + "}}" + "" == "{{" + key + "}}";
    TrimOfTrimmed(key);
  }
}

=== FILE: text.dfy ===
/** String helpers with the meaning JavaScript gives them: `trim`, `startsWith`, `endsWith`,
    `includes`, `split` on one character, `join`, and decimal rendering of integers. */
module Text {

  /** The characters JavaScript's `trim` removes and its regular-expression class `\s` matches:
      WhiteSpace and LineTerminator code points. */
  predicate IsSpace(c: char) {
    || c == '\t' || c == '\n' || c == '\U{000B}' || c == '\U{000C}' || c == '\r'
    || c == ' ' || c == '\U{00A0}' || c == '\U{1680}'
    || ('\U{2000}' <= c <= '\U{200A}')
    || c == '\U{2028}' || c == '\U{2029}' || c == '\U{202F}' || c == '\U{205F}'
    || c == '\U{3000}' || c == '\U{FEFF}'
  }

  predicate AllSpace(s: string) {
    forall i :: 0 <= i < |s| ==> IsSpace(s[i])
  }

  /** Drops leading whitespace. */
  function TrimStart(s: string): (r: string)
    ensures |r| <= |s| && r == s[|s| - |r|..]
    ensures AllSpace(s[..|s| - |r|])
    ensures |r| > 0 ==> !IsSpace(r[0])
  {
    if |s| > 0 && IsSpace(s[0]) then TrimStart(s[1..]) else s
  }

  /** Drops trailing whitespace. */
  function TrimEnd(s: string): (r: string)
    ensures |r| <= |s| && r == s[..|r|]
    ensures AllSpace(s[|r|..])
    ensures |r| > 0 ==> !IsSpace(r[|r| - 1])
  {
    if |s| > 0 && IsSpace(s[|s| - 1]) then TrimEnd(s[..|s| - 1]) else s
  }

  /** JavaScript `String.prototype.trim`. */
  function Trim(s: string): string {
    TrimEnd(TrimStart(s))
  }

  /** A trimmed string neither starts nor ends with whitespace. */
  lemma TrimShape(s: string)
    ensures var t := Trim(s); |t| > 0 ==> !IsSpace(t[0]) && !IsSpace(t[|t| - 1])
  {
    var u := TrimStart(s);
    var t := TrimEnd(u);
    if |t| > 0 {
      assert t[0] == u[0];
    }
  }

  /** A string trims to the empty string exactly when it is all whitespace. */
  lemma {:induction false} TrimEmptyIffAllSpace(s: string)
    ensures Trim(s) == "" <==> AllSpace(s)
  {
    var u := TrimStart(s);
    if u == "" {
      assert s[..|s|] == s;
    } else {
      assert !IsSpace(u[0]);
      assert s[|s| - |u|] == u[0];
    }
  }

  /** Trimming is idempotent. */
  lemma TrimIdempotent(s: string)
    ensures Trim(Trim(s)) == Trim(s)
  {
    TrimShape(s);
    var t := Trim(s);
    if |t| > 0 {
      assert TrimStart(t) == t;
      assert TrimEnd(t) == t;
    }
  }

  /** A string with no whitespace at either end is its own trim. */
  lemma TrimOfTrimmed(s: string)
    requires |s| > 0 ==> !IsSpace(s[0]) && !IsSpace(s[|s| - 1])
    ensures Trim(s) == s
  {
    if |s| > 0 {
      assert TrimStart(s) == s;
      assert TrimEnd(s) == s;
    }
  }

  predicate StartsWith(s: string, prefix: string) {
    |prefix| <= |s| && s[..|prefix|] == prefix
  }

  predicate EndsWith(s: string, suffix: string) {
    |suffix| <= |s| && s[|s| - |suffix|..] == suffix
  }

  /** JavaScript `String.prototype.includes`: `sub` occurs at some position of `s`. */
  predicate Contains(s: string, sub: string)
    decreases |s|
  {
    StartsWith(s, sub) || (|s| > 0 && Contains(s[1..], sub))
  }

  /** `Contains` holds exactly when `sub` occurs at some index. */
  lemma {:induction false} ContainsAt(s: string, sub: string, i: nat)
    requires i + |sub| <= |s| && s[i..i + |sub|] == sub
    ensures Contains(s, sub)
    decreases i
  {
    if i > 0 {
      assert s[1..][i - 1..i - 1 + |sub|] == s[i..i + |sub|];
      ContainsAt(s[1..], sub, i - 1);
    }
  }

  /** Whatever surrounds it, a string contains itself. */
  lemma ContainsInfix(a: string, b: string, c: string)
    ensures Contains(a + b + c, b)
  {
    var s := a + b + c;
    assert s[|a|..|a| + |b|] == b;
    ContainsAt(s, b, |a|);
  }

  /** Index of the first occurrence of `c` in `s`, or `|s|` when absent. */
  function IndexOf(s: string, c: char): (k: nat)
    ensures k <= |s|
    ensures forall i :: 0 <= i < k ==> s[i] != c
    ensures k < |s| ==> s[k] == c
  {
    if |s| == 0 then 0 else if s[0] == c then 0 else 1 + IndexOf(s[1..], c)
  }

  /** JavaScript `s.split(sep)` for a one-character separator. */
  function Split(s: string, sep: char): (parts: seq<string>)
    ensures |parts| >= 1
    ensures forall i, j :: 0 <= i < |parts| && 0 <= j < |parts[i]| ==> parts[i][j] != sep
    decreases |s|
  {
    var k := IndexOf(s, sep);
    if k == |s| then [s] else [s[..k]] + Split(s[k + 1..], sep)
  }

  /** A string without the separator splits into itself alone. */
  lemma SplitNoSep(s: string, sep: char)
    requires forall k :: 0 <= k < |s| ==> s[k] != sep
    ensures Split(s, sep) == [s]
  {
    var k := IndexOf(s, sep);
    assert k == |s|;
  }

  /** JavaScript `parts.join(sep)`. */
  function Join(parts: seq<string>, sep: string): string {
    if |parts| == 0 then ""
    else if |parts| == 1 then parts[0]
    else parts[0] + sep + Join(parts[1..], sep)
  }

  /** Joining the pieces of a split restores the string. */
  lemma {:induction false} JoinSplit(s: string, sep: char)
    ensures Join(Split(s, sep), [sep]) == s
    decreases |s|
  {
    var k := IndexOf(s, sep);
    if k < |s| {
      var rest := Split(s[k + 1..], sep);
      var parts := Split(s, sep);
      assert parts == [s[..k]] + rest;
      assert parts[0] == s[..k] && parts[1..] == rest;
      JoinSplit(s[k + 1..], sep);
      assert Join(parts, [sep]) == s[..k] + [sep] + Join(rest, [sep]);
      assert s == s[..k] + [sep] + s[k + 1..];
    }
  }

  /** Replaces every character `c` with `f(c)`. */
  function MapChars(s: string, f: char -> char): (r: string)
    ensures |r| == |s| && forall i :: 0 <= i < |s| ==> r[i] == f(s[i])
  {
    if |s| == 0 then "" else [f(s[0])] + MapChars(s[1..], f)
  }

  function DigitChar(d: nat): char
    requires d < 10
  {
    ('0' as int + d) as char
  }

  predicate IsDigit(c: char) {
    '0' <= c <= '9'
  }

  /** Decimal rendering of a natural number, as JavaScript's `String(n)` writes it. */
  function NatToString(n: nat): (r: string)
    ensures |r| >= 1
    ensures forall i :: 0 <= i < |r| ==> IsDigit(r[i])
    ensures |r| > 1 ==> r[0] != '0'
  {
    if n < 10 then [DigitChar(n)] else NatToString(n / 10) + [DigitChar(n % 10)]
  }

  /** Reads a non-empty string of decimal digits. */
  function ParseNat(s: string): nat
    requires forall i :: 0 <= i < |s| ==> IsDigit(s[i])
  {
    if |s| == 0 then 0
    else
      assert IsDigit(s[|s| - 1]);
      10 * ParseNat(s[..|s| - 1]) + (s[|s| - 1] as int - '0' as int)
  }

  /** Reading back a rendered number gives the number. */
  lemma {:induction false} ParseNatToString(n: nat)
    ensures ParseNat(NatToString(n)) == n
  {
    if n >= 10 {
      var r := NatToString(n);
      assert r[..|r| - 1] == NatToString(n / 10);
      ParseNatToString(n / 10);
    }
  }

  /** Distinct numbers render to distinct strings. */
  lemma NatToStringInjective(m: nat, n: nat)
    ensures NatToString(m) == NatToString(n) ==> m == n
  {
    ParseNatToString(m);
    ParseNatToString(n);
  }

  /** Decimal rendering of an integer, with a leading '-' for negative values. */
  function IntToString(i: int): string {
    if i < 0 then "-" + NatToString(-i) else NatToString(i)
  }
}

=== FILE: timewindow.dfy ===
/** The time-window service: constructors, classifiers, and the human-readable rendering of
    durations. A rendered amount is `ms / divisor` followed by a unit; JavaScript prints that
    quotient as a decimal, and this model renders it only when it is a whole number. */
module Timewindows {
  import opened Wrappers
  import opened Text
  import opened DashboardTypes

  const SECOND := 1000
  const MINUTE := 60000
  const HOUR := 3600000
  const DAY := 86400000

  /** One minute of real time. */
  function DefaultTimewindow(): (tw: Timewindow)
    ensures tw.realtime == Some(Realtime(MINUTE)) && tw.history.None? && tw.aggregation.None?
  {
    CreateRealtimeTimewindow(60000)
  }

  function CreateRealtimeTimewindow(timewindowMs: int): (tw: Timewindow)
    ensures tw.realtime == Some(Realtime(timewindowMs))
    ensures tw.history.None? && tw.aggregation.None?
  {
    Timewindow(Some(Realtime(timewindowMs)), None, None)
  }

  function CreateHistoryTimewindow(timewindowMs: int, intervalMs: int, aggregationType: string := "NONE",
                                   limit: int := 100): (tw: Timewindow)
    ensures tw.history == Some(History(timewindowMs, intervalMs, aggregationType, limit))
    ensures tw.realtime.None? && tw.aggregation.None?
  {
    Timewindow(None, Some(History(timewindowMs, intervalMs, aggregationType, limit)), None)
  }

  predicate IsRealtime(tw: Option<Timewindow>) {
    tw.Some? && tw.value.realtime.Some?
  }

  predicate IsHistory(tw: Option<Timewindow>) {
    tw.Some? && tw.value.history.Some?
  }

  /** The realtime window, else the history window, else 0. */
  function GetDuration(tw: Option<Timewindow>): (ms: int)
    ensures IsRealtime(tw) ==> ms == tw.value.realtime.value.timewindowMs
    ensures !IsRealtime(tw) && IsHistory(tw) ==> ms == tw.value.history.value.timewindowMs
    ensures !IsRealtime(tw) && !IsHistory(tw) ==> ms == 0
  {
    if IsRealtime(tw) then tw.value.realtime.value.timewindowMs
    else if IsHistory(tw) then tw.value.history.value.timewindowMs
    else 0
  }

  /** The history interval, else 0. */
  function GetInterval(tw: Option<Timewindow>): (ms: int)
    ensures IsHistory(tw) ==> ms == tw.value.history.value.intervalMs
    ensures !IsHistory(tw) ==> ms == 0
  {
    if IsHistory(tw) then tw.value.history.value.intervalMs else 0
  }

  /** The classifiers and accessors read back what the constructors build. */
  lemma ConstructorsReadBack(ms: int, interval: int, agg: string, limit: int)
    ensures var rt := Some(CreateRealtimeTimewindow(ms));
            IsRealtime(rt) && !IsHistory(rt) && GetDuration(rt) == ms && GetInterval(rt) == 0
    ensures var h := Some(CreateHistoryTimewindow(ms, interval, agg, limit));
            !IsRealtime(h) && IsHistory(h) && GetDuration(h) == ms && GetInterval(h) == interval
    ensures CreateHistoryTimewindow(ms, interval).history.value == History(ms, interval, "NONE", 100)
    ensures !IsRealtime(None) && !IsHistory(None) && GetDuration(None) == 0 && GetInterval(None) == 0
  {
  }

  /** An amount `ms / divisor` printed with `unit` after it. */
  datatype Amount = Amount(ms: int, divisor: nat, unit: string)

  /** The decimal text of an amount, when the quotient is a whole number. */
  function AmountText(a: Amount): (r: Option<string>)
    ensures r.Some? <==> a.divisor > 0 && a.ms % a.divisor == 0
    ensures r.Some? ==> r.value == IntToString(a.ms / a.divisor) + a.unit
  {
    if a.divisor > 0 && a.ms % a.divisor == 0 then Some(IntToString(a.ms / a.divisor) + a.unit) else None
  }

  /** The service's `formatDuration`: ms, s, m, h, then d from one day up. */
  function FormatDuration(ms: int): (a: Amount)
    ensures a.ms == ms
    ensures ms < SECOND ==> a.divisor == 1 && a.unit == "ms"
    ensures SECOND <= ms < MINUTE ==> a.divisor == SECOND && a.unit == "s"
    ensures MINUTE <= ms < HOUR ==> a.divisor == MINUTE && a.unit == "m"
    ensures HOUR <= ms < DAY ==> a.divisor == HOUR && a.unit == "h"
    ensures DAY <= ms ==> a.divisor == DAY && a.unit == "d"
  {
    if ms < 1000 then Amount(ms, 1, "ms")
    else if ms < 60000 then Amount(ms, 1000, "s")
    else if ms < 3600000 then Amount(ms, 60000, "m")
    else if ms < 86400000 then Amount(ms, 3600000, "h")
    else Amount(ms, 86400000, "d")
  }

  /** The realtime branch of `formatTimewindow`: like `formatDuration` but with no day unit. */
  function FormatRealtime(ms: int): (a: Amount)
    ensures a.ms == ms
    ensures ms < SECOND ==> a.divisor == 1 && a.unit == "ms"
    ensures SECOND <= ms < MINUTE ==> a.divisor == SECOND && a.unit == "s"
    ensures MINUTE <= ms < HOUR ==> a.divisor == MINUTE && a.unit == "m"
    ensures HOUR <= ms ==> a.divisor == HOUR && a.unit == "h"
  {
    if ms < 1000 then Amount(ms, 1, "ms")
    else if ms < 60000 then Amount(ms, 1000, "s")
    else if ms < 3600000 then Amount(ms, 60000, "m")
    else Amount(ms, 3600000, "h")
  }

  /** Below one day the two renderings agree; from one day up the realtime one stays in hours. */
  lemma RealtimeAgreesBelowADay(ms: int)
    ensures ms < DAY ==> FormatRealtime(ms) == FormatDuration(ms)
    ensures ms >= DAY ==> FormatRealtime(ms).unit == "h" && FormatDuration(ms).unit == "d"
  {
  }

  /** The chosen unit keeps the amount at least 1 and below the next unit, except in the
      largest unit, and below one second for "ms". */
  lemma FormatDurationScale(ms: int)
    requires ms >= 0
    ensures var a := FormatDuration(ms);
            (a.unit != "ms" ==> a.divisor <= ms) &&
            (a.unit != "d" ==> ms < 1000 * a.divisor && (a.unit != "ms" ==> ms < 60 * a.divisor))
  {
  }

  /** What `formatTimewindow` shows. */
  datatype Display =
    | Message(text: string)
    | Single(amount: Amount)
    | WithInterval(duration: Amount, interval: Amount)

  /** "No timewindow" when undefined; realtime before history; "Unknown" when neither. */
  function FormatTimewindow(tw: Option<Timewindow>): (d: Display)
    ensures tw.None? ==> d == Message("No timewindow")
    ensures IsRealtime(tw) ==> d == Single(FormatRealtime(tw.value.realtime.value.timewindowMs))
    ensures !IsRealtime(tw) && IsHistory(tw) ==>
      d == WithInterval(FormatDuration(tw.value.history.value.timewindowMs), FormatDuration(tw.value.history.value.intervalMs))
    ensures tw.Some? && !IsRealtime(tw) && !IsHistory(tw) ==> d == Message("Unknown")
  {
    if tw.None? then Message("No timewindow")
    else if tw.value.realtime.Some? then Single(FormatRealtime(tw.value.realtime.value.timewindowMs))
    else if tw.value.history.Some? then
      WithInterval(FormatDuration(tw.value.history.value.timewindowMs), FormatDuration(tw.value.history.value.intervalMs))
    else Message("Unknown")
  }

  /** The text of a display, when every amount in it is whole: a history window reads
      "<duration> (<interval> interval)". */
  function DisplayText(d: Display): (r: Option<string>)
    ensures d.Message? ==> r == Some(d.text)
    ensures d.Single? ==> r == AmountText(d.amount)
    ensures d.WithInterval? && AmountText(d.duration).Some? && AmountText(d.interval).Some? ==>
      r == Some(AmountText(d.duration).value + " (" + AmountText(d.interval).value + " interval)")
    ensures d.WithInterval? && (AmountText(d.duration).None? || AmountText(d.interval).None?) ==> r.None?
  {
    match d
    case Message(text) => Some(text)
    case Single(a) => AmountText(a)
    case WithInterval(du, iv) =>
      if AmountText(du).Some? && AmountText(iv).Some? then
        Some(AmountText(du).value + " (" + AmountText(iv).value + " interval)")
      else None
  }

  /** The default time window reads "1m". */
  lemma DefaultTimewindowText()
    ensures DisplayText(FormatTimewindow(Some(DefaultTimewindow()))) == Some("1m")
  {
    var a := FormatRealtime(MINUTE);
    assert a == Amount(60000, 60000, "m");
    assert DigitChar(1) == '1';
    assert IntToString(1) == "1";
    assert a.ms % a.divisor == 0 && a.ms / a.divisor == 1;
    assert "1" + "m" == "1m";
  }
}

=== FILE: timewindow_dialog.dfy ===
/** The time-window dialog: how the form is filled from the current time window, how it is
    validated, what its submit handler dispatches, and its local duration formatter. */
module TimewindowDialog {
  import opened Wrappers
  import opened DashboardTypes
  import opened Timewindows

  datatype Mode = RealtimeMode | HistoryMode

  datatype TimewindowForm = TimewindowForm(
    mode: Mode,
    realtimeMs: Option<int>,
    historyMs: Option<int>,
    intervalMs: Option<int>,
    aggregationType: Option<string>,
    limit: Option<int>)

  /** `n || d` for an optional number: undefined and 0 give the default. */
  function NumOr(n: Option<int>, d: int): (r: int)
    ensures n.Some? && n.value != 0 ==> r == n.value
    ensures !(n.Some? && n.value != 0) ==> r == d
  {
    if n.Some? && n.value != 0 then n.value else d
  }

  /** `s || d` for an optional string. */
  function StrOr(s: Option<string>, d: string): (r: string)
    ensures s.Some? && s.value != "" ==> r == s.value
    ensures !(s.Some? && s.value != "") ==> r == d
  {
    if s.Some? && s.value != "" then s.value else d
  }

  const DefaultForm := TimewindowForm(RealtimeMode, Some(60000), Some(86400000), Some(3600000), Some("NONE"), Some(100))

  /** The values the form is reset to when a time window is present: its realtime window, or
      its history fields, each falling back to the defaults. A time window with neither
      branch leaves the form as it was. */
  function ResetFrom(tw: Option<Timewindow>, current: TimewindowForm): (f: TimewindowForm)
    ensures tw.None? ==> f == current
    ensures IsRealtime(tw) ==> f.mode == RealtimeMode && f.realtimeMs == Some(NumOr(Some(tw.value.realtime.value.timewindowMs), 60000))
    ensures !IsRealtime(tw) && IsHistory(tw) ==> f.mode == HistoryMode
    ensures tw.Some? && !IsRealtime(tw) && !IsHistory(tw) ==> f == current
  {
    if tw.None? then current
    else if IsRealtime(tw) then
      TimewindowForm(RealtimeMode, Some(NumOr(Some(tw.value.realtime.value.timewindowMs), 60000)),
                     Some(86400000), Some(3600000), Some("NONE"), Some(100))
    else if IsHistory(tw) then
      var h := tw.value.history.value;
      TimewindowForm(HistoryMode, Some(60000), Some(NumOr(Some(h.timewindowMs), 86400000)),
                     Some(NumOr(Some(h.intervalMs), 3600000)), Some(StrOr(Some(h.aggregationType), "NONE")),
                     Some(NumOr(Some(h.limit), 100)))
    else current
  }

  /** The time window a submitted form describes: only the active mode's branch, with each
      falsy field replaced by its default. */
  function FormTimewindow(data: TimewindowForm): (tw: Timewindow)
    ensures data.mode == RealtimeMode ==> tw == CreateRealtimeTimewindow(NumOr(data.realtimeMs, 60000))
    ensures data.mode == HistoryMode ==>
      tw == CreateHistoryTimewindow(NumOr(data.historyMs, 86400000), NumOr(data.intervalMs, 3600000),
                                    StrOr(data.aggregationType, "NONE"), NumOr(data.limit, 100))
  {
    if data.mode == RealtimeMode then CreateRealtimeTimewindow(NumOr(data.realtimeMs, 60000))
    else
      CreateHistoryTimewindow(NumOr(data.historyMs, 86400000), NumOr(data.intervalMs, 3600000),
                              StrOr(data.aggregationType, "NONE"), NumOr(data.limit, 100))
  }

  /** Replaces only the configuration's time window; nothing is dispatched without one. */
  function OnSubmit(config: Option<Configuration>, data: TimewindowForm): (r: Option<Configuration>)
    ensures config.None? ==> r.None?
    ensures config.Some? ==> r == Some(config.value.(timewindow := Some(FormTimewindow(data))))
  {
    if config.None? then None else Some(config.value.(timewindow := Some(FormTimewindow(data))))
  }

  /** A form filled from a time window and submitted unchanged stores that time window's
      active branch again, when its fields are truthy: the realtime branch when there is one,
      else the history branch. */
  lemma ResetSubmitRoundTrip(tw: Timewindow, current: TimewindowForm)
    requires tw.realtime.Some? ==> tw.realtime.value.timewindowMs != 0
    requires tw.realtime.None? && tw.history.Some? ==>
      var h := tw.history.value;
      h.timewindowMs != 0 && h.intervalMs != 0 && h.aggregationType != "" && h.limit != 0
    requires tw.realtime.Some? || tw.history.Some?
    ensures tw.realtime.Some? ==>
      FormTimewindow(ResetFrom(Some(tw), current)) == CreateRealtimeTimewindow(tw.realtime.value.timewindowMs)
    ensures tw.realtime.None? ==> FormTimewindow(ResetFrom(Some(tw), current)) == tw.(aggregation := None)
  {
  }

  datatype FieldError = FieldError(field: string, message: string)

  /** The rule for one numeric field: required and at least 1 when its mode is active,
      unconstrained otherwise. */
  function CheckField(active: bool, field: string, value: Option<int>, requiredMessage: string)
    : (r: seq<FieldError>)
    ensures r == [] <==> !active || (value.Some? && value.value >= 1)
    ensures |r| <= 1
  {
    if !active then []
    else if value.None? then [FieldError(field, requiredMessage)]
    else if value.value < 1 then [FieldError(field, "Must be greater than 0")]
    else []
  }

  function Validate(data: TimewindowForm): (errors: seq<FieldError>)
    ensures data.mode == RealtimeMode ==> forall e :: e in errors ==> e.field == "realtimeMs"
    ensures data.mode != RealtimeMode ==> forall e :: e in errors ==> e.field in {"historyMs", "intervalMs", "limit"}
    ensures forall e :: e in errors ==>
              e.message in {"Must be greater than 0", "Time window is required", "Interval is required", "Limit is required"}
  {
    var rt := data.mode == RealtimeMode;
    CheckField(rt, "realtimeMs", data.realtimeMs, "Time window is required")
    + CheckField(!rt, "historyMs", data.historyMs, "Time window is required")
    + CheckField(!rt, "intervalMs", data.intervalMs, "Interval is required")
    + CheckField(!rt, "limit", data.limit, "Limit is required")
  }

  /** A form passes validation exactly when the active mode's numeric fields are all at
      least 1; the other mode's fields never matter. */
  lemma ValidateIff(data: TimewindowForm)
    ensures Validate(data) == [] <==>
      if data.mode == RealtimeMode then data.realtimeMs.Some? && data.realtimeMs.value >= 1
      else data.historyMs.Some? && data.historyMs.value >= 1 && data.intervalMs.Some? && data.intervalMs.value >= 1
           && data.limit.Some? && data.limit.value >= 1
  {
  }

  /** A valid form's numbers are stored as entered: no numeric default is substituted. */
  lemma ValidFormKeepsNumbers(data: TimewindowForm)
    requires Validate(data) == []
    ensures data.mode == RealtimeMode ==> FormTimewindow(data).realtime.value.timewindowMs == data.realtimeMs.value
    ensures data.mode == HistoryMode ==>
      var h := FormTimewindow(data).history.value;
      h.timewindowMs == data.historyMs.value && h.intervalMs == data.intervalMs.value && h.limit == data.limit.value
  {
    ValidateIff(data);
  }

  /** The dialog's own duration formatter. */
  function FormatDuration(ms: int): (a: Amount)
    ensures a.ms == ms
  {
    if ms < 1000 then Amount(ms, 1, "ms")
    else if ms < 60000 then Amount(ms, 1000, "s")
    else if ms < 3600000 then Amount(ms, 60000, "m")
    else if ms < 86400000 then Amount(ms, 3600000, "h")
    else Amount(ms, 86400000, "d")
  }

  /** It uses the same thresholds and units as the service's formatter. */
  lemma FormatDurationAgrees(ms: int)
    ensures FormatDuration(ms) == Timewindows.FormatDuration(ms)
  {
  }
}

=== FILE: widget_actions.dfy ===
/** The widget actions service: the actions API handed to a widget, and what invoking an action
    source does. Effects on the browser (opening a window, changing location, routing,
    logging) are returned as values. */
module WidgetActions {
  import opened Wrappers
  import opened Dict
  import opened DashboardTypes

  /** A property of the actions API object: the descriptor map, or the handler of a source. */
  datatype ApiMember = DescriptorMap(bySource: Dict<seq<ActionDescriptor>>) | Handler(sourceId: string)

  type ActionsApi = Dict<ApiMember>

  const MapKey := "actionDescriptorsBySourceId"

  /** Sets one handler per source id, in key order. */
  function AddHandlers(api: ActionsApi, ids: seq<string>): (r: ActionsApi)
    ensures Wf(api) ==> Wf(r)
    ensures forall k :: Get(r, k) == if k in ids then Some(Handler(k)) else Get(api, k)
    decreases |ids|
  {
    if |ids| == 0 then api else AddHandlers(Set(api, ids[0], Handler(ids[0])), ids[1..])
  }

  /** `createActionsApi(actionDescriptorsBySourceId, navigate)`: the descriptor map under its
      own name, then a handler under each source id. A source id spelled like the map's own
      property replaces the map with its handler. */
  function CreateActionsApi(bySource: Dict<seq<ActionDescriptor>>): (api: ActionsApi)
    ensures Wf(api)
    ensures forall k :: k in Keys(bySource) ==> Get(api, k) == Some(Handler(k))
    ensures MapKey !in Keys(bySource) ==> Get(api, MapKey) == Some(DescriptorMap(bySource))
    ensures forall k :: k != MapKey && k !in Keys(bySource) ==> Get(api, k).None?
  {
    AddHandlers([Entry(MapKey, DescriptorMap(bySource))], Keys(bySource))
  }

  /** What handling an action does to the outside world. */
  datatype Effect =
    | Warn(message: string)
    | OpenInNewTab(url: string)
    | SetLocation(url: string)
    | Navigate(path: string)
    | Log(message: string, action: ActionDescriptor)
    | NoEffect

  /** A template literal's rendering of an optional string. */
  function Show(s: Option<string>): string {
    if s.Some? then s.value else "undefined"
  }

  predicate TruthyStr(s: Option<string>) {
    s.Some? && s.value != ""
  }

  /** `handleOpenLink`: the URL unchanged (interpolation is the identity), in a new tab when
      asked, otherwise in place; nothing without a URL. */
  function OpenLink(a: ActionDescriptor): (e: Effect)
    ensures !TruthyStr(a.url) <==> e == NoEffect
    ensures TruthyStr(a.url) && a.openInNewTab == Some(true) ==> e == OpenInNewTab(a.url.value)
    ensures TruthyStr(a.url) && a.openInNewTab != Some(true) ==> e == SetLocation(a.url.value)
  {
    if TruthyStr(a.url) then
      if a.openInNewTab == Some(true) then OpenInNewTab(a.url.value) else SetLocation(a.url.value)
    else NoEffect
  }

  /** `handleNavigate`: a state id wins and is put in the query string beside the dashboard id,
      which a template literal prints as "undefined" when missing. */
  function NavigateTo(a: ActionDescriptor): (e: Effect)
    ensures e.Navigate? <==> TruthyStr(a.dashboardStateId) || TruthyStr(a.dashboardId)
    ensures TruthyStr(a.dashboardStateId) ==>
              e == Navigate("/dashboard/" + Show(a.dashboardId) + "?state=" + a.dashboardStateId.value)
    ensures !TruthyStr(a.dashboardStateId) && TruthyStr(a.dashboardId) ==> e == Navigate("/dashboard/" + a.dashboardId.value)
    ensures !e.Navigate? ==> e == NoEffect
  {
    if TruthyStr(a.dashboardStateId) then Navigate("/dashboard/" + Show(a.dashboardId) + "?state=" + a.dashboardStateId.value)
    else if TruthyStr(a.dashboardId) then Navigate("/dashboard/" + a.dashboardId.value)
    else NoEffect
  }

  /** `handleAction` given the descriptors found for the source: only the first is dispatched. */
  function HandleAction(sourceId: string, descriptors: seq<ActionDescriptor>): (e: Effect)
    ensures |descriptors| == 0 ==> e == Warn("No action descriptors found for " + sourceId)
    ensures |descriptors| > 0 ==> !e.Warn?
    ensures |descriptors| > 0 && descriptors[0].actionType == Some("rpc") ==> e == Log("RPC action:", descriptors[0])
    ensures |descriptors| > 0 && descriptors[0].actionType == Some("updateDashboardState") ==>
              e == Log("Update dashboard state:", descriptors[0])
    ensures |descriptors| > 0 && descriptors[0].actionType !in {Some("openLink"), Some("navigate"), Some("rpc"), Some("updateDashboardState")} ==>
              e == NoEffect
  {
    if |descriptors| == 0 then Warn("No action descriptors found for " + sourceId)
    else
      var a := descriptors[0];
      if a.actionType == Some("openLink") then OpenLink(a)
      else if a.actionType == Some("navigate") then NavigateTo(a)
      else if a.actionType == Some("rpc") then Log("RPC action:", a)
      else if a.actionType == Some("updateDashboardState") then Log("Update dashboard state:", a)
      else NoEffect
  }

  /** Only the first descriptor matters. */
  lemma OnlyFirstDispatched(sourceId: string, descriptors: seq<ActionDescriptor>)
    requires |descriptors| > 0
    ensures HandleAction(sourceId, descriptors) == HandleAction(sourceId, descriptors[..1])
  {
  }

  /** A routing change happens only for a navigate action with a dashboard or state id; the
      browser location only for an open-link action with a URL. */
  lemma EffectsNeedTargets(sourceId: string, descriptors: seq<ActionDescriptor>)
    ensures HandleAction(sourceId, descriptors).Navigate? <==>
              |descriptors| > 0 && descriptors[0].actionType == Some("navigate")
              && (TruthyStr(descriptors[0].dashboardStateId) || TruthyStr(descriptors[0].dashboardId))
    ensures HandleAction(sourceId, descriptors).OpenInNewTab? || HandleAction(sourceId, descriptors).SetLocation? <==>
              |descriptors| > 0 && descriptors[0].actionType == Some("openLink") && TruthyStr(descriptors[0].url)
  {
  }

  /** `getActionDescriptors`: no lookup is implemented, so no source has descriptors. */
  function GetActionDescriptors(sourceId: string): (ds: seq<ActionDescriptor>)
    ensures ds == []
  {
    []
  }

  /** Calling the handler of a source, as a widget does through the API. */
  function Invoke(api: ActionsApi, sourceId: string): (e: Option<Effect>)
    ensures e.Some? <==> Get(api, sourceId) == Some(Handler(sourceId))
  {
    if Get(api, sourceId) == Some(Handler(sourceId)) then Some(HandleAction(sourceId, GetActionDescriptors(sourceId)))
    else None
  }

  /** Every source of a created API can be invoked, and every invocation only warns. */
  lemma EveryInvocationOnlyWarns(bySource: Dict<seq<ActionDescriptor>>, sourceId: string)
    requires sourceId in Keys(bySource)
    ensures Invoke(CreateActionsApi(bySource), sourceId) == Some(Warn("No action descriptors found for " + sourceId))
  {
  }
}

=== FILE: widget_api.dfy ===
/** Resolving a widget type by its fully qualified name: the server's answer when it carries a
    descriptor, otherwise the bundled mock widget with that name. The HTTP call and the mock
    file read are parameters. */
module WidgetApi {
  import opened Wrappers
  import opened WidgetTypes

  /** What reading the bundled mock file produced: a failure, a JSON array, or a single value. */
  datatype MockPayload = MockUnreadable | MockArray(items: seq<WidgetType>) | MockSingle(item: WidgetType)

  /** `loadMockWidgets()`: an array as it is, a single value as a one-element list, nothing when
      the read or the parse failed. */
  function LoadMockWidgets(p: MockPayload): (ws: seq<WidgetType>)
    ensures p.MockUnreadable? <==> ws == [] && !(p.MockArray? && p.items == [])
    ensures p.MockArray? ==> ws == p.items
    ensures p.MockSingle? ==> ws == [p.item]
  {
    match p
    case MockUnreadable => []
    case MockArray(items) => items
    case MockSingle(item) => [item]
  }

  /** Index of the first widget type named `fqn`, or `|ws|` when there is none (`find`). */
  function FindByFqn(ws: seq<WidgetType>, fqn: string): (k: nat)
    ensures k <= |ws|
    ensures forall i :: 0 <= i < k ==> ws[i].fqn != fqn
    ensures k < |ws| ==> ws[k].fqn == fqn
  {
    if |ws| == 0 then 0 else if ws[0].fqn == fqn then 0 else 1 + FindByFqn(ws[1..], fqn)
  }

  /** The server's answer is used only when it has a body with a descriptor. */
  predicate Usable(api: Result<Option<WidgetType>>) {
    api.Ok? && api.value.Some? && api.value.value.descriptor.Some?
  }

  /** `getWidgetType(fullFqn)`, given the server's answer (a thrown error, or a body that may be
      empty) and the mock payload. */
  function GetWidgetType(fqn: string, api: Result<Option<WidgetType>>, mocks: MockPayload): (r: Result<WidgetType>)
    ensures Usable(api) ==> r == Ok(api.value.value)
    ensures !Usable(api) ==> (r.Ok? <==> exists w :: w in LoadMockWidgets(mocks) && w.fqn == fqn)
    ensures !Usable(api) && r.Ok? ==>
              && r.value.fqn == fqn
              && r.value == LoadMockWidgets(mocks)[FindByFqn(LoadMockWidgets(mocks), fqn)]
    ensures r.Err? ==> r.message == "Widget type " + fqn + " not found"
  {
    if Usable(api) then Ok(api.value.value)
    else
      var ws := LoadMockWidgets(mocks);
      var k := FindByFqn(ws, fqn);
      if k < |ws| then Ok(ws[k]) else Err("Widget type " + fqn + " not found")
  }

  /** Whatever the server says, a successful resolution has a descriptor or the requested
      name; a mock is taken as it is, so it may lack a descriptor. */
  lemma ResolvedHasDescriptorOrName(fqn: string, api: Result<Option<WidgetType>>, mocks: MockPayload)
    requires GetWidgetType(fqn, api, mocks).Ok?
    ensures GetWidgetType(fqn, api, mocks).value.descriptor.Some? || GetWidgetType(fqn, api, mocks).value.fqn == fqn
  {
  }

  /** When the server fails, the answer depends only on the mocks, not on how the server failed. */
  lemma FallbackIgnoresFailure(fqn: string, e1: string, e2: string, mocks: MockPayload)
    ensures GetWidgetType(fqn, Err(e1), mocks) == GetWidgetType(fqn, Err(e2), mocks)
    ensures GetWidgetType(fqn, Err(e1), mocks) == GetWidgetType(fqn, Ok(None), mocks)
  {
  }
}

=== FILE: widget_compiler.dfy ===
/** The widget compiler: a controller script is wrapped in a named function, evaluated, and run
    once against a placeholder context; the object it leaves in `self` is the controller.

    A controller is the object the script built, as a dictionary of properties. Evaluation is
    a parameter (`Exec`): given the wrapped source text and the object `self` holds when the
    script body starts, it returns the object the function returned, or the text of whatever
    was thrown on the way. */
module WidgetCompiler {
  import opened Wrappers
  import opened Text
  import opened Dict
  import opened JsValues

  type Controller = Dict<JsValue>

  type Exec = (string, Controller) -> Result<Controller>

  /** The lifecycle hooks a controller may define, in declaration order. */
  const HookNames: seq<string> := ["onInit", "onDataUpdated", "onLatestDataUpdated", "onResize",
                                   "onEditModeChanged", "onMobileModeChanged", "onDestroy"]

  /** The metadata accessors a controller may define. */
  const AccessorNames: seq<string> := ["actionSources", "typeParameters", "useCustomDatasources",
                                       "getSettingsForm", "getDataKeySettingsForm",
                                       "getLatestDataKeySettingsForm"]

  /** The source text of an empty arrow function. */
  const NoOp := Fn("() => {}")

  /** The placeholder context a script sees while it is compiled: empty settings, data, latest
      data, actions API, utilities and datasources. */
  const DummyContext: JsValue := Obj([
    Entry("settings", Obj([])),
    Entry("data", Arr([])),
    Entry("latestData", Arr([])),
    Entry("actionsApi", Obj([])),
    Entry("utils", Obj([])),
    Entry("datasources", Arr([]))])

  /** `this` is a fresh `{}`, and the wrapper sets `self.ctx = ctx || {}` before the body runs;
      the placeholder context is truthy, so it is the one stored. */
  const InitialSelf: Controller := [Entry("ctx", Or(DummyContext, Obj([])))]

  function Underscore(c: char): char {
    if c == '.' || c == '-' then '_' else c
  }

  /** The wrapper's function name: "_" and the fqn with every '.' and '-' turned into '_'. */
  function FunctionName(fqn: string): (name: string)
    ensures |name| == |fqn| + 1 && name[0] == '_'
    ensures forall i :: 0 <= i < |fqn| ==> name[i + 1] == (if fqn[i] in ".-" then '_' else fqn[i])
  {
    "_" + MapChars(fqn, Underscore)
  }

  /** The name never contains '.' or '-', and every other character of the fqn survives. */
  lemma FunctionNameShape(fqn: string)
    ensures forall i :: 0 <= i < |FunctionName(fqn)| ==> FunctionName(fqn)[i] !in ".-"
    ensures forall i :: 0 <= i < |fqn| && fqn[i] !in ".-" ==> FunctionName(fqn)[i + 1] == fqn[i]
  {
  }

  /** Fqns that differ only in '.', '-' and '_' at the same places get the same name. */
  lemma {:induction false} FunctionNameCollides(a: string, b: string)
    requires |a| == |b|
    requires forall i :: 0 <= i < |a| ==> a[i] == b[i] || (a[i] in "._-" && b[i] in "._-")
    ensures FunctionName(a) == FunctionName(b)
  {
    var na := FunctionName(a);
    var nb := FunctionName(b);
    forall i | 0 <= i < |na| ensures na[i] == nb[i] {
      if i > 0 {
        assert na[i] == Underscore(a[i - 1]) && nb[i] == Underscore(b[i - 1]);
      }
    }
  }

  /** The text handed to the `Function` constructor. */
  function WrappedScript(script: string, fqn: string): string {
    "\n      return function " + FunctionName(fqn) + "(ctx) {\n        var self = this;\n"
    + "        self.ctx = ctx || {};\n        \n        " + script
    + "\n        \n        return self;\n      };\n    "
  }

  /** What `compileController` returns when the script fails: the seven hooks, each a no-op. */
  function Fallback(): (c: Controller)
    ensures Keys(c) == HookNames && Wf(c)
    ensures forall i :: 0 <= i < |c| ==> c[i].value == NoOp
  {
    var c := seq(|HookNames|, i requires 0 <= i < |HookNames| => Entry(HookNames[i], NoOp));
    HookNamesDistinct();
    assert forall i :: 0 <= i < |c| ==> c[i].key == HookNames[i];
    c
  }

  /** Every hook name starts with "o", so a name that does not is no hook. */
  lemma NotAHook(name: string)
    requires |name| > 0 && name[0] != 'o'
    ensures name !in HookNames
  {
    forall i | 0 <= i < |HookNames| ensures HookNames[i] != name {
      assert HookNames[i][0] == 'o';
    }
  }

  /** The seven hook names are pairwise different: by length, and the two of length 19 at their
      third character. */
  lemma HookNamesDistinct()
    ensures forall i, j :: 0 <= i < j < |HookNames| ==> HookNames[i] != HookNames[j]
  {
    var lens := seq(|HookNames|, i requires 0 <= i < |HookNames| => |HookNames[i]|);
    assert lens == [6, 13, 19, 8, 17, 19, 9];
    assert HookNames[2][2] == 'L' && HookNames[5][2] == 'M';
  }

  /** The fallback defines no metadata accessor. */
  lemma FallbackHasNoAccessors()
    ensures forall k :: 0 <= k < |AccessorNames| ==> Get(Fallback(), AccessorNames[k]).None?
  {
    var c := Fallback();
    forall k | 0 <= k < |AccessorNames| ensures AccessorNames[k] !in Keys(c) {
      assert AccessorNames[k][0] != 'o';
      NotAHook(AccessorNames[k]);
    }
  }

  /** `compileController(script, fullFqn)`: the object the script leaves, or the fallback when
      evaluation or the run throws. It never fails. */
  function CompileController(script: string, fqn: string, exec: Exec): (c: Controller)
    ensures exec(WrappedScript(script, fqn), InitialSelf).Ok? ==> c == exec(WrappedScript(script, fqn), InitialSelf).value
    ensures exec(WrappedScript(script, fqn), InitialSelf).Err? ==>
              Keys(c) == HookNames && forall i :: 0 <= i < |c| ==> c[i].value == NoOp
  {
    match exec(WrappedScript(script, fqn), InitialSelf)
    case Ok(self) => self
    case Err(_) => Fallback()
  }

  /** Scripts for fqns that differ only in separators are compiled alike. */
  lemma CompileSeparatorBlind(script: string, a: string, b: string, exec: Exec)
    requires |a| == |b|
    requires forall i :: 0 <= i < |a| ==> a[i] == b[i] || (a[i] in "._-" && b[i] in "._-")
    ensures CompileController(script, a, exec) == CompileController(script, b, exec)
  {
    FunctionNameCollides(a, b);
  }

  /** `createControllerInstance(controllerClass, context)`: `new controllerClass(context)`, with
      a failure rethrown under a fixed prefix. */
  function CreateControllerInstance(construct: Controller -> Result<Controller>, context: Controller): (r: Result<Controller>)
    ensures r.Ok? <==> construct(context).Ok?
    ensures r.Ok? ==> r.value == construct(context).value
    ensures r.Err? ==> r.message == "Failed to create widget controller instance: " + construct(context).message
  {
    match construct(context)
    case Ok(c) => Ok(c)
    case Err(e) => Err("Failed to create widget controller instance: " + e)
  }

  /** `m.default || m` for an imported module. */
  function DefaultOr(m: JsValue): (r: JsValue)
    ensures m.Obj? && Get(m.fields, "default").Some? && Truthy(Get(m.fields, "default").value) ==>
              r == Get(m.fields, "default").value
    ensures !m.Obj? ==> r == m
  {
    var d := if m.Obj? then Get(m.fields, "default").GetOr(Undefined) else Undefined;
    Or(d, m)
  }

  /** One optional library: when its import succeeds, store it under `key`; when it fails,
      leave the context alone. */
  function InjectLibrary(ctx: Controller, lib: Result<JsValue>, key: string): (r: Controller)
    ensures Wf(ctx) ==> Wf(r)
    ensures forall k :: Get(r, k) == if lib.Ok? && k == key then Some(DefaultOr(lib.value)) else Get(ctx, k)
  {
    if lib.Err? then ctx else Set(ctx, key, DefaultOr(lib.value))
  }

  /** The library whose import fills a context key, for the keys `injectDependencies` sets. */
  function LibraryFor(key: string): Option<string> {
    if key == "tinycolor" then Some("tinycolor2")
    else if key == "moment" then Some("moment")
    else if key == "$" || key == "jQuery" then Some("jquery")
    else if key == "cssjs" then Some("cssjs")
    else None
  }

  /** `injectDependencies(context)`: tinycolor2, moment, jquery (as both `$` and `jQuery`) and
      cssjs, each imported and stored independently of the others. */
  function InjectDependencies(ctx: Controller, importLib: string -> Result<JsValue>): (r: Controller)
    ensures Wf(ctx) ==> Wf(r)
    ensures forall k :: Get(r, k) ==
              match LibraryFor(k)
              case Some(lib) => if importLib(lib).Ok? then Some(DefaultOr(importLib(lib).value)) else Get(ctx, k)
              case None => Get(ctx, k)
  {
    var c1 := InjectLibrary(ctx, importLib("tinycolor2"), "tinycolor");
    var c2 := InjectLibrary(c1, importLib("moment"), "moment");
    var c3 := InjectLibrary(c2, importLib("jquery"), "$");
    var c4 := InjectLibrary(c3, importLib("jquery"), "jQuery");
    var r := InjectLibrary(c4, importLib("cssjs"), "cssjs");
    InjectedKeys(ctx, importLib, c1, c2, c3, c4, r);
    r
  }

  /** The key-by-key view of the five injections in turn. */
  lemma InjectedKeys(ctx: Controller, importLib: string -> Result<JsValue>, c1: Controller, c2: Controller, c3: Controller, c4: Controller, r: Controller)
    requires c1 == InjectLibrary(ctx, importLib("tinycolor2"), "tinycolor")
    requires c2 == InjectLibrary(c1, importLib("moment"), "moment")
    requires c3 == InjectLibrary(c2, importLib("jquery"), "$")
    requires c4 == InjectLibrary(c3, importLib("jquery"), "jQuery")
    requires r == InjectLibrary(c4, importLib("cssjs"), "cssjs")
    ensures forall k :: Get(r, k) ==
              match LibraryFor(k)
              case Some(lib) => if importLib(lib).Ok? then Some(DefaultOr(importLib(lib).value)) else Get(ctx, k)
              case None => Get(ctx, k)
  {
    forall k ensures Get(r, k) ==
              match LibraryFor(k)
              case Some(lib) => if importLib(lib).Ok? then Some(DefaultOr(importLib(lib).value)) else Get(ctx, k)
              case None => Get(ctx, k)
    {
      if k == "cssjs" {
        assert Get(c4, k) == Get(ctx, k) by {
          assert k != "jQuery" && k != "$" && k != "moment" && k != "tinycolor";
        }
      } else if k == "jQuery" {
        assert Get(c3, k) == Get(ctx, k) by {
          assert k != "$" && k != "moment" && k != "tinycolor";
        }
      } else if k == "$" {
        assert Get(c2, k) == Get(ctx, k) by {
          assert k != "moment" && k != "tinycolor";
        }
      } else if k == "moment" {
        assert k != "tinycolor";
      }
    }
  }

  /** Whether one library is available decides only its own keys: two import environments that
      agree on jquery give the same `$` and `jQuery`, whatever the other three do. */
  lemma JqueryIndependent(ctx: Controller, i1: string -> Result<JsValue>, i2: string -> Result<JsValue>)
    requires i1("jquery") == i2("jquery")
    ensures Get(InjectDependencies(ctx, i1), "$") == Get(InjectDependencies(ctx, i2), "$")
    ensures Get(InjectDependencies(ctx, i1), "jQuery") == Get(InjectDependencies(ctx, i2), "jQuery")
  {
    JqueryKey(ctx, i1, "$");
    JqueryKey(ctx, i2, "$");
    JqueryKey(ctx, i1, "jQuery");
    JqueryKey(ctx, i2, "jQuery");
  }

  /** A jQuery key holds the imported jquery module, or what the context had. */
  lemma JqueryKey(ctx: Controller, importLib: string -> Result<JsValue>, k: string)
    requires k == "$" || k == "jQuery"
    ensures Get(InjectDependencies(ctx, importLib), k) ==
              if importLib("jquery").Ok? then Some(DefaultOr(importLib("jquery").value)) else Get(ctx, k)
  {
    assert LibraryFor(k) == Some("jquery");
  }

  /** With no library available, the context is left exactly as it was. */
  lemma {:induction false} NoLibrariesNoChange(ctx: Controller, importLib: string -> Result<JsValue>)
    requires forall lib :: importLib(lib).Err?
    ensures InjectDependencies(ctx, importLib) == ctx
  {
    assert importLib("tinycolor2").Err? && importLib("moment").Err?;
    assert importLib("jquery").Err? && importLib("cssjs").Err?;
  }
}

=== FILE: widget_instance.dfy ===
/** The lifecycle of one widget instance: once its widget type is known, the load pipeline
    builds the widget info, loads its resources, compiles the controller, injects the utility
    libraries into the context, hands the context to the controller and calls `onInit`; later
    context changes fire the matching controller hooks, and unmounting calls `onDestroy`.

    The widget context is the object the widget sees, as a dictionary of properties. Calling a
    controller hook is a parameter: it returns, or throws the message of an error. */
module WidgetInstance {
  import opened Wrappers
  import opened Dict
  import opened JsValues
  import opened WidgetTypes
  import opened ResourceLoader
  import opened WidgetCompiler
  import opened WidgetLoader

  /** What the hook keeps in React state. `controller` is also what the cleanup's ref holds. */
  datatype InstanceState = InstanceState(
    controller: Option<Controller>,
    isLoading: bool,
    error: Option<string>,
    renderVersion: nat)

  const InitialInstance := InstanceState(None, true, None, 0)

  /** Everything outside the hook that a load consults. */
  datatype Runtime = Runtime(
    env: Env,
    importer: Importer,
    exec: Exec,
    importLib: string -> Result<JsValue>,
    callHook: (Controller, string) -> Result<()>)

  /** The steps of a load, in the order they run. */
  datatype LoadStep = InfoStep | ResourcesStep | CompileStep | InjectStep | CtxStep | InitStep

  const Pipeline: seq<LoadStep> := [InfoStep, ResourcesStep, CompileStep, InjectStep, CtxStep, InitStep]

  /** One run of the load effect: the state it leaves, the resource loader and the context
      afterwards, and the steps it ran (the last one may have thrown). */
  datatype InstanceRun = InstanceRun(state: InstanceState, loader: LoaderState, context: Controller, steps: seq<LoadStep>)

  /** A property a controller defines with a truthy value. */
  predicate HasHook(c: Controller, name: string) {
    Get(c, name).Some? && Truthy(Get(c, name).value)
  }

  /** The load effect: nothing until the widget type is there; then the pipeline, which ends
      loading in every case. Until the context hand-over the controller and the context are
      those it started with. */
  function Load(st: InstanceState, wt: Option<WidgetType>, ctx: Controller, loader: LoaderState, rt: Runtime): (run: InstanceRun)
    ensures wt.None? ==> run == InstanceRun(st, loader, ctx, [])
    ensures wt.Some? ==> !run.state.isLoading && 1 <= |run.steps| && run.steps <= Pipeline
    ensures |run.steps| < 5 ==> run.state.controller == st.controller && run.context == ctx
  {
    if wt.None? then InstanceRun(st, loader, ctx, [])
    else
      match CreateWidgetInfo(wt.value)
      case Err(e) => InstanceRun(st.(error := Some(e), isLoading := false), loader, ctx, [InfoStep])
      case Ok(info) => LoadFromInfo(st, info, loader, ctx, rt)
  }

  /** The pipeline after the widget info: the resources, then compiling and initialising. */
  function LoadFromInfo(st: InstanceState, info: WidgetInfo, loader: LoaderState, ctx: Controller, rt: Runtime): (run: InstanceRun)
    ensures !run.state.isLoading && 2 <= |run.steps| && run.steps <= Pipeline
    ensures |run.steps| < 5 ==> run.state.controller == st.controller && run.context == ctx && run.state.error.Some?
    ensures |run.steps| >= 5 ==>
              run == Initialise(st, CompileController(info.controllerScript, info.fullFqn, rt.exec), run.loader, InjectDependencies(ctx, rt.importLib), rt)
  {
    var (loader', o) := LoadWidgetResources(info, loader, rt.env, rt.importer);
    if o.Failed? then
      InstanceRun(st.(error := Some(o.message), isLoading := false), loader', ctx, [InfoStep, ResourcesStep])
    else
      Initialise(st, CompileController(info.controllerScript, info.fullFqn, rt.exec), loader', InjectDependencies(ctx, rt.importLib), rt)
  }

  /** The pipeline once the resources are in: hand the context, with the libraries injected, to
      the compiled controller, and call `onInit` when it defines one. */
  function Initialise(st: InstanceState, compiled: Controller, loader: LoaderState, ctx: Controller, rt: Runtime): (run: InstanceRun)
    ensures !run.state.isLoading && |run.steps| >= 5 && run.steps <= Pipeline && run.loader == loader
    ensures run.state.error.None? <==>
              (InitStep in run.steps ==> run.state.controller.Some? && rt.callHook(run.state.controller.value, "onInit").Ok?)
    ensures run.context == ctx
    ensures run.state.controller == Some(Set(compiled, "ctx", Obj(ctx)))
    ensures InitStep in run.steps <==> HasHook(run.state.controller.value, "onInit")
    ensures run.state.renderVersion ==
              if InitStep in run.steps && rt.callHook(run.state.controller.value, "onInit").Ok?
              then st.renderVersion + 1 else st.renderVersion
  {
    var instance := Set(compiled, "ctx", Obj(ctx));
    var withController := st.(controller := Some(instance), error := None);
    var ran := [InfoStep, ResourcesStep, CompileStep, InjectStep, CtxStep];
    assert InitStep !in ran && ran <= Pipeline;
    if !HasHook(instance, "onInit") then
      InstanceRun(withController.(isLoading := false), loader, ctx, ran)
    else match rt.callHook(instance, "onInit")
      case Ok(_) =>
        InstanceRun(withController.(renderVersion := st.renderVersion + 1, isLoading := false), loader, ctx, Pipeline)
      case Err(e) =>
        InstanceRun(withController.(error := Some(e), isLoading := false), loader, ctx, Pipeline)
  }

  /** A load that ran reports no error exactly when it got past the context hand-over and
      `onInit`, if it was called, returned. */
  lemma LoadErrorIff(st: InstanceState, wt: WidgetType, ctx: Controller, loader: LoaderState, rt: Runtime)
    ensures var run := Load(st, Some(wt), ctx, loader, rt);
            run.state.error.None? <==>
              |run.steps| >= 5 && (InitStep in run.steps ==> run.state.controller.Some? && rt.callHook(run.state.controller.value, "onInit").Ok?)
  {
  }

  /** Past the hand-over, the context is the injected one, the controller holds it under "ctx",
      and `onInit` was called exactly when the controller defines it. */
  lemma LoadInjects(st: InstanceState, wt: Option<WidgetType>, ctx: Controller, loader: LoaderState, rt: Runtime)
    ensures var run := Load(st, wt, ctx, loader, rt);
            |run.steps| >= 5 ==>
              && run.context == InjectDependencies(ctx, rt.importLib)
              && run.state.controller.Some?
              && Get(run.state.controller.value, "ctx") == Some(Obj(run.context))
              && (InitStep in run.steps <==> HasHook(run.state.controller.value, "onInit"))
  {
    var run := Load(st, wt, ctx, loader, rt);
    if |run.steps| >= 5 {
      var c := run.state.controller.value;
      assert exists compiled :: c == Set(compiled, "ctx", Obj(run.context));
    }
  }

  /** The render version moves by one exactly when `onInit` was called and returned. */
  lemma LoadRenderVersion(st: InstanceState, wt: Option<WidgetType>, ctx: Controller, loader: LoaderState, rt: Runtime)
    ensures var run := Load(st, wt, ctx, loader, rt);
            run.state.renderVersion ==
              if InitStep in run.steps && run.state.controller.Some? && rt.callHook(run.state.controller.value, "onInit").Ok?
              then st.renderVersion + 1 else st.renderVersion
  {
    var run := Load(st, wt, ctx, loader, rt);
    assert InitStep !in run.steps[..0];
  }

  /** `onInit` runs at most once per load, and only after the real context has replaced the
      compile-time one: the controller it is called on holds the injected context. */
  lemma InitAfterContext(st: InstanceState, wt: Option<WidgetType>, ctx: Controller, loader: LoaderState, rt: Runtime)
    ensures var run := Load(st, wt, ctx, loader, rt);
            InitStep in run.steps ==>
              && run.steps == Pipeline
              && run.state.controller.Some?
              && Get(run.state.controller.value, "ctx") == Some(Obj(InjectDependencies(ctx, rt.importLib)))
    ensures var run := Load(st, wt, ctx, loader, rt);
            run.state.renderVersion <= st.renderVersion + 1
  {
    LoadInjects(st, wt, ctx, loader, rt);
    LoadRenderVersion(st, wt, ctx, loader, rt);
    var run := Load(st, wt, ctx, loader, rt);
    if InitStep in run.steps {
      PrefixWithInit(run.steps);
    }
  }

  /** The only prefix of the pipeline that reaches `onInit` is the whole of it. */
  lemma PrefixWithInit(steps: seq<LoadStep>)
    requires steps <= Pipeline && InitStep in steps
    ensures steps == Pipeline
  {
    var k :| 0 <= k < |steps| && steps[k] == InitStep;
    assert Pipeline[k] == InitStep;
  }

  /** A type without a descriptor stops the load at its first step, with the loader's error and
      the previous controller kept. */
  lemma NoDescriptorFails(st: InstanceState, wt: WidgetType, ctx: Controller, loader: LoaderState, rt: Runtime)
    requires wt.descriptor.None?
    ensures var run := Load(st, Some(wt), ctx, loader, rt);
            && run.steps == [InfoStep]
            && run.state.error == Some("Widget type " + wt.fqn + " has no descriptor")
            && run.state.controller == st.controller
            && run.loader == loader
  {
  }

  /** The context changes the hook listens to. */
  datatype ContextChange = DataChanged | LatestDataChanged | SizeChanged | EditModeChanged | MobileModeChanged

  /** A context property, `undefined` when missing. */
  function Field(ctx: Controller, k: string): JsValue {
    Get(ctx, k).GetOr(Undefined)
  }

  /** The hook each change calls. */
  function HookFor(ch: ContextChange): string {
    match ch
    case DataChanged => "onDataUpdated"
    case LatestDataChanged => "onLatestDataUpdated"
    case SizeChanged => "onResize"
    case EditModeChanged => "onEditModeChanged"
    case MobileModeChanged => "onMobileModeChanged"
  }

  /** The context condition under which each effect looks at the controller. */
  predicate Guard(ch: ContextChange, ctx: Controller) {
    match ch
    case DataChanged => Truthy(Field(ctx, "data"))
    case LatestDataChanged => Truthy(Field(ctx, "latestData"))
    case SizeChanged => Truthy(Field(ctx, "width")) && Truthy(Field(ctx, "height"))
    case EditModeChanged => !Field(ctx, "isEdit").Undefined?
    case MobileModeChanged => !Field(ctx, "isMobile").Undefined?
  }

  /** A hook call and its argument, if any. */
  datatype HookCall = HookCall(name: string, arg: Option<JsValue>)

  /** One context-change effect: with a controller and the guard met, the controller's hook is
      called if it has one; data and latest-data updates then bump the render version. */
  function OnContextChange(st: InstanceState, ctx: Controller, ch: ContextChange): (r: (InstanceState, Option<HookCall>))
    ensures r.1.Some? <==> st.controller.Some? && Guard(ch, ctx) && HasHook(st.controller.value, HookFor(ch))
    ensures r.1.Some? ==> r.1.value.name == HookFor(ch)
    ensures r.1.Some? && ch == EditModeChanged ==> r.1.value.arg == Some(Field(ctx, "isEdit"))
    ensures r.1.Some? && ch == MobileModeChanged ==> r.1.value.arg == Some(Field(ctx, "isMobile"))
    ensures r.0.renderVersion == if r.1.Some? && ch in {DataChanged, LatestDataChanged} then st.renderVersion + 1 else st.renderVersion
    ensures r.0.(renderVersion := st.renderVersion) == st
  {
    if st.controller.Some? && Guard(ch, ctx) && HasHook(st.controller.value, HookFor(ch)) then
      var arg := match ch
        case EditModeChanged => Some(Field(ctx, "isEdit"))
        case MobileModeChanged => Some(Field(ctx, "isMobile"))
        case _ => None;
      var bump := if ch == DataChanged || ch == LatestDataChanged then 1 else 0;
      (st.(renderVersion := st.renderVersion + bump), Some(HookCall(HookFor(ch), arg)))
    else (st, None)
  }

  /** No hook fires before a controller exists, whatever the context says. */
  lemma NoHooksBeforeController(st: InstanceState, ctx: Controller, ch: ContextChange)
    requires st.controller.None?
    ensures OnContextChange(st, ctx, ch) == (st, None)
  {
  }

  /** The load effect's cleanup: `onDestroy` is called if the controller has it. Whatever it
      throws is swallowed, so its result is never read and the state is left as it was. */
  function Cleanup(st: InstanceState, callHook: (Controller, string) -> Result<()>): (r: (InstanceState, bool))
    ensures r.0 == st
    ensures r.1 <==> st.controller.Some? && HasHook(st.controller.value, "onDestroy")
  {
    if st.controller.Some? && HasHook(st.controller.value, "onDestroy") then
      var _ := callHook(st.controller.value, "onDestroy");
      (st, true)
    else (st, false)
  }

  /** The load is asynchronous, and the model's `Load` is its completion. A component unmounted
      while the load still awaits its resources or the library import runs the cleanup while no
      controller is stored, so no `onDestroy` is called; the load completes afterwards all the
      same, stores a controller and calls its `onInit` when it has one, and no cleanup is left to
      destroy it. */
  lemma UnmountDuringLoad(wt: WidgetType, ctx: Controller, loader: LoaderState, rt: Runtime)
    ensures !Cleanup(InitialInstance, rt.callHook).1
    ensures var run := Load(InitialInstance, Some(wt), ctx, loader, rt);
            |run.steps| >= 5 ==>
              run.state.controller.Some? && (InitStep in run.steps <==> HasHook(run.state.controller.value, "onInit"))
  {
    LoadInjects(InitialInstance, Some(wt), ctx, loader, rt);
  }

  /** The widget-type query as the hook sees it. */
  datatype TypeQuery = TypeQuery(data: Option<WidgetType>, isLoading: bool, error: Option<string>)

  /** What the hook returns to the widget. */
  datatype Reported = Reported(
    controller: Option<Controller>,
    isLoading: bool,
    error: Option<string>,
    templateHtml: string,
    templateCss: string,
    renderVersion: nat)

  /** The template of the queried type, "" when there is no type, descriptor or text. */
  function TemplateOf(q: TypeQuery, css: bool): (t: string)
    ensures q.data.None? || q.data.value.descriptor.None? ==> t == ""
  {
    if q.data.Some? && q.data.value.descriptor.Some? then
      var d := q.data.value.descriptor.value;
      StrOr(if css then d.templateCss else d.templateHtml, "")
    else ""
  }

  /** The hook's result: loading while either the load or the query is; the load's own error
      before the query's, which is prefixed. */
  function Report(st: InstanceState, q: TypeQuery): (r: Reported)
    ensures r.isLoading <==> st.isLoading || q.isLoading
    ensures st.error.Some? ==> r.error == st.error
    ensures st.error.None? ==> r.error == if q.error.Some? then Some("Failed to load widget type: " + q.error.value) else None
    ensures r.controller == st.controller && r.renderVersion == st.renderVersion
    ensures r.templateHtml == TemplateOf(q, false) && r.templateCss == TemplateOf(q, true)
  {
    Reported(st.controller, st.isLoading || q.isLoading,
             if st.error.Some? then st.error
             else if q.error.Some? then Some("Failed to load widget type: " + q.error.value) else None,
             TemplateOf(q, false), TemplateOf(q, true), st.renderVersion)
  }

  /** When the widget type cannot be fetched, the load never runs, so the initial loading flag is
      never cleared: the hook reports loading and the type error together, for good. */
  lemma FailedTypeStaysLoading(ctx: Controller, loader: LoaderState, rt: Runtime, e: string)
    ensures var run := Load(InitialInstance, None, ctx, loader, rt);
            var r := Report(run.state, TypeQuery(None, false, Some(e)));
            r.isLoading && r.error == Some("Failed to load widget type: " + e)
  {
  }

  /** A completed load reports neither loading nor an error once the query has settled. */
  lemma LoadedReportsReady(st: InstanceState, wt: WidgetType, ctx: Controller, loader: LoaderState, rt: Runtime)
    requires Load(st, Some(wt), ctx, loader, rt).state.error.None?
    ensures var r := Report(Load(st, Some(wt), ctx, loader, rt).state, TypeQuery(Some(wt), false, None));
            !r.isLoading && r.error.None? && r.controller.Some?
  {
    LoadErrorIff(st, wt, ctx, loader, rt);
    LoadInjects(st, Some(wt), ctx, loader, rt);
  }
}

=== FILE: widget_loader.dfy ===
/** The widget loader: a widget type's descriptor is normalised into a `WidgetInfo` with every
    field defaulted, its resources are loaded, and its controller compiled, in that order. */
module WidgetLoader {
  import opened Wrappers
  import opened JsValues
  import opened WidgetTypes
  import opened ResourceLoader
  import opened WidgetCompiler

  /** A descriptor with every optional field resolved. */
  datatype WidgetInfo = WidgetInfo(
    widgetType: WidgetType,
    fullFqn: string,
    widgetName: string,
    templateHtml: string,
    templateCss: string,
    controllerScript: string,
    resources: seq<Resource>,
    defaultConfig: string,
    sizeX: int,
    sizeY: int)

  /** `s || d` on an optional string: the default replaces an absent or empty value. */
  function StrOr(s: Option<string>, d: string): (r: string)
    ensures s.Some? && s.value != "" ==> r == s.value
    ensures s.None? || s.value == "" ==> r == d
  {
    if s.Some? && s.value != "" then s.value else d
  }

  /** `n || d` on an optional number: the default replaces an absent or zero value. */
  function SizeOr(n: Option<int>, d: int): (r: int)
    ensures n.Some? && n.value != 0 ==> r == n.value
    ensures n.None? || n.value == 0 ==> r == d
  {
    if n.Some? && n.value != 0 then n.value else d
  }

  /** The controller script as text: a string as it is, an object's body, or "". */
  function ScriptSource(cs: Option<ControllerScript>): (r: string)
    ensures cs.Some? && cs.value.ScriptText? ==> r == cs.value.text
    ensures cs.Some? && cs.value.ScriptObject? ==> r == cs.value.body.GetOr("")
    ensures cs.None? ==> r == ""
  {
    match cs
    case None => ""
    case Some(ScriptText(t)) => t
    case Some(ScriptObject(body, _)) => StrOr(body, "")
  }

  /** `createWidgetInfo(widgetType)`: fails without a descriptor; otherwise every falsy field
      takes its default. */
  function CreateWidgetInfo(wt: WidgetType): (r: Result<WidgetInfo>)
    ensures r.Err? <==> wt.descriptor.None?
    ensures r.Err? ==> r.message == "Widget type " + wt.fqn + " has no descriptor"
    ensures r.Ok? ==> r.value.widgetType == wt && r.value.fullFqn == wt.fqn && r.value.widgetName == wt.name
    ensures r.Ok? ==> r.value.defaultConfig != "" && r.value.sizeX != 0 && r.value.sizeY != 0
    ensures r.Ok? ==> r.value.resources == wt.descriptor.value.resources.GetOr([])
    ensures r.Ok? ==> r.value.templateHtml == wt.descriptor.value.templateHtml.GetOr("")
    ensures r.Ok? ==> r.value.templateCss == wt.descriptor.value.templateCss.GetOr("")
    ensures r.Ok? ==> r.value.controllerScript == ScriptSource(wt.descriptor.value.controllerScript)
    ensures r.Ok? && wt.descriptor.value.sizeX.GetOr(0) == 0 ==> r.value.sizeX == 8
    ensures r.Ok? && wt.descriptor.value.sizeY.GetOr(0) == 0 ==> r.value.sizeY == 6
  {
    match wt.descriptor
    case None => Err("Widget type " + wt.fqn + " has no descriptor")
    case Some(d) =>
      Ok(WidgetInfo(
        wt, wt.fqn, wt.name,
        StrOr(d.templateHtml, ""),
        StrOr(d.templateCss, ""),
        ScriptSource(d.controllerScript),
        d.resources.GetOr([]),
        StrOr(d.defaultConfig, "{}"),
        SizeOr(d.sizeX, 8),
        SizeOr(d.sizeY, 6)))
  }

  /** A descriptor spelling out every field of an info. */
  function DescriptorOf(info: WidgetInfo, descType: string, settingsForm: Option<seq<FormProperty>>): Descriptor {
    Descriptor(descType, Some(info.resources), Some(info.templateHtml), Some(info.templateCss),
               Some(ScriptText(info.controllerScript)), Some(info.defaultConfig),
               Some(info.sizeX), Some(info.sizeY), settingsForm)
  }

  /** Normalisation is idempotent: an info written back as a descriptor normalises to itself. */
  lemma NormaliseIdempotent(wt: WidgetType, descType: string, settingsForm: Option<seq<FormProperty>>)
    requires CreateWidgetInfo(wt).Ok?
    ensures var info := CreateWidgetInfo(wt).value;
            var wt' := WidgetType(wt.fqn, wt.name, Some(DescriptorOf(info, descType, settingsForm)));
            CreateWidgetInfo(wt') == Ok(info.(widgetType := wt'))
  {
  }

  /** `loadWidgetResources(widgetInfo)`: the resource loader is asked only for a non-empty list. */
  function LoadWidgetResources(info: WidgetInfo, st: LoaderState, env: Env, importer: Importer): (r: (LoaderState, Outcome))
    ensures |info.resources| == 0 ==> r == (st, Loaded)
    ensures |info.resources| > 0 ==> r == LoadResources(st, info.resources, env, importer)
  {
    if |info.resources| > 0 then LoadResources(st, info.resources, env, importer) else (st, Loaded)
  }

  /** The guard changes nothing observable: the loader does the same on an empty list. */
  lemma ResourceGuardInvisible(info: WidgetInfo, st: LoaderState, env: Env, importer: Importer)
    ensures LoadWidgetResources(info, st, env, importer) == LoadResources(st, info.resources, env, importer)
  {
  }

  /** The steps of `loadWidget`, in the order they complete. */
  datatype Stage = Fetched | InfoCreated | ResourcesLoaded | Compiled

  const AllStages: seq<Stage> := [Fetched, InfoCreated, ResourcesLoaded, Compiled]

  /** What one `loadWidget` call did: the steps completed, the loader afterwards, and the
      widget info and controller, or the error that stopped it. */
  datatype LoadRun = LoadRun(stages: seq<Stage>, loader: LoaderState, result: Result<(WidgetInfo, Controller)>)

  /** `loadWidget(fullFqn)`. The fetch of the widget type is a parameter. */
  function LoadWidget(fqn: string, fetch: string -> Result<WidgetType>, st: LoaderState, env: Env,
                      importer: Importer, exec: Exec): (run: LoadRun)
    ensures run.stages <= AllStages
    ensures run.result.Ok? <==> run.stages == AllStages
    ensures |run.stages| < 2 ==> run.loader == st
    ensures fetch(fqn).Err? ==> run.stages == [] && run.result == Err(fetch(fqn).message)
    ensures fetch(fqn).Ok? ==> |run.stages| >= 1 && (|run.stages| == 1 <==> fetch(fqn).value.descriptor.None?)
    ensures run.result.Ok? ==>
              && fetch(fqn).Ok?
              && run.result.value.0 == CreateWidgetInfo(fetch(fqn).value).value
              && run.result.value.1 == CompileController(run.result.value.0.controllerScript, run.result.value.0.fullFqn, exec)
  {
    match fetch(fqn)
    case Err(e) => LoadRun([], st, Err(e))
    case Ok(wt) =>
      match CreateWidgetInfo(wt)
      case Err(e) => LoadRun([Fetched], st, Err(e))
      case Ok(info) =>
        var (st', o) := LoadWidgetResources(info, st, env, importer);
        if o.Failed? then LoadRun([Fetched, InfoCreated], st', Err(o.message))
        else LoadRun(AllStages, st', Ok((info, CompileController(info.controllerScript, info.fullFqn, exec))))
  }

  /** A widget whose resources all load, from consistent caches, completes every step once it
      has a descriptor. */
  lemma LoadWidgetCompletes(fqn: string, fetch: string -> Result<WidgetType>, st: LoaderState, env: Env,
                            importer: Importer, exec: Exec)
    requires Consistent(st, env, importer)
    requires fetch(fqn).Ok? && CreateWidgetInfo(fetch(fqn).value).Ok?
    requires forall i :: 0 <= i < |CreateWidgetInfo(fetch(fqn).value).value.resources| ==>
               Loads(CreateWidgetInfo(fetch(fqn).value).value.resources[i], env, importer)
    ensures LoadWidget(fqn, fetch, st, env, importer, exec).result.Ok?
  {
    var info := CreateWidgetInfo(fetch(fqn).value).value;
    LoadResourcesAllOrNothing(st, info.resources, env, importer);
  }
}

=== FILE: widget_subscription.dfy ===
/** The widget subscription service: a registry of data subscriptions keyed by generated ids,
    each holding its options, its fetched data and its loading flag.

    The telemetry backend is a parameter. Fetching is asynchronous in the service: creating a
    subscription with datasources leaves it loading, and `CompleteFetch` is the later moment
    the pending fetch writes its result into the record it captured. */
module WidgetSubscription {
  import opened Wrappers
  import opened Text
  import opened Dict
  import opened JsValues
  import opened DashboardTypes
  import opened WidgetTypes

  datatype SubRecord = SubRecord(
    id: string,
    options: SubscriptionOptions,
    data: Option<seq<DatasourceData>>,
    latestData: Option<seq<DatasourceData>>,
    loading: bool,
    error: Option<string>)

  /** The service: its records, the last number handed out, and the socket subscribers. */
  datatype Registry = Registry(subs: map<string, SubRecord>, counter: nat, sockets: set<string>)

  const EmptyRegistry := Registry(map[], 0, {})

  /** The id of the n-th subscription. */
  function SubId(n: nat): string {
    "subscription-" + NatToString(n)
  }

  lemma SubIdInjective(m: nat, n: nat)
    ensures SubId(m) == SubId(n) ==> m == n
  {
    if SubId(m) == SubId(n) {
      var p := "subscription-";
      assert NatToString(m) == SubId(m)[|p|..];
      assert NatToString(n) == SubId(n)[|p|..];
      NatToStringInjective(m, n);
    }
  }

  /** Telemetry reads for one datasource: latest values, a time series, alarms. Each may fail. */
  datatype Backend = Backend(
    latest: Datasource -> Result<Dict<JsValue>>,
    timeseries: (Datasource, Option<Timewindow>) -> Result<seq<JsValue>>,
    alarms: (Datasource, Option<Timewindow>) -> Result<seq<JsValue>>)

  /** The reads as the service implements them today: an empty map and empty lists. */
  const StubBackend := Backend(ds => Ok([]), (ds, tw) => Ok([]), (ds, tw) => Ok([]))

  /** `options.type || 'timeseries'`. */
  function FetchKind(options: SubscriptionOptions): (kind: string)
    ensures kind != ""
    ensures options.subType.Some? && options.subType.value != "" ==> kind == options.subType.value
  {
    if options.subType.Some? && options.subType.value != "" then options.subType.value else "timeseries"
  }

  /** A read's rows, or none when it failed. */
  function DataOrEmpty(r: Result<seq<JsValue>>): seq<JsValue> {
    if r.Ok? then r.value else []
  }

  /** The entry one datasource contributes, or nothing for an unknown kind. A failed read gives
      the datasource with empty data. */
  function FetchOne(ds: Datasource, kind: string, tw: Option<Timewindow>, b: Backend): (r: Option<DatasourceData>)
    ensures r.Some? <==> kind in {"latest", "timeseries", "alarm"}
    ensures r.Some? ==> r.value.datasource == ds
    ensures kind == "latest" ==> r.value.data == [] && (r.value.latestValues.Some? <==> b.latest(ds).Ok?)
    ensures kind in {"timeseries", "alarm"} ==> r.value.latestValues.None?
    ensures kind == "latest" && b.latest(ds).Ok? ==> r.value.latestValues == Some(b.latest(ds).value)
    ensures kind == "timeseries" && b.timeseries(ds, tw).Ok? ==> r.value.data == b.timeseries(ds, tw).value
    ensures kind == "timeseries" && b.timeseries(ds, tw).Err? ==> r.value.data == []
    ensures kind == "alarm" && b.alarms(ds, tw).Ok? ==> r.value.data == b.alarms(ds, tw).value
    ensures kind == "alarm" && b.alarms(ds, tw).Err? ==> r.value.data == []
  {
    if kind == "latest" then
      match b.latest(ds)
      case Ok(v) => Some(DatasourceData(ds, [], Some(v)))
      case Err(_) => Some(DatasourceData(ds, [], None))
    else if kind == "timeseries" then
      Some(DatasourceData(ds, DataOrEmpty(b.timeseries(ds, tw)), None))
    else if kind == "alarm" then
      Some(DatasourceData(ds, DataOrEmpty(b.alarms(ds, tw)), None))
    else None
  }

  /** The per-datasource loop of `fetchWidgetData`. */
  function FetchAll(dss: seq<Datasource>, kind: string, tw: Option<Timewindow>, b: Backend): (r: seq<DatasourceData>)
    ensures kind in {"latest", "timeseries", "alarm"} ==> |r| == |dss|
    ensures kind !in {"latest", "timeseries", "alarm"} ==> r == []
    ensures kind in {"latest", "timeseries", "alarm"} ==>
              forall i :: 0 <= i < |dss| ==> Some(r[i]) == FetchOne(dss[i], kind, tw, b)
  {
    if |dss| == 0 then []
    else
      var rest := FetchAll(dss[1..], kind, tw, b);
      match FetchOne(dss[0], kind, tw, b)
      case Some(d) => [d] + rest
      case None => rest
  }

  /** `fetchWidgetData(options)`: one entry per datasource, in order, for a known kind. */
  function FetchWidgetData(options: SubscriptionOptions, b: Backend): (r: seq<DatasourceData>)
    ensures options.datasources.None? ==> r == []
    ensures options.datasources.Some? ==> |r| <= |options.datasources.value|
    ensures forall i :: 0 <= i < |r| ==> r[i].datasource == options.datasources.value[i]
    ensures FetchKind(options) == "latest" ==> forall i :: 0 <= i < |r| ==> r[i].data == []
    ensures FetchKind(options) != "latest" ==> forall i :: 0 <= i < |r| ==> r[i].latestValues.None?
    ensures FetchKind(options) !in {"latest", "timeseries", "alarm"} ==> r == []
    ensures options.datasources.Some? && FetchKind(options) in {"latest", "timeseries", "alarm"} ==>
              |r| == |options.datasources.value| &&
              forall i :: 0 <= i < |r| ==>
                Some(r[i]) == FetchOne(options.datasources.value[i], FetchKind(options), options.timewindow, b)
  {
    if options.datasources.None? || |options.datasources.value| == 0 then []
    else FetchAll(options.datasources.value, FetchKind(options), options.timewindow, b)
  }

  /** A failing datasource does not disturb the others: two backends that answer alike for
      datasource `j` give it the same entry. */
  lemma FetchIsPerDatasource(options: SubscriptionOptions, b1: Backend, b2: Backend, j: nat)
    requires options.datasources.Some? && j < |options.datasources.value|
    requires FetchKind(options) in {"latest", "timeseries", "alarm"}
    requires var ds := options.datasources.value[j];
             && b1.latest(ds) == b2.latest(ds)
             && b1.timeseries(ds, options.timewindow) == b2.timeseries(ds, options.timewindow)
             && b1.alarms(ds, options.timewindow) == b2.alarms(ds, options.timewindow)
    ensures |FetchWidgetData(options, b1)| == |FetchWidgetData(options, b2)| == |options.datasources.value|
    ensures FetchWidgetData(options, b1)[j] == FetchWidgetData(options, b2)[j]
  {
    var dss := options.datasources.value;
    var kind := FetchKind(options);
    assert Some(FetchWidgetData(options, b1)[j]) == FetchOne(dss[j], kind, options.timewindow, b1);
    assert Some(FetchWidgetData(options, b2)[j]) == FetchOne(dss[j], kind, options.timewindow, b2);
  }

  /** With the backend as implemented, every entry carries empty data. */
  lemma StubsGiveEmptyData(options: SubscriptionOptions)
    ensures forall i :: 0 <= i < |FetchWidgetData(options, StubBackend)| ==> FetchWidgetData(options, StubBackend)[i].data == []
  {
    var r := FetchWidgetData(options, StubBackend);
    if options.datasources.Some? && |options.datasources.value| > 0 {
      var kind := FetchKind(options);
      forall i | 0 <= i < |r| ensures r[i].data == [] {
        assert Some(r[i]) == FetchOne(options.datasources.value[i], kind, options.timewindow, StubBackend);
      }
    }
  }

  /** Whether starting a subscription awaits a fetch: only when it has datasources. Without any,
      `startSubscription` runs to its end before `createSubscription` returns. */
  predicate AwaitsFetch(options: SubscriptionOptions) {
    options.datasources.Some? && |options.datasources.value| > 0
  }

  /** `startSubscription` up to its first await: loading, error cleared; finished at once when
      there is nothing to fetch. */
  function Start(rec: SubRecord): (r: SubRecord)
    ensures r.loading == AwaitsFetch(rec.options) && r.error.None?
    ensures r.(loading := rec.loading, error := rec.error) == rec
  {
    rec.(loading := AwaitsFetch(rec.options), error := None)
  }

  /** `createSubscription(options)`: the next number, a fresh loading record, started. */
  function CreateSubscription(reg: Registry, options: SubscriptionOptions): (r: (Registry, string))
    ensures r.1 == SubId(reg.counter + 1) && r.0.counter == reg.counter + 1
    ensures r.1 in r.0.subs && r.0.subs[r.1].options == options && r.0.subs[r.1].data.None?
    ensures r.0.subs[r.1].loading == AwaitsFetch(options)
    ensures forall id :: id != r.1 ==> (id in r.0.subs <==> id in reg.subs)
    ensures forall id :: id != r.1 && id in reg.subs ==> r.0.subs[id] == reg.subs[id]
    ensures r.0.sockets == reg.sockets
  {
    var id := SubId(reg.counter + 1);
    var rec := Start(SubRecord(id, options, None, None, true, None));
    (reg.(subs := reg.subs[id := rec], counter := reg.counter + 1), id)
  }

  /** `removeSubscription(id)`: drops the record and its socket entry; unknown ids change nothing. */
  function RemoveSubscription(reg: Registry, id: string): (r: Registry)
    ensures id !in r.subs
    ensures id in reg.subs ==> id !in r.sockets
    ensures id !in reg.subs ==> r == reg
    ensures forall k :: k != id ==> (k in r.subs <==> k in reg.subs)
    ensures forall k :: k != id && k in reg.subs ==> r.subs[k] == reg.subs[k]
    ensures r.counter == reg.counter
  {
    if id in reg.subs then reg.(subs := map k | k in reg.subs && k != id :: reg.subs[k], sockets := reg.sockets - {id})
    else reg
  }

  /** The pending fetch of `id` finishing with `data`. The record was captured before the
      await, so after removal the write lands in a detached record and the registry is unchanged. */
  function CompleteFetch(reg: Registry, id: string, data: seq<DatasourceData>): (r: Registry)
    ensures id in reg.subs ==> id in r.subs && r.subs[id] == reg.subs[id].(data := Some(data), loading := false)
    ensures id !in reg.subs ==> r == reg
    ensures forall k :: k != id ==> (k in r.subs <==> k in reg.subs)
    ensures forall k :: k != id && k in reg.subs ==> r.subs[k] == reg.subs[k]
  {
    if id in reg.subs then reg.(subs := reg.subs[id := reg.subs[id].(data := Some(data), loading := false)])
    else reg
  }

  /** `updateTimewindow(id, timewindow)`: a known subscription takes the new time window and
      restarts under the same id, keeping the data it has; an unknown id does nothing. */
  function UpdateTimewindow(reg: Registry, id: string, tw: Timewindow): (r: Registry)
    ensures id in reg.subs ==> id in r.subs && r.subs[id].options == reg.subs[id].options.(timewindow := Some(tw))
    ensures id in reg.subs ==> r.subs[id].data == reg.subs[id].data && r.subs[id].id == reg.subs[id].id
    ensures id !in reg.subs ==> r == reg
    ensures r.subs.Keys == reg.subs.Keys && r.counter == reg.counter
  {
    if id in reg.subs then
      var rec := reg.subs[id];
      reg.(subs := reg.subs[id := Start(rec.(options := rec.options.(timewindow := Some(tw))))])
    else reg
  }

  /** `getSubscriptionData(id)`. */
  function GetSubscriptionData(reg: Registry, id: string): (r: Option<seq<DatasourceData>>)
    ensures id !in reg.subs ==> r.None?
    ensures id in reg.subs ==> r == reg.subs[id].data
  {
    if id in reg.subs then reg.subs[id].data else None
  }

  /** `getSubscriptionLatestData(id)`. */
  function GetSubscriptionLatestData(reg: Registry, id: string): (r: Option<seq<DatasourceData>>)
    ensures id !in reg.subs ==> r.None?
    ensures id in reg.subs ==> r == reg.subs[id].latestData
  {
    if id in reg.subs then reg.subs[id].latestData else None
  }

  /** `createSubscriptionFromInfo(info)` of the subscription API: a subscription whose options
      take the info's datasources, time window and type, and never the dashboard-time-window
      flag. */
  function CreateSubscriptionFromInfo(reg: Registry, info: SubscriptionInfo): (r: (Registry, string))
    ensures r.1 == SubId(reg.counter + 1) && r.1 in r.0.subs
    ensures var o := r.0.subs[r.1].options;
            o.datasources == info.datasources && o.timewindow == info.timewindow
            && o.subType == info.subType && o.useDashboardTimewindow.None?
    ensures forall id :: id != r.1 ==> (id in r.0.subs <==> id in reg.subs)
  {
    CreateSubscription(reg, SubscriptionOptions(info.subType, info.datasources, None, info.timewindow))
  }

  /** Creating from an info is creating from the options it carries: the same id and registry. */
  lemma FromInfoIsCreate(reg: Registry, info: SubscriptionInfo, options: SubscriptionOptions)
    requires options.datasources == info.datasources && options.timewindow == info.timewindow
    requires options.subType == info.subType && options.useDashboardTimewindow.None?
    ensures CreateSubscriptionFromInfo(reg, info) == CreateSubscription(reg, options)
  {
  }

  /** A fetch that finishes after its subscription was removed leaves the id unknown. */
  lemma RemovedStaysRemoved(reg: Registry, id: string, data: seq<DatasourceData>)
    ensures GetSubscriptionData(CompleteFetch(RemoveSubscription(reg, id), id, data), id).None?
  {
  }

  /** Everything that can happen to the registry. */
  datatype SubOp =
    | Create(options: SubscriptionOptions)
    | Remove(id: string)
    | Update(id: string, tw: Timewindow)
    | Complete(id: string, data: seq<DatasourceData>)

  function Apply(reg: Registry, op: SubOp): Registry {
    match op
    case Create(options) => CreateSubscription(reg, options).0
    case Remove(id) => RemoveSubscription(reg, id)
    case Update(id, tw) => UpdateTimewindow(reg, id, tw)
    case Complete(id, data) => CompleteFetch(reg, id, data)
  }

  function Run(reg: Registry, ops: seq<SubOp>): Registry
    decreases |ops|
  {
    if |ops| == 0 then reg else Run(Apply(reg, ops[0]), ops[1..])
  }

  /** What every reachable registry satisfies: each record sits under its own id, which is one
      already handed out; no record has latest data or an error; no socket is subscribed. */
  predicate Inv(reg: Registry) {
    && (forall id :: id in reg.subs ==> reg.subs[id].id == id)
    && (forall id :: id in reg.subs ==> exists n: nat :: 1 <= n <= reg.counter && id == SubId(n))
    && (forall id :: id in reg.subs ==> reg.subs[id].latestData.None? && reg.subs[id].error.None?)
    && reg.sockets == {}
  }

  /** The next id is not in use. */
  lemma FreshId(reg: Registry)
    requires Inv(reg)
    ensures SubId(reg.counter + 1) !in reg.subs
  {
    if SubId(reg.counter + 1) in reg.subs {
      var n: nat :| 1 <= n <= reg.counter && SubId(reg.counter + 1) == SubId(n);
      SubIdInjective(reg.counter + 1, n);
    }
  }

  lemma ApplyInv(reg: Registry, op: SubOp)
    requires Inv(reg)
    ensures Inv(Apply(reg, op))
    ensures Apply(reg, op).counter >= reg.counter
  {
    match op
    case Create(options) => CreateInv(reg, options);
    case Remove(id) => RemoveInv(reg, id);
    case Update(id, tw) => UpdateInv(reg, id, tw);
    case Complete(id, data) => CompleteInv(reg, id, data);
  }

  lemma CreateInv(reg: Registry, options: SubscriptionOptions)
    requires Inv(reg)
    ensures Inv(CreateSubscription(reg, options).0) && CreateSubscription(reg, options).0.counter == reg.counter + 1
  {
    var r := CreateSubscription(reg, options).0;
    var id := SubId(reg.counter + 1);
    forall k | k in r.subs ensures exists n: nat :: 1 <= n <= r.counter && k == SubId(n) {
      if k == id {
        assert 1 <= reg.counter + 1 <= r.counter && k == SubId(reg.counter + 1);
      } else {
        var n: nat :| 1 <= n <= reg.counter && k == SubId(n);
        assert 1 <= n <= r.counter;
      }
    }
  }

  lemma RemoveInv(reg: Registry, id: string)
    requires Inv(reg)
    ensures Inv(RemoveSubscription(reg, id)) && RemoveSubscription(reg, id).counter == reg.counter
  {
  }

  lemma UpdateInv(reg: Registry, id: string, tw: Timewindow)
    requires Inv(reg)
    ensures Inv(UpdateTimewindow(reg, id, tw)) && UpdateTimewindow(reg, id, tw).counter == reg.counter
  {
  }

  lemma CompleteInv(reg: Registry, id: string, data: seq<DatasourceData>)
    requires Inv(reg)
    ensures Inv(CompleteFetch(reg, id, data)) && CompleteFetch(reg, id, data).counter == reg.counter
  {
  }

  lemma {:induction false} RunInv(reg: Registry, ops: seq<SubOp>)
    requires Inv(reg)
    ensures Inv(Run(reg, ops))
    ensures Run(reg, ops).counter >= reg.counter
    decreases |ops|
  {
    if |ops| > 0 {
      ApplyInv(reg, ops[0]);
      RunInv(Apply(reg, ops[0]), ops[1..]);
    }
  }

  /** No code path writes latest data: from a fresh service, whatever happens,
      `getSubscriptionLatestData` answers undefined for every id. */
  lemma LatestDataNeverWritten(ops: seq<SubOp>, id: string)
    ensures GetSubscriptionLatestData(Run(EmptyRegistry, ops), id).None?
  {
    RunInv(EmptyRegistry, ops);
  }

  /** Ids are never reused: an id handed out earlier, even if since removed, differs from the
      one the next creation hands out. */
  lemma {:induction false} IdsNeverReused(reg: Registry, options: SubscriptionOptions, ops: seq<SubOp>, options': SubscriptionOptions)
    requires Inv(reg)
    ensures var (r1, id1) := CreateSubscription(reg, options);
            CreateSubscription(Run(r1, ops), options').1 != id1
  {
    var (r1, id1) := CreateSubscription(reg, options);
    ApplyInv(reg, Create(options));
    RunInv(r1, ops);
    var c := Run(r1, ops).counter;
    SubIdInjective(c + 1, reg.counter + 1);
  }
}

=== FILE: widget_type_cache.dfy ===
/** The module-level widget-type cache in front of the widget-type query: a hit is answered
    without asking the server, a successful fetch is stored under the name it was asked for,
    and saved or imported types are stored under their own name. Resolution of a name (the
    server and the mock fallback) is a parameter. */
module WidgetTypeCache {
  import opened Wrappers
  import opened WidgetTypes

  type Cache = map<string, WidgetType>

  /** One run of the query function: the cache afterwards, the answer, and how many times the
      resolver was asked. */
  datatype QueryRun = QueryRun(cache: Cache, result: Result<WidgetType>, apiCalls: nat)

  /** The query function of `useWidgetType(fullFqn)`. */
  function FetchWidgetType(cache: Cache, fqn: string, resolve: string -> Result<WidgetType>): (run: QueryRun)
    ensures fqn in cache ==> run == QueryRun(cache, Ok(cache[fqn]), 0)
    ensures fqn !in cache ==> run.apiCalls == 1 && run.result == resolve(fqn)
    ensures fqn !in cache && resolve(fqn).Ok? ==> run.cache == cache[fqn := resolve(fqn).value]
    ensures fqn !in cache && resolve(fqn).Err? ==> run.cache == cache
  {
    if fqn in cache then QueryRun(cache, Ok(cache[fqn]), 0)
    else match resolve(fqn)
      case Ok(wt) => QueryRun(cache[fqn := wt], Ok(wt), 1)
      case Err(e) => QueryRun(cache, Err(e), 1)
  }

  /** `useWidgetType(fullFqn)`: the query runs only for a non-empty name. */
  function UseWidgetType(cache: Cache, fqn: string, resolve: string -> Result<WidgetType>): (run: Option<QueryRun>)
    ensures run.Some? <==> fqn != ""
    ensures run.Some? ==> run.value == FetchWidgetType(cache, fqn, resolve)
  {
    if fqn == "" then None else Some(FetchWidgetType(cache, fqn, resolve))
  }

  /** After a successful fetch the name is answered from the cache: the same type, no second
      call, whatever the resolver would now say. */
  lemma FetchThenHit(cache: Cache, fqn: string, resolve: string -> Result<WidgetType>, resolve': string -> Result<WidgetType>)
    requires FetchWidgetType(cache, fqn, resolve).result.Ok?
    ensures var run := FetchWidgetType(cache, fqn, resolve);
            FetchWidgetType(run.cache, fqn, resolve') == QueryRun(run.cache, run.result, 0)
  {
  }

  /** A failed fetch leaves nothing behind, so the next query asks again. */
  lemma FailureNotCached(cache: Cache, fqn: string, resolve: string -> Result<WidgetType>)
    requires FetchWidgetType(cache, fqn, resolve).result.Err?
    ensures FetchWidgetType(FetchWidgetType(cache, fqn, resolve).cache, fqn, resolve).apiCalls == 1
  {
  }

  /** The entry goes under the requested name even when the resolved type names itself
      differently, so a later query for its own name still misses. */
  lemma StoredUnderRequestedName(cache: Cache, fqn: string, resolve: string -> Result<WidgetType>)
    requires fqn !in cache && resolve(fqn).Ok? && resolve(fqn).value.fqn != fqn
    requires resolve(fqn).value.fqn !in cache
    ensures var run := FetchWidgetType(cache, fqn, resolve);
            fqn in run.cache && resolve(fqn).value.fqn !in run.cache
  {
  }

  /** The success handler shared by the save and import mutations: the returned type is stored
      under its own name, replacing any previous entry; a failed mutation stores nothing. */
  function OnMutationSuccess(cache: Cache, returned: Result<WidgetType>): (r: Cache)
    ensures returned.Ok? ==> returned.value.fqn in r && r[returned.value.fqn] == returned.value
    ensures returned.Ok? ==> forall k :: k in cache && k != returned.value.fqn ==> k in r && r[k] == cache[k]
    ensures returned.Ok? ==> r.Keys == cache.Keys + {returned.value.fqn}
    ensures returned.Err? ==> r == cache
  {
    if returned.Ok? then cache[returned.value.fqn := returned.value] else cache
  }

  /** A saved type is what the next query for its name answers, without asking the server. */
  lemma SaveThenQuery(cache: Cache, saved: WidgetType, resolve: string -> Result<WidgetType>)
    ensures FetchWidgetType(OnMutationSuccess(cache, Ok(saved)), saved.fqn, resolve)
              == QueryRun(OnMutationSuccess(cache, Ok(saved)), Ok(saved), 0)
  {
  }

  /** `clearWidgetTypeCache()`. */
  function ClearWidgetTypeCache(cache: Cache): (r: Cache)
    ensures forall k :: k !in r
  {
    map[]
  }

  /** `getCachedWidgetType(fullFqn)`: a pure lookup. */
  function GetCachedWidgetType(cache: Cache, fqn: string): (r: Option<WidgetType>)
    ensures r.Some? <==> fqn in cache
    ensures r.Some? ==> r.value == cache[fqn]
  {
    if fqn in cache then Some(cache[fqn]) else None
  }

  /** After clearing, every name is fetched again. */
  lemma ClearThenMiss(cache: Cache, fqn: string, resolve: string -> Result<WidgetType>)
    ensures FetchWidgetType(ClearWidgetTypeCache(cache), fqn, resolve).apiCalls == 1
    ensures GetCachedWidgetType(ClearWidgetTypeCache(cache), fqn) == None
  {
  }

  /** A query answers what `getCachedWidgetType` then reports. */
  lemma FetchAgreesWithLookup(cache: Cache, fqn: string, resolve: string -> Result<WidgetType>)
    requires FetchWidgetType(cache, fqn, resolve).result.Ok?
    ensures GetCachedWidgetType(FetchWidgetType(cache, fqn, resolve).cache, fqn)
              == Some(FetchWidgetType(cache, fqn, resolve).result.value)
  {
  }
}

=== FILE: widget_types.dfy ===
/** The shape of widget types, their descriptors and settings forms, and the data records a
    widget instance receives. Optional members are `Option`s; a falsy-valued member and an
    absent one are told apart only where the code does. */
module WidgetTypes {
  import opened Wrappers
  import opened Dict
  import opened JsValues
  import opened DashboardTypes

  datatype Resource = Resource(url: string, isModule: Option<bool>)

  /** A controller script: plain source text, or an object with a body and module aliases. */
  datatype ControllerScript =
    | ScriptText(text: string)
    | ScriptObject(body: Option<string>, modules: Dict<string>)

  /** One field of a settings form. An absent `default` is `Undefined`; `required` and
      `multiple` are their truthiness. */
  datatype FormProperty = FormProperty(
    id: string,
    name: string,
    propType: string,
    default: JsValue,
    required: bool,
    group: Option<string>,
    divider: bool,
    min: Option<int>,
    max: Option<int>,
    multiple: bool,
    minItems: Option<int>,
    maxItems: Option<int>,
    properties: Nested,
    arrayItemType: Option<string>,
    condition: Option<string>)

  /** A property's nested `properties` list, when it has one (an empty list still counts).
      A dedicated type rather than an `Option` so that recursion into the children is seen
      to terminate. */
  datatype Nested = NoNested | Nested(list: seq<FormProperty>)

  datatype Descriptor = Descriptor(
    descType: string,
    resources: Option<seq<Resource>>,
    templateHtml: Option<string>,
    templateCss: Option<string>,
    controllerScript: Option<ControllerScript>,
    defaultConfig: Option<string>,
    sizeX: Option<int>,
    sizeY: Option<int>,
    settingsForm: Option<seq<FormProperty>>)

  datatype WidgetType = WidgetType(fqn: string, name: string, descriptor: Option<Descriptor>)

  /** One datasource's data as a widget sees it. */
  datatype DatasourceData = DatasourceData(datasource: Datasource, data: seq<JsValue>,
                                           latestValues: Option<Dict<JsValue>>)

  datatype SubscriptionOptions = SubscriptionOptions(
    subType: Option<string>,
    datasources: Option<seq<Datasource>>,
    useDashboardTimewindow: Option<bool>,
    timewindow: Option<Timewindow>)

  datatype SubscriptionInfo = SubscriptionInfo(datasources: Option<seq<Datasource>>, timewindow: Option<Timewindow>,
                                               subType: Option<string>)
}

=== FILE: widget_view.dfy ===
/** The widget component: the namespace class of an instance, the subscription gate, the
    namespaced stylesheet mounted and removed with the component, and what is shown (a
    spinner, an error alert, or the interpolated template in the namespaced box). The HTML
    parser is left out: the content is the interpolated template text. */
module WidgetView {
  import opened Wrappers
  import opened Dict
  import opened JsValues
  import opened DashboardTypes
  import opened CssNamespace
  import opened Template
  import opened WidgetCompiler
  import opened WidgetInstance
  import opened WidgetSubscription
  import opened SubscriptionHook

  /** The namespace class of a widget instance, from its type and its id. */
  function WidgetNamespace(w: Widget): (ns: string)
    ensures ns != ""
    ensures ns == CreateWidgetNamespace(w.typeFullFqn, w.id)
  {
    CreateWidgetNamespace(w.typeFullFqn, w.id)
  }

  /** The subscription runs only outside edit mode (an absent flag means not editing). */
  function SubscriptionEnabled(isEdit: Option<bool>): (enabled: bool)
    ensures enabled <==> isEdit != Some(true)
  {
    !(isEdit == Some(true))
  }

  /** In edit mode no subscription is created, whatever the widget's datasources. */
  lemma EditModeNeverSubscribes(h: HookState, reg: Registry, w: Widget)
    ensures Mount(h, reg, w, SubscriptionEnabled(Some(true))) == (h, reg)
  {
  }

  /** The stylesheet effect: inject when there is CSS and a namespace, and remember which
      namespace the cleanup removes. */
  function CssMount(head: Head, templateCss: string, ns: string): (r: (Head, Option<string>))
    ensures templateCss == "" || ns == "" ==> r == (head, None)
    ensures templateCss != "" && ns != "" ==> r == (InjectNamespacedCss(head, templateCss, ns), Some(ns))
  {
    if templateCss != "" && ns != "" then (InjectNamespacedCss(head, templateCss, ns), Some(ns)) else (head, None)
  }

  /** The stylesheet effect's cleanup. */
  function CssUnmount(head: Head, registered: Option<string>): (r: Head)
    ensures registered.None? ==> r == head
    ensures registered.Some? ==> r == RemoveNamespacedCss(head, registered.value)
  {
    if registered.Some? then RemoveNamespacedCss(head, registered.value) else head
  }

  /** While mounted, the instance has exactly one style element, holding its namespaced CSS;
      after unmounting it has none, and no other element was touched either way. */
  lemma CssMountUnmount(head: Head, templateCss: string, ns: string)
    requires UniqueIds(head) && templateCss != "" && ns != ""
    ensures var (mounted, reg) := CssMount(head, templateCss, ns);
            && WithId(mounted, StyleId(ns)) == [StyleElement(StyleId(ns), ns, NamespaceCss(templateCss, ns))]
            && WithId(CssUnmount(mounted, reg), StyleId(ns)) == []
            && forall id :: id != StyleId(ns) ==> WithId(CssUnmount(mounted, reg), id) == WithId(head, id)
  {
    InjectRemoveKeepUnique(head, templateCss, ns);
  }

  /** Without CSS, mounting and unmounting leave the document head as it was. */
  lemma NoCssNoChange(head: Head, ns: string)
    ensures var (mounted, reg) := CssMount(head, "", ns);
            mounted == head && CssUnmount(mounted, reg) == head
  {
  }

  /** What the widget shows. */
  datatype View = Spinner | ErrorAlert(text: string) | Content(className: string, body: Option<string>)

  /** The memoised template: nothing until there is a template and a controller. */
  function ParsedTemplate(templateHtml: string, controller: Option<Controller>): (body: Option<string>)
    ensures body.Some? <==> templateHtml != "" && controller.Some?
    ensures body.Some? ==> body.value == InterpolateTemplate(templateHtml, controller)
  {
    if templateHtml == "" || controller.None? then None else Some(InterpolateTemplate(templateHtml, controller))
  }

  /** The widget content: the spinner while loading, else the error, else the template in the
      namespaced box. */
  function RenderContent(r: Reported, ns: string): (v: View)
    ensures v == Spinner <==> r.isLoading
    ensures v.ErrorAlert? <==> !r.isLoading && r.error.Some?
    ensures v.ErrorAlert? ==> v.text == "Failed to load widget: " + r.error.value
    ensures v.Content? ==> v.className == ns && v.body == ParsedTemplate(r.templateHtml, r.controller)
  {
    if r.isLoading then Spinner
    else if r.error.Some? then ErrorAlert("Failed to load widget: " + r.error.value)
    else Content(ns, ParsedTemplate(r.templateHtml, r.controller))
  }

  /** Template output appears only with a controller, and only when nothing is loading or wrong. */
  lemma NoOutputWithoutController(r: Reported, ns: string)
    requires RenderContent(r, ns).Content? && RenderContent(r, ns).body.Some?
    ensures r.controller.Some? && !r.isLoading && r.error.None?
  {
  }

  /** A widget whose type cannot be fetched shows the spinner, and never its error. */
  lemma TypeFailureShowsSpinner(w: Widget, ctx: Controller, loader: ResourceLoader.LoaderState, rt: Runtime, e: string)
    ensures var run := Load(InitialInstance, None, ctx, loader, rt);
            RenderContent(Report(run.state, TypeQuery(None, false, Some(e))), WidgetNamespace(w)) == Spinner
  {
    FailedTypeStaysLoading(ctx, loader, rt, e);
  }
}

=== FILE: wrappers.dfy ===
/** Failure-carrying wrappers shared by every module of the model. */
module Wrappers {

  /** An optional value: JavaScript `undefined`/`null` versus a present value. */
  datatype Option<+T> = None | Some(value: T) {

    /** The present value, or `default` when absent. */
    function GetOr(default: T): T {
      match this
      case Some(v) => v
      case None => default
    }
  }

  /** The outcome of an operation that can throw: a value, or the thrown error's message. */
  datatype Result<+T> = Ok(value: T) | Err(message: string) {

    predicate IsFailure() {
      Err?
    }

    function PropagateFailure<U>(): Result<U>
      requires Err?
    {
      Err(message)
    }

    function Extract(): T
      requires Ok?
    {
      value
    }
  }
}
